=== FILE: README.md ===
# Here You Go — a Dafny model of the framework core

This project models the core of *Here You Go*, a small PHP 7 web framework.
Entities declare their columns in doc comments. The framework parses those
into property descriptors, derives a MySQL schema from them, and serves the
entities over a REST layer. That layer parses requests, routes them, fires
events and renders JSON, CSV or file downloads. The model is written in
Dafny 4.11 as pure functions over immutable data.

- **PHP values.** They are a datatype (`Php.Value`). PHP arrays are ordered
  association lists (`Assoc`): assigning to a new key appends and assigning
  to an old key replaces the value in place. Loose comparison, truthiness,
  key normalisation and string casts are written out as PHP 7 defines them.
- **Exceptions.** Every exception the source throws becomes an `Err` of
  `Errors.Result`, carrying the exception class and the message.
- **Object graphs.** Graphs the source links by reference (query joins,
  field-set parents) are kept in arenas or as value snapshots.
- **Outside the model.** The database, the clock, the file system, the
  superglobals, reflection over doc comments, and calls into classes that are
  not part of this model are all inputs or function parameters.

The modules, one per file:

- `Php`, `Assoc`, `Strs`, `Errors` (php.dfy, assoc.dfy, strs.dfy, errors.dfy): PHP engine rules, ordered arrays, string built-ins, exceptions.
- `Autoloader` (autoload.dfy): the class loader the framework registers, and `class_exists` with it registered.
- `Enums` (enums.dfy): `Enum::isValue` over `Type`, `IntSize` and `Relation`.
- `Properties` (property.dfy): `Model\Property`: definition parsing, relation keys, casts.
- `Schema` (schema.dfy): `Model`: relations, table, own properties, data map.
- `Indexes`, `Mysql` (indexes.dfy, mysql.dfy): `Model\Backend\Mysql`: column types, definitions, CREATE/ALTER statements.
- `Updater` (updater.dfy): `Model\Updater`: backend choice and the tables to check.
- `Queries` (query.dfy): `Model\Query`: the join tree and its placeholders.
- `EntityCache` (entity_cache.dfy): `Model\Cache`.
- `Dbi` (dbi.dfy): `DBI::getDsn`.
- `Config` (config.dfy): `Config` loading, overrides and deferred values.
- `Event` (event.dfy): `Event` registration and dispatch.
- `Sanitizer` (sanitizer.dfy): `Sanitizer::sanitizeInput`.
- `Constraints`, `FieldSets` (constraints.dfy, fieldset.dfy): `Form\ConstraintCollection`, `Form\FieldSet`.
- `HttpRequest`, `RestRequest` (http_request.dfy, rest_request.dfy): `HTTP\Request::parse`, `REST\Request::parse`.
- `Router` (router.dfy): `Router`.
- `Response`, `Structured`, `Csv`, `CsvField`, `Download` (rest_response.dfy, structured.dfy, csv.dfy, csv_field.dfy, download.dfy): `REST\Response` and its renderers.
- `Locale`, `Translations`, `Ui` (locale.dfy, translation.dfy, ui.dfy): `UI\Locale`, `UI\Translation`, `UI` URLs.

Where the code and its documentation disagree, the model follows the code.
These behaviours are kept as written, each stated by the members cited:

- The string-size check of `Property` is inverted, so a parsed string size
  is never refused (Properties.CheckedSize).
- `unique` registers its index names as not unique, like `index`
  (Properties.CheckedIndexes).
- The decimal-size pattern demands at least one decimal place, although its
  message allows 0 to 30 (Properties.ParseDecimalSize).
- `HTTP\Request::parse` never sets its `parsed` guard, so every call parses
  again (HttpRequest.Parse).
- `frame_callback` asks for the callback type 'frame', which `setCallback`
  refuses (RestRequest.FrameStep, Response.FrameCallbackRefused).
- Path normalisation is not idempotent: "a///b" becomes "/a//b"
  (HttpRequest.TripleSlashHalved).
- The query key 0 is loosely equal to "count", so it is treated as paging
  and fails (RestRequest.LabelOfKey, RestRequest.ZeroKeyRaises).
- With the class loader registered, `class_exists` on a missing framework
  class throws ClassNotFound instead of answering false, so the guards
  written after it never raise their own errors
  (Autoloader.ClassExists, Updater.SelectBackend, Schema.MissingRelatedClass).

The bugs the proofs exposed are listed under "## Findings". For each one,
the model keeps the code as written and also gives a corrected definition.

The members that build on a corrected definition use the corrected one.
Their rows in "## Model" begin with "corrected:", and "## Left out" has a
line for each that names the as-written definition it replaces.

## Model

| member | source | states |
|---|---|---|
| Enums.TypeOfName | classes/Model/Constant/Type.php:16-28 | a name reads back as the type constant that has it as its value, and as none when no constant has it |
| Enums.TypeNameRoundTrip | classes/Model/Constant/Type.php:16-28 | every type's value reads back as that type |
| Enums.IsTypeValueIffName | classes/Enum.php:48-50 | `Type::isValue` holds for a string exactly when the string is the value of a type constant |
| Enums.IsIntSizeOfString | classes/Enum.php:48-50 | under loose comparison, `IntSize::isValue` holds for a string exactly when the number it denotes (leading space, sign, digits, decimal point and exponent, as PHP 7 converts a string compared with an int) is an integer among 1, 2, 3, 4 and 8 |
| Enums.FractionalSizeRefused | classes/Enum.php:48-50 | a width written with a fraction whose last digit is not 0, such as "4.5", fails the int-size test |
| Php.StringInInts | classes/Enum.php:48-50 | a string is loosely in a list of ints exactly when the number it denotes is an integer in the list |
| Php.IntNotationAsInt | classes/Enum.php:48-50 | a string with no '.', 'e' or 'E' compares with an int as its leading integer |
| Php.FractionNotInt | classes/Enum.php:48-50 | a string `digits.digits` whose last digit is not 0 denotes no integer, so no int is loosely equal to it |
| Php.ExponentScales | classes/Enum.php:48-50 | a string `digits e digits` denotes the mantissa times 10 to the exponent, and an int is loosely equal to it exactly when it is that value |
| Enums.FlagIsIntSize | classes/Enum.php:48-50 | `true` is loosely equal to a width constant, so a bare `size` flag passes the int-size test |
| Enums.IsValueShared | classes/Enum.php:22-37 | as written: one static cache for all enumerations; the first class to ask fills it, and later answers come from it |
| Enums.SharedCacheConfusesClasses | classes/Enum.php:22-50 | as written: once `Type` has asked, `IntSize::isValue("4")` and `Relation::isValue("one")` are false, although both values are constants |
| Enums.IsValuePerClass | classes/Enum.php:31-50 | with a cache per class, the answer is membership in that class's constants, and the cache stays faithful |
| Enums.PerClassAnswersAgree | classes/Enum.php:31-50 | after any sequence of questions to any classes, the per-class cache still answers with true membership |
| Properties.SplitWs | classes/Model/Property.php:101 | splitting a definition at whitespace runs gives at least one piece, no piece holds whitespace, and a definition without whitespace is a single piece |
| Properties.ParsePart | classes/Model/Property.php:105-111 | a part that names a type becomes the `type` attribute; any other part is keyed by its text before '=', and it is a flag exactly when it has no '=' |
| Properties.ParseAttrs | classes/Model/Property.php:104-111 | the attribute map has distinct keys and holds the key of every part |
| Properties.FirstType | classes/Model/Property.php:113-118 | the type taken from the PHP type hint is one of its alternatives that names a type; it is none only when no alternative does |
| Properties.DeclaredType | classes/Model/Property.php:113-129 | an explicit type must name a type; without one, the type is the first type named in the hint, and having none is an error |
| Properties.ParseDecimalSize | classes/Model/Property.php:140-146 | an accepted decimal size has a precision and a number of places that are both at least 1 |
| Properties.CheckedSize | classes/Model/Property.php:134-157 | corrected: int, decimal and string need a size; an int size must pass the per-class `IntSize::isValue`; a decimal size has precision 1..65 and places up to 30; the inverted string check never rejects |
| Properties.IntSizeOkIsValue | classes/Model/Property.php:137-138 | corrected: the per-class int-size test accepts exactly a bare flag or a text whose numeric value is an integral width |
| Properties.CheckedFlags | classes/Model/Property.php:164-188 | `unsigned` only on int or decimal; nullable exactly when the default is null; `auto_increment` only on a primary int; the flags taken are the attributes' truth values |
| Properties.CheckedColumn | classes/Model/Property.php:190-196 | the column is `column=` when given, else the property name, and it is accepted exactly when it is an identifier |
| Properties.AddIndex | classes/Model/Property.php:247-255 | a flag names one index after the column, a text is a comma list of trimmed names; it succeeds exactly when every name is an identifier; each name is then registered as not unique and no other entry changes |
| Properties.AddNames | classes/Model/Property.php:249-254 | every name is registered as not unique, the call succeeds exactly when all names are identifiers, and the other entries stay as they were |
| Properties.CheckedIndexes | classes/Model/Property.php:198-202 | the names from `index` and from `unique` are all registered, all as not unique, and nothing else is |
| Properties.ResolveConverter | classes/Model/Property.php:204-220 | a standard converter class resolves exactly when it has both encode and decode; otherwise the entity's `get<Name>Converter` factory must exist and return a converter, which is then the one used |
| Properties.CheckedConverter | classes/Model/Property.php:204-236 | without `convert` there is no converter; with it, success yields one |
| Properties.Build | classes/Model/Property.php:113-236 | corrected: a descriptor that is built satisfies every constructor invariant (`Valid`); it keeps the class, name and default and the declared type; its flags, column and indexes are read from the attributes, no index is unique, and every named index is present |
| Properties.Parse | classes/Model/Property.php:94-236 | corrected: `new Property` either fails or gives a valid descriptor of that class, name and default, with no related class and nullable exactly when the default is null |
| Properties.RelationProperty | classes/Model/Property.php:266-289 | corrected: the relation-key copy has a prefixed name and column, is nullable, has a null default, is neither primary nor auto-increment, has no index, points at the other class and keeps the type, size and converter |
| Properties.RelationPropertyValid | classes/Model/Property.php:278-289 | the corrected relation-key copy of a valid descriptor is valid whenever its prefixed column is an identifier |
| Properties.MakeRelationPropertyAsWritten | classes/Model/Property.php:278-289 | as written: the copy is nullable with default `false` |
| Properties.RelationPropertyAsWrittenInvalid | classes/Model/Property.php:171-179 | the as-written copy always breaks the constructor's rule that a nullable property has a null default |
| Properties.CastToEntity | classes/Model/Property.php:301-313 | after the converter's decode, null passes exactly for nullable properties, and a bool is true exactly for the string "1" |
| Properties.CastToDatabase | classes/Model/Property.php:351-364 | a converter's encode is used as it is; otherwise null passes exactly for nullable properties and is stored as NULL, and a bool is stored as "1" or "0" by truthiness |
| Properties.BoolRoundTrip | classes/Model/Property.php:313-364 | a bool with no converter, stored and read back, becomes the truth value of what was stored |
| Properties.NullRoundTrip | classes/Model/Property.php:305-361 | null with no converter round-trips on nullable properties, and both casts reject it on the others |
| Schema.ParseHas | classes/Model.php:62-63 | an accepted `@has` value is `one` or `many`, then whitespace, then a non-empty class name |
| Schema.HasRoundTrip | classes/Model.php:62-68 | `one X` and `many X` read back as that relation to X |
| Schema.TableOf | classes/Model.php:53-71 | the table is the class name plus "s" when no `@table` tag is given, and the last `@table` tag's value otherwise |
| Schema.ReadRelations | classes/Model.php:58-68 | the relations are read exactly when every `@has` tag is well formed and names a known class; each then maps to a known class; otherwise the error is the one the first bad tag raises: Broken for a malformed tag, ClassNotFound from the loader for a missing framework class, Broken for a missing foreign class |
| Schema.HasError | classes/Model.php:60-66 | a ClassNotFound from a bad `@has` tag names a framework class that is not among the known classes |
| Schema.MissingRelatedClass | classes/Model.php:65 | a well-formed `@has` naming a framework class that does not exist ends in ClassNotFound for that class, not the Broken error the guard was written to raise |
| Schema.ParseAll | classes/Model.php:75-83 | corrected: every declared field is parsed into a valid descriptor of the same name and default, one per field |
| Schema.FileBy | classes/Model.php:83 | filing descriptors by a key gives distinct keys, one for each descriptor's key, and each key holds a descriptor from the list that has that key |
| Schema.ReadFields | classes/Model.php:75-83 | the own properties have distinct names, each filed under its own name, and exactly the declared field names are present |
| Schema.ReadFieldsValid | classes/Model.php:75-83 | every own property that was read is a valid descriptor |
| Schema.NewModel | classes/Model.php:48-89 | corrected: a model exists only for an entity class; it has the class, the table from its tags, only well-formed relations, and one valid own property per declared field |
| Schema.RelationWith | classes/Model.php:193-226 | no relation either way gives none; a relation declared on one side only is an error, and so is one-to-one; otherwise the relation is one-to-many, many-to-one or many-to-many |
| Schema.RelationWithDual | classes/Model.php:193-226 | seen from the other class, one-to-many becomes many-to-one, many-to-many and none stay as they are, and an error stays an error |
| Schema.RelationTable | classes/Model.php:236-242 | the junction table joins the two table names, the one that sorts first leading |
| Schema.RelationTableSymmetric | classes/Model.php:236-242 | both classes name the same junction table |
| Schema.FreshCoherent | classes/Model.php:36-37 | a model with nothing merged yet satisfies the data-map invariant |
| Schema.AddOne | classes/Model.php:119-124 | adding a property succeeds exactly when its name is not yet taken; the part then holds it and nothing earlier is lost |
| Schema.AddKeys | classes/Model.php:117-127 | the relation keys of the other class's primaries are all added, and nothing earlier is lost |
| Schema.RelationPhase | classes/Model.php:104-128 | the relation phase, given the values the relation test compares against, only adds, and adds nothing when every relation is `many` |
| Schema.ExtensionPhase | classes/Model.php:131-151 | the `datamap` event's answer must be an array of properties; it only adds, and an empty answer adds nothing |
| Schema.AddExtensions | classes/Model.php:142-150 | every property the event returned is added under its name, and nothing earlier is lost |
| Schema.CountAutoIncrement | classes/Model.php:154-172 | the count is zero exactly when no property is auto-increment |
| Schema.Check | classes/Model.php:154-175 | the global check passes exactly when every index name has one uniqueness across all properties and at most one property is auto-increment |
| Schema.AgreeOnIndex | classes/Model.php:158-162 | after the check, two properties that declare the same index agree on its uniqueness |
| Schema.Merge | classes/Model.php:177-181 | the data map holds the own properties, then the extension properties, then (with relations) the relation keys, each under its name and with distinct keys |
| Schema.MergeAsWritten | classes/Model.php:177-181 | as written: `array_merge` with a part that was never filled gives null; otherwise the merge is the corrected one |
| Schema.DataMapState | classes/Model.php:100-175 | corrected: with the relation test answered from `Relation`'s own values, computing the data map keeps the model and the parts already filled; any state it fills passes the global check; an event answer that is not an array is an error |
| Schema.DataMap | classes/Model.php:100-182 | corrected: the data map is the merge of the filled state and keeps every own property as it is |
| Schema.DataMapAsWritten | classes/Model.php:100-182 | as written: the relation test reads the shared enumeration cache; with the cache empty or holding `Relation`'s values it succeeds exactly when the corrected data map does and returns that map, and without relations to compute the cache does not matter |
| Schema.DataMapAsWrittenRelationsBroken | classes/Model.php:104-108 | as written: once `Type` has filled the shared cache, computing the relations of a model that has any throws Broken, since no relation name is a type name |
| Schema.DataMapStateWith | classes/Model.php:100-175 | the data-map state for a given list of relation values: it keeps the model and the parts already filled, any state it fills passes the global check, and an event answer that is not an array is an error |
| Schema.DataMapAsWrittenIsNull | classes/Model.php:100-182 | as written: with no relations asked for and an empty event answer, the data map of a fresh model is null, where the corrected one is the own properties |
| Schema.DataMapSettles | classes/Model.php:103-131 | once both parts are filled, asking again changes nothing and no longer depends on the event |
| Schema.PrimaryKeys | classes/Model.php:260-262 | `primary_keys` are exactly the data-map entries that are primary |
| Schema.Columns | classes/Model.php:264-270 | `columns` files the data map by column: distinct columns, exactly the columns of the map, each under its own column |
| Indexes.UniqueNeedsColumns | classes/Model/Backend/Mysql.php:110-114 | an index counted as unique has at least one column |
| Indexes.Extend | classes/Model/Backend/Mysql.php:111-113 | adding a column to an index group appends it at the end |
| Indexes.AddEntries | classes/Model/Backend/Mysql.php:110-114 | each selected index entry of a property extends its group by the property's column; other groups are untouched |
| Indexes.CollectSpec | classes/Model/Backend/Mysql.php:104-115 | each index name collects the columns of the properties that declare it, in data-map order, with their uniqueness OR-ed; a name nobody declares has no group |
| Indexes.SelectedUniqueness | classes/Model/Backend/Mysql.php:185-186 | a group collected for one uniqueness only is unique only when that uniqueness is |
| Mysql.ColumnType | classes/Model/Backend/Mysql.php:235-250 | the column type ends in " UNSIGNED" exactly for bool and for unsigned int or decimal |
| Mysql.ColumnTypeReadsBack | classes/Model/Backend/Mysql.php:235-250 | the property type can be read back from its column type |
| Mysql.ColumnTypeNamesType | classes/Model/Backend/Mysql.php:235-250 | two properties with the same column type have the same property type |
| Mysql.CanonicalWidthHasType | classes/Model/Backend/Mysql.php:25-31 | every width constant names an integer column type |
| Mysql.PaddedWidthHasNoType | classes/Model/Backend/Mysql.php:238 | corrected: the size "04" passes the per-class int-size test but names no integer type, so its column type starts with nothing |
| Mysql.SameShapeSameType | classes/Model/Backend/Mysql.php:235-250 | the column type depends only on type, size and `unsigned` |
| Mysql.ColumnTypeAsWritten | classes/Model/Backend/Mysql.php:235-239 | as written: `unsigned` is not in the whitelist of `Property::__get`, so reading it throws for every int and decimal; the other types get the corrected column type |
| Mysql.DefinitionParts | classes/Model/Backend/Mysql.php:208-226 | corrected: a column definition is the column type, then NULL or NOT NULL, then the default clause |
| Mysql.ColumnDefinition | classes/Model/Backend/Mysql.php:208-226 | corrected: the definition starts with the column type, then " NULL" exactly when the property is nullable (" NOT NULL" otherwise), and a null default adds nothing after that |
| Mysql.ColumnDefinitionAsWritten | classes/Model/Backend/Mysql.php:208-210 | as written: the definition throws exactly for int and decimal properties, whose `unsigned` is unreadable; otherwise it is the corrected definition |
| Mysql.DefinitionDefaults | classes/Model/Backend/Mysql.php:211-223 | a null default adds nothing; a bool default is 1 or 0; dates, times and texts are quoted; integers are written out |
| Mysql.RelationKeyDefinition | classes/Model/Backend/Mysql.php:208-226 | as written, an int or decimal relation key throws before any clause (`unsigned` is unreadable), and a float or double key is rendered with "DEFAULT " and no value after it; the corrected key is rendered with NULL alone |
| Mysql.CheckColumn | classes/Model/Backend/Mysql.php:54-97 | corrected: a missing column is added; a found one is modified exactly when its type, nullability or default (compared as the database's text) differs from the descriptor |
| Mysql.CheckColumnSettles | classes/Model/Backend/Mysql.php:54-97 | corrected: a column the database describes as the descriptor says needs no statement |
| Mysql.CheckColumnAsWritten | classes/Model/Backend/Mysql.php:74-76 | as written: the column type is computed first, so an int or decimal column throws; otherwise a found column is modified exactly when its type, nullability or default differs, the defaults compared strictly (the database's string against the descriptor's PHP value) |
| Mysql.CheckColumnAsWrittenNeverSettles | classes/Model/Backend/Mysql.php:74-76 | as written: a column whose default is neither null nor a string never reaches "no statement": it throws (int, decimal) or is modified on every run, even when the database already matches |
| Mysql.BoolColumnNeverSettles | classes/Model/Backend/Mysql.php:74-76 | as written, a bool column with default false, which the database reports as "0", is modified on every run; the corrected check leaves it alone |
| Mysql.ColumnClauses | classes/Model/Backend/Mysql.php:175-181 | corrected: one clause per property, in order: the quoted column and its definition |
| Mysql.PrimaryColumns | classes/Model/Backend/Mysql.php:106-107 | the primary columns are exactly the columns of the primary properties; there are none only when no property is primary |
| Mysql.IndexClauses | classes/Model/Backend/Mysql.php:192-194 | one clause per index group, in order |
| Mysql.IndexPart | classes/Model/Backend/Mysql.php:192-194 | every index clause starts with INDEX or UNIQUE |
| Mysql.CreateClausesColumns | classes/Model/Backend/Mysql.php:170-197 | corrected: CREATE TABLE lists the column clauses first, in data-map order |
| Mysql.CreateClausesPrimary | classes/Model/Backend/Mysql.php:189-190 | with a primary property, the next clause is the PRIMARY KEY of the primary columns |
| Mysql.CreateClausesNoPrimary | classes/Model/Backend/Mysql.php:189-194 | without one, only index clauses follow the columns |
| Mysql.CreateTableIndexes | classes/Model/Backend/Mysql.php:185-194 | every index some property declares appears in CREATE TABLE with its columns and its kind |
| Mysql.NotUniqueWithoutFlag | classes/Model/Backend/Mysql.php:185-186 | the UNIQUE group of a name is marked unique |
| Mysql.DropPrimaries | classes/Model/Backend/Mysql.php:119-129 | corrected: each current primary column that is no longer required is handled once: modified to its definition when the column is kept, dropped otherwise |
| Mysql.DropSteps | classes/Model/Backend/Mysql.php:100-129 | every drop step concerns a current primary column that the data map no longer makes primary |
| Mysql.CheckPrimaries | classes/Model/Backend/Mysql.php:100-134 | the key statements are drop steps, then one reset of the primary key to the required columns |
| Mysql.KeptPrimaryUntouched | classes/Model/Backend/Mysql.php:119-134 | a column that stays primary is not dropped or modified |
| Mysql.CheckConstraints | classes/Model/Backend/Mysql.php:100-134 | every key statement is an ALTER TABLE of the table, and the last one drops the primary key and adds it back on exactly the primary columns |
| Mysql.CreateTable | classes/Model/Backend/Mysql.php:170-200 | the statement is CREATE TABLE on the quoted table and ends with the closing parenthesis of its clause list |
| Updater.SelectBackend | classes/Model/Updater.php:35-39 | the backend is `Backend\` plus the DSN's prefix before ':' with its first letter upper-cased; it is accepted exactly when that class is declared; otherwise the loader throws ClassNotFound for it, so the Broken "unknown backend type" is never raised |
| Updater.MysqlDsn | classes/Model/Updater.php:35-36 | a "mysql:" DSN selects the `Mysql` backend |
| Updater.Find | classes/Model/Updater.php:47-50 | finding an entity by class gives one of that class, or none when there is no such entity |
| Updater.SortedPair | classes/Model/Updater.php:52-53 | a pair is sorted: the same two classes, the smaller first |
| Updater.SortedPairSymmetric | classes/Model/Updater.php:52-56 | both discovery orders give the same sorted pair, hence the same key |
| Updater.PairsOf | classes/Model/Updater.php:47-56 | over one entity's relations, each mutual MANY relation files its sorted pair under the concatenated key; keys stay distinct, earlier keys are kept, and every new key comes from a MANY relation |
| Updater.Pairs | classes/Model/Updater.php:43-57 | over all entities, every entry is a sorted pair of known classes filed under its key, and earlier keys are kept |
| Updater.PairsFound | classes/Model/Updater.php:43-57 | a pair that an entity discovers is filed, whichever of its two classes found it |
| Updater.AddRelationKeys | classes/Model/Updater.php:118-125 | every primary key's relation copy is filed under its name, and nothing earlier is lost |
| Updater.JunctionMapSpec | classes/Model/Updater.php:110-127 | corrected: the junction map holds the (null-default) relation copies of both classes' primary keys, each pointing at the other class, and nothing else |
| Updater.JunctionMap | classes/Model/Updater.php:110-127 | corrected: the junction map has distinct keys |
| Updater.ColumnChecks | classes/Model/Updater.php:138-141 | corrected: `checkColumn` runs for every property: every problem found is reported, and nothing is reported when no column has a problem |
| Updater.CheckTable | classes/Model/Updater.php:136-150 | corrected: a missing table gets exactly its CREATE TABLE; an existing one gets at most one statement per property plus the constraint statements |
| Updater.CheckTableSettles | classes/Model/Updater.php:136-146 | corrected: when every column already matches, only the constraint statements remain |
| Updater.EntityChecks | classes/Model/Updater.php:43-44 | corrected: a statement is issued exactly when the table check of some entity issues it, and an entity whose table is missing gets its CREATE TABLE |
| Updater.DropCount | classes/Model/Backend/Mysql.php:119-134 | the constraint statements are at most one per existing primary column plus the key reset |
| Updater.JunctionWritable | classes/Model/Updater.php:110-127 | corrected: the junction map of two checkable entities can be rendered as columns |
| Updater.RunPairs | classes/Model/Updater.php:43-60 | the run discovers every mutual MANY pair once, under distinct keys, and each of its classes is a known entity |
| Updater.Run | classes/Model/Updater.php:32-60 | corrected: the run fails before any statement, with ClassNotFound for the backend class, exactly when that class is not declared |
| Queries.ColumnNames | classes/Model/Query.php:63-64 | each data-map column maps to the name of the last property that has it |
| Queries.ColumnNamesSpec | classes/Model/Query.php:63-64 | the column map agrees with a scan for the last property with that column |
| Queries.FirstRejected | classes/Model/Query.php:68-70 | the first rejected placeholder key is found, with no rejected key before it; none means no key is rejected |
| Queries.NewAsWritten | classes/Model/Query.php:68-70 | as written: the constructor throws exactly when some placeholder key starts with ':' |
| Queries.New | classes/Model/Query.php:59-73 | corrected: a query is built exactly when every placeholder key starts with ':'; it is unjoined, keeps its class, table, criteria and placeholders, and has no join criteria |
| Queries.On | classes/Model/Query.php:80-82 | `on` sets that query's join criteria and changes nothing else |
| Queries.JoinOne | classes/Model/Query.php:101-108 | joining a query succeeds exactly when it has join criteria; it then points up at this query, is appended to its joins and is returned, and no other query changes; otherwise nothing changes |
| Queries.Join | classes/Model/Query.php:93-111 | joining a list returns this query; anything other than a query or a list is Broken |
| Queries.JoinListAppends | classes/Model/Query.php:94-98 | joining a list of queries that all have criteria appends them in order and points each at this query |
| Queries.JoinAllKeepsOthers | classes/Model/Query.php:94-98 | joining a list leaves every query outside the list and this one unchanged |
| Queries.MainWithin | classes/Model/Query.php:185-186 | `main` is a query that is not joined to anything |
| Queries.Main | classes/Model/Query.php:185-186 | `main` is a query that is not joined to anything, and an unjoined query is its own main |
| Queries.UnjoinedIsMain | classes/Model/Query.php:185-186 | an unjoined query is its own main |
| Queries.MainOfParent | classes/Model/Query.php:185-186 | a joined query's main is its parent's main |
| Queries.MutualJoinHasNoMain | classes/Model/Query.php:185-186 | two queries joined to each other have no main: the source's recursion would not end |
| Queries.Scoped | classes/Model/Query.php:166-167 | a scoped key is a string that starts with ':' |
| Queries.ScopedInjective | classes/Model/Query.php:166-167 | distinct ':' keys of one class get distinct scoped keys |
| Queries.ScopeIntoSpec | classes/Model/Query.php:166-167 | after scoping, a key holds the last own value scoped to it, or else what it held before |
| Queries.LastScopedOfColonKeys | classes/Model/Query.php:166-167 | for ':' keys, looking up the scoped key gives the placeholder's own value |
| Queries.OwnPlaceholdersScoped | classes/Model/Query.php:159-169 | in the aggregate, each own placeholder is found under its scoped key, and own values win over joined ones |
| Queries.Aggregate | classes/Model/Query.php:159-169 | the aggregated placeholders have distinct keys, there are none when the query has no main, and each own placeholder is found under its scoped key with its own value |
| Queries.JoinedPlaceholders | classes/Model/Query.php:162-164 | keys that are not own come from the merge of the joined queries' aggregates |
| Queries.MergeLaterWins | classes/Model/Query.php:163-164 | in the merge, a later joined query's keys override an earlier one's |
| Queries.AsWrittenPlaceholdersCollide | classes/Model/Query.php:68-70 | as written: the keys "ab" and "cb" are accepted and both scope to ":User___b", while the key ":id" is rejected |
| Queries.IntendedPlaceholdersDistinct | classes/Model/Query.php:59-73 | corrected: distinct keys of an accepted query never collide once scoped |
| EntityCache.GetEntity | classes/Model/Cache.php:27-41 | with no class, the whole store; with a class and a key, that entry or nothing; with a class and no key, that class's map, empty when the class is unknown |
| EntityCache.SetEntity | classes/Model/Cache.php:48-54 | after a set, the entity is stored under its class and key, every other entry is as before, and the classes are the old ones plus its class |
| EntityCache.SetKeepsWellFormed | classes/Model/Cache.php:48-54 | a set keeps every entry filed under its own class and key |
| EntityCache.SetThenGet | classes/Model/Cache.php:27-54 | getting what was just set returns it |
| EntityCache.LastWriterWins | classes/Model/Cache.php:48-54 | a second set of the same class and key replaces the first, and nothing else changes |
| EntityCache.DropExact | classes/Model/Cache.php:62-71 | `dropEntity(class, key)` removes exactly that entry |
| EntityCache.DropEntityExact | classes/Model/Cache.php:62-71 | `dropEntity(entity)` removes exactly that entity's entry |
| EntityCache.DropEntity | classes/Model/Cache.php:62-78 | a drop only removes entries: whatever is left is as it was; with no truthy class the store is emptied, and with a class alone exactly that class goes |
| EntityCache.DropClass | classes/Model/Cache.php:72-74 | `dropEntity(class)` removes every entry of that class and no other |
| EntityCache.DropAll | classes/Model/Cache.php:76-77 | `dropEntity()` empties the store |
| EntityCache.FalsyKeyDropsClass | classes/Model/Cache.php:62-74 | an entity whose cache key is 0 drops its whole class, because the key is falsy |
| EntityCache.DropKeepsWellFormed | classes/Model/Cache.php:62-78 | a drop keeps every entry filed under its own class and key |
| Config.Evaluate | classes/Config.php:69-77 | a value with nothing deferred is kept; a deferred is replaced by its result, an array result evaluated in turn; arrays keep their keys; running out of nesting depth (fuel) gives none |
| Config.Descend | classes/Config.php:73-75 | evaluating inside an array keeps its keys; a value that is not an array is left as it is |
| Config.EvaluateMoreFuel | classes/Config.php:69-77 | more fuel never changes a value that evaluation found |
| Config.EvaluateSettles | classes/Config.php:69-77 | when no deferred returns a deferred, an evaluated value has nothing deferred in it |
| Config.DeferredOfDeferred | classes/Config.php:70-71 | a deferred that returns a deferred is evaluated once: the inner deferred is returned as it is |
| Config.EvaluatePlain | classes/Config.php:69-77 | a value with nothing deferred evaluates to itself |
| Config.EvaluateIdempotent | classes/Config.php:69-77 | when no deferred returns a deferred, evaluating an evaluated value with any fuel gives it back |
| Config.Stop | classes/Config.php:93-95 | the walk stops at the first '*' segment, or at the end |
| Config.Walk | classes/Config.php:90-99 | the keys the walk returns lead to a value in the settings |
| Config.WalkIsReach | classes/Config.php:90-99 | the walk follows the segments before the first '*' and succeeds exactly when every one of them is present |
| Config.ReachSetAt | classes/Config.php:91-103 | storing at a reachable path makes the path hold the stored value |
| Config.SetAt | classes/Config.php:101-103 | storing at a path that does not lead anywhere changes nothing; storing at one that does keeps the top-level keys |
| Config.SetAtSame | classes/Config.php:91-103 | storing back what a path holds changes nothing |
| Config.WalkSetAt | classes/Config.php:91-103 | storing at the walked path keeps that path walkable |
| Config.OverridesApplied | classes/Config.php:56-59 | after the overrides, a key holds the override exactly when it is whitelisted and overridden, and its protected value otherwise |
| Config.Load | classes/Config.php:32-34 | loading is skipped when settings are already loaded and the reload is not forced; without a whitelist the settings are the protected ones |
| Config.LoadFresh | classes/Config.php:32-59 | a forced or first load does not depend on the old state, and each key holds the whitelisted override or else the protected value |
| Config.Get | classes/Config.php:87-104 | a key with a missing segment gives null and the loaded settings; when no deferred returns a deferred, what `get` returns has nothing deferred in it |
| Config.GetMissing | classes/Config.php:90-99 | a key with a missing segment gives null and leaves the settings as loaded |
| Config.GetFound | classes/Config.php:90-103 | a key that is present gives the evaluated value, and that value is stored back in place; `get` fails only where evaluation does |
| Config.GetTwice | classes/Config.php:87-103 | when no deferred returns a deferred, asking for the same key twice gives the same value and state |
| Config.GetTwiceDeferredOfDeferred | classes/Config.php:87-104 | a stored deferred that returns a deferred gives the inner deferred the first time and its value the second |
| Dbi.PresentKeys | classes/DBI.php:110-112 | the present keys are exactly the listed keys that the configuration holds |
| Dbi.Pairs | classes/DBI.php:110-112 | the pairs exist exactly when every present setting has a string form; each is "k=v" for a present key, in the order host, dbname, port, charset |
| Dbi.NoPairs | classes/DBI.php:110-112 | a configuration with none of the keys has no pairs |
| Dbi.GetDsn | classes/DBI.php:105-114 | an explicit `dsn` is returned as it is; otherwise the DSN is the type, ':', and the pairs joined by ';' |
| Dbi.TypeOnly | classes/DBI.php:109-114 | with none of the keys the DSN is exactly the type and ':' |
| Dbi.DsnReadsBack | classes/DBI.php:105-114 | a built DSN reads back: the type before the first ':', the pairs after it split at ';', and the backend it selects named after the type |
| Event.New | classes/Event.php:74-77 | a new event has its name and data, a null result, and neither flag set |
| Event.Register | classes/Event.php:43-51 | a handler is appended to the handlers of its name and position, and the handlers of every other name and position are unchanged |
| Event.RegisterElsewhere | classes/Event.php:43-51 | registering under one name and position leaves the handlers of every other pair as they were |
| Event.RegisterOrder | classes/Event.php:43-51 | two handlers registered in turn run in that order |
| Event.Scan | classes/Event.php:101-105 | the scan stops at the first handler after which the event is stopped, or at the end; no earlier prefix stopped it |
| Event.RunHandlers | classes/Event.php:101-105 | the handlers run in order; the run stops right after the first one that stops propagation, and none before it did |
| Event.Arguments | classes/Event.php:108-109 | the default receives an array's values as its arguments, and any other data as its only argument |
| Event.Trigger | classes/Event.php:100-120 | `trigger` returns the event's result |
| Event.StoppedSkipsAfter | classes/Event.php:107-117 | when a before-handler stopped propagation, no after-handler runs: the result is the default's, or null when there is no default or it was prevented |
| Event.FailingDefault | classes/Event.php:107-109 | a default that throws makes `trigger` throw the same exception exactly when no before-handler prevented it |
| Event.NoHandlers | classes/Event.php:100-120 | without handlers, `trigger` is the default applied to the data |
| Event.GetPropertyAsWritten | classes/Event.php:131-136 | as written: reading `name` gives the event's data; reading anything else throws UnknownProperty |
| Event.GetProperty | classes/Event.php:131-136 | corrected: reading `name` gives the event's name; reading anything else throws UnknownProperty |
| Event.NameReadsData | classes/Event.php:131-136 | as written, the router's event with an empty array as data reports that array as its name, not its name |
| HttpRequest.LastPresent | classes/HTTP/Request.php:126-129 | of several server keys, the last one present wins; with none present, the default is used |
| HttpRequest.Method | classes/HTTP/Request.php:125-129 | the method is the lower-cased X_HTTP_METHOD_OVERRIDE when it is present, else the lower-cased REQUEST_METHOD, else "" |
| HttpRequest.TrimSlashes | classes/HTTP/Request.php:139 | trimming leaves no '/' at either end, and leaves a text without one unchanged |
| HttpRequest.NormalisePath | classes/HTTP/Request.php:139 | the normalised path starts with exactly one '/' and ends without one, unless it is "/" |
| HttpRequest.NormalisedFixed | classes/HTTP/Request.php:139 | a path already in the stored shape, with no slash, white space, slash match, normalises to itself |
| HttpRequest.Collapse | classes/HTTP/Request.php:139 | replacing each left-to-right match of a slash, white space and a slash by one slash never lengthens the path |
| HttpRequest.CollapseFixed | classes/HTTP/Request.php:139 | a path with no slash, white space, slash match is left as it is |
| HttpRequest.TripleSlashHalved | classes/HTTP/Request.php:139 | matches of `/\s*/` do not overlap, so "a///b" becomes "/a//b", and normalising that again gives "/a/b": normalising is not idempotent |
| HttpRequest.AddParamsUnset | classes/HTTP/Request.php:150-154 | a content-type parameter no part sets keeps its earlier value |
| HttpRequest.AddParamsLastWins | classes/HTTP/Request.php:150-154 | the last part that sets a parameter gives its value |
| HttpRequest.ContentType | classes/HTTP/Request.php:147-154 | the media type is the trimmed text before the first ';', and each later "k=v" part sets trimmed k to trimmed v |
| HttpRequest.MediaTypeBeforeParams | classes/HTTP/Request.php:147-148 | a media type followed by ';' and parameters reads back as the trimmed media type |
| HttpRequest.Parse | classes/HTTP/Request.php:122-155 | the parse sets the method, the normalised path and the media type as described above |
| HttpRequest.DefaultContentType | classes/HTTP/Request.php:141 | without a content-type header the media type is application/binary |
| HttpRequest.ContentTypeWins | classes/HTTP/Request.php:142-145 | CONTENT_TYPE wins over HTTP_CONTENT_TYPE |
| RestRequest.CallbackStep | classes/REST/Request.php:54-59 | `callback` is refused with BadMethod unless the method is get; then it sets a javascript callback |
| RestRequest.FrameStep | classes/REST/Request.php:61-66 | `frame_callback` is refused with BadMethod unless the method is get or post; otherwise the 'frame' type is refused by `setCallback`, so it never succeeds |
| RestRequest.Callbacks | classes/REST/Request.php:54-66 | the two callback checks leave the HTTP state alone, refuse `callback` outside get, and always refuse `frame_callback` |
| RestRequest.SplitSuffix | classes/REST/Request.php:68 | a path split at its format suffix is a non-empty prefix, '.', and 1 to 5 letters or digits, optionally followed by one "\n" |
| RestRequest.FindSuffix | classes/REST/Request.php:68 | a suffix found from the right splits the path back into prefix, '.', suffix, in the shape the pattern asks |
| RestRequest.SuffixSplitComplete | classes/REST/Request.php:68 | every path of that shape is split, at the last '.' |
| RestRequest.SuffixBeforeNewline | classes/REST/Request.php:68 | a path of that shape followed by one "\n" is split the same way |
| RestRequest.SuffixStep | classes/REST/Request.php:68-79 | a suffix, found in the whole path or before a final "\n", leaves the prefix as the path and sets the format, with the `download:` and `:options` additions; a path without one changes nothing |
| RestRequest.SuffixBecomesFormat | classes/REST/Request.php:68-79 | without `download` and `format_options`, "p.ext" becomes path p and format ext (after the aliases) |
| RestRequest.FirstLabel | classes/REST/Request.php:83-151 | a query key picks the first `case` label it is loosely equal to, and none when it equals none |
| RestRequest.LabelOfKey | classes/REST/Request.php:83-151 | a string key picks the label it spells; integer key 0 picks "count", because 0 == "count" in PHP 7; other keys pick none |
| RestRequest.PagingValue | classes/REST/Request.php:86 | a paging value is read only when it is all digits, alone or followed by one "\n"; it saturates at PHP_INT_MAX, and any other value is ignored |
| RestRequest.PagingReadsBack | classes/REST/Request.php:86 | a number written in decimal reads back as itself |
| RestRequest.PagingDigits | classes/REST/Request.php:86 | the digits the pattern accepts: the text when it is all digits, or the text before a final "\n" when that is |
| RestRequest.PagingStep | classes/REST/Request.php:84-87 | `count` and `startIndex` store the value when it is all digits (a final "\n" allowed) and otherwise change nothing |
| RestRequest.ZeroKeyRaises | classes/REST/Request.php:84-86 | an integer key 0 with a numeric value fails, because it assigns a static property named 0 |
| RestRequest.FormatStep | classes/REST/Request.php:89-91 | `format` sets the response format |
| RestRequest.TestClauses | classes/REST/Request.php:97-100 | a field's test yields one clause {op: {field: value}} for each op it has |
| RestRequest.AllClauses | classes/REST/Request.php:96-101 | the clauses are those of every field's test |
| RestRequest.FilterOfClauses | classes/REST/Request.php:93-104 | a clause is in the filter exactly when some field's test has that op with that value |
| RestRequest.FilterOpStep | classes/REST/Request.php:93-104 | an array `filterOp` sets the filter to the AND of its clauses; anything else changes nothing |
| RestRequest.FilterStep | classes/REST/Request.php:106-112 | `filter` must decode to a truthy value, which becomes the filter; a decode error or a falsy value is refused |
| RestRequest.UniqueNames | classes/REST/Request.php:115 | the field list keeps the first copy of each truthy name, at its original index, in order |
| RestRequest.FieldNamesDistinct | classes/REST/Request.php:115 | no field name appears twice |
| RestRequest.FieldsStep | classes/REST/Request.php:114-121 | `fields` stores the trimmed, deduplicated, non-empty names, and is refused with BadParameter('fields') when none remain |
| RestRequest.LongForm | classes/REST/Request.php:124-125 | "asc" and "desc" become "ascending" and "descending"; other values stay as they are |
| RestRequest.SortOrderStep | classes/REST/Request.php:123-131 | `sortOrder` stores its long form under '*' when it is a direction, and is refused otherwise |
| RestRequest.SortOrderTexts | classes/REST/Request.php:123-131 | exactly asc, desc, ascending and descending are accepted, each stored as its long form |
| RestRequest.DirectionText | classes/REST/Request.php:144 | for a string value the loose comparison with "ascending" or "descending" holds exactly for that text |
| RestRequest.LooseDirectionAccepted | classes/REST/Request.php:144 | as written (loose `!=` against both texts, `DirectionAsWritten`), `true` and `0` pass the direction test, although neither is a direction |
| RestRequest.OrderStoresDirections | classes/REST/Request.php:138-148 | corrected: whatever the order entries change holds a valid name mapped to a real direction, taken from the entries |
| RestRequest.OrderAllStored | classes/REST/Request.php:138-148 | corrected: when no entry is refused, each entry's last value is stored in its long form |
| RestRequest.OrderKeepsUnnamed | classes/REST/Request.php:138-148 | keys that no entry names keep their value |
| RestRequest.ArrayCast | classes/REST/Request.php:138 | `(array)` keeps an array and wraps a scalar as the entry 0 |
| RestRequest.OrderStep | classes/REST/Request.php:133-149 | corrected: `order` must decode to a truthy value; its entries are then stored, under the corrected direction test, until one is refused |
| RestRequest.ScalarOrderRefused | classes/REST/Request.php:138-140 | a decoded string is cast to the entry 0, whose key is not a name, so it is refused as order[0] |
| RestRequest.UpdatedSinceStep | classes/REST/Request.php:151-173 | `updatedSince` is stored when the time reading gives a non-zero time, and is refused otherwise |
| RestRequest.Step | classes/REST/Request.php:82-175 | each query argument goes to the step its label selects; an argument with no label changes nothing |
| RestRequest.UnlabelledIgnored | classes/REST/Request.php:82-175 | query arguments without a label leave the state as it was |
| RestRequest.ArgsStopAt | classes/REST/Request.php:82-175 | the first argument that is refused ends the parse with its error |
| RestRequest.ArgsKeepHttp | classes/REST/Request.php:82-175 | the query arguments never change the HTTP state |
| RestRequest.Parse | classes/REST/Request.php:51-175 | the REST parse keeps the HTTP method, refuses `callback` outside get, and always refuses `frame_callback` |
| Response.MatchFormat | classes/REST/Response.php:40 | a match with the download flag set starts with "download:"; the name is one or more letters, digits, '_' or '-', and the text may end in one "\n" |
| Response.Alias | classes/REST/Response.php:38-41 | only txt, htm and jpg are renamed; every other name is kept |
| Response.SetFormat | classes/REST/Response.php:37-47 | a text that does not match (a final "\n" allowed) leaves the download flag, format and options alone; a match sets all three from it |
| Response.MatchFormatText | classes/REST/Response.php:40 | a format written as `[download:]name[:options]` matches back to its parts |
| Response.SetFormatReadsBack | classes/REST/Response.php:37-47 | setting a written format stores its download flag, its aliased name and its options |
| Response.UpperDownloadIgnored | classes/REST/Response.php:40-43 | the match ignores case but the flag compares with "download:" exactly, so "DOWNLOAD:csv" is the format csv without download |
| Response.WholeNameAndOptions | classes/REST/Response.php:40 | a text matched whole is a valid name, then optionally ':' and options, and is exactly that format text |
| Response.NameAndOptions | classes/REST/Response.php:40 | a text the anchored pattern matches is a format text, or a format text followed by one "\n" |
| Response.NameAndOptionsNewline | classes/REST/Response.php:40 | a format text followed by "\n" gives the same name and options |
| Response.SetCallback | classes/REST/Response.php:75-89 | a falsy type clears the callback; a type other than javascript or html is refused as callback_type; the name is filtered to letters, digits, '_', '.', '-', and an empty result is refused as callback |
| Response.CallbackStable | classes/REST/Response.php:84 | a stored callback name is made of allowed characters only, and setting it again stores the same callback |
| Response.FrameCallbackRefused | classes/REST/Response.php:81-82 | the type frame is refused by `setCallback`, so the frame branch of `send` is out of reach |
| Response.RendererFor | classes/REST/Response.php:129-134 | a falsy format ("" or "0") or json selects JSON, and csv selects CSV |
| Response.ErrorCode | classes/REST/Response.php:141-144 | an exception's code is kept when it lies in 400..599 and is 500 otherwise |
| Response.ZeroFormatIsJson | classes/REST/Response.php:129-130 | the format "0" is falsy, so it is served as JSON |
| Response.Send | classes/REST/Response.php:99-181 | as written: with no callback, the request diverges exactly when a download is asked for or the format's renderer class is declared nowhere; any other request gets exactly the rendering `Render` gives; a callback gives a script or a refusal |
| Response.Render | classes/REST/Response.php:129-166 | the renderer class is looked up through the framework's loader, so an undeclared one throws ClassNotFound for that class; a concrete renderer gets the data; a declared non-renderer falls back to JSON with the format refusal and code 400; an exception is sent with a code in 400..599 and data with the given code; nothing is flagged as a download |
| Response.RendererInFramework | classes/REST/Response.php:133 | every renderer class name lies in the framework's namespace, so the loader throws for a missing one |
| Response.Choose | classes/REST/Response.php:134-145 | a usable renderer gets the data, otherwise JSON gets the format refusal with code 400; an exception's code is brought into 400..599 and data keeps the given code |
| Response.Attempt | classes/REST/Response.php:129-173 | one pass of the try block throws exactly when a download is asked for or the renderer class is undeclared; a download whose renderer resolves throws ClassNotFound for `RestFileDownload`; a pass that does not throw is the rendering |
| Response.AttemptFailsAlike | classes/REST/Response.php:176-179 | whether a pass throws does not depend on the data or code, so the handler's second pass on the same state throws too |
| Response.CallbackValue | classes/REST/Response.php:103-104 | data is passed as it is; an exception of class `HereYouGo\REST\Exception` (the unqualified `Exception` in that namespace) is cast to its array, whose message reads back; any other exception is passed as the object itself |
| Response.CallbackSent | classes/REST/Response.php:102-126 | a script exactly when the callback name is truthy and the type is javascript, and its text is the name, "(", the encoding of the callback value, and ");"; otherwise a callback or callback-type refusal |
| Response.CallbackExceptionScript | classes/REST/Response.php:103-112 | with a javascript callback, `send` of a REST exception writes its cast array into the script, and `send` of any other exception writes the uncast object |
| Response.SendWithin | classes/REST/Response.php:99-181 | `send` unrolled: a callback is answered directly; a pass that does not throw gives its rendering; a thrown exception is sent again with code 500 |
| Response.SendIsChain | classes/REST/Response.php:176-180 | a diverging `send` finishes within no number of passes, and any other outcome is what every unrolling with at least one pass gives |
| Response.RenderIntended | classes/REST/Response.php:133-138 | corrected: as the fallback's comment says, an unknown or abstract renderer falls back to JSON with the format refusal and code 400; a concrete renderer gets the data; where `Render` finishes it agrees |
| Response.SendIntended | classes/REST/Response.php:99-174 | corrected: without a callback, the intended rendering, flagged as a download exactly when one was asked for; with a callback, what `send` does; it never diverges |
| Response.SendAgreesWhenFinished | classes/REST/Response.php:99-181 | wherever `send` as written finishes, the corrected send gives the same result |
| Response.DownloadSendFails | classes/REST/Response.php:169-171 | as written, a download without a callback diverges and no number of passes finishes it, while the corrected send renders it flagged as a download |
| Response.UnknownFormatDiverges | classes/REST/Response.php:133-138 | as written, a format whose renderer class is declared nowhere (such as "xml") diverges, while the corrected send refuses it as JSON with code 400 |
| Response.HtmlCallbackRefusedOnSend | classes/REST/Response.php:109-124 | an html callback passes `setCallback` but is refused by `send` as an unknown callback type |
| Structured.Retain | classes/REST/Response/Structured.php:53-55 | the kept entries are exactly the entries whose key is loosely in the field names |
| Structured.DropFalsy | classes/REST/Response/Structured.php:69 | `array_filter` keeps exactly the truthy entries, in order |
| Structured.CleanData | classes/REST/Response/Structured.php:46-70 | non-arrays are left alone; a cleaned array keeps only truthy entries and never grows; a specification that is not an array is refused |
| Structured.CleanEach | classes/REST/Response/Structured.php:65-66 | a list specification cleans each entry under its own key |
| Structured.Clean | classes/REST/Response/Structured.php:29-38 | without a field list, and for exceptions, the data is returned unchanged |
| Structured.CleanedEntries | classes/REST/Response/Structured.php:46-70 | an entry is in the result exactly when it comes from a kept source entry whose cleaned value is truthy |
| Structured.CleanIdempotent | classes/REST/Response/Structured.php:46-70 | cleaning cleaned data with the same fields changes nothing |
| Structured.CastException | classes/REST/Response/Structured.php:79-85 | an exception becomes an array with keys message, uid and details, in that order |
| Structured.CastExceptionReadsBack | classes/REST/Response/Structured.php:79-85 | the message, id and details read back from that array; a missing id or details reads back as null |
| Csv.Flatten | classes/REST/Response/CSV.php:157-177 | the flattened record has distinct keys and no array values |
| Csv.PlainStep | classes/REST/Response/CSV.php:171-173 | a scalar entry is stored under its prefixed key |
| Csv.NestedStep | classes/REST/Response/CSV.php:164-170 | an array entry is flattened under its prefixed key, renumbered when all its keys are integers, and its columns overwrite earlier ones |
| Csv.FlatEntryUnchanged | classes/REST/Response/CSV.php:157-177 | a record without nested arrays flattens to itself |
| Csv.NestedListRenumbered | classes/REST/Response/CSV.php:165-166 | a nested list is renumbered from 0 before its keys are dotted |
| Csv.ZeroKeyNotPrefixed | classes/REST/Response/CSV.php:162 | a falsy prefix such as the key 0 is not written, so the inner keys stand alone |
| Csv.Insert | classes/REST/Response/CSV.php:115 | `array_splice` inserts the header once and keeps the others |
| Csv.MergeOne | classes/REST/Response/CSV.php:108-116 | after merging a key, it is loosely listed among the headers, the old headers are kept, and nothing else is added |
| Csv.MergeOneNoDup | classes/REST/Response/CSV.php:108-116 | merging keeps the headers free of loosely equal pairs |
| Csv.MergeAllNoDup | classes/REST/Response/CSV.php:98-117 | the merged headers of all entries have no loosely equal pair |
| Csv.MergeAllBounds | classes/REST/Response/CSV.php:98-117 | every merged header is a key of some entry |
| Csv.MergeAllLists | classes/REST/Response/CSV.php:98-117 | every key of every entry is loosely listed among the merged headers |
| Csv.PrefixesOf | classes/REST/Response/CSV.php:122-128 | the useless headers of a header are exactly its proper dotted prefixes |
| Csv.Useless | classes/REST/Response/CSV.php:120-129 | the useless headers are exactly the proper dotted prefixes of some header |
| Csv.KeepUseful | classes/REST/Response/CSV.php:130-132 | a header is kept exactly when it is not loosely equal to a useless header |
| Csv.Headers | classes/REST/Response/CSV.php:98-132 | a key is a final header exactly when it was merged and no merged header extends it |
| Csv.ParentHeaderDropped | classes/REST/Response/CSV.php:120-132 | a header h is dropped when "h.x" is also a header |
| Csv.Rows | classes/REST/Response/CSV.php:136-144 | the rows follow the entries in order and stop before the first empty one, because `while($entry = array_shift(...))` ends at a falsy entry |
| Csv.RowCells | classes/REST/Response/CSV.php:138-141 | a row holds the entry's value for each header, or "" when the entry lacks it |
| Csv.Entries | classes/REST/Response/CSV.php:98-104 | a falsy record counts as an empty one; any other non-array record is refused as BadType(…, 'array'); the rest are flattened in order |
| Csv.Table | classes/REST/Response/CSV.php:95-147 | the table is the header line and at most one line per record, all of header width, and is refused exactly when a record is |
| Csv.Records | classes/REST/Response/CSV.php:64-66 | data with an integer key is a collection of records; anything else is wrapped as the single record |
| Csv.Render | classes/REST/Response/CSV.php:55-84 | a bad separator is refused before anything else; otherwise rendering succeeds exactly when the table does |
| Csv.RenderReadsBack | classes/REST/Response/CSV.php:55-84 | for any separator other than '"', "\n" and '`', a rendered document reads back, line by line and field by field, as the texts of the table |
| CsvField.Separator | classes/REST/Response/CSV.php:69-72 | an empty or "0" option gives ','; a one-character option is that character; anything else is refused as BadType('format_options', '1 chr long separator') |
| CsvField.Escape | classes/REST/Response/CSV.php:194 | doubling quotes never shortens a text, keeps a text without quotes, and keeps its first and last characters |
| CsvField.EscapeKeeps | classes/REST/Response/CSV.php:194 | escaping adds and removes no kind of character |
| CsvField.Encode | classes/REST/Response/CSV.php:187-201 | null encodes as ""; with the separator '`' nothing is quoted and quotes are only doubled; with another separator a cell is quoted exactly when its text holds the separator, a line break or a quote, or starts or ends with white space |
| CsvField.FieldRoundTrip | classes/REST/Response/CSV.php:187-201 | for any separator other than '"', "\n" and '`', an encoded cell followed by a separator, a line break or the end reads back as the cell's text |
| CsvField.LineRoundTrip | classes/REST/Response/CSV.php:77-81 | for any separator other than '"', "\n" and '`', an encoded line reads back as the texts of its cells |
| CsvField.DocumentRoundTrip | classes/REST/Response/CSV.php:76-83 | for any separator other than '"', "\n" and '`', an encoded document reads back as the texts of all its lines |
| CsvField.CellText | classes/REST/Response/CSV.php:190-194 | a scalar cell is its PHP string cast; an array or object is written as "{complex:…}" |
| CsvField.DelimiterSplitsCell | classes/REST/Response/CSV.php:197-198 | with the separator '`', the cell "a`b" is written unquoted, so it reads back as two cells |
| Download.DefaultName | classes/REST/Response/Download.php:37-45 | without a path the name starts with "file"; a format adds ".format" at the end; without one the name is the path with '/' turned to '_' |
| Download.Make | classes/REST/Response/Download.php:36-49 | a truthy name is kept; otherwise the default name uses the renderer's extension, or the response format for raw data |
| Download.Output | classes/REST/Response/Download.php:56-59 | output succeeds exactly when the data is a renderer, and otherwise is refused as BadType(…, 'scalar data') |
| Download.DefaultNameFlat | classes/REST/Response/Download.php:39-44 | a default name holds no '/' when the format holds none |
| Download.DefaultNameReadsBack | classes/REST/Response/Download.php:39 | for a path without '_', turning '_' back to '/' restores the path |
| Router.StripAsWritten | classes/Router.php:41 | as written: one trailing '/' is removed from every path, "/" included |
| Router.Strip | classes/Router.php:41 | corrected: one trailing '/' is removed from paths longer than "/" |
| Router.TryCapture | classes/Router.php:42 | a named group that matches binds its own name first |
| Router.CompileShape | classes/Router.php:42 | the pieces are no more than the pattern's characters, every `:name` capture has a non-empty word name, and a pattern without ':' has no capture |
| Router.Match | classes/Router.php:42 | a match binds exactly the pattern's capture names, in order, each to a non-empty value without '/' |
| Router.AddPathsStores | classes/Router.php:40-44 | corrected: after adding, each path, stripped by the corrected Strip, holds the compiled route with its profile and action |
| Router.AddPathsKeeps | classes/Router.php:40-44 | paths not added keep their route |
| Router.AddPaths | classes/Router.php:40-44 | corrected: adding paths keeps the order of the paths already there, and every path in the result was there before or is one of the added paths, stripped |
| Router.AddRouteStores | classes/Router.php:33-46 | corrected: every lower-cased method gets every path's route, under the corrected Strip |
| Router.AddRouteKeeps | classes/Router.php:33-46 | methods not named keep their table |
| Router.AddRoute | classes/Router.php:33-46 | adding a route keeps the order of the methods already there, and every method in the result was there before or is one of the given methods, lower-cased |
| Router.ReAddKeepsSize | classes/Router.php:43 | adding a path again replaces its route in place and does not add an entry |
| Router.TableFor | classes/Router.php:59-65 | the method's own table, else the '*' table, else no routes |
| Router.FirstMatch | classes/Router.php:67-68 | the first route, in insertion order, whose pattern matches the path, and none when no route matches |
| Router.Bind | classes/Router.php:85-95 | the arguments are the captured value or the default of each parameter, in order; a required parameter nothing supplies refuses the route with MissingArgument for the first such parameter |
| Router.RouteRequest | classes/Router.php:55-111 | with no matching route, NoMatchingRoute is raised unless a handler prevented it; a route that runs is the first matching one |
| Router.EmptyTableShadowsWildcard | classes/Router.php:60-65 | a method whose table is empty does not fall back to '*' |
| Router.PlainPatternExact | classes/Router.php:42 | a pattern without ':', '.' or '*' matches exactly its own text, or its text followed by one "\n", since `$` also matches before a final newline |
| Router.SegmentRouteCaptures | classes/Router.php:42 | a route of fixed and `:name` segments matches its filled-in path and captures each name's value |
| Router.CatchAll | classes/Router.php:42 | the pattern "/.*" matches every single-line path starting with '/' |
| Router.RootRouteNeverMatches | classes/Router.php:41-42 | as written, a route for "/" is stored as "" and its pattern matches no normalised request path |
| Router.RootRouteMatches | classes/Router.php:41-42 | corrected, a route for "/" matches exactly the paths "/" and "/\n" |
| Locale.BaseCode | classes/UI/Locale.php:75-76 | the base code is lower case and holds no '-' or '_' |
| Locale.CleanCode | classes/UI/Locale.php:72-79 | a code is kept, as its base code, exactly when that base code is an available locale |
| Locale.BaseCodeIdempotent | classes/UI/Locale.php:75-76 | taking the base code twice changes nothing |
| Locale.CleanCodeIdempotent | classes/UI/Locale.php:72-79 | cleaning a cleaned code gives it back |
| Locale.AddCode | classes/UI/Locale.php:88-95 | the stack grows by the cleaned code exactly when it is truthy and not yet on the stack; the stack stays duplicate-free and available |
| Locale.AddCodeLands | classes/UI/Locale.php:88-95 | after adding, a truthy cleaned code is on the stack |
| Locale.AddCodes | classes/UI/Locale.php:146-147 | adding codes in turn only extends the stack, keeping it duplicate-free and available |
| Locale.LanguageRange | classes/UI/Locale.php:137 | the range read from an Accept-Language part is non-empty and holds no ';' |
| Locale.UrlStep | classes/UI/Locale.php:108-124 | the URL and session step only extends the stack and keeps it duplicate-free and available |
| Locale.SessionStep | classes/UI/Locale.php:122-123 | the session step only extends the stack, duplicate-free and available |
| Locale.BrowserStep | classes/UI/Locale.php:134-148 | the browser step only extends the stack, duplicate-free and available |
| Locale.Asked | classes/UI/Locale.php:106-149 | the requested codes only extend the stack, duplicate-free and available |
| Locale.GetCodes | classes/UI/Locale.php:102-157 | a computed stack is kept; a fresh one is duplicate-free, available, and starts with the requested codes |
| Locale.EnOnStack | classes/UI/Locale.php:153 | English is on every fresh stack when it is available |
| Locale.SingleLocaleIgnoresRequest | classes/UI/Locale.php:106 | with at most one available locale the request is ignored: the stack is the default code and English, and the session is untouched |
| Locale.UrlPushes | classes/UI/Locale.php:109-112 | a well-formed, available `lang` argument goes first on a fresh stack |
| Locale.UrlCodeFirst | classes/UI/Locale.php:108-112 | with several locales and URL selection on, the `lang` argument's base code heads the final stack |
| Locale.UrlCodeShape | classes/UI/Locale.php:111 | a code shape is accepted, alone or before one final "\n"; an accepted text starts with a lower-case letter and has no other newline |
| Locale.UrlCodeShapeNewline | classes/UI/Locale.php:111 | a code followed by "\n" is still accepted |
| Locale.FindAppend | classes/UI/Locale.php:234-245 | looking up a path of keys is looking up its first part, then the rest inside |
| Locale.Find | classes/UI/Locale.php:234-245 | an empty path is the dictionary itself; a found non-empty path starts with a key of the dictionary array |
| Locale.GetTranslation | classes/UI/Locale.php:231-246 | a translation exists exactly when the path leads to an entry that is not null, and it is that entry |
| Locale.IsTranslatable | classes/UI/Locale.php:283-285 | an id is translatable exactly when its path leads to an entry that is not null |
| Locale.NullEntryNotFound | classes/UI/Locale.php:245-261 | an entry holding null is not translatable, translates as not found and prints as "{id}" |
| Locale.TranslationNests | classes/UI/Locale.php:231-246 | the translation of "a.b" is the translation of b inside the translation of a |
| Locale.Translate | classes/UI/Locale.php:257-261 | a translation is not-found exactly when its id is not translatable (missing, or an entry holding null); its text is the string cast; only an object, which has no string cast, fails |
| Locale.TranslateOutput | classes/UI/Locale.php:257-261 | a missing id, or one whose entry is null, prints as "{id}", and a string translation prints as itself |
| Locale.GroupReadsArray | classes/UI/Locale.php:260 | a group of translations is cast to the text "Array" |
| Translations.Make | classes/UI/Translation.php:38-55 | a string is kept as text; an array becomes a group with the same keys; anything else is marked not found |
| Translations.Placeholder | classes/UI/Translation.php:77 | a placeholder is a key between '{' and '}' |
| Translations.SubstituteAppend | classes/UI/Translation.php:76-77 | substituting two lists of variables is substituting one after the other |
| Translations.SubstituteNoBraces | classes/UI/Translation.php:76-77 | a text without '{' is left unchanged |
| Translations.ReplaceVars | classes/UI/Translation.php:66-80 | a not-found translation is returned as it is; a group is replaced member by member under the same keys; a text has its placeholders substituted |
| Translations.ReplaceTwice | classes/UI/Translation.php:66-80 | replacing twice is replacing with both lists of variables |
| Translations.Out | classes/UI/Translation.php:100-117 | a group prints as an array with the same keys; a not-found text prints as "{id}"; a text prints as itself |
| Translations.OutMake | classes/UI/Translation.php:38-117 | a tree of strings read into a translation prints back as itself |
| Translations.ToString | classes/UI/Translation.php:124-133 | not found prints "{id}"; a text prints itself; a group of other than one member prints "{id[]}" |
| Translations.SingleMemberString | classes/UI/Translation.php:129-130 | a group of one string prints as that string |
| Ui.ArgPairs | classes/UI.php:26-28 | one "k=encoded v" text per query argument, in order |
| Ui.OtherArgs | classes/UI.php:24-25 | the "path" argument is removed and every other argument is kept as it was |
| Ui.QueryArgs | classes/UI.php:24-28 | the query part is empty exactly when no argument but "path" is present, and it is never the falsy "0" |
| Ui.CurrentUrl | classes/UI.php:19-36 | with nice URLs, base, path and "?query" when there is one; otherwise base, "index.php?path=", path and "&query" when there is one |
| Ui.PathArgIgnored | classes/UI.php:24-25 | whatever "path" argument the query holds, the current URL is the same |
| Ui.QueryReadsBack | classes/UI.php:26-28 | when no key or encoded value holds '&', the query part splits back at '&' into its "k=v" pairs |
| Ui.RedirectTarget | classes/UI.php:44-53 | an external target is kept; an internal one goes under the base URL and, without nice URLs, through "index.php?path=" with every '?' turned into '&' |
| Ui.RedirectQuery | classes/UI.php:46-50 | a target "p?q" without nice URLs becomes "index.php?path=p&q" under the base URL |
| Ui.CurrentIsRedirect | classes/UI.php:19-53 | redirecting internally to the request path and its other arguments leads to the current URL |
| Autoloader.NamespacedInFramework | classes/autoload.php:33-35 | a name under a framework namespace has `HereYouGo` as its first segment |
| Autoloader.Find | classes/autoload.php:25-51 | only a critical lookup fails, with ClassNotFound for the class and the memory unchanged; a new name outside the framework is declined; the memory keeps every earlier entry and gains at most the class looked up |
| Autoloader.Answer | classes/autoload.php:25-51 | a lookup fails exactly when it is critical and the framework class's file does not declare it; otherwise it finds exactly the framework classes whose file declares them |
| Autoloader.FindFaithful | classes/autoload.php:25-51 | with a faithful memory, `find` answers as if it had no memory, and the memory stays faithful |
| Autoloader.Exists | classes/autoload.php:60-66 | a new name outside the framework does not exist |
| Autoloader.ExistsFaithful | classes/autoload.php:60-66 | with a faithful memory, `exists` holds exactly for a framework class its file declares, and never throws |
| Autoloader.ClassExists | classes/autoload.php:25-69 | with the loader registered, `class_exists` answers for a declared class or a foreign name, and throws ClassNotFound for an undeclared framework class |
| Autoloader.ClassExistsLoads | classes/autoload.php:25-51 | `class_exists` on a class not yet loaded is the loader's critical lookup |
| Sanitizer.Next | classes/Sanitizer.php:26 | a character the numeric-string scan accepts is a sign, digit, '.', 'e', 'E' or white space |
| Sanitizer.NumericExamples | classes/Sanitizer.php:26 | `is_numeric` accepts " -1.5e3", ".5" and "1." |
| Sanitizer.NonNumericExamples | classes/Sanitizer.php:26 | `is_numeric` refuses ".", "1e", "1 " (trailing white space, as in PHP 7) and "" |
| Sanitizer.NeutraliseAsWritten | classes/Sanitizer.php:35 | as written: the result is the text with spaces inserted, a text without '<' is kept, and the first character stays |
| Sanitizer.OverlapLeavesTag | classes/Sanitizer.php:35 | as written, "<<a" becomes "< <a", which still holds a tag opening; the corrected rewrite gives "< < a" |
| Sanitizer.Neutralise | classes/Sanitizer.php:33-35 | corrected: the text with spaces inserted in which no '<' is followed by a non-space |
| Sanitizer.NeutraliseTagFree | classes/Sanitizer.php:33-35 | a text with no tag opening is kept |
| Sanitizer.NeutraliseIdempotent | classes/Sanitizer.php:33-35 | neutralising twice is neutralising once |
| Sanitizer.StripKey | classes/Sanitizer.php:16 | the stripped key holds only letters, digits, '.', '_' and '-', is no longer, and equals the key exactly when the key was already clean |
| Sanitizer.NewKeyClean | classes/Sanitizer.php:16 | a new key is clean, and an integer key stays itself |
| Sanitizer.StepKeeps | classes/Sanitizer.php:15-21 | one pass of the loop leaves every other new key's entry alone |
| Sanitizer.StepDistinct | classes/Sanitizer.php:15-21 | one pass keeps the array's keys distinct |
| Sanitizer.Sanitize | classes/Sanitizer.php:13-41 | corrected: null, booleans and integers pass; objects become null; a string comes out without tag openings, and as itself or decoded when it holds no '<'; arrays stay arrays |
| Sanitizer.SanitizeArray | classes/Sanitizer.php:14-24 | every key of a cleaned array is clean, and the last entry under each new key holds its cleaned value |
| Sanitizer.SanitizeArrayKeys | classes/Sanitizer.php:14-24 | a cleaned array's keys are new keys of the input |
| Sanitizer.SanitizeCleanArray | classes/Sanitizer.php:14-24 | an array whose keys are already clean keeps its keys in order |
| Sanitizer.EntryOrigin | classes/Sanitizer.php:14-24 | every entry of a cleaned array has a clean key and the cleaned value of some input entry |
| Sanitizer.SanitizeSafe | classes/Sanitizer.php:13-41 | corrected: a sanitised value holds, at every depth, only clean keys, no objects and no tag openings |
| Constraints.LastIndexOf | classes/Form/Constraint.php:86 | `strrpos`: none exactly when the character is absent, otherwise the index of its last occurrence |
| Constraints.Type | classes/Form/Constraint.php:85-86 | corrected: a constraint's type is its lower-cased class name after the last '\\', with no '\\' left |
| Constraints.TypeOfQualified | classes/Form/Constraint.php:85-86 | for a class ns\\Name the corrected type is "name", while the code as written keeps the separator and gives "\\name" |
| Constraints.RequiredTypeAsWritten | classes/Form/Constraint.php:85-86 | as written, the Required constraint's type is "\\required"; corrected, it is "required" |
| Constraints.MakeHint | classes/Form/ConstraintCollection.php:41 | false is kept as "no hint"; any other hint is its string cast, and only an object, which has none, fails |
| Constraints.AddConstraint | classes/Form/ConstraintCollection.php:64-68 | the constraint is stored under its type with the collection as parent, replacing one of the same type in place; other types, the hint and the error are unchanged |
| Constraints.AddConstraintAsWritten | classes/Form/ConstraintCollection.php:64-68 | as written: the constraint is stored under the type the code computes, other types unchanged |
| Constraints.SameTypeReplaces | classes/Form/ConstraintCollection.php:67 | adding two constraints of the same type keeps only the second |
| Constraints.AddAllHas | classes/Form/ConstraintCollection.php:38-39 | after adding a list, a type is present exactly when it was before or some added constraint has it |
| Constraints.AddAllLast | classes/Form/ConstraintCollection.php:38-39 | the last added constraint of a type is the one stored |
| Constraints.AddAllKeeps | classes/Form/ConstraintCollection.php:38-39 | types no added constraint has keep their entry |
| Constraints.New | classes/Form/ConstraintCollection.php:37-46 | corrected: a new collection has exactly the (corrected) types of its constraints; it fails exactly when the hint or the error is an object |
| Constraints.SetCollection | classes/Form/ConstraintCollection.php:133-137 | corrected: assigning `collection` empties it and adds the given constraints, so it has exactly their corrected types; hint and error stay |
| Constraints.SetHint | classes/Form/ConstraintCollection.php:138-139 | assigning `hint` changes only the hint: false means none, a string is kept |
| Constraints.SetError | classes/Form/ConstraintCollection.php:141-142 | assigning `error` changes only the error, false becoming "" |
| Constraints.FirstFailure | classes/Form/ConstraintCollection.php:77-83 | the first constraint, in insertion order, that refuses the data, and none when all accept it |
| Constraints.Validate | classes/Form/ConstraintCollection.php:77-83 | validation succeeds exactly when every constraint accepts the data |
| Constraints.RequiredRejectsNull | classes/Form/Constraint/Required.php:34-36 | a collection holding Required refuses null |
| Constraints.RequiredNotFound | classes/Form/ConstraintCollection.php:55-67 | as written, adding Required does not make `has('required')` true; corrected, it does |
| FieldSets.SetsOnlyPathEmpty | classes/Form/FieldSet.php:92-94 | a set with only sets above it has the empty path |
| FieldSets.RootFieldPath | classes/Form/Field.php:125-127 | a field directly in a root set has the path "." and its name |
| FieldSets.NestedFieldPath | classes/Form/Field.php:125-127 | a field in a set under a field has the path outer "." inner |
| FieldSets.AddField | classes/Form/FieldSet.php:35-43 | a string or form member is appended after the others, fragments taking the set as parent; anything else is refused as BadType('field', …) |
| FieldSets.AddAll | classes/Form/FieldSet.php:21-24 | every candidate is appended in order when all are accepted; otherwise the set is refused |
| FieldSets.New | classes/Form/FieldSet.php:21-26 | a new set holds its candidates in order, adopted, exactly when all are accepted |
| FieldSets.ConstructedFieldPath | classes/Form/FieldSet.php:21-43 | a field given to a new root set has the path "." and its name |
| FieldSets.CheckMember | classes/Form/FieldSet.php:76-84 | a present field checks itself; an absent field fails with ValidationFailed(name, 'required') exactly when it has a Required constraint; a member that is not a field has no `name`, so it fails |
| FieldSets.FirstErr | classes/Form/FieldSet.php:76-84 | the first member that fails, and none when all pass |
| FieldSets.CheckAll | classes/Form/FieldSet.php:76-84 | the members pass exactly when each of them does |
| FieldSets.FirstOutcome | classes/Form/FieldSet.php:76-84 | the outcome is success when all pass, and otherwise one of the failures |
| FieldSets.Validate | classes/Form/FieldSet.php:72-85 | data that is not an array is refused as BadType(path + ' data', 'array'); otherwise validation passes exactly when every member does |
| FieldSets.FirstFailureWins | classes/Form/FieldSet.php:76-84 | the failure reported is that of the first failing member |
| FieldSets.SkipPassing | classes/Form/FieldSet.php:76-84 | a passing member can be removed without changing the outcome |
| FieldSets.AbsentOptionalIgnored | classes/Form/FieldSet.php:77-78 | adding an optional field that the data lacks changes nothing |
| FieldSets.RequiredAbsentFails | classes/Form/FieldSet.php:80-81 | adding a required field that the data lacks makes validation fail with ValidationFailed(name, 'required') |
| FieldSets.PresentDelegates | classes/Form/FieldSet.php:83 | adding a field that the data holds makes validation that field's own check |
| FieldSets.RequiredFieldSkipped | classes/Form/FieldSet.php:77-81 | as written, a required field the data lacks is skipped, because its constraint is stored under "\\required"; corrected, it fails |

## Left out

- Reflection and doc-comment scanning (classes/Model.php:56-84, classes/Router.php:74-98, `Enum::getValues`): the `@has` and `@table` annotations, field-definition strings, class constants and an action's parameter list are inputs.
- The guard on an unqualified 'Entity' name (classes/Model.php:49) is not modelled; every schema is taken to be an entity's.
- Database execution and introspection (the PDO wrapper, `DBI\Statement`, `tableExists`, `getPrimaries`, `getIndexes`, `exec`, `quote`): what the database reports is an input, and the statements the backend would run are returned in order.
- The index-diff branch of `checkConstraints` (classes/Model/Backend/Mysql.php:137-161) is not modelled, because it reads keys that `getIndexes` never produces.
- The `DBI` constructor and its connection handling are not part of this model; only `getDsn` is.
- Date, time and float casting (classes/Model/Property.php:316-332, 366-385) are not modelled. CastToEntity states its null and bool branches; CastToDatabase states its converter, null and bool branches and renders ints and text types by their string cast. Decimal and date formatting is the parameter `format`.
- `updatedSince`: the `strtotime` and time-zone reading is the parameter `since`, which gives a time or nothing; a time of 0 is refused as the source refuses a falsy one.
- JSON encoding and decoding, the converter objects, `urlencode`, `iconv`, `mb_detect_encoding` and `html_entity_decode` are uninterpreted parameters (`decode`, `encode`, converter factories).
- `Query::getSql` and `castAndScopeColumns` are unfinished in the source and are not modelled, nor are `JoinCollection`, `JoinedEntities`, `ResultSet`, `Result` and `Entity`.
- Queries.MainWithin: `main` follows `joined_to` for at most `fuel` steps. `join` does not prevent cycles, and on a cycle the source's `main` recurses without end; the model gives None there instead (MutualJoinHasNoMain). Once a main is found, more fuel never changes it (MainFuel).
- The entity directory scan in `Updater::run` is not modelled; the entity classes are an input, each taken to be a declared entity class (its file name was matched, so `class_exists` loads it). Logging is left out.
- Filesystem, output and session plumbing are left out:
  - the UI cache, resources, templates and pages;
  - Locale's `getAvailable` and `compileDictionary`: the available locales and the compiled dictionary are inputs;
  - the autoloader's file lookup (Autoloader.Find takes whether the file declares the class) and the logger;
  - HTML rendering of forms and constraints;
  - the header, echo and exit calls of `Response::send`, the renderers' `output` and `Download::output`: the choices are returned;
  - the session-based authentication.
- Locale.BrowserStep: the Accept-Language q-weights are not modelled. The greedy `(?:;.+)*` in classes/UI/Locale.php:137 swallows them, so every range gets the same weight. The codes are taken in header order, the order a stable `asort` keeps for equal weights.
- Locale.GetCodes: the session is a parameter. The exception the URL branch swallows (classes/UI/Locale.php:131-132) cannot arise once the configuration is an input.
- Response.Send: the JSON encoding of a callback's data, the renderer objects, their output and the HTTP status line are left out. The result names the renderer class, the code and the payload. An endless re-send is the outcome `Diverges`, not a stack overflow. What `castException` reads off a caught exception is a parameter of Response.SendWithin.
- Response.CallbackSent: a callback with a falsy name gives only the refusal; the source would print the refusal and then carry on to the script. `setCallback` never stores a falsy name (Response.SetCallback), so this state is not reached.
- Response.Render: a `Post` payload and data that is already a renderer or a download object are not modelled; the payload is plain data or an exception.
- Form field validation (`Field::validate`) and each constraint class's `validate` are the parameters `check`; only `Required` is modelled.
- Form members hold their parent as a value snapshot, not a shared reference.
- Event.Trigger: its own contract only ties the returned value to the event's result. What `trigger` computes is stated by StoppedSkipsAfter, FailingDefault and NoHandlers, with the handlers' effect given as the parameter `run`.
- Properties.CheckedConverter: its own contract covers only the absence of `convert` and the shape of success. ResolveConverter states which converter is chosen and when resolution fails.
- Queries.Scoped: its own contract states only the shape of a scoped key. ScopedInjective and LastScopedOfColonKeys state its meaning.
- Floats are not modelled: PHP values here are null, booleans, integers, strings, arrays and opaque objects. An integer compared loosely with a string is compared with the exact decimal value of the string's leading number, in integer, fraction or exponent notation (Php.LooseEq); two strings compare as integers only when both are integer-numeric, and otherwise as text.
- Integers are unbounded. The one 64-bit bound the code relies on, PHP_INT_MAX, is written out for the `(int)` cast of paging values.
- Php.LooseEq: a string is compared with an integer through its exact decimal value, without float rounding, and an integer string beyond 64 bits is not turned into a float. Two strings are compared numerically only when both are integer-numeric, so "1.0" and "1" differ, where PHP 7 finds them equal.
- Properties.CheckedSize: corrected; uses the per-class enumeration test (Enums.IsValuePerClass) in place of the shared cache the source reads (Enums.IsValueShared). As written, Type fills that cache first, so every `int size=N` except a bare `size` flag is refused (Enums.SharedCacheConfusesClasses, Findings row 1).
- Properties.IntSizeOkIsValue: corrected; uses the per-class enumeration test (Enums.IsValuePerClass) in place of the shared cache the source reads (Enums.IsValueShared). As written, Type fills that cache first, so every `int size=N` except a bare `size` flag is refused (Enums.SharedCacheConfusesClasses, Findings row 1).
- Properties.Build: corrected; uses the per-class enumeration test (Enums.IsValuePerClass) in place of the shared cache the source reads (Enums.IsValueShared). As written, Type fills that cache first, so every `int size=N` except a bare `size` flag is refused (Enums.SharedCacheConfusesClasses, Findings row 1).
- Schema.ParseAll: corrected; uses the per-class enumeration test (Enums.IsValuePerClass) in place of the shared cache the source reads (Enums.IsValueShared). As written, Type fills that cache first, so every `int size=N` except a bare `size` flag is refused (Enums.SharedCacheConfusesClasses, Findings row 1).
- Schema.NewModel: corrected; uses the per-class enumeration test (Enums.IsValuePerClass) in place of the shared cache the source reads (Enums.IsValueShared). As written, Type fills that cache first, so every `int size=N` except a bare `size` flag is refused (Enums.SharedCacheConfusesClasses, Findings row 1).
- Mysql.PaddedWidthHasNoType: corrected; uses the per-class enumeration test (Enums.IsValuePerClass) in place of the shared cache the source reads (Enums.IsValueShared). As written, Type fills that cache first, so every `int size=N` except a bare `size` flag is refused (Enums.SharedCacheConfusesClasses, Findings row 1).
- Properties.Parse: corrected; uses the per-class enumeration test (Enums.IsValuePerClass) in place of the shared cache the source reads (Enums.IsValueShared). As written, Type fills that cache first, so every `int size=N` except a bare `size` flag is refused (Enums.SharedCacheConfusesClasses, Findings row 1). A bare `type` flag is refused, see Properties.DeclaredType.
- Schema.DataMapState: corrected; passes Schema.RelationPhase the values of the per-class `Relation` test in place of the shared cache. As written, classes/Model.php:107 throws Broken for every `@has` relation once any property has been parsed (Schema.DataMapAsWritten, Schema.DataMapAsWrittenRelationsBroken).
- Schema.DataMap: corrected; passes Schema.RelationPhase the values of the per-class `Relation` test in place of the shared cache. As written, classes/Model.php:107 throws Broken for every `@has` relation once any property has been parsed (Schema.DataMapAsWritten, Schema.DataMapAsWrittenRelationsBroken).
- Mysql.DefinitionParts: corrected; uses the corrected Mysql.ColumnType and the corrected default comparison. As written (Mysql.ColumnTypeAsWritten, Mysql.ColumnDefinitionAsWritten, Mysql.CheckColumnAsWritten), every int or decimal column throws UnknownProperty('unsigned'), and a non-text default is modified on every run.
- Mysql.ColumnDefinition: corrected; uses the corrected Mysql.ColumnType and the corrected default comparison. As written (Mysql.ColumnTypeAsWritten, Mysql.ColumnDefinitionAsWritten, Mysql.CheckColumnAsWritten), every int or decimal column throws UnknownProperty('unsigned'), and a non-text default is modified on every run.
- Mysql.CheckColumn: corrected; uses the corrected Mysql.ColumnType and the corrected default comparison. As written (Mysql.ColumnTypeAsWritten, Mysql.ColumnDefinitionAsWritten, Mysql.CheckColumnAsWritten), every int or decimal column throws UnknownProperty('unsigned'), and a non-text default is modified on every run.
- Mysql.CheckColumnSettles: corrected; uses the corrected Mysql.ColumnType and the corrected default comparison. As written (Mysql.ColumnTypeAsWritten, Mysql.ColumnDefinitionAsWritten, Mysql.CheckColumnAsWritten), every int or decimal column throws UnknownProperty('unsigned'), and a non-text default is modified on every run.
- Mysql.ColumnClauses: corrected; uses the corrected Mysql.ColumnType and the corrected default comparison. As written (Mysql.ColumnTypeAsWritten, Mysql.ColumnDefinitionAsWritten, Mysql.CheckColumnAsWritten), every int or decimal column throws UnknownProperty('unsigned'), and a non-text default is modified on every run.
- Mysql.CreateClausesColumns: corrected; uses the corrected Mysql.ColumnType and the corrected default comparison. As written (Mysql.ColumnTypeAsWritten, Mysql.ColumnDefinitionAsWritten, Mysql.CheckColumnAsWritten), every int or decimal column throws UnknownProperty('unsigned'), and a non-text default is modified on every run.
- Mysql.DropPrimaries: corrected; uses the corrected Mysql.ColumnType and the corrected default comparison. As written (Mysql.ColumnTypeAsWritten, Mysql.ColumnDefinitionAsWritten, Mysql.CheckColumnAsWritten), every int or decimal column throws UnknownProperty('unsigned'), and a non-text default is modified on every run.
- Updater.ColumnChecks: corrected; uses the corrected Mysql.ColumnType and the corrected default comparison. As written (Mysql.ColumnTypeAsWritten, Mysql.ColumnDefinitionAsWritten, Mysql.CheckColumnAsWritten), every int or decimal column throws UnknownProperty('unsigned'), and a non-text default is modified on every run.
- Updater.CheckTable: corrected; uses the corrected Mysql.ColumnType and the corrected default comparison. As written (Mysql.ColumnTypeAsWritten, Mysql.ColumnDefinitionAsWritten, Mysql.CheckColumnAsWritten), every int or decimal column throws UnknownProperty('unsigned'), and a non-text default is modified on every run. It also takes each entity's data map to be the corrected Schema.DataMap. As written `data_map` is null (Schema.DataMapAsWrittenIsNull; classes/Model.php:177-181, 258), and `checkTable` hands that null to the backend, whose `checkConstraints` and `createTable` declare `array $map` (classes/Model/Backend/Mysql.php:100, 170), so PHP 7 raises a TypeError. Updater.Run as written therefore never gets past the first entity.
- Updater.CheckTableSettles: corrected; uses the corrected Mysql.ColumnType and the corrected default comparison. As written (Mysql.ColumnTypeAsWritten, Mysql.ColumnDefinitionAsWritten, Mysql.CheckColumnAsWritten), every int or decimal column throws UnknownProperty('unsigned'), and a non-text default is modified on every run.
- Updater.EntityChecks: corrected; uses the corrected Mysql.ColumnType and the corrected default comparison. As written (Mysql.ColumnTypeAsWritten, Mysql.ColumnDefinitionAsWritten, Mysql.CheckColumnAsWritten), every int or decimal column throws UnknownProperty('unsigned'), and a non-text default is modified on every run. It also takes each entity's data map to be the corrected Schema.DataMap. As written `data_map` is null (Schema.DataMapAsWrittenIsNull; classes/Model.php:177-181, 258), and `checkTable` hands that null to the backend, whose `checkConstraints` and `createTable` declare `array $map` (classes/Model/Backend/Mysql.php:100, 170), so PHP 7 raises a TypeError. Updater.Run as written therefore never gets past the first entity.
- Updater.Run: corrected; uses the corrected Mysql.ColumnType and the corrected default comparison. As written (Mysql.ColumnTypeAsWritten, Mysql.ColumnDefinitionAsWritten, Mysql.CheckColumnAsWritten), every int or decimal column throws UnknownProperty('unsigned'), and a non-text default is modified on every run. It also takes each entity's data map to be the corrected Schema.DataMap. As written `data_map` is null (Schema.DataMapAsWrittenIsNull; classes/Model.php:177-181, 258), and `checkTable` hands that null to the backend, whose `checkConstraints` and `createTable` declare `array $map` (classes/Model/Backend/Mysql.php:100, 170), so PHP 7 raises a TypeError. Updater.Run as written therefore never gets past the first entity.
- Updater.JunctionWritable: corrected; uses the null-default relation keys of Properties.RelationProperty and the corrected Mysql.ColumnType and the corrected default comparison. As written (Mysql.ColumnTypeAsWritten, Mysql.ColumnDefinitionAsWritten, Mysql.CheckColumnAsWritten), every int or decimal column throws UnknownProperty('unsigned'), and a non-text default is modified on every run. As written the keys have default `false` (Properties.MakeRelationPropertyAsWritten), and a float or double key renders a dangling "DEFAULT " (Mysql.RelationKeyDefinition). It also reads `primary_keys` off the corrected data map; as written that is `array_filter` over a null `data_map` (classes/Model.php:260-262).
- Updater.JunctionMap: corrected; uses the null-default relation keys of Properties.RelationProperty and the corrected Mysql.ColumnType and the corrected default comparison. As written (Mysql.ColumnTypeAsWritten, Mysql.ColumnDefinitionAsWritten, Mysql.CheckColumnAsWritten), every int or decimal column throws UnknownProperty('unsigned'), and a non-text default is modified on every run. As written the keys have default `false` (Properties.MakeRelationPropertyAsWritten), and a float or double key renders a dangling "DEFAULT " (Mysql.RelationKeyDefinition). It also reads `primary_keys` off the corrected data map; as written that is `array_filter` over a null `data_map` (classes/Model.php:260-262).
- Updater.JunctionMapSpec: corrected; uses the null-default relation keys of Properties.RelationProperty and the corrected Mysql.ColumnType and the corrected default comparison. As written (Mysql.ColumnTypeAsWritten, Mysql.ColumnDefinitionAsWritten, Mysql.CheckColumnAsWritten), every int or decimal column throws UnknownProperty('unsigned'), and a non-text default is modified on every run. As written the keys have default `false` (Properties.MakeRelationPropertyAsWritten), and a float or double key renders a dangling "DEFAULT " (Mysql.RelationKeyDefinition).
- Properties.RelationProperty: corrected; the key copy is nullable with a null default. As written its default is `false` (Properties.MakeRelationPropertyAsWritten, Findings row 3).
- Router.AddPaths: corrected; uses Router.Strip, which keeps the route "/". As written classes/Router.php:41 stores "" (Router.StripAsWritten, Router.RootRouteNeverMatches).
- Router.AddPathsStores: corrected; uses Router.Strip, which keeps the route "/". As written classes/Router.php:41 stores "" (Router.StripAsWritten, Router.RootRouteNeverMatches).
- Router.AddRouteStores: corrected; uses Router.Strip, which keeps the route "/". As written classes/Router.php:41 stores "" (Router.StripAsWritten, Router.RootRouteNeverMatches).
- RestRequest.OrderStep: corrected; uses the strict RestRequest.Direction. As written the loose `!=` of classes/REST/Request.php:144 also stores `true` and 0 (RestRequest.DirectionAsWritten, RestRequest.LooseDirectionAccepted).
- RestRequest.OrderAllStored: corrected; uses the strict RestRequest.Direction. As written the loose `!=` of classes/REST/Request.php:144 also stores `true` and 0 (RestRequest.DirectionAsWritten, RestRequest.LooseDirectionAccepted).
- Sanitizer.Sanitize: corrected; uses Sanitizer.Neutralise. As written "<<a" becomes "< <a", which still opens a tag (Sanitizer.NeutraliseAsWritten, Sanitizer.OverlapLeavesTag).
- Sanitizer.SanitizeSafe: corrected; uses Sanitizer.Neutralise. As written "<<a" becomes "< <a", which still opens a tag (Sanitizer.NeutraliseAsWritten, Sanitizer.OverlapLeavesTag).
- Constraints.New: corrected; files constraints by Constraints.Type, without the leading '\\'. As written `Required` is filed under "\\required" (Constraints.TypeAsWritten, Constraints.RequiredNotFound).
- Constraints.SetCollection: corrected; files constraints by Constraints.Type, without the leading '\\'. As written `Required` is filed under "\\required" (Constraints.TypeAsWritten, Constraints.RequiredNotFound).
- Properties.DeclaredType: a bare `type` flag is refused. The source stores the type `true` (classes/Model/Property.php:108-110), which passes `Type::isValue` because `true == "bool"` loosely; it then demands a size and builds a property whose type is `true`. Such a property, and a type outside the enumeration, are not modelled.
- Config.Evaluate: deferred values are evaluated to at most `fuel` levels of nesting; deeper nesting gives none. More fuel never changes a value found (Config.EvaluateMoreFuel), and enough fuel always settles (Config.EvaluateSettles).
- Properties.ValidIdent: the PCRE `$` before a final "\n" is not modelled; the names it tests are pieces of a white-space split and never end in "\n".
- Properties.ParseDecimalSize: the PCRE `$` before a final "\n" is not modelled, for the same reason as Properties.ValidIdent.
- Mysql.CreateTable: its own contract states only the frame of the statement. The clauses are stated by Mysql.CreateClausesColumns, Mysql.CreateClausesPrimary, Mysql.CreateClausesNoPrimary and Mysql.CreateTableIndexes.
- Router.Compile: regex metacharacters in a route other than `*` and `.` are read as literal characters.
- Queries.AggregateWithin: follows joins for at most `fuel` steps and gives None on a join cycle, where the source recurses without end.

- Schema.RelationTable: `sort` on the two table names compares them as text; PHP 7 compares two numeric strings numerically, which is not modelled. Table names are identifiers and are not numeric.
- Updater.SortedPair: `sort` on the two class names compares them as text; numeric strings would compare numerically in PHP 7, which is not modelled. Class names are never numeric.
- Autoloader.InFramework: PHP class names are case-insensitive, so a name whose first segment differs from `HereYouGo` only in case reaches a class the model does not find; names are compared exactly.
## Findings

| source | as written | input that shows it | evidently intended | confidence | as-written member | corrected member |
|---|---|---|---|---|---|---|
| classes/Enum.php:22-37 | one static `$values` serves every subclass, so the first enumeration asked fills it for all | ask `Type::isValue('int')`, then `IntSize::isValue('4')` | one cache per enumeration class | not executed | Enums.SharedCacheConfusesClasses | Enums.PerClassAnswersAgree |
| classes/Model.php:177-181 | `array_merge` with a group that was never filled returns null | `getDataMap(false)` on a fresh model whose `datamap` event returns an empty array | an unfilled group counts as empty | not executed | Schema.DataMapAsWrittenIsNull | Schema.DataMap |
| classes/Model/Property.php:278-289 | the relation-key copy is nullable with default `false` | any property given to `getRelationProperty` | a null default, as the constructor demands of a nullable property | not executed | Properties.RelationPropertyAsWrittenInvalid | Properties.RelationPropertyValid |
| classes/Form/Constraint.php:85-86 | a constraint's type keeps the leading '\\' | the class `HereYouGo\Form\Constraint\Required`, whose type comes out as "\\required" | "required", the name `has('required')` asks for | not executed | FieldSets.RequiredFieldSkipped | Constraints.AddConstraint |
| classes/Sanitizer.php:35 | a match consumes the character after '<', so a '<' right after another is not handled | "<<a" becomes "< <a" | no '<' directly followed by a non-space | not executed | Sanitizer.OverlapLeavesTag | Sanitizer.Neutralise |
| classes/Model/Query.php:68-70 | the check throws for keys that DO start with ':' | placeholders ":id" (refused) and "ab", "cb" (accepted, both scoped to ":User___b") | refuse keys that do not start with ':' | not executed | Queries.AsWrittenPlaceholdersCollide | Queries.IntendedPlaceholdersDistinct |
| classes/Model/Property.php:405-414 | `unsigned` is missing from the readable properties | `getColumnType` on any int or decimal property | `unsigned` readable, as the class's own doc comment declares it | not executed | Mysql.ColumnTypeAsWritten | Mysql.ColumnType |
| classes/Model/Backend/Mysql.php:74-76 | the database's default (a string) is compared strictly with the property's default | a bool column with default false, which the database reports as "0" | compare the defaults in the database's text form | not executed | Mysql.BoolColumnNeverSettles | Mysql.CheckColumnSettles |
| classes/REST/Request.php:144 | the direction test uses loose `!=` | `order={"name": true}` or `{"name": 0}` | only "ascending" and "descending" pass | not executed | RestRequest.LooseDirectionAccepted | RestRequest.OrderStoresDirections |
| classes/Router.php:41 | the trailing-'/' strip also turns the route "/" into "" | `addRoute('get', '/', …)`, then a request for "/" | keep "/" as it is | not executed | Router.RootRouteNeverMatches | Router.RootRouteMatches |
| classes/Event.php:131-136 | reading `name` returns the event's data | `$event->name` on the router's no_mathing_route event | return the event's name | not executed | Event.NameReadsData | Event.GetProperty |
| classes/Model.php:104-108 | the relation test reads the shared enumeration cache, which the first property parsed has filled with the type names | a model with any `@has` relation, once any property has been parsed | test against the relation kinds | not executed | Schema.DataMapAsWrittenRelationsBroken | Schema.DataMap |
| classes/REST/Response.php:169-171 | a download wraps the renderer in `RestFileDownload`, a class defined nowhere and not imported; the loader throws ClassNotFound, an `\Exception`, and the handler at lines 176-179 sends that exception again with the download flag still set, which throws again | the format "download:csv" with no callback | wrap the renderer in the download renderer | not executed | Response.DownloadSendFails | Response.SendIntended |
| classes/REST/Response.php:133-138 | `class_exists` on a renderer that is declared nowhere goes through the framework's loader, which throws ClassNotFound instead of answering false, so the fallback to JSON is never reached and the handler re-sends without end | the format "xml" with no callback | fall back to JSON with the format refusal, as the comment at line 136 says | not executed | Response.UnknownFormatDiverges | Response.RenderIntended |

=== FILE: assoc.dfy ===
/** Ordered associative arrays: PHP's `array` used as a map. Entries keep
    insertion order; assigning to an existing key replaces its value in place,
    assigning to a new key appends. */
module Assoc {
  import opened Errors

  function Keys<K, V>(m: seq<(K, V)>): (ks: seq<K>)
    ensures |ks| == |m|
    ensures forall i :: 0 <= i < |m| ==> ks[i] == m[i].0
  {
    if |m| == 0 then [] else [m[0].0] + Keys(m[1..])
  }

  function Values<K, V>(m: seq<(K, V)>): (vs: seq<V>)
    ensures |vs| == |m|
    ensures forall i :: 0 <= i < |m| ==> vs[i] == m[i].1
  {
    seq(|m|, i requires 0 <= i < |m| => m[i].1)
  }

  predicate HasKey<K(==), V>(m: seq<(K, V)>, k: K) {
    k in Keys(m)
  }

  /** No key occurs twice: every array the system builds has this shape. */
  predicate DistinctKeys<K(==), V>(m: seq<(K, V)>) {
    forall i, j :: 0 <= i < j < |m| ==> m[i].0 != m[j].0
  }

  /** `$m[$k]` when the key exists, else nothing. */
  function Get<K(==), V>(m: seq<(K, V)>, k: K): (r: Option<V>)
    ensures r.Some? <==> HasKey(m, k)
  {
    if |m| == 0 then None
    else if m[0].0 == k then Some(m[0].1)
    else
      var r := Get(m[1..], k);
      r
  }

  /** Keys of an array with one more entry in front. */
  lemma KeysCons<K, V>(x: (K, V), m: seq<(K, V)>)
    ensures Keys([x] + m) == [x.0] + Keys(m)
  {
    assert ([x] + m)[1..] == m;
  }

  /** Lookup in an array with one more entry in front. */
  lemma GetCons<K, V>(x: (K, V), m: seq<(K, V)>, k: K)
    ensures Get([x] + m, k) == if x.0 == k then Some(x.1) else Get(m, k)
  {
    assert ([x] + m)[1..] == m;
  }

  /** What assigning `k := v` into `m` gives, as observed through lookup
      and the key list. */
  ghost predicate Assigned<K(!new), V>(m: seq<(K, V)>, k: K, v: V, r: seq<(K, V)>) {
    && Get(r, k) == Some(v)
    && (forall k' :: k' != k ==> Get(r, k') == Get(m, k'))
    && (HasKey(m, k) ==> Keys(r) == Keys(m))
    && (!HasKey(m, k) ==> Keys(r) == Keys(m) + [k])
  }

  /** An entry in front of another key is carried along by assignment. */
  lemma AssignedCons<K(!new), V>(x: (K, V), tail: seq<(K, V)>, k: K, v: V, rest: seq<(K, V)>)
    requires x.0 != k && Assigned(tail, k, v, rest)
    ensures Assigned([x] + tail, k, v, [x] + rest)
  {
    KeysCons(x, rest);
    KeysCons(x, tail);
    forall k' ensures Get([x] + rest, k') == if x.0 == k' then Some(x.1) else Get(rest, k') {
      GetCons(x, rest, k');
    }
    forall k' ensures Get([x] + tail, k') == if x.0 == k' then Some(x.1) else Get(tail, k') {
      GetCons(x, tail, k');
    }
  }

  /** Replacing the front entry's value. */
  lemma AssignedFront<K(!new), V>(x: (K, V), tail: seq<(K, V)>, v: V)
    ensures Assigned([x] + tail, x.0, v, [(x.0, v)] + tail)
  {
    KeysCons(x, tail);
    KeysCons((x.0, v), tail);
    forall k' ensures Get([(x.0, v)] + tail, k') == if x.0 == k' then Some(v) else Get(tail, k') {
      GetCons((x.0, v), tail, k');
    }
    forall k' ensures Get([x] + tail, k') == if x.0 == k' then Some(x.1) else Get(tail, k') {
      GetCons(x, tail, k');
    }
  }

  /** `$m[$k] = $v`. */
  function Put<K(==,!new), V>(m: seq<(K, V)>, k: K, v: V): (r: seq<(K, V)>)
    ensures Get(r, k) == Some(v)
    ensures forall k' :: k' != k ==> Get(r, k') == Get(m, k')
    ensures HasKey(m, k) ==> Keys(r) == Keys(m)
    ensures !HasKey(m, k) ==> Keys(r) == Keys(m) + [k]
  {
    if |m| == 0 then [(k, v)]
    else
      var x, tail := m[0], m[1..];
      assert m == [x] + tail;
      if x.0 == k then
        AssignedFront(x, tail, v);
        [(k, v)] + tail
      else
        var rest := Put(tail, k, v);
        AssignedCons(x, tail, k, v, rest);
        [x] + rest
  }

  /** `unset($m[$k])`. */
  function Remove<K(==,!new), V>(m: seq<(K, V)>, k: K): (r: seq<(K, V)>)
    ensures !HasKey(r, k)
    ensures forall k' :: k' != k ==> Get(r, k') == Get(m, k')
    ensures |r| <= |m|
  {
    if |m| == 0 then []
    else if m[0].0 == k then Remove(m[1..], k)
    else
      var rest := Remove(m[1..], k);
      var r := [m[0]] + rest;
      assert r[0] == m[0] && r[1..] == rest;
      r
  }

  /** Assigning past a front entry of another key. */
  lemma PutCons<K(!new), V>(x: (K, V), tail: seq<(K, V)>, k: K, v: V)
    requires x.0 != k
    ensures Put([x] + tail, k, v) == [x] + Put(tail, k, v)
  {
    assert ([x] + tail)[0] == x && ([x] + tail)[1..] == tail;
  }

  /** Assigning a new key appends it. */
  lemma {:induction false} PutAbsent<K(!new), V>(m: seq<(K, V)>, k: K, v: V)
    requires !HasKey(m, k)
    ensures Put(m, k, v) == m + [(k, v)]
  {
    if |m| > 0 {
      var x, tail := m[0], m[1..];
      assert m == [x] + tail;
      KeysCons(x, tail);
      PutCons(x, tail, k, v);
      PutAbsent(tail, k, v);
      ConsAssoc(x, tail, [(k, v)]);
    }
  }

  lemma ConsAssoc<T>(x: T, a: seq<T>, b: seq<T>)
    ensures [x] + (a + b) == ([x] + a) + b
  {
  }

  lemma SeqAssoc<T>(a: seq<T>, b: seq<T>, c: seq<T>)
    ensures a + (b + c) == (a + b) + c
  {
  }

  lemma AfterPrefix<T>(a: seq<T>, b: seq<T>)
    ensures (a + b)[|a|..] == b
  {
  }

  lemma PutKeepsDistinct<K(!new), V>(m: seq<(K, V)>, k: K, v: V)
    requires DistinctKeys(m)
    ensures DistinctKeys(Put(m, k, v))
  {
    var r := Put(m, k, v);
    var ks, ms := Keys(r), Keys(m);
    forall i, j | 0 <= i < j < |r|
      ensures r[i].0 != r[j].0
    {
      assert r[i].0 == ks[i] && r[j].0 == ks[j];
      if j < |m| {
        assert ks[i] == ms[i] && ks[j] == ms[j] by {
          if !HasKey(m, k) {
            assert ks == ms + [k];
          }
        }
        assert ms[i] == m[i].0 && ms[j] == m[j].0;
      } else {
        assert !HasKey(m, k) && ks == ms + [k];
        assert ks[i] == ms[i] && ks[j] == k;
      }
    }
  }

  lemma {:induction false} RemoveKeepsDistinct<K(!new), V>(m: seq<(K, V)>, k: K)
    requires DistinctKeys(m)
    ensures DistinctKeys(Remove(m, k))
  {
    if |m| == 0 {
    } else if m[0].0 == k {
      RemoveKeepsDistinct(m[1..], k);
    } else {
      RemoveKeepsDistinct(m[1..], k);
      var rest := Remove(m[1..], k);
      forall j | 0 <= j < |rest|
        ensures rest[j].0 != m[0].0
      {
        RemoveSubset(m[1..], k, j);
        assert m[0].0 !in Keys(m[1..]);
      }
    }
  }

  lemma RemoveSubset<K(!new), V>(m: seq<(K, V)>, k: K, j: nat)
    requires j < |Remove(m, k)|
    ensures Remove(m, k)[j].0 in Keys(m)
  {
    var r := Remove(m, k);
    var k' := r[j].0;
    assert Keys(r)[j] == k';
    assert Get(r, k').Some? && k' != k;
    assert Get(m, k').Some?;
  }

  /** Assigning a key the value it already has changes nothing. */
  lemma {:induction false} PutSame<K(!new), V>(m: seq<(K, V)>, k: K)
    requires HasKey(m, k)
    ensures Put(m, k, Get(m, k).value) == m
  {
    if m[0].0 != k {
      assert Keys(m) == [m[0].0] + Keys(m[1..]);
      PutSame(m[1..], k);
      assert [m[0]] + m[1..] == m;
    } else {
      assert [(k, m[0].1)] + m[1..] == m;
    }
  }

  /** Under distinct keys, the entry at position i is what `Get` finds. */
  lemma {:induction false} GetAt<K, V>(m: seq<(K, V)>, i: nat)
    requires DistinctKeys(m) && i < |m|
    ensures Get(m, m[i].0) == Some(m[i].1)
  {
    if i > 0 {
      GetAt(m[1..], i - 1);
    }
  }

  /** A found value is one of the array's values. */
  lemma {:induction false} GetInValues<K, V>(m: seq<(K, V)>, k: K)
    ensures Get(m, k).Some? ==> Get(m, k).value in Values(m)
  {
    if |m| > 0 && m[0].0 != k {
      GetInValues(m[1..], k);
      assert Values(m[1..]) == Values(m)[1..];
    }
  }

  /** A found entry sits at some position. */
  lemma {:induction false} GetSomeAt<K, V>(m: seq<(K, V)>, k: K) returns (i: nat)
    requires Get(m, k).Some?
    ensures i < |m| && m[i].0 == k && m[i].1 == Get(m, k).value
  {
    if m[0].0 == k {
      i := 0;
    } else {
      var j := GetSomeAt(m[1..], k);
      i := j + 1;
    }
  }

  /** `array_merge($a, $b)` for string keys: each entry of `b` in turn is
      assigned into `a`, replacing in place or appending. */
  function Update<K(==,!new), V>(a: seq<(K, V)>, b: seq<(K, V)>): (r: seq<(K, V)>)
    requires DistinctKeys(b)
    ensures forall k :: Get(r, k) == (if HasKey(b, k) then Get(b, k) else Get(a, k))
    decreases |b|
  {
    if |b| == 0 then a
    else
      var r := Update(Put(a, b[0].0, b[0].1), b[1..]);
      assert forall k :: HasKey(b, k) <==> k == b[0].0 || HasKey(b[1..], k) by {
        assert Keys(b) == [b[0].0] + Keys(b[1..]);
      }
      r
  }

  /** `array_merge` of arrays with no key in common appends. */
  lemma {:induction false} UpdateDisjoint<K(!new), V>(a: seq<(K, V)>, b: seq<(K, V)>)
    requires DistinctKeys(b)
    requires forall i :: 0 <= i < |b| ==> !HasKey(a, b[i].0)
    ensures Update(a, b) == a + b
    decreases |b|
  {
    if |b| > 0 {
      var a' := Put(a, b[0].0, b[0].1);
      assert Update(a, b) == Update(a', b[1..]);
      PutAbsent(a, b[0].0, b[0].1);
      DisjointTail(a, b);
      UpdateDisjoint(a', b[1..]);
      Concat(a, b);
    }
  }

  lemma Concat<T>(a: seq<T>, b: seq<T>)
    requires |b| > 0
    ensures (a + [b[0]]) + b[1..] == a + b
  {
  }

  lemma DisjointTail<K(!new), V>(a: seq<(K, V)>, b: seq<(K, V)>)
    requires |b| > 0 && DistinctKeys(b)
    requires forall i :: 0 <= i < |b| ==> !HasKey(a, b[i].0)
    ensures DistinctKeys(b[1..])
    ensures forall i :: 0 <= i < |b| - 1 ==> !HasKey(a + [b[0]], b[1..][i].0)
  {
    assert Keys(a + [b[0]]) == Keys(a) + [b[0].0];
    forall i | 0 <= i < |b| - 1
      ensures !HasKey(a + [b[0]], b[1..][i].0)
    {
      assert b[1..][i] == b[i + 1];
    }
  }

  /** Assigning keeps the keys already there in place. */
  lemma PutKeepsPrefix<K(!new), V>(m: seq<(K, V)>, k: K, v: V)
    ensures |Put(m, k, v)| >= |m| && Keys(Put(m, k, v))[..|m|] == Keys(m)
  {
    if !HasKey(m, k) {
      assert Keys(Put(m, k, v)) == Keys(m) + [k];
    }
  }

  lemma DistinctTail<K, V>(b: seq<(K, V)>)
    requires |b| > 0 && DistinctKeys(b)
    ensures DistinctKeys(b[1..])
  {
    forall i, j | 0 <= i < j < |b| - 1
      ensures b[1..][i].0 != b[1..][j].0
    {
      assert b[1..][i] == b[i + 1] && b[1..][j] == b[j + 1];
    }
  }

  lemma PrefixOfPrefix<T>(s: seq<T>, t: seq<T>, n: nat)
    requires n <= |t| <= |s| && s[..|t|] == t
    ensures s[..n] == t[..n]
  {
    assert s[..n] == s[..|t|][..n];
  }

  /** `array_merge` keeps the keys of its first argument where they were. */
  lemma {:induction false} UpdateKeepsPrefix<K(!new), V>(a: seq<(K, V)>, b: seq<(K, V)>)
    requires DistinctKeys(b)
    ensures |Update(a, b)| >= |a| && Keys(Update(a, b))[..|a|] == Keys(a)
    decreases |b|
  {
    if |b| > 0 {
      var a' := Put(a, b[0].0, b[0].1);
      PutKeepsPrefix(a, b[0].0, b[0].1);
      DistinctTail(b);
      UpdateKeepsPrefix(a', b[1..]);
      PrefixOfPrefix(Keys(Update(a', b[1..])), Keys(a'), |a|);
    }
  }

  lemma {:induction false} UpdateKeepsDistinct<K(!new), V>(a: seq<(K, V)>, b: seq<(K, V)>)
    requires DistinctKeys(a) && DistinctKeys(b)
    ensures DistinctKeys(Update(a, b))
    decreases |b|
  {
    if |b| > 0 {
      PutKeepsDistinct(a, b[0].0, b[0].1);
      UpdateKeepsDistinct(Put(a, b[0].0, b[0].1), b[1..]);
    }
  }
}

=== FILE: autoload.dfy ===
/** `HereYouGo\Autoloader`: the class loader the framework registers with
    the engine. A name in the framework's namespace must resolve to a class
    its file declares, or loading it throws `ClassNotFound`; any other name
    is declined. Because the loader is registered, `class_exists` and `new`
    on a missing framework class throw instead of answering false. */
module Autoloader {
  import opened Errors

  /** `explode('\\', $class)[0] === 'HereYouGo'`: the first namespace
      segment is the framework's. */
  predicate InFramework(cls: string) {
    cls == "HereYouGo" || (|cls| >= 10 && cls[..10] == "HereYouGo\\")
  }

  /** A name under a namespace of the framework belongs to it. */
  lemma NamespacedInFramework(ns: string, rest: string)
    requires |ns| >= 10 && ns[..10] == "HereYouGo\\"
    ensures InFramework(ns + rest)
  {
    assert (ns + rest)[..10] == ns[..10];
  }

  /** The loader's memory: true for a class it loaded, false for a name it
      declined quietly (`$critical` off). */
  datatype Known = Known(classes: map<string, bool>)

  /** `Autoloader::find($class, $critical)`. `defines` says whether the
      class's file exists and declares the class. */
  function Find(k: Known, cls: string, critical: bool, defines: bool): (r: (Result<bool>, Known))
    ensures r.0.Err? ==> critical && r.0.error == ClassNotFound(cls) && r.1 == k
    ensures cls !in k.classes && !InFramework(cls) ==> r == (Ok(false), k)
    ensures forall c :: c != cls ==> (c in r.1.classes <==> c in k.classes)
    ensures forall c :: c in k.classes ==> c in r.1.classes && r.1.classes[c] == k.classes[c]
  {
    if cls in k.classes then
      if !k.classes[cls] && critical then (Err(ClassNotFound(cls)), k)
      else (Ok(k.classes[cls]), k)
    else if !InFramework(cls) then (Ok(false), k)
    else if defines then (Ok(true), Known(k.classes[cls := true]))
    else if critical then (Err(ClassNotFound(cls)), k)
    else (Ok(false), Known(k.classes[cls := false]))
  }

  /** Only framework names are remembered, each with the truth about its
      class's file. */
  predicate Faithful(k: Known, defines: string -> bool) {
    forall c :: c in k.classes ==> InFramework(c) && k.classes[c] == defines(c)
  }

  /** What a lookup answers, memory aside: a framework class is found when
      its file declares it, and is otherwise ClassNotFound when the lookup
      is critical; any other name is not found. */
  function Answer(cls: string, critical: bool, defines: bool): (r: Result<bool>)
    ensures r.Err? <==> critical && InFramework(cls) && !defines
    ensures r.Ok? ==> r.value == (InFramework(cls) && defines)
  {
    if !InFramework(cls) then Ok(false)
    else if defines then Ok(true)
    else if critical then Err(ClassNotFound(cls))
    else Ok(false)
  }

  /** A faithful memory never changes an answer, and stays faithful: the
      cache only saves work. */
  lemma FindFaithful(k: Known, cls: string, critical: bool, defines: string -> bool)
    requires Faithful(k, defines)
    ensures Find(k, cls, critical, defines(cls)).0 == Answer(cls, critical, defines(cls))
    ensures Faithful(Find(k, cls, critical, defines(cls)).1, defines)
  {
  }

  /** `Autoloader::exists($class)`: a quiet lookup, which never throws. */
  function Exists(k: Known, cls: string, defines: bool): (r: (bool, Known))
    ensures cls !in k.classes && !InFramework(cls) ==> !r.0
  {
    var (found, k') := Find(k, cls, false, defines);
    (found.Ok? && found.value, k')
  }

  /** With a faithful memory, `exists` says whether the framework class's
      file declares it. */
  lemma ExistsFaithful(k: Known, cls: string, defines: string -> bool)
    requires Faithful(k, defines)
    ensures Exists(k, cls, defines(cls)).0 == (InFramework(cls) && defines(cls))
    ensures Faithful(Exists(k, cls, defines(cls)).1, defines)
  {
    FindFaithful(k, cls, false, defines);
  }

  /** `class_exists($class)` with the loader registered: a declared class
      exists; an undeclared framework class makes the loader throw
      ClassNotFound; an undeclared foreign class does not exist. */
  function ClassExists(cls: string, declared: bool): (r: Result<bool>)
    ensures r.Ok? <==> declared || !InFramework(cls)
    ensures r.Ok? ==> r.value == declared
    ensures r.Err? ==> r.error == ClassNotFound(cls)
  {
    if declared then Ok(true) else Answer(cls, true, false)
  }

  /** For a class the engine has not loaded yet, `class_exists` is the
      critical lookup through a faithful memory. */
  lemma ClassExistsLoads(k: Known, cls: string, defines: string -> bool)
    requires Faithful(k, defines)
    ensures ClassExists(cls, InFramework(cls) && defines(cls)) == Find(k, cls, true, defines(cls)).0
  {
    FindFaithful(k, cls, true, defines);
  }
}

=== FILE: config.dfy ===
/** `Config`: the settings array, loaded once from the protected settings
    with whitelisted overrides mixed in, and read by dotted key; deferred
    settings are evaluated when read and stored back evaluated. */
module Config {
  import opened Errors
  import opened Strs
  import opened Php
  import Assoc

  const DeferredClass := "HereYouGo\\Config\\Deferred"

  /** A setting whose value is computed when it is first read. */
  predicate IsDeferred(v: Value) { v.Object? && v.cls == DeferredClass }

  /** A value with no deferred setting anywhere inside. */
  predicate Plain(v: Value) {
    !IsDeferred(v) && (v.Arr? ==> forall i :: 0 <= i < |v.items| ==> Plain(v.items[i].1))
  }

  /** No deferred setting computes another deferred setting directly (one
      inside an array it computes is fine). */
  ghost predicate NoDeferredResults(eval: nat -> Value) {
    forall id: nat :: !IsDeferred(eval(id))
  }

  /** `evaluate(&$conf)`: a deferred setting is replaced by what it
      computes, once, so a deferred it computes stays deferred; the value
      is then, when an array, evaluated entry by entry. `eval` gives what
      each deferred setting computes, by identity. `fuel` bounds how many
      deferred settings are evaluated one inside another's result: None
      when it runs out, which the source meets as unbounded recursion when
      a deferred setting computes an array that holds itself. */
  function Evaluate(v: Value, eval: nat -> Value, fuel: nat): (r: Option<Value>)
    ensures !IsDeferred(v) && !v.Arr? ==> r == Some(v)
    ensures IsDeferred(v) && fuel == 0 ==> r.None?
    ensures IsDeferred(v) && fuel > 0 && !eval(v.id).Arr? ==> r == Some(eval(v.id))
    ensures r.Some? && v.Arr? ==> r.value.Arr? && Assoc.Keys(r.value.items) == Assoc.Keys(v.items)
    ensures r.Some? && IsDeferred(v) && eval(v.id).Arr? ==>
      r.value.Arr? && Assoc.Keys(r.value.items) == Assoc.Keys(eval(v.id).items)
    decreases fuel, v, 1
  {
    if IsDeferred(v) then (if fuel == 0 then None else Descend(eval(v.id), eval, fuel - 1))
    else Descend(v, eval, fuel)
  }

  /** The second half of `evaluate`: an array has every entry evaluated,
      and fails when one of them does; anything else stays. */
  function Descend(w: Value, eval: nat -> Value, fuel: nat): (r: Option<Value>)
    ensures !w.Arr? ==> r == Some(w)
    ensures r.Some? && w.Arr? ==> r.value.Arr? && Assoc.Keys(r.value.items) == Assoc.Keys(w.items)
    decreases fuel, w, 0
  {
    if !w.Arr? then Some(w)
    else if forall i :: 0 <= i < |w.items| ==> Evaluate(w.items[i].1, eval, fuel).Some? then
      var items := seq(|w.items|, i requires 0 <= i < |w.items| => (w.items[i].0, Evaluate(w.items[i].1, eval, fuel).value));
      assert Assoc.Keys(items) == Assoc.Keys(w.items);
      Some(Arr(items))
    else None
  }

  /** A plain value evaluates to itself, whatever the bound. */
  lemma {:induction false} EvaluatePlain(v: Value, eval: nat -> Value, fuel: nat)
    requires Plain(v)
    ensures Evaluate(v, eval, fuel) == Some(v)
    decreases v
  {
    if v.Arr? {
      forall i | 0 <= i < |v.items|
        ensures Evaluate(v.items[i].1, eval, fuel) == Some(v.items[i].1)
      {
        EvaluatePlain(v.items[i].1, eval, fuel);
      }
      assert Evaluate(v, eval, fuel) == Descend(v, eval, fuel);
      assert Descend(v, eval, fuel).Some?;
      assert Evaluate(v, eval, fuel).value.items == v.items;
    }
  }

  /** More fuel changes nothing once the evaluation finishes. */
  lemma {:induction false} EvaluateMoreFuel(v: Value, eval: nat -> Value, fuel: nat, more: nat)
    requires Evaluate(v, eval, fuel).Some? && fuel <= more
    ensures Evaluate(v, eval, more) == Evaluate(v, eval, fuel)
    decreases fuel, v, 2
  {
    if IsDeferred(v) {
      DeferredMoreFuel(v, eval, fuel, more);
    } else {
      EvaluateStep(v, eval, fuel);
      EvaluateStep(v, eval, more);
      DescendMoreFuel(v, eval, fuel, more);
    }
  }

  lemma {:induction false} DeferredMoreFuel(v: Value, eval: nat -> Value, fuel: nat, more: nat)
    requires IsDeferred(v) && Evaluate(v, eval, fuel).Some? && fuel <= more
    ensures Evaluate(v, eval, more) == Evaluate(v, eval, fuel)
    decreases fuel, v, 1
  {
    var w := eval(v.id);
    var f := DeferredFuel(v, eval, fuel);
    assert Descend(w, eval, more - 1) == Descend(w, eval, f) by {
      DescendMoreFuel(w, eval, f, more - 1);
    }
    DeferredUnfold(v, eval, more - 1);
  }

  /** A deferred setting that finishes had fuel left: its result is the
      evaluation of what it computes, with one less. */
  lemma DeferredFuel(v: Value, eval: nat -> Value, fuel: nat) returns (f: nat)
    requires IsDeferred(v) && Evaluate(v, eval, fuel).Some?
    ensures f + 1 == fuel && Evaluate(v, eval, fuel) == Descend(eval(v.id), eval, f)
  {
    f := fuel - 1;
  }

  /** With fuel left, a deferred setting evaluates what it computes. */
  lemma DeferredUnfold(v: Value, eval: nat -> Value, f: nat)
    requires IsDeferred(v)
    ensures Evaluate(v, eval, f + 1) == Descend(eval(v.id), eval, f)
  {
  }

  lemma {:induction false} DescendMoreFuel(w: Value, eval: nat -> Value, fuel: nat, more: nat)
    requires Descend(w, eval, fuel).Some? && fuel <= more
    ensures Descend(w, eval, more) == Descend(w, eval, fuel)
    decreases fuel, w, 0
  {
    if w.Arr? {
      forall i | 0 <= i < |w.items|
        ensures Evaluate(w.items[i].1, eval, more) == Evaluate(w.items[i].1, eval, fuel)
      {
        EvaluateMoreFuel(w.items[i].1, eval, fuel, more);
      }
      assert Descend(w, eval, more).value.items == Descend(w, eval, fuel).value.items;
    }
  }

  /** One step of `evaluate`, by the cases of its body. */
  lemma EvaluateStep(v: Value, eval: nat -> Value, fuel: nat)
    ensures IsDeferred(v) && fuel == 0 ==> Evaluate(v, eval, fuel).None?
    ensures IsDeferred(v) && fuel > 0 ==> Evaluate(v, eval, fuel) == Descend(eval(v.id), eval, fuel - 1)
    ensures !IsDeferred(v) ==> Evaluate(v, eval, fuel) == Descend(v, eval, fuel)
  {
  }

  /** When no deferred setting computes another one directly, an
      evaluation that finishes leaves no deferred setting anywhere. */
  lemma {:induction false} EvaluateSettles(v: Value, eval: nat -> Value, fuel: nat)
    requires NoDeferredResults(eval) && Evaluate(v, eval, fuel).Some?
    ensures Plain(Evaluate(v, eval, fuel).value)
    decreases fuel, v, 1
  {
    if IsDeferred(v) {
      var f := DeferredFuel(v, eval, fuel);
      var w := eval(v.id);
      assert !IsDeferred(w);
      DescendSettles(w, eval, f);
    } else {
      EvaluateStep(v, eval, fuel);
      DescendSettles(v, eval, fuel);
    }
  }

  lemma {:induction false} DescendSettles(w: Value, eval: nat -> Value, fuel: nat)
    requires NoDeferredResults(eval) && Descend(w, eval, fuel).Some?
    requires w.Arr? || !IsDeferred(w)
    ensures Plain(Descend(w, eval, fuel).value)
    decreases fuel, w, 0
  {
    if w.Arr? {
      var r := Descend(w, eval, fuel).value;
      forall i | 0 <= i < |r.items|
        ensures Plain(r.items[i].1)
      {
        EvaluateSettles(w.items[i].1, eval, fuel);
      }
    }
  }

  /** When no deferred setting computes another one directly, evaluating
      twice is evaluating once. */
  lemma EvaluateIdempotent(v: Value, eval: nat -> Value, fuel: nat, again: nat)
    requires NoDeferredResults(eval) && Evaluate(v, eval, fuel).Some?
    ensures Evaluate(Evaluate(v, eval, fuel).value, eval, again) == Evaluate(v, eval, fuel)
  {
    EvaluateSettles(v, eval, fuel);
    EvaluatePlain(Evaluate(v, eval, fuel).value, eval, again);
  }

  /** A deferred setting that computes another one is evaluated once: the
      result is still deferred, and evaluating it again goes one further. */
  lemma DeferredOfDeferred(eval: nat -> Value)
    requires eval(0) == Object(DeferredClass, 1) && eval(1) == Int(5)
    ensures Evaluate(Object(DeferredClass, 0), eval, 1) == Some(Object(DeferredClass, 1))
    ensures Evaluate(Object(DeferredClass, 1), eval, 1) == Some(Int(5))
  {
  }

  // ---- Walking a dotted key ----

  /** The value at the end of a key path, if every key is there. */
  function Reach(conf: Value, path: seq<Key>): (r: Option<Value>)
    decreases |path|
  {
    if |path| == 0 then Some(conf)
    else
      match Lookup(conf, path[0])
      case None => None
      case Some(sub) => Reach(sub, path[1..])
  }

  /** The keys `get` follows for the segments of a dotted key: up to the
      first '*', or None at the first segment the array reached lacks. */
  function Walk(conf: Value, bits: seq<string>): (r: Option<seq<Key>>)
    ensures r.Some? ==> Reach(conf, r.value).Some?
    decreases |bits|
  {
    if |bits| == 0 || bits[0] == "*" then Some([])
    else
      var k := KeyOfString(bits[0]);
      match Lookup(conf, k)
      case None => None
      case Some(sub) =>
        match Walk(sub, bits[1..])
        case None => None
        case Some(p) =>
          assert ([k] + p)[1..] == p;
          Some([k] + p)
  }

  /** Where the walk stops: at the first '*', else after the last segment. */
  function Stop(bits: seq<string>): (n: nat)
    ensures n <= |bits| && (n < |bits| ==> bits[n] == "*")
    ensures forall i :: 0 <= i < n ==> bits[i] != "*"
  {
    if |bits| == 0 || bits[0] == "*" then 0 else 1 + Stop(bits[1..])
  }

  function KeysOf(bits: seq<string>): (ks: seq<Key>)
    ensures |ks| == |bits| && forall i :: 0 <= i < |bits| ==> ks[i] == KeyOfString(bits[i])
  {
    seq(|bits|, i requires 0 <= i < |bits| => KeyOfString(bits[i]))
  }

  /** The walk follows the segments before the first '*' as array keys, and
      fails exactly when one of them is missing. */
  lemma {:induction false} WalkIsReach(conf: Value, bits: seq<string>)
    ensures Walk(conf, bits) == (if Reach(conf, KeysOf(bits[..Stop(bits)])).Some?
      then Some(KeysOf(bits[..Stop(bits)])) else None)
    decreases |bits|
  {
    if |bits| == 0 || bits[0] == "*" {
      assert KeysOf(bits[..Stop(bits)]) == [];
    } else {
      var k := KeyOfString(bits[0]);
      var ks := KeysOf(bits[..Stop(bits)]);
      assert Stop(bits) == 1 + Stop(bits[1..]);
      assert bits[..Stop(bits)][1..] == bits[1..][..Stop(bits[1..])];
      assert ks[0] == k && ks[1..] == KeysOf(bits[1..][..Stop(bits[1..])]);
      match Lookup(conf, k)
      case None =>
      case Some(sub) =>
        WalkIsReach(sub, bits[1..]);
        assert [k] + ks[1..] == ks;
    }
  }

  /** The settings with the value at the end of a key path replaced. */
  function SetAt(conf: Value, path: seq<Key>, v: Value): (r: Value)
    ensures Reach(conf, path).None? ==> r == conf
    ensures |path| > 0 && Reach(conf, path).Some? ==> r.Arr? && Assoc.Keys(r.items) == Assoc.Keys(conf.items)
    decreases |path|
  {
    if |path| == 0 then v
    else
      match Lookup(conf, path[0])
      case None => conf
      case Some(sub) =>
        var r := Arr(Assoc.Put(conf.items, path[0], SetAt(sub, path[1..], v)));
        if Reach(sub, path[1..]).None? then
          Assoc.PutSame(conf.items, path[0]);
          r
        else r
  }

  /** After the replacement the path leads to the new value. */
  lemma {:induction false} ReachSetAt(conf: Value, path: seq<Key>, v: Value)
    requires Reach(conf, path).Some?
    ensures Reach(SetAt(conf, path, v), path) == Some(v)
    decreases |path|
  {
    if |path| > 0 {
      ReachSetAt(Lookup(conf, path[0]).value, path[1..], v);
    }
  }

  /** Replacing a value by itself changes nothing. */
  lemma {:induction false} SetAtSame(conf: Value, path: seq<Key>)
    requires Reach(conf, path).Some?
    ensures SetAt(conf, path, Reach(conf, path).value) == conf
    decreases |path|
  {
    if |path| > 0 {
      var sub := Lookup(conf, path[0]).value;
      SetAtSame(sub, path[1..]);
      Assoc.PutSame(conf.items, path[0]);
    }
  }

  /** The walk only looks at the keys on its way, so it takes the same
      path once the value at its end is replaced. */
  lemma {:induction false} WalkSetAt(conf: Value, bits: seq<string>, v: Value)
    requires Walk(conf, bits).Some?
    ensures Walk(SetAt(conf, Walk(conf, bits).value, v), bits) == Walk(conf, bits)
    decreases |bits|
  {
    if !(|bits| == 0 || bits[0] == "*") {
      var k := KeyOfString(bits[0]);
      var sub := Lookup(conf, k).value;
      var p := Walk(sub, bits[1..]).value;
      assert Walk(conf, bits).value == [k] + p;
      assert ([k] + p)[1..] == p;
      WalkSetAt(sub, bits[1..], v);
    }
  }

  // ---- Loading ----

  /** What loading reads: the array the protected settings file builds, and
      the decoded overrides file (None when there is none). */
  datatype Sources = Sources(protected: Value, overrides: Option<Value>)

  /** The loaded settings; empty until the first load. */
  datatype State = State(params: Value)

  const Initial := State(Arr([]))

  /** `array_key_exists($key, …)` for an entry of the whitelist: strings are
      normalised, null stands for "", other values are no key at all. */
  function KeyOfValue(v: Value): (r: Option<Key>)
    ensures v.Str? ==> r == Some(KeyOfString(v.s))
    ensures v.Int? ==> r == Some(IntKey(v.i))
    ensures v.Null? ==> r == Some(StrKey(""))
    ensures r.Some? ==> v.Str? || v.Int? || v.Null?
  {
    match v
    case Str(s) => Some(KeyOfString(s))
    case Int(i) => Some(IntKey(i))
    case Null => Some(StrKey(""))
    case _ => None
  }

  /** The whitelist walked in order: each listed key present among the
      overrides takes the override's value. */
  function ApplyOverrides(params: seq<(Key, Value)>, allowed: seq<Value>, overrides: seq<(Key, Value)>): seq<(Key, Value)>
    decreases |allowed|
  {
    if |allowed| == 0 then params
    else
      var pre := ApplyOverrides(params, allowed[..|allowed| - 1], overrides);
      match KeyOfValue(allowed[|allowed| - 1])
      case Some(k) => if Assoc.HasKey(overrides, k) then Assoc.Put(pre, k, Assoc.Get(overrides, k).value) else pre
      case None => pre
  }

  /** Is the key listed in the whitelist? */
  predicate Listed(k: Key, allowed: seq<Value>) {
    exists i :: 0 <= i < |allowed| && KeyOfValue(allowed[i]) == Some(k)
  }

  /** A key takes the override's value exactly when it is whitelisted and
      overridden; every other key keeps the protected value. */
  lemma {:induction false} OverridesApplied(params: seq<(Key, Value)>, allowed: seq<Value>, overrides: seq<(Key, Value)>, k: Key)
    ensures Assoc.Get(ApplyOverrides(params, allowed, overrides), k) ==
      (if Listed(k, allowed) && Assoc.HasKey(overrides, k) then Assoc.Get(overrides, k) else Assoc.Get(params, k))
    decreases |allowed|
  {
    if |allowed| > 0 {
      var pre := allowed[..|allowed| - 1];
      OverridesApplied(params, pre, overrides, k);
      assert forall i :: 0 <= i < |pre| ==> pre[i] == allowed[i];
      if Listed(k, allowed) && !Listed(k, pre) {
        assert KeyOfValue(allowed[|allowed| - 1]) == Some(k);
      }
      if Listed(k, pre) {
        var i :| 0 <= i < |pre| && KeyOfValue(pre[i]) == Some(k);
        assert KeyOfValue(allowed[i]) == Some(k);
      }
    }
  }

  /** The whitelist `load` applies: the protected `allowed_overrides`
      entry, when it is a non-empty array. */
  function Whitelist(params: Value): (r: Option<seq<Value>>)
    ensures r.Some? ==> params.Arr?
  {
    match Lookup(params, StrKey("allowed_overrides"))
    case Some(allowed) => if Truthy(allowed) && allowed.Arr? then Some(Assoc.Values(allowed.items)) else None
    case None => None
  }

  /** The overrides `load` reads: the decoded file when it is an array,
      else none. */
  function OverrideEntries(overrides: Option<Value>): (r: seq<(Key, Value)>)
    ensures overrides.Some? && overrides.value.Arr? ==> r == overrides.value.items
    ensures !(overrides.Some? && overrides.value.Arr?) ==> r == []
  {
    match overrides
    case Some(Arr(items)) => items
    case _ => []
  }

  /** `load($force_reload)`: settings already loaded (non-empty) are kept
      unless forced; otherwise they are rebuilt from the protected settings
      with the whitelisted overrides applied. */
  function Load(st: State, force: bool, src: Sources): (r: State)
    ensures Truthy(st.params) && !force ==> r == st
    ensures !(Truthy(st.params) && !force) && Whitelist(src.protected).None? ==> r.params == src.protected
  {
    if Truthy(st.params) && !force then st
    else
      match Whitelist(src.protected)
      case None => State(src.protected)
      case Some(allowed) => State(Arr(ApplyOverrides(src.protected.items, allowed, OverrideEntries(src.overrides))))
  }

  /** A fresh load reads only its sources: what was loaded before does not
      matter, and every key holds the whitelisted override or else the
      protected value. */
  lemma LoadFresh(st: State, force: bool, src: Sources, k: Key)
    requires !(Truthy(st.params) && !force)
    ensures Load(st, force, src) == Load(Initial, false, src)
    ensures Whitelist(src.protected).Some? ==> (Lookup(Load(st, force, src).params, k) ==
      if Listed(k, Whitelist(src.protected).value) && Assoc.HasKey(OverrideEntries(src.overrides), k)
      then Assoc.Get(OverrideEntries(src.overrides), k)
      else Lookup(src.protected, k))
  {
    if Whitelist(src.protected).Some? {
      OverridesApplied(src.protected.items, Whitelist(src.protected).value, OverrideEntries(src.overrides), k);
    }
  }

  // ---- Reading ----

  /** `get($key)`: load, walk the '.'-separated segments, and return the
      evaluated value reached (null when a segment is missing); the
      evaluated value is stored back in place. None when the evaluation
      does not finish within `fuel`. */
  function Get(st: State, src: Sources, key: string, eval: nat -> Value, fuel: nat): (r: Option<(Value, State)>)
    ensures Walk(Load(st, false, src).params, Split(key, '.')).None? ==> r == Some((Null, Load(st, false, src)))
    ensures r.Some? && NoDeferredResults(eval) ==> Plain(r.value.0)
  {
    var loaded := Load(st, false, src).params;
    match Walk(loaded, Split(key, '.'))
    case None => Some((Null, State(loaded)))
    case Some(p) =>
      match Evaluate(Reach(loaded, p).value, eval, fuel)
      case None => None
      case Some(v) =>
        assert NoDeferredResults(eval) ==> Plain(v) by {
          if NoDeferredResults(eval) { EvaluateSettles(Reach(loaded, p).value, eval, fuel); }
        }
        Some((v, State(SetAt(loaded, p, v))))
  }

  /** A missing segment gives null and leaves the loaded settings as they are. */
  lemma GetMissing(st: State, src: Sources, key: string, eval: nat -> Value, fuel: nat)
    requires Reach(Load(st, false, src).params, KeysOf(Split(key, '.')[..Stop(Split(key, '.'))])).None?
    ensures Get(st, src, key, eval, fuel) == Some((Null, Load(st, false, src)))
  {
    WalkIsReach(Load(st, false, src).params, Split(key, '.'));
  }

  /** A present path gives the evaluation of the value it reaches, and
      that evaluation is what the settings now hold there; the read fails
      exactly when that evaluation does. */
  lemma GetFound(st: State, src: Sources, key: string, eval: nat -> Value, fuel: nat)
    requires Reach(Load(st, false, src).params, KeysOf(Split(key, '.')[..Stop(Split(key, '.'))])).Some?
    ensures var path := KeysOf(Split(key, '.')[..Stop(Split(key, '.'))]);
      var e := Evaluate(Reach(Load(st, false, src).params, path).value, eval, fuel);
      var r := Get(st, src, key, eval, fuel);
      (r.Some? <==> e.Some?)
      && (r.Some? ==> r.value.0 == e.value && Reach(r.value.1.params, path) == e)
  {
    var loaded := Load(st, false, src).params;
    var path := KeysOf(Split(key, '.')[..Stop(Split(key, '.'))]);
    WalkIsReach(loaded, Split(key, '.'));
    var e := Evaluate(Reach(loaded, path).value, eval, fuel);
    if e.Some? {
      ReachSetAt(loaded, path, e.value);
    }
  }

  /** Reading a key a second time returns the same value and changes
      nothing more, once the loaded settings are non-empty and when no
      deferred setting computes another one directly. */
  lemma GetTwice(st: State, src: Sources, key: string, eval: nat -> Value, fuel: nat, again: nat)
    requires NoDeferredResults(eval)
    requires Load(st, false, src).params.Arr? && Truthy(Load(st, false, src).params)
    requires Get(st, src, key, eval, fuel).Some?
    ensures var first := Get(st, src, key, eval, fuel).value;
      Get(first.1, src, key, eval, again) == Some(first)
  {
    var loaded := Load(st, false, src).params;
    var bits := Split(key, '.');
    match Walk(loaded, bits)
    case None =>
    case Some(p) =>
      var v := Evaluate(Reach(loaded, p).value, eval, fuel).value;
      var stored := SetAt(loaded, p, v);
      StoredKeepsShape(loaded, p, v, eval, fuel);
      WalkSetAt(loaded, bits, v);
      ReachSetAt(loaded, p, v);
      EvaluateSettles(Reach(loaded, p).value, eval, fuel);
      EvaluatePlain(v, eval, again);
      SetAtSame(stored, p);
  }

  /** A setting that computes another deferred setting reads differently
      the second time: the first read stores the inner deferred setting,
      the second evaluates it. */
  lemma GetTwiceDeferredOfDeferred(eval: nat -> Value, src: Sources)
    requires eval(0) == Object(DeferredClass, 1) && eval(1) == Int(5)
    requires src.protected == Arr([(StrKey("a"), Object(DeferredClass, 0))])
    ensures var first := Get(Initial, src, "a", eval, 1);
      first.Some? && first.value.0 == Object(DeferredClass, 1)
      && Get(first.value.1, src, "a", eval, 1) == Some((Int(5), State(Arr([(StrKey("a"), Int(5))]))))
  {
    var a := StrKey("a");
    var d1 := Object(DeferredClass, 1);
    assert Split("a", '.') == ["a"];
    assert KeyOfString("a") == a;
    assert Load(Initial, false, src) == State(src.protected) by {
      assert Lookup(src.protected, StrKey("allowed_overrides")).None?;
    }
    assert Lookup(src.protected, a) == Some(Object(DeferredClass, 0));
    assert ["a"][1..] == [];
    assert Walk(Object(DeferredClass, 0), []) == Some([]);
    assert [a] + [] == [a];
    assert Walk(src.protected, ["a"]) == Some([a]);
    assert Evaluate(Object(DeferredClass, 0), eval, 1) == Some(d1);
    assert Assoc.Put([(a, Object(DeferredClass, 0))], a, d1) == [(a, d1)];
    assert [a][1..] == [];
    assert Reach(src.protected, [a]) == Some(Object(DeferredClass, 0));
    assert SetAt(src.protected, [a], d1) == Arr([(a, d1)]);
    var second := State(Arr([(a, d1)]));
    assert Get(Initial, src, "a", eval, 1) == Some((d1, second));
    assert Load(second, false, src) == second;
    assert Lookup(second.params, a) == Some(d1);
    assert Walk(d1, []) == Some([]);
    assert Reach(second.params, [a]) == Some(d1);
    assert SetAt(second.params, [a], Int(5)) == Arr([(a, Int(5))]);
    assert Walk(second.params, ["a"]) == Some([a]);
    assert Assoc.Put([(a, d1)], a, Int(5)) == [(a, Int(5))];
  }

  /** Storing an evaluated value keeps a non-empty array non-empty. */
  lemma StoredKeepsShape(loaded: Value, p: seq<Key>, v: Value, eval: nat -> Value, fuel: nat)
    requires loaded.Arr? && Truthy(loaded) && Reach(loaded, p).Some?
    requires Some(v) == Evaluate(Reach(loaded, p).value, eval, fuel)
    ensures Truthy(SetAt(loaded, p, v))
  {
    if |p| > 0 {
      var sub := Lookup(loaded, p[0]).value;
      assert Assoc.Keys(SetAt(loaded, p, v).items) == Assoc.Keys(loaded.items);
    }
  }
}

=== FILE: constraints.dfy ===
/** `Form\Constraint` and `Form\ConstraintCollection`: constraints keyed by
    their type, and the collection's verdict that every one of them holds.
    What a constraint checks is the abstract `validate` of its class, here
    the parameter `check`; `Required`'s own check is `RequiredCheck`. */
module Constraints {
  import opened Errors
  import opened Strs
  import opened Php
  import Assoc

  /** A hint is either switched off (`false`) or a text. */
  datatype Hint = NoHint | HintText(text: string)

  /** A constraint: its class, the value it was built with, its hint and
      error texts, and the collection it belongs to. */
  datatype Constraint = Constraint(cls: string, value: Value, hint: Hint, error: string, parent: Option<nat>)

  /** A collection: its identity, the constraints keyed by type, hint and
      error. */
  datatype Collection = Collection(id: nat, items: seq<(string, Constraint)>, hint: Hint, error: string)

  const ConstraintNamespace: string := "HereYouGo\\Form\\Constraint"
  const RequiredClass: string := ConstraintNamespace + "\\" + "Required"

  /** The namespace separator. */
  const Backslash: char := 92 as char

  /** `Required::validate($data)`: `isset($data)`. */
  predicate RequiredCheck(c: Constraint, data: Value) { !data.Null? }

  /** Position of the last occurrence of `c` (`strrpos`). */
  function LastIndexOf(s: string, c: char): (r: Option<nat>)
    ensures r.None? <==> c !in s
    ensures r.Some? ==> r.value < |s| && s[r.value] == c && c !in s[r.value + 1..]
    decreases |s|
  {
    if |s| == 0 then None
    else if s[|s| - 1] == c then Some(|s| - 1)
    else
      var r := LastIndexOf(s[..|s| - 1], c);
      assert s[..|s| - 1] + [s[|s| - 1]] == s;
      if r.Some? then
        assert s[r.value + 1..] == s[..|s| - 1][r.value + 1..] + [s[|s| - 1]];
        r
      else r
  }

  // ---------------------------------------------------------------------
  // Constraint types
  // ---------------------------------------------------------------------

  /** The type as written, `strtolower(substr(static::class, strrpos(...)))`
      with the position of the last backslash: the cut starts AT it, so it stays in the
      type; without a backslash `strrpos` is false and the whole name is
      kept. */
  function TypeAsWritten(cls: string): string {
    match LastIndexOf(cls, Backslash)
    case None => Lower(cls)
    case Some(i) => Lower(cls[i..])
  }

  /** The type as intended: the lower-cased short class name. */
  function Type(cls: string): (r: string)
    ensures Backslash !in r
  {
    match LastIndexOf(cls, Backslash)
    case None => Lower(cls)
    case Some(i) =>
      var r := Lower(cls[i + 1..]);
      assert forall j :: 0 <= j < |r| ==> r[j] == LowerChar(cls[i + 1..][j]);
      r
  }

  /** The type is the lower-cased last segment of a namespaced name. */
  lemma TypeOfQualified(ns: string, name: string)
    requires Backslash !in name
    ensures Type(ns + "\\" + name) == Lower(name)
    ensures TypeAsWritten(ns + "\\" + name) == "\\" + Lower(name)
  {
    var cls := ns + "\\" + name;
    var i := |ns|;
    assert cls[i] == Backslash;
    assert cls[i + 1..] == name;
    assert cls[i..] == "\\" + name;
    assert Lower("\\" + name) == "\\" + Lower(name);
  }

  /** As written, `Required` has type "\required", not "required". */
  lemma RequiredTypeAsWritten()
    ensures TypeAsWritten(RequiredClass) == "\\required"
    ensures Type(RequiredClass) == "required"
  {
    TypeOfQualified(ConstraintNamespace, "Required");
    LowerRequired();
    assert "\\" + "required" == "\\required";
  }

  lemma LowerRequired()
    ensures Lower("Required") == "required"
  {
    assert Lower("Required") == [LowerChar('R')] + Lower("equired");
  }

  // ---------------------------------------------------------------------
  // The collection
  // ---------------------------------------------------------------------

  /** `(string)$value` of a hint or error: objects have no string form
      here. */
  function Text(v: Value): Result<string> {
    match ToText(v)
    case Some(s) => Ok(s)
    case None => Err(EngineError("Object could not be converted to string"))
  }

  /** `$hint === false ? $hint : (string)$hint`. */
  function MakeHint(v: Value): (r: Result<Hint>)
    ensures v == Bool(false) ==> r == Ok(NoHint)
    ensures v != Bool(false) && r.Ok? ==> r.value.HintText? && Some(r.value.text) == ToText(v)
    ensures r.Err? <==> v.Object?
  {
    if v == Bool(false) then Ok(NoHint)
    else
      match Text(v)
      case Ok(s) => Ok(HintText(s))
      case Err(e) => Err(e)
  }

  /** `has($type)`. */
  predicate Has(coll: Collection, t: string) {
    Assoc.HasKey(coll.items, t)
  }

  /** `addConstraint($c)`: the constraint, now parented to the collection,
      is stored under its type, replacing one of the same type. */
  function AddConstraint(coll: Collection, c: Constraint): (r: Collection)
    ensures Has(r, Type(c.cls))
    ensures Assoc.Get(r.items, Type(c.cls)) == Some(c.(parent := Some(coll.id)))
    ensures forall t :: t != Type(c.cls) ==> Assoc.Get(r.items, t) == Assoc.Get(coll.items, t)
    ensures Has(coll, Type(c.cls)) ==> |r.items| == |coll.items|
    ensures r.id == coll.id && r.hint == coll.hint && r.error == coll.error
  {
    coll.(items := Assoc.Put(coll.items, Type(c.cls), c.(parent := Some(coll.id))))
  }

  /** `addConstraint` as written, keyed by `TypeAsWritten`. */
  function AddConstraintAsWritten(coll: Collection, c: Constraint): (r: Collection)
    ensures Assoc.Get(r.items, TypeAsWritten(c.cls)) == Some(c.(parent := Some(coll.id)))
    ensures forall t :: t != TypeAsWritten(c.cls) ==> Assoc.Get(r.items, t) == Assoc.Get(coll.items, t)
  {
    coll.(items := Assoc.Put(coll.items, TypeAsWritten(c.cls), c.(parent := Some(coll.id))))
  }

  /** Storing twice under one key keeps only the second value. */
  lemma {:induction false} PutPut<V>(m: seq<(string, V)>, k: string, a: V, b: V)
    ensures Assoc.Put(Assoc.Put(m, k, a), k, b) == Assoc.Put(m, k, b)
  {
    if |m| > 0 && m[0].0 != k {
      PutPut(m[1..], k, a, b);
    }
  }

  /** A second constraint of the same type replaces the first. */
  lemma SameTypeReplaces(coll: Collection, c1: Constraint, c2: Constraint)
    requires Type(c1.cls) == Type(c2.cls)
    ensures AddConstraint(AddConstraint(coll, c1), c2) == AddConstraint(coll, c2)
  {
    PutPut(coll.items, Type(c1.cls), c1.(parent := Some(coll.id)), c2.(parent := Some(coll.id)));
  }

  /** Adding each constraint of a list in turn. */
  function AddAll(coll: Collection, cs: seq<Constraint>): (r: Collection)
    ensures r.id == coll.id && r.hint == coll.hint && r.error == coll.error
    decreases |cs|
  {
    if |cs| == 0 then coll else AddAll(AddConstraint(coll, cs[0]), cs[1..])
  }

  /** The types of a list of constraints. */
  function Types(cs: seq<Constraint>): (ts: seq<string>)
    ensures |ts| == |cs|
    ensures forall i :: 0 <= i < |cs| ==> ts[i] == Type(cs[i].cls)
  {
    seq(|cs|, i requires 0 <= i < |cs| => Type(cs[i].cls))
  }

  /** After adding a list, a type is present iff it was already, or some
      constraint of the list has it. */
  lemma {:induction false} AddAllHas(coll: Collection, cs: seq<Constraint>, t: string)
    ensures Has(AddAll(coll, cs), t) <==> Has(coll, t) || t in Types(cs)
    decreases |cs|
  {
    if |cs| > 0 {
      var next := AddConstraint(coll, cs[0]);
      AddAllHas(next, cs[1..], t);
      TypesCons(cs, t);
      AddConstraintHas(coll, cs[0], t);
    }
  }

  lemma TypesCons(cs: seq<Constraint>, t: string)
    requires |cs| > 0
    ensures t in Types(cs) <==> t == Type(cs[0].cls) || t in Types(cs[1..])
  {
    var all, tail := Types(cs), Types(cs[1..]);
    if t in tail {
      var j :| 0 <= j < |tail| && tail[j] == t;
      assert all[j + 1] == t by {
        assert cs[1..][j] == cs[j + 1];
      }
    }
    if t in all {
      var j :| 0 <= j < |all| && all[j] == t;
      if j > 0 {
        assert tail[j - 1] == t by {
          assert cs[1..][j - 1] == cs[j];
        }
      }
    }
  }

  lemma AddConstraintHas(coll: Collection, c: Constraint, t: string)
    ensures Has(AddConstraint(coll, c), t) <==> Has(coll, t) || t == Type(c.cls)
  {
    var r := AddConstraint(coll, c);
    if t != Type(c.cls) {
      assert Assoc.Get(r.items, t) == Assoc.Get(coll.items, t);
    }
  }

  /** After adding a list, each type holds the last constraint of that
      type in the list. */
  lemma {:induction false} AddAllLast(coll: Collection, cs: seq<Constraint>, i: nat)
    requires i < |cs|
    requires forall j :: i < j < |cs| ==> Type(cs[j].cls) != Type(cs[i].cls)
    ensures Assoc.Get(AddAll(coll, cs).items, Type(cs[i].cls)) == Some(cs[i].(parent := Some(coll.id)))
    decreases |cs|
  {
    var next := AddConstraint(coll, cs[0]);
    assert AddAll(coll, cs) == AddAll(next, cs[1..]);
    assert forall j :: 0 <= j < |cs| - 1 ==> cs[1..][j] == cs[j + 1];
    if i == 0 {
      AddAllKeeps(next, cs[1..], Type(cs[0].cls));
    } else {
      AddAllLast(next, cs[1..], i - 1);
    }
  }

  /** Adding constraints of other types leaves a type's entry alone. */
  lemma {:induction false} AddAllKeeps(coll: Collection, cs: seq<Constraint>, t: string)
    requires forall j :: 0 <= j < |cs| ==> Type(cs[j].cls) != t
    ensures Assoc.Get(AddAll(coll, cs).items, t) == Assoc.Get(coll.items, t)
    decreases |cs|
  {
    if |cs| > 0 {
      AddAllKeeps(AddConstraint(coll, cs[0]), cs[1..], t);
    }
  }

  /** `new ConstraintCollection($constraints, $hint, $error)`. */
  function New(id: nat, cs: seq<Constraint>, hint: Value, error: Value): (r: Result<Collection>)
    ensures r.Ok? ==> r.value.id == id && (forall t :: Has(r.value, t) <==> t in Types(cs))
    ensures r.Err? <==> hint.Object? || error.Object?
  {
    var coll := AddAll(Collection(id, [], NoHint, ""), cs);
    match MakeHint(hint)
    case Err(e) => Err(e)
    case Ok(h) =>
      match Text(error)
      case Err(e) => Err(e)
      case Ok(s) =>
        var r := coll.(hint := h, error := s);
        assert forall t :: Has(r, t) <==> t in Types(cs) by {
          forall t
            ensures Has(r, t) <==> t in Types(cs)
          {
            AddAllHas(Collection(id, [], NoHint, ""), cs, t);
          }
        }
        Ok(r)
  }

  /** `$this->collection = $value`: the collection is emptied, then each
      constraint is added. */
  function SetCollection(coll: Collection, cs: seq<Constraint>): (r: Collection)
    ensures forall t :: Has(r, t) <==> t in Types(cs)
    ensures r.id == coll.id && r.hint == coll.hint && r.error == coll.error
  {
    var r := AddAll(coll.(items := []), cs);
    assert forall t :: Has(r, t) <==> t in Types(cs) by {
      forall t
        ensures Has(r, t) <==> t in Types(cs)
      {
        AddAllHas(coll.(items := []), cs, t);
      }
    }
    r
  }

  /** `$this->hint = $value`: false stays false, anything else is cast. */
  function SetHint(coll: Collection, v: Value): (r: Result<Collection>)
    ensures r.Ok? ==> r.value.items == coll.items && r.value.error == coll.error
    ensures v == Bool(false) ==> r == Ok(coll.(hint := NoHint))
    ensures v.Str? ==> r == Ok(coll.(hint := HintText(v.s)))
  {
    match MakeHint(v)
    case Err(e) => Err(e)
    case Ok(h) => Ok(coll.(hint := h))
  }

  /** `$this->error = $value`: always cast, `false` included. */
  function SetError(coll: Collection, v: Value): (r: Result<Collection>)
    ensures r.Ok? ==> r.value.items == coll.items && r.value.hint == coll.hint
    ensures v == Bool(false) ==> r == Ok(coll.(error := ""))
    ensures v.Str? ==> r == Ok(coll.(error := v.s))
  {
    match Text(v)
    case Err(e) => Err(e)
    case Ok(s) => Ok(coll.(error := s))
  }

  /** Index of the first constraint that rejects the data, in collection
      order: the loop stops there. */
  function FirstFailure(items: seq<(string, Constraint)>, data: Value, check: (Constraint, Value) -> bool): (r: Option<nat>)
    ensures r.None? <==> forall i :: 0 <= i < |items| ==> check(items[i].1, data)
    ensures r.Some? ==> r.value < |items| && !check(items[r.value].1, data)
    ensures r.Some? ==> forall i :: 0 <= i < r.value ==> check(items[i].1, data)
    decreases |items|
  {
    if |items| == 0 then None
    else if !check(items[0].1, data) then Some(0)
    else
      var rest := FirstFailure(items[1..], data, check);
      assert forall i :: 1 <= i < |items| ==> items[i] == items[1..][i - 1];
      match rest
      case None => None
      case Some(j) => Some(j + 1)
  }

  /** `validate($data)`: true iff every constraint accepts the data. */
  function Validate(coll: Collection, data: Value, check: (Constraint, Value) -> bool): (r: bool)
    ensures r <==> forall i :: 0 <= i < |coll.items| ==> check(coll.items[i].1, data)
  {
    FirstFailure(coll.items, data, check).None?
  }

  /** With `Required` added, absent data (null) fails validation; present
      data passes it. */
  lemma RequiredRejectsNull(coll: Collection, c: Constraint)
    requires c.cls == RequiredClass
    ensures !Validate(AddConstraint(coll, c), Null, (k: Constraint, d: Value) => if k.cls == RequiredClass then RequiredCheck(k, d) else true)
  {
    var r := AddConstraint(coll, c);
    var k := Assoc.GetSomeAt(r.items, Type(c.cls));
  }

  /** As written, a collection holding `Required` does not report having
      "required"; as intended it does. */
  lemma RequiredNotFound(coll: Collection, c: Constraint)
    requires c.cls == RequiredClass && !Assoc.HasKey(coll.items, "required")
    ensures !Assoc.HasKey(AddConstraintAsWritten(coll, c).items, "required")
    ensures Has(AddConstraint(coll, c), "required")
  {
    RequiredTypeAsWritten();
    var r := AddConstraintAsWritten(coll, c);
    assert Assoc.Get(r.items, "required") == Assoc.Get(coll.items, "required");
  }
}

=== FILE: csv.dfy ===
/** The table side of the CSV renderer (`REST\Response\CSV`): entries are
    flattened to dotted keys, their keys merged into one header row, headers
    that are dotted prefixes of other headers dropped, and one row written
    per entry, up to the first empty one. */
module Csv {
  import opened Errors
  import opened Strs
  import opened Php
  import opened CsvField
  import Assoc

  /** A flattened entry: dotted keys to non-array values. */
  type Entry = seq<(Key, Value)>

  predicate AllIntKeys(items: seq<(Key, Value)>) {
    forall i :: 0 <= i < |items| ==> items[i].0.IntKey?
  }

  /** The key a value is filed under: prefixed with "<prefix>." when the
      prefix is truthy, so a nested array under key 0 (or "") is not. */
  function FlatKey(prefix: Key, k: Key): Key {
    if Truthy(KeyValue(prefix)) then KeyOfString(KeyToString(prefix) + "." + KeyToString(k)) else k
  }

  /** `flatten($value, $prefix)` over the entries of `parent`: nested
      arrays are flattened under their key, after renumbering from 0 when
      all their keys are ints; a later key replaces an earlier equal one. */
  function Flatten(parent: Value, items: seq<(Key, Value)>, prefix: Key, renumber: bool): (r: Entry)
    requires forall i :: 0 <= i < |items| ==> items[i].1 < parent
    ensures Assoc.DistinctKeys(r)
    ensures forall k :: Assoc.Get(r, k).Some? ==> !Assoc.Get(r, k).value.Arr?
    decreases parent, |items|
  {
    if |items| == 0 then []
    else
      var n := |items| - 1;
      var cols := Flatten(parent, items[..n], prefix, renumber);
      var k := FlatKey(prefix, if renumber then IntKey(n) else items[n].0);
      var v := items[n].1;
      match v
      case Arr(sub) =>
        var inner := Flatten(v, sub, k, AllIntKeys(sub));
        Assoc.UpdateKeepsDistinct(cols, inner);
        Assoc.Update(cols, inner)
      case _ =>
        Assoc.PutKeepsDistinct(cols, k, v);
        Assoc.Put(cols, k, v)
  }

  /** A table entry, flattened with no prefix. */
  function FlattenEntry(e: Value): Entry
    requires e.Arr?
  {
    Flatten(e, e.items, StrKey(""), false)
  }

  /** One step of `flatten` on a scalar: it is assigned under its key. */
  lemma PlainStep(parent: Value, items: seq<(Key, Value)>, prefix: Key, renumber: bool)
    requires |items| > 0 && forall i :: 0 <= i < |items| ==> items[i].1 < parent
    requires !items[|items| - 1].1.Arr?
    ensures var n := |items| - 1;
      Flatten(parent, items, prefix, renumber) ==
        Assoc.Put(Flatten(parent, items[..n], prefix, renumber),
          FlatKey(prefix, if renumber then IntKey(n) else items[n].0), items[n].1)
  {
  }

  /** One step of `flatten` on an array: its flattening is merged in. */
  lemma NestedStep(parent: Value, items: seq<(Key, Value)>, prefix: Key, renumber: bool)
    requires |items| > 0 && forall i :: 0 <= i < |items| ==> items[i].1 < parent
    requires items[|items| - 1].1.Arr?
    ensures var n := |items| - 1;
      var v := items[n].1;
      var k := FlatKey(prefix, if renumber then IntKey(n) else items[n].0);
      Flatten(parent, items, prefix, renumber) ==
        Assoc.Update(Flatten(parent, items[..n], prefix, renumber), Flatten(v, v.items, k, AllIntKeys(v.items)))
  {
  }

  /** An entry without nested arrays is already flat: flattening it gives
      it back, keys and order unchanged. */
  lemma {:induction false} FlatEntryUnchanged(parent: Value, items: seq<(Key, Value)>)
    requires forall i :: 0 <= i < |items| ==> items[i].1 < parent && !items[i].1.Arr?
    requires Assoc.DistinctKeys(items)
    ensures Flatten(parent, items, StrKey(""), false) == items
    decreases |items|
  {
    if |items| > 0 {
      var n := |items| - 1;
      var pre := items[..n];
      PrefixFacts(items);
      FlatEntryUnchanged(parent, pre);
      PlainStep(parent, items, StrKey(""), false);
      assert FlatKey(StrKey(""), items[n].0) == items[n].0;
      Assoc.PutAbsent(pre, items[n].0, items[n].1);
    }
  }

  lemma PrefixFacts(items: seq<(Key, Value)>)
    requires |items| > 0 && Assoc.DistinctKeys(items)
    ensures var n := |items| - 1;
      Assoc.DistinctKeys(items[..n]) && !Assoc.HasKey(items[..n], items[n].0)
      && items[..n] + [items[n]] == items
  {
    var n := |items| - 1;
    assert forall i :: 0 <= i < n ==> items[..n][i] == items[i];
    assert Assoc.Keys(items[..n]) == Assoc.Keys(items)[..n];
  }

  /** A key of letters, digits and dots that starts with a letter is a string key. */
  lemma WordKey(s: string)
    requires |s| > 0 && 'a' <= s[0] <= 'z'
    ensures KeyOfString(s) == StrKey(s)
  {
    assert !IsDigit(s[0]);
  }

  /** A nested list is renumbered from 0 before its keys are prefixed. */
  lemma NestedListRenumbered()
    ensures var e := Arr([(StrKey("tags"), Arr([(IntKey(5), Str("a")), (IntKey(9), Str("b"))]))]);
      FlattenEntry(e) == [(StrKey("tags.0"), Str("a")), (StrKey("tags.1"), Str("b"))]
  {
    var inner := [(IntKey(5), Str("a")), (IntKey(9), Str("b"))];
    var e := Arr([(StrKey("tags"), Arr(inner))]);
    var flat := [(StrKey("tags.0"), Str("a")), (StrKey("tags.1"), Str("b"))];
    ListInner();
    assert FlatKey(StrKey(""), StrKey("tags")) == StrKey("tags");
    assert AllIntKeys(inner);
    NestedStep(e, e.items, StrKey(""), false);
    assert e.items[..0] == [];
    Assoc.UpdateDisjoint([], flat);
  }

  lemma ListInner()
    ensures var inner := [(IntKey(5), Str("a")), (IntKey(9), Str("b"))];
      Flatten(Arr(inner), inner, StrKey("tags"), true) == [(StrKey("tags.0"), Str("a")), (StrKey("tags.1"), Str("b"))]
  {
    var inner := [(IntKey(5), Str("a")), (IntKey(9), Str("b"))];
    var v := Arr(inner);
    var k := StrKey("tags");
    assert NatToString(0) == "0" && NatToString(1) == "1";
    WordKey("tags.0");
    WordKey("tags.1");
    assert FlatKey(k, IntKey(0)) == StrKey("tags.0");
    assert FlatKey(k, IntKey(1)) == StrKey("tags.1");
    PlainStep(v, inner[..1], k, true);
    assert inner[..1][..0] == [];
    var first := [(StrKey("tags.0"), Str("a"))];
    assert Flatten(v, inner[..1], k, true) == first;
    PlainStep(v, inner, k, true);
    Assoc.PutAbsent(first, StrKey("tags.1"), Str("b"));
  }

  /** An array under key 0 of an entry is flattened without a prefix: its
      keys land at the entry's own level. */
  lemma ZeroKeyNotPrefixed()
    ensures var e := Arr([(IntKey(0), Arr([(StrKey("id"), Int(7))]))]);
      FlattenEntry(e) == [(StrKey("id"), Int(7))]
  {
    var inner := [(StrKey("id"), Int(7))];
    var v := Arr(inner);
    var e := Arr([(IntKey(0), v)]);
    assert FlatKey(StrKey(""), IntKey(0)) == IntKey(0);
    assert FlatKey(IntKey(0), StrKey("id")) == StrKey("id");
    PlainStep(v, inner, IntKey(0), false);
    assert inner[..0] == [];
    assert Flatten(v, inner, IntKey(0), false) == inner;
    NestedStep(e, e.items, StrKey(""), false);
    assert e.items[..0] == [];
    Assoc.UpdateDisjoint([], inner);
  }

  // ---- Header merge ----

  /** `array_splice($headers, $pos, 0, [$h])`: past the end means at the end. */
  function Insert(hs: seq<Key>, pos: nat, h: Key): (r: seq<Key>)
    ensures |r| == |hs| + 1 && h in r
    ensures forall x :: x in r <==> x in hs || x == h
  {
    var p := if pos <= |hs| then pos else |hs|;
    assert hs == hs[..p] + hs[p..];
    hs[..p] + [h] + hs[p..]
  }

  /** No two headers are loosely equal. */
  predicate NoLooseDup(hs: seq<Key>) {
    forall i, j :: 0 <= i < j < |hs| ==> !LooseKeyEq(hs[i], hs[j])
  }

  /** One key merged in at its position: skipped when it equals the header
      at that position or any header, else inserted there. */
  function MergeOne(hs: seq<Key>, h: Key, pos: nat): (r: seq<Key>)
    ensures KeyListed(h, r)
    ensures forall x :: x in hs ==> x in r
    ensures forall x :: x in r ==> x in hs || x == h
  {
    if (pos < |hs| && LooseKeyEq(hs[pos], h)) || KeyListed(h, hs) then
      if pos < |hs| then LooseKeyEqSymmetric(hs[pos], h); hs else hs
    else
      var r := Insert(hs, pos, h);
      var j :| 0 <= j < |r| && r[j] == h;
      LooseKeyEqReflexive(h);
      r
  }

  /** One entry's keys merged into the headers, position by position. */
  function MergeKeys(hs: seq<Key>, keys: seq<Key>, pos: nat): (r: seq<Key>)
    decreases |keys|
  {
    if |keys| == 0 then hs
    else MergeKeys(MergeOne(hs, keys[0], pos), keys[1..], pos + 1)
  }

  lemma LooseKeyEqSymmetric(a: Key, b: Key)
    ensures LooseKeyEq(a, b) <==> LooseKeyEq(b, a)
  {
  }

  lemma LooseKeyEqReflexive(a: Key)
    ensures LooseKeyEq(a, a)
  {
  }

  lemma MergeOneNoDup(hs: seq<Key>, h: Key, pos: nat)
    requires NoLooseDup(hs)
    ensures NoLooseDup(MergeOne(hs, h, pos))
  {
    if !((pos < |hs| && LooseKeyEq(hs[pos], h)) || KeyListed(h, hs)) {
      InsertKeepsNoDup(hs, pos, h);
    }
  }

  lemma InsertKeepsNoDup(hs: seq<Key>, pos: nat, h: Key)
    requires NoLooseDup(hs) && !KeyListed(h, hs)
    ensures NoLooseDup(Insert(hs, pos, h))
  {
    var r := Insert(hs, pos, h);
    var p := if pos <= |hs| then pos else |hs|;
    forall i, j | 0 <= i < j < |r|
      ensures !LooseKeyEq(r[i], r[j])
    {
      if i == p {
        assert r[j] == hs[j - 1];
      } else if j == p {
        assert r[i] == hs[i];
        LooseKeyEqSymmetric(r[i], h);
      } else {
        var i' := if i < p then i else i - 1;
        var j' := if j < p then j else j - 1;
        assert r[i] == hs[i'] && r[j] == hs[j'];
      }
    }
  }

  /** A key listed among headers stays listed among any superset. */
  lemma ListedGrows(k: Key, hs: seq<Key>, r: seq<Key>)
    requires KeyListed(k, hs) && forall x :: x in hs ==> x in r
    ensures KeyListed(k, r)
  {
    var j :| 0 <= j < |hs| && LooseKeyEq(k, hs[j]);
    assert hs[j] in hs;
    var m :| 0 <= m < |r| && r[m] == hs[j];
  }

  lemma {:induction false} MergeKeysNoDup(hs: seq<Key>, keys: seq<Key>, pos: nat)
    requires NoLooseDup(hs)
    ensures NoLooseDup(MergeKeys(hs, keys, pos))
    decreases |keys|
  {
    if |keys| > 0 {
      MergeOneNoDup(hs, keys[0], pos);
      MergeKeysNoDup(MergeOne(hs, keys[0], pos), keys[1..], pos + 1);
    }
  }

  /** Merging keeps every header and invents none: each is an old header or a key. */
  lemma {:induction false} MergeKeysBounds(hs: seq<Key>, keys: seq<Key>, pos: nat)
    ensures forall x :: x in hs ==> x in MergeKeys(hs, keys, pos)
    ensures forall x :: x in MergeKeys(hs, keys, pos) ==> x in hs || x in keys
    decreases |keys|
  {
    if |keys| > 0 {
      MergeKeysBounds(MergeOne(hs, keys[0], pos), keys[1..], pos + 1);
    }
  }

  /** After merging, every key is listed (`in_array`) among the headers. */
  lemma {:induction false} MergeKeysLists(hs: seq<Key>, keys: seq<Key>, pos: nat)
    ensures forall i :: 0 <= i < |keys| ==> KeyListed(keys[i], MergeKeys(hs, keys, pos))
    decreases |keys|
  {
    if |keys| > 0 {
      var hs' := MergeOne(hs, keys[0], pos);
      var r := MergeKeys(hs', keys[1..], pos + 1);
      MergeKeysLists(hs', keys[1..], pos + 1);
      MergeKeysBounds(hs', keys[1..], pos + 1);
      ListedGrows(keys[0], hs', r);
      forall i | 1 <= i < |keys|
        ensures KeyListed(keys[i], r)
      {
        assert keys[i] == keys[1..][i - 1];
      }
    }
  }

  /** The headers of all entries, merged in entry order. */
  function MergeAll(hs: seq<Key>, entries: seq<Entry>): seq<Key>
    decreases |entries|
  {
    if |entries| == 0 then hs
    else MergeAll(MergeKeys(hs, Assoc.Keys(entries[0]), 0), entries[1..])
  }

  lemma {:induction false} MergeAllNoDup(hs: seq<Key>, entries: seq<Entry>)
    requires NoLooseDup(hs)
    ensures NoLooseDup(MergeAll(hs, entries))
    decreases |entries|
  {
    if |entries| > 0 {
      MergeKeysNoDup(hs, Assoc.Keys(entries[0]), 0);
      MergeAllNoDup(MergeKeys(hs, Assoc.Keys(entries[0]), 0), entries[1..]);
    }
  }

  /** Every header comes from the start headers or is a key of some entry. */
  lemma {:induction false} MergeAllBounds(hs: seq<Key>, entries: seq<Entry>)
    ensures forall x :: x in hs ==> x in MergeAll(hs, entries)
    ensures forall x :: x in MergeAll(hs, entries) ==> x in hs || exists e :: e in entries && Assoc.HasKey(e, x)
    decreases |entries|
  {
    if |entries| > 0 {
      var keys := Assoc.Keys(entries[0]);
      var hs' := MergeKeys(hs, keys, 0);
      MergeKeysBounds(hs, keys, 0);
      MergeAllBounds(hs', entries[1..]);
      forall x | x in MergeAll(hs', entries[1..])
        ensures x in hs || exists e :: e in entries && Assoc.HasKey(e, x)
      {
        if x !in hs && x in keys {
          assert Assoc.HasKey(entries[0], x);
        } else if x !in hs' {
          var e :| e in entries[1..] && Assoc.HasKey(e, x);
          assert e in entries;
        }
      }
    }
  }

  /** Every key of every entry is listed among the merged headers. */
  lemma {:induction false} MergeAllLists(hs: seq<Key>, entries: seq<Entry>)
    ensures forall e, k :: e in entries && Assoc.HasKey(e, k) ==> KeyListed(k, MergeAll(hs, entries))
    decreases |entries|
  {
    if |entries| > 0 {
      var keys := Assoc.Keys(entries[0]);
      var hs' := MergeKeys(hs, keys, 0);
      var r := MergeAll(hs', entries[1..]);
      MergeKeysLists(hs, keys, 0);
      MergeAllBounds(hs', entries[1..]);
      MergeAllLists(hs', entries[1..]);
      forall e, k | e in entries && Assoc.HasKey(e, k)
        ensures KeyListed(k, r)
      {
        if e == entries[0] {
          var i :| 0 <= i < |keys| && keys[i] == k;
          ListedGrows(k, hs', r);
        } else {
          assert e in entries[1..];
        }
      }
    }
  }

  // ---- Dropping prefix headers ----

  /** The m first dotted segments of a header. */
  function DottedPrefix(h: Key, m: nat): string
    requires m <= |Split(KeyToString(h), '.')|
  {
    Join(Split(KeyToString(h), '.')[..m], ".")
  }

  function Segments(h: Key): nat {
    |Split(KeyToString(h), '.')|
  }

  /** The proper dotted prefixes of one header, longest first. */
  function PrefixesOf(h: Key): (r: seq<string>)
    ensures forall u :: u in r <==> exists m :: 1 <= m < Segments(h) && u == DottedPrefix(h, m)
  {
    var n := Segments(h);
    var r := seq(n - 1, i requires 0 <= i < n - 1 => DottedPrefix(h, n - 1 - i));
    assert forall m :: 1 <= m < n ==> r[n - 1 - m] == DottedPrefix(h, m);
    r
  }

  /** The useless headers: every proper dotted prefix of every header. */
  function Useless(hs: seq<Key>): (r: seq<string>)
    ensures forall u :: u in r <==> exists j, m :: 0 <= j < |hs| && 1 <= m < Segments(hs[j]) && u == DottedPrefix(hs[j], m)
    decreases |hs|
  {
    if |hs| == 0 then []
    else
      var r := PrefixesOf(hs[0]) + Useless(hs[1..]);
      assert forall u :: u in r ==> exists j, m :: 0 <= j < |hs| && 1 <= m < Segments(hs[j]) && u == DottedPrefix(hs[j], m) by {
        forall u | u in r
          ensures exists j, m :: 0 <= j < |hs| && 1 <= m < Segments(hs[j]) && u == DottedPrefix(hs[j], m)
        {
          if u !in PrefixesOf(hs[0]) {
            var j, m :| 0 <= j < |hs[1..]| && 1 <= m < Segments(hs[1..][j]) && u == DottedPrefix(hs[1..][j], m);
            assert hs[1..][j] == hs[j + 1];
          }
        }
      }
      assert forall j, m :: 0 <= j < |hs| && 1 <= m < Segments(hs[j]) ==> DottedPrefix(hs[j], m) in r by {
        forall j, m | 0 <= j < |hs| && 1 <= m < Segments(hs[j])
          ensures DottedPrefix(hs[j], m) in r
        {
          if j > 0 {
            assert hs[j] == hs[1..][j - 1];
          }
        }
      }
      r
  }

  /** The headers kept: those not loosely equal to any useless header. */
  function KeepUseful(hs: seq<Key>, useless: seq<string>): (r: seq<Key>)
    ensures forall x :: x in r <==> x in hs && !exists u :: u in useless && LooseEq(KeyValue(x), Str(u))
    ensures |r| <= |hs|
    decreases |hs|
  {
    if |hs| == 0 then []
    else
      var rest := KeepUseful(hs[1..], useless);
      assert forall x :: x in hs <==> x == hs[0] || x in hs[1..] by {
        assert hs == [hs[0]] + hs[1..];
      }
      if exists u :: u in useless && LooseEq(KeyValue(hs[0]), Str(u)) then rest else [hs[0]] + rest
  }

  /** The header row after dropping useless headers: a header is kept iff
      it is not loosely equal to a proper dotted prefix of some merged
      header. */
  function Headers(entries: seq<Entry>): (r: seq<Key>)
    ensures forall x :: x in r <==> x in MergeAll([], entries) && !ExtendsToward(x, MergeAll([], entries))
  {
    var merged := MergeAll([], entries);
    KeepUseful(merged, Useless(merged))
  }

  /** Some header has a proper dotted prefix loosely equal to x. */
  predicate ExtendsToward(x: Key, hs: seq<Key>) {
    exists j, m :: 0 <= j < |hs| && 1 <= m < Segments(hs[j]) && LooseEq(KeyValue(x), Str(DottedPrefix(hs[j], m)))
  }

  /** A string header that another header extends by "." is dropped. */
  lemma ParentHeaderDropped(entries: seq<Entry>, h: string, x: string)
    requires StrKey(h) in MergeAll([], entries) && StrKey(h + "." + x) in MergeAll([], entries)
    ensures StrKey(h) !in Headers(entries)
  {
    var merged := MergeAll([], entries);
    var j :| 0 <= j < |merged| && merged[j] == StrKey(h + "." + x);
    SplitAppend(h, '.', x);
    assert h + "." + x == h + ['.'] + x;
    var m := |Split(h, '.')|;
    assert Split(KeyToString(merged[j]), '.')[..m] == Split(h, '.');
    JoinSplit(h, '.');
    assert DottedPrefix(merged[j], m) == h;
    assert LooseEq(KeyValue(StrKey(h)), Str(h));
  }

  // ---- Rows ----

  /** One row: each header's value in the entry, "" where it is missing. */
  function Row(entry: Entry, hs: seq<Key>): (r: seq<Value>)
    ensures |r| == |hs|
  {
    seq(|hs|, i requires 0 <= i < |hs| => Assoc.Get(entry, hs[i]).GetOr(Str("")))
  }

  /** The rows, one per entry, up to the first empty entry. */
  function Rows(entries: seq<Entry>, hs: seq<Key>): (r: seq<seq<Value>>)
    ensures |r| <= |entries|
    ensures forall i :: 0 <= i < |r| ==> entries[i] != [] && r[i] == Row(entries[i], hs)
    ensures |r| < |entries| ==> entries[|r|] == []
    decreases |entries|
  {
    if |entries| == 0 || entries[0] == [] then []
    else [Row(entries[0], hs)] + Rows(entries[1..], hs)
  }

  /** Every cell of a row is the entry's value under its header, or "". */
  lemma RowCells(entry: Entry, hs: seq<Key>, i: nat)
    requires i < |hs|
    ensures Assoc.HasKey(entry, hs[i]) ==> Row(entry, hs)[i] == Assoc.Get(entry, hs[i]).value
    ensures !Assoc.HasKey(entry, hs[i]) ==> Row(entry, hs)[i] == Str("")
  {
  }

  // ---- The table ----

  /** The subject a BadType names for a non-array entry. */
  function Describe(v: Value): string {
    match v
    case Object(cls, _) => cls
    case _ => ToText(v).GetOr("")
  }

  /** Each record as an entry: falsy records are empty, other non-arrays
      are rejected, arrays are flattened. */
  function Entries(data: seq<Value>): (r: Result<seq<Entry>>)
    ensures r.Ok? <==> forall i :: 0 <= i < |data| ==> !Truthy(data[i]) || data[i].Arr?
    ensures r.Err? ==> r.error.BadType? && r.error.expected == "array"
    ensures r.Ok? ==> (|r.value| == |data|
      && forall i :: 0 <= i < |data| ==> r.value[i] == (if Truthy(data[i]) then FlattenEntry(data[i]) else []))
    decreases |data|
  {
    if |data| == 0 then Ok([])
    else
      var d := data[0];
      if Truthy(d) && !d.Arr? then Err(BadType(Describe(d), "array"))
      else
        var e := if Truthy(d) then FlattenEntry(d) else [];
        match Entries(data[1..])
        case Err(err) => Err(err)
        case Ok(rest) =>
          assert forall i :: 1 <= i < |data| ==> data[i] == data[1..][i - 1];
          Ok([e] + rest)
  }

  /** `getTable($data)`: the header row, then the rows. */
  function Table(data: seq<Value>): (r: Result<seq<seq<Value>>>)
    ensures r.Ok? <==> Entries(data).Ok?
    ensures r.Err? ==> r.error.BadType?
    ensures r.Ok? ==> |r.value| >= 1 && |r.value| <= |data| + 1
    ensures r.Ok? ==> forall i :: 0 <= i < |r.value| ==> |r.value[i]| == |Headers(Entries(data).value)|
  {
    var entries :- Entries(data);
    var hs := Headers(entries);
    Ok([seq(|hs|, i requires 0 <= i < |hs| => KeyValue(hs[i]))] + Rows(entries, hs))
  }

  /** The records the constructor tables: the data's values when it has an
      int key, else the data as one record. */
  function Records(data: Value): (r: seq<Value>)
    ensures (data.Arr? && exists i :: 0 <= i < |data.items| && data.items[i].0.IntKey?) ==> r == Assoc.Values(data.items)
    ensures !(data.Arr? && exists i :: 0 <= i < |data.items| && data.items[i].0.IntKey?) ==> r == [data]
  {
    if data.Arr? && exists i :: 0 <= i < |data.items| && data.items[i].0.IntKey? then Assoc.Values(data.items)
    else [data]
  }

  /** The rendered body: the separator is checked first, then the table is
      built and written. */
  function Render(data: Value, options: string): (r: Result<string>)
    ensures Separator(options).Err? ==> r == Err(Separator(options).error)
    ensures Separator(options).Ok? ==> (r.Ok? <==> Table(Records(data)).Ok?)
  {
    var sep :- Separator(options);
    var lines :- Table(Records(data));
    Ok(Document(lines, sep))
  }

  /** What the renderer writes reads back, by the rules of RFC 4180, as
      the text of every table cell, provided the table has a header and
      the separator is not the quoting pattern's delimiter, with which
      nothing is quoted (`CsvField.DelimiterSplitsCell`). */
  lemma RenderReadsBack(data: Value, options: string)
    requires Render(data, options).Ok?
    requires Separator(options).value != '"' && Separator(options).value != '\n'
    requires Separator(options).value != CsvField.Delimiter
    requires |Headers(Entries(Records(data)).value)| > 0
    ensures ReadDocument(Render(data, options).value, Separator(options).value) ==
      Some(AllTexts(Table(Records(data)).value))
  {
    var lines := Table(Records(data)).value;
    DocumentRoundTrip(lines, Separator(options).value);
  }
}

=== FILE: csv_field.dfy ===
/** Field and line encoding of the CSV renderer (`REST\Response\CSV::encode`
    and the joins in its constructor), with a reader for the format of
    section 2 of RFC 4180 as the reference reader: whatever the renderer
    writes, the reader gives back cell by cell. */
module CsvField {
  import opened Errors
  import opened Strs
  import opened Php
  import Assoc

  /** The field separator: the format options, ',' when they are falsy
      (so "0" also means ','); anything not one character long is rejected. */
  function Separator(options: string): (r: Result<char>)
    ensures r.Ok? <==> options == "" || options == "0" || |options| == 1
    ensures r.Ok? && (options == "" || options == "0") ==> r.value == ','
    ensures r.Ok? && options != "" && options != "0" ==> [r.value] == options
    ensures r.Err? ==> r.error == BadType("format_options", "1 chr long separator")
  {
    var sep := if !Truthy(Str(options)) then "," else options;
    if |sep| != 1 then Err(BadType("format_options", "1 chr long separator"))
    else Ok(sep[0])
  }

  /** The text a cell is written from: the string cast, with arrays and
      objects replaced by "{complex:<type>}". */
  function CellText(v: Value): (r: string)
    ensures !v.Arr? && !v.Object? ==> ToText(v) == Some(r)
    ensures v.Arr? || v.Object? ==> "{complex:" <= r && r[|r| - 1] == '}'
  {
    match v
    case Null => ""
    case Bool(b) => if b then "1" else ""
    case Int(i) => IntToString(i)
    case Str(s) => s
    case Arr(_) => "{complex:array}"
    case Object(_, _) => "{complex:object}"
  }

  /** Every '"' doubled. */
  function Escape(t: string): (e: string)
    ensures |e| >= |t|
    ensures '"' !in t ==> e == t
    ensures |t| > 0 ==> |e| > 0 && e[0] == t[0] && e[|e| - 1] == t[|t| - 1]
  {
    if |t| == 0 then []
    else (if t[0] == '"' then "\"\"" else [t[0]]) + Escape(t[1..])
  }

  /** Escaping neither adds nor removes any character but by doubling '"'. */
  lemma {:induction false} EscapeKeeps(t: string, c: char)
    ensures c in Escape(t) <==> c in t
  {
    if |t| > 0 {
      EscapeKeeps(t[1..], c);
      assert t == [t[0]] + t[1..];
    }
  }

  /** The quoting test on the escaped text: the separator, CR, LF or '"'
      anywhere, or white space at either end. */
  predicate NeedsQuotes(e: string, sep: char) {
    sep in e || '\n' in e || '\r' in e || '"' in e
    || (|e| > 0 && (IsPcreSpace(e[0]) || IsPcreSpace(e[|e| - 1])))
  }

  /** The same test on the cell's own text. */
  predicate QuoteWorthy(t: string, sep: char) {
    sep in t || '\n' in t || '\r' in t || '"' in t
    || (|t| > 0 && (IsPcreSpace(t[0]) || IsPcreSpace(t[|t| - 1])))
  }

  /** The delimiter of the quoting pattern. `preg_quote` is not told about
      it, so a separator equal to it closes the pattern early: the pattern
      does not compile, `preg_match` fails, and nothing is quoted. */
  const Delimiter: char := '`'

  /** `encode($value, $sep)`: null is an empty quoted field; any other
      value is escaped and quoted exactly when it needs to be, unless the
      separator is the pattern's delimiter. */
  function Encode(v: Value, sep: char): (r: string)
    ensures v.Null? ==> r == "\"\""
    ensures !v.Null? && sep != Delimiter ==> (|r| > 0 && r[0] == '"' <==> QuoteWorthy(CellText(v), sep))
    ensures !v.Null? && sep != Delimiter && !QuoteWorthy(CellText(v), sep) ==> r == CellText(v)
    ensures !v.Null? && sep == Delimiter ==> r == Escape(CellText(v))
  {
    if v.Null? then "\"\""
    else
      var e := Escape(CellText(v));
      assert NeedsQuotes(e, sep) <==> QuoteWorthy(CellText(v), sep) by {
        EscapeKeeps(CellText(v), sep);
        EscapeKeeps(CellText(v), '\n');
        EscapeKeeps(CellText(v), '\r');
        EscapeKeeps(CellText(v), '"');
      }
      if sep != Delimiter && NeedsQuotes(e, sep) then "\"" + e + "\"" else e
  }

  /** A line: the encoded cells joined by the separator. */
  function Line(cells: seq<Value>, sep: char): string {
    Join(Encoded(cells, sep), [sep])
  }

  /** Each cell encoded. */
  function Encoded(cells: seq<Value>, sep: char): (r: seq<string>)
    ensures |r| == |cells| && forall i :: 0 <= i < |cells| ==> r[i] == Encode(cells[i], sep)
  {
    seq(|cells|, i requires 0 <= i < |cells| => Encode(cells[i], sep))
  }

  /** Each line encoded. */
  function Lines(lines: seq<seq<Value>>, sep: char): (r: seq<string>)
    ensures |r| == |lines| && forall i :: 0 <= i < |lines| ==> r[i] == Line(lines[i], sep)
  {
    seq(|lines|, i requires 0 <= i < |lines| => Line(lines[i], sep))
  }

  /** The document: the lines joined by LF. */
  function Document(lines: seq<seq<Value>>, sep: char): string {
    Join(Lines(lines, sep), "\n")
  }

  function Texts(cells: seq<Value>): (r: seq<string>)
    ensures |r| == |cells| && forall i :: 0 <= i < |cells| ==> r[i] == CellText(cells[i])
  {
    seq(|cells|, i requires 0 <= i < |cells| => CellText(cells[i]))
  }

  // ---- The reader (section 2 of RFC 4180, with LF as the line break) ----

  /** The body of a quoted field, read after its opening quote: up to the
      first '"' not doubled, with each "" read as one '"'. Returns the body
      and what follows the closing quote. */
  function ScanQuoted(s: string): (r: Option<(string, string)>)
    ensures r.Some? ==> |r.value.1| < |s|
    decreases |s|
  {
    if |s| == 0 then None
    else if s[0] == '"' then
      if |s| >= 2 && s[1] == '"' then
        match ScanQuoted(s[2..])
        case None => None
        case Some((b, rest)) => Some(("\"" + b, rest))
      else Some(("", s[1..]))
    else
      match ScanQuoted(s[1..])
      case None => None
      case Some((b, rest)) => Some(([s[0]] + b, rest))
  }

  /** Where an unquoted field ends: the first separator or LF. */
  function FieldEnd(s: string, sep: char): (n: nat)
    ensures n <= |s| && (n < |s| ==> s[n] == sep || s[n] == '\n')
    ensures forall i :: 0 <= i < n ==> s[i] != sep && s[i] != '\n'
  {
    if |s| == 0 || s[0] == sep || s[0] == '\n' then 0 else 1 + FieldEnd(s[1..], sep)
  }

  predicate AtBoundary(r: string, sep: char) {
    |r| == 0 || r[0] == sep || r[0] == '\n'
  }

  /** One field at the start of `s`: its text and the rest, which starts
      at a separator, a line break or the end. */
  function Field(s: string, sep: char): (r: Option<(string, string)>)
    ensures r.Some? ==> |r.value.1| <= |s| && AtBoundary(r.value.1, sep)
  {
    if |s| > 0 && s[0] == '"' then
      match ScanQuoted(s[1..])
      case None => None
      case Some((b, rest)) => if AtBoundary(rest, sep) then Some((b, rest)) else None
    else
      var n := FieldEnd(s, sep);
      Some((s[..n], s[n..]))
  }

  /** One record: its fields, and the text after its LF (None at the end). */
  function ReadLine(s: string, sep: char): (r: Option<(seq<string>, Option<string>)>)
    ensures r.Some? && r.value.1.Some? ==> |r.value.1.value| < |s|
    decreases |s|
  {
    match Field(s, sep)
    case None => None
    case Some((t, rest)) =>
      if |rest| == 0 then Some(([t], None))
      else if rest[0] == '\n' then Some(([t], Some(rest[1..])))
      else
        match ReadLine(rest[1..], sep)
        case None => None
        case Some((ts, next)) => Some(([t] + ts, next))
  }

  /** Every record of a document. */
  function ReadDocument(s: string, sep: char): Option<seq<seq<string>>>
    decreases |s|
  {
    match ReadLine(s, sep)
    case None => None
    case Some((fields, None)) => Some([fields])
    case Some((fields, Some(rest))) =>
      match ReadDocument(rest, sep)
      case None => None
      case Some(more) => Some([fields] + more)
  }

  // ---- Round trip ----

  /** A doubled-quote body followed by a closing quote reads back as the text. */
  lemma {:induction false} ScanEscaped(t: string, rest: string)
    requires |rest| == 0 || rest[0] != '"'
    ensures ScanQuoted(Escape(t) + "\"" + rest) == Some((t, rest))
    decreases |t|
  {
    var s := Escape(t) + "\"" + rest;
    if |t| == 0 {
      assert s == "\"" + rest;
      assert s[1..] == rest;
    } else {
      ScanEscaped(t[1..], rest);
      ScanEscapedStep(t, rest);
    }
  }

  lemma ScanEscapedStep(t: string, rest: string)
    requires |t| > 0
    requires ScanQuoted(Escape(t[1..]) + "\"" + rest) == Some((t[1..], rest))
    ensures ScanQuoted(Escape(t) + "\"" + rest) == Some((t, rest))
  {
    if t[0] == '"' {
      ScanDoubledQuote(t, Escape(t[1..]) + "\"" + rest, rest);
    } else {
      ScanPlainChar(t, Escape(t[1..]) + "\"" + rest, rest);
    }
  }

  lemma ScanDoubledQuote(t: string, tail: string, rest: string)
    requires |t| > 0 && t[0] == '"' && tail == Escape(t[1..]) + "\"" + rest
    requires ScanQuoted(tail) == Some((t[1..], rest))
    ensures ScanQuoted(Escape(t) + "\"" + rest) == Some((t, rest))
  {
    var s := Escape(t) + "\"" + rest;
    assert s == "\"\"" + tail;
    assert s[2..] == tail;
    assert "\"" + t[1..] == t;
  }

  lemma ScanPlainChar(t: string, tail: string, rest: string)
    requires |t| > 0 && t[0] != '"' && tail == Escape(t[1..]) + "\"" + rest
    requires ScanQuoted(tail) == Some((t[1..], rest))
    ensures ScanQuoted(Escape(t) + "\"" + rest) == Some((t, rest))
  {
    var s := Escape(t) + "\"" + rest;
    assert s == [t[0]] + tail;
    assert s[1..] == tail;
    assert [t[0]] + t[1..] == t;
  }

  /** Every encoded cell reads back as its text, whatever follows it at a
      boundary. */
  lemma FieldRoundTrip(v: Value, sep: char, tail: string)
    requires sep != '"' && sep != '\n' && sep != Delimiter
    requires AtBoundary(tail, sep)
    ensures Field(Encode(v, sep) + tail, sep) == Some((CellText(v), tail))
  {
    if v.Null? {
      QuotedField("", sep, tail);
      assert Escape("") == "";
    } else if NeedsQuotes(Escape(CellText(v)), sep) {
      QuotedField(CellText(v), sep, tail);
    } else {
      PlainField(CellText(v), sep, tail);
    }
  }

  /** With the pattern's delimiter as separator nothing is quoted, so a
      cell holding the separator reads back as two cells. */
  lemma DelimiterSplitsCell()
    ensures Line([Str("a`b")], Delimiter) == "a`b"
    ensures ReadLine("a`b", Delimiter) == Some((["a", "b"], None))
  {
    DelimiterLine();
    DelimiterRead();
  }

  lemma DelimiterLine()
    ensures Line([Str("a`b")], Delimiter) == "a`b"
  {
    var v := Str("a`b");
    assert CellText(v) == "a`b";
    assert Escape("a`b") == "a`b" by { EscapeKeeps("a`b", '"'); }
    assert Encode(v, Delimiter) == "a`b";
    var e := Encoded([v], Delimiter);
    assert |e| == 1 && e[0] == "a`b";
  }

  lemma DelimiterRead()
    ensures ReadLine("a`b", Delimiter) == Some((["a", "b"], None))
  {
    var s := "a`b";
    assert Field(s, Delimiter) == Some(("a", "`b")) by {
      assert s[0] != '"';
      assert FieldEnd(s, Delimiter) == 1 by {
        assert s[1..] == "`b";
      }
      assert s[..1] == "a" && s[1..] == "`b";
    }
    assert ReadLine("b", Delimiter) == Some((["b"], None)) by {
      var b := "b";
      assert Field(b, Delimiter) == Some(("b", "")) by {
        assert FieldEnd(b, Delimiter) == 1 by { assert b[1..] == ""; }
        assert b[..1] == "b" && b[1..] == "";
      }
    }
    assert "`b"[1..] == "b";
    assert ["a"] + ["b"] == ["a", "b"];
  }

  lemma QuotedField(t: string, sep: char, tail: string)
    requires sep != '"' && AtBoundary(tail, sep)
    ensures Field("\"" + Escape(t) + "\"" + tail, sep) == Some((t, tail))
  {
    var u := Escape(t) + "\"" + tail;
    Assoc.SeqAssoc("\"", Escape(t) + "\"", tail);
    Assoc.SeqAssoc("\"", Escape(t), "\"");
    Assoc.AfterPrefix("\"", u);
    ScanEscaped(t, tail);
    assert ScanQuoted(u) == Some((t, tail));
  }

  lemma PlainField(t: string, sep: char, tail: string)
    requires !NeedsQuotes(Escape(t), sep) && AtBoundary(tail, sep) && sep != '"'
    ensures Field(Escape(t) + tail, sep) == Some((t, tail))
  {
    var s := Escape(t) + tail;
    EscapeKeeps(t, '"');
    assert Escape(t) == t;
    FieldEndAfter(t, tail, sep);
    assert s[..|t|] == t && s[|t|..] == tail;
    if |t| > 0 {
      assert s[0] == t[0];
    }
  }

  lemma FieldEndAfter(e: string, tail: string, sep: char)
    requires sep !in e && '\n' !in e && AtBoundary(tail, sep)
    ensures FieldEnd(e + tail, sep) == |e|
    decreases |e|
  {
    if |e| > 0 {
      assert (e + tail)[1..] == e[1..] + tail;
      FieldEndAfter(e[1..], tail, sep);
    }
  }

  /** A line of several cells is the first cell, a separator and the rest. */
  lemma LineCons(cells: seq<Value>, sep: char)
    requires |cells| > 1
    ensures Line(cells, sep) == Encode(cells[0], sep) + [sep] + Line(cells[1..], sep)
  {
    var parts := Encoded(cells, sep);
    var rest := Encoded(cells[1..], sep);
    forall i | 0 <= i < |rest|
      ensures parts[1..][i] == rest[i]
    {
      assert cells[1..][i] == cells[i + 1];
    }
    assert parts[1..] == rest;
  }

  /** A field followed by a separator: the line is that field and the rest. */
  lemma ReadLineStep(s: string, sep: char, t: string, more: string)
    requires sep != '\n' && Field(s, sep) == Some((t, [sep] + more))
    ensures ReadLine(s, sep) ==
      (match ReadLine(more, sep)
       case None => None
       case Some((ts, next)) => Some(([t] + ts, next)))
  {
    assert ([sep] + more)[1..] == more;
  }

  /** A line reads back as the texts of its cells. */
  lemma {:induction false} LineRoundTrip(cells: seq<Value>, sep: char, tail: string)
    requires sep != '"' && sep != '\n' && sep != Delimiter && |cells| > 0
    requires |tail| == 0 || tail[0] == '\n'
    ensures ReadLine(Line(cells, sep) + tail, sep) == Some((Texts(cells), if |tail| == 0 then None else Some(tail[1..])))
    decreases |cells|, 1
  {
    if |cells| == 1 {
      assert Line(cells, sep) == Encode(cells[0], sep);
      FieldRoundTrip(cells[0], sep, tail);
      assert Texts(cells) == [CellText(cells[0])];
    } else {
      LineRoundTripCons(cells, sep, tail);
    }
  }

  lemma FirstFieldOfLine(cells: seq<Value>, sep: char, tail: string)
    requires sep != '"' && sep != '\n' && sep != Delimiter && |cells| > 1
    ensures Field(Line(cells, sep) + tail, sep) == Some((CellText(cells[0]), [sep] + (Line(cells[1..], sep) + tail)))
  {
    var more := Line(cells[1..], sep) + tail;
    LineCons(cells, sep);
    Concat3(Encode(cells[0], sep), [sep], Line(cells[1..], sep), tail);
    FieldRoundTrip(cells[0], sep, [sep] + more);
  }

  lemma Concat3(a: string, b: string, c: string, d: string)
    ensures a + b + c + d == a + (b + (c + d))
  {
  }

  lemma {:induction false} LineRoundTripCons(cells: seq<Value>, sep: char, tail: string)
    requires sep != '"' && sep != '\n' && sep != Delimiter && |cells| > 1
    requires |tail| == 0 || tail[0] == '\n'
    ensures ReadLine(Line(cells, sep) + tail, sep) == Some((Texts(cells), if |tail| == 0 then None else Some(tail[1..])))
    decreases |cells|, 0
  {
    var next := if |tail| == 0 then None else Some(tail[1..]);
    var rest := cells[1..];
    var more := Line(rest, sep) + tail;
    var s := Line(cells, sep) + tail;
    FirstFieldOfLine(cells, sep, tail);
    ReadLineStep(s, sep, CellText(cells[0]), more);
    LineRoundTrip(rest, sep, tail);
    assert ReadLine(more, sep) == Some((Texts(rest), next));
    TextsCons(cells);
  }

  lemma TextsCons(cells: seq<Value>)
    requires |cells| > 0
    ensures Texts(cells) == [CellText(cells[0])] + Texts(cells[1..])
  {
    var a, t := Texts(cells), Texts(cells[1..]);
    forall i | 0 <= i < |t|
      ensures a[i + 1] == t[i]
    {
      assert cells[1..][i] == cells[i + 1];
    }
    HeadTail(a, CellText(cells[0]), t);
  }

  /** A sequence is its head followed by what comes after it. */
  lemma HeadTail<T>(a: seq<T>, x: T, t: seq<T>)
    requires |a| == |t| + 1 && a[0] == x
    requires forall i :: 0 <= i < |t| ==> a[i + 1] == t[i]
    ensures a == [x] + t
  {
    assert forall i :: 0 <= i < |a| ==> a[i] == ([x] + t)[i];
  }

  /** The whole document reads back as the texts of its lines, cell by
      cell, provided no line is empty. */
  lemma {:induction false} DocumentRoundTrip(lines: seq<seq<Value>>, sep: char)
    requires sep != '"' && sep != '\n' && sep != Delimiter && |lines| > 0
    requires forall i :: 0 <= i < |lines| ==> |lines[i]| > 0
    ensures ReadDocument(Document(lines, sep), sep) == Some(AllTexts(lines))
    decreases |lines|, 1
  {
    if |lines| == 1 {
      assert Document(lines, sep) == Line(lines[0], sep);
      LineRoundTrip(lines[0], sep, "");
      assert Line(lines[0], sep) + "" == Line(lines[0], sep);
      assert AllTexts(lines) == [Texts(lines[0])];
    } else {
      DocumentRoundTripCons(lines, sep);
    }
  }

  function AllTexts(lines: seq<seq<Value>>): (r: seq<seq<string>>)
    ensures |r| == |lines| && forall i :: 0 <= i < |lines| ==> r[i] == Texts(lines[i])
  {
    seq(|lines|, i requires 0 <= i < |lines| => Texts(lines[i]))
  }

  lemma DocumentCons(lines: seq<seq<Value>>, sep: char)
    requires |lines| > 1
    ensures Document(lines, sep) == Line(lines[0], sep) + ("\n" + Document(lines[1..], sep))
  {
    var parts := Lines(lines, sep);
    var rest := Lines(lines[1..], sep);
    forall i | 0 <= i < |rest|
      ensures parts[1..][i] == rest[i]
    {
      assert lines[1..][i] == lines[i + 1];
    }
    assert parts[1..] == rest;
  }

  lemma {:induction false} DocumentRoundTripCons(lines: seq<seq<Value>>, sep: char)
    requires sep != '"' && sep != '\n' && sep != Delimiter && |lines| > 1
    requires forall i :: 0 <= i < |lines| ==> |lines[i]| > 0
    ensures ReadDocument(Document(lines, sep), sep) == Some(AllTexts(lines))
    decreases |lines|, 0
  {
    var rest := lines[1..];
    var tail := "\n" + Document(rest, sep);
    DocumentCons(lines, sep);
    LineRoundTrip(lines[0], sep, tail);
    assert tail[1..] == Document(rest, sep);
    forall i | 0 <= i < |rest|
      ensures |rest[i]| > 0
    {
      assert rest[i] == lines[i + 1];
    }
    DocumentRoundTrip(rest, sep);
    AllTextsCons(lines);
  }

  lemma AllTextsCons(lines: seq<seq<Value>>)
    requires |lines| > 0
    ensures AllTexts(lines) == [Texts(lines[0])] + AllTexts(lines[1..])
  {
    var a, t := AllTexts(lines), AllTexts(lines[1..]);
    forall i | 0 <= i < |t|
      ensures a[i + 1] == t[i]
    {
      assert lines[1..][i] == lines[i + 1];
    }
    HeadTail(a, Texts(lines[0]), t);
  }
}

=== FILE: dbi.dfy ===
/** `DBI::getDsn`: the PDO data source name a database configuration
    stands for. */
module Dbi {
  import opened Errors
  import opened Strs
  import opened Php
  import Assoc
  import Updater

  /** The settings a DSN is built from, in the order they appear in it. */
  const DsnKeys: seq<string> := ["host", "dbname", "port", "charset"]

  /** The keys of `keys` the configuration holds, in order. */
  function PresentKeys(conf: seq<(Key, Value)>, keys: seq<string>): (r: seq<string>)
    ensures |r| <= |keys|
    ensures forall i :: 0 <= i < |r| ==> r[i] in keys && Assoc.HasKey(conf, StrKey(r[i]))
    ensures forall i :: 0 <= i < |keys| && Assoc.HasKey(conf, StrKey(keys[i])) ==> keys[i] in r
    decreases |keys|
  {
    if |keys| == 0 then []
    else
      var rest := PresentKeys(conf, keys[1..]);
      assert forall i :: 1 <= i < |keys| ==> keys[i] == keys[1..][i - 1];
      if Assoc.HasKey(conf, StrKey(keys[0])) then [keys[0]] + rest else rest
  }

  /** A setting as the string concatenation reads it; an object has no
      string form here. */
  function SettingText(conf: seq<(Key, Value)>, k: string): Option<string> {
    ToText(Assoc.Get(conf, StrKey(k)).GetOr(Null))
  }

  /** Every key of `pk` has a string form. */
  predicate AllText(conf: seq<(Key, Value)>, pk: seq<string>) {
    forall i :: 0 <= i < |pk| ==> SettingText(conf, pk[i]).Some?
  }

  /** `ps` holds "k=v" for each key k of `pk` and its setting v, in order. */
  predicate PairsFor(conf: seq<(Key, Value)>, pk: seq<string>, ps: seq<string>) {
    |ps| == |pk| && forall i :: 0 <= i < |pk| ==> SettingText(conf, pk[i]).Some? && ps[i] == pk[i] + "=" + SettingText(conf, pk[i]).value
  }

  lemma AllTextCons(conf: seq<(Key, Value)>, k: string, pk: seq<string>)
    ensures AllText(conf, [k] + pk) <==> SettingText(conf, k).Some? && AllText(conf, pk)
  {
    var all := [k] + pk;
    if SettingText(conf, k).Some? && AllText(conf, pk) {
      forall i | 0 <= i < |all| ensures SettingText(conf, all[i]).Some? {
        if i > 0 {
          assert all[i] == pk[i - 1];
        }
      }
    }
    if AllText(conf, all) {
      assert all[0] == k;
      forall i | 0 <= i < |pk| ensures SettingText(conf, pk[i]).Some? {
        assert all[i + 1] == pk[i];
      }
    }
  }

  lemma PairsForCons(conf: seq<(Key, Value)>, k: string, t: string, pk: seq<string>, ps: seq<string>)
    requires SettingText(conf, k) == Some(t) && PairsFor(conf, pk, ps)
    ensures PairsFor(conf, [k] + pk, [k + "=" + t] + ps)
  {
    var all, pairs := [k] + pk, [k + "=" + t] + ps;
    forall i | 0 <= i < |all|
      ensures SettingText(conf, all[i]).Some? && pairs[i] == all[i] + "=" + SettingText(conf, all[i]).value
    {
      if i > 0 {
        assert all[i] == pk[i - 1] && pairs[i] == ps[i - 1];
      }
    }
  }

  /** The "k=v" pairs of the present keys, in order. */
  function Pairs(conf: seq<(Key, Value)>, keys: seq<string>): (r: Result<seq<string>>)
    ensures r.Ok? <==> AllText(conf, PresentKeys(conf, keys))
    ensures r.Ok? ==> PairsFor(conf, PresentKeys(conf, keys), r.value)
    decreases |keys|
  {
    if |keys| == 0 then Ok([])
    else
      var rest := Pairs(conf, keys[1..]);
      var pk1 := PresentKeys(conf, keys[1..]);
      if Assoc.HasKey(conf, StrKey(keys[0])) then
        assert PresentKeys(conf, keys) == [keys[0]] + pk1;
        AllTextCons(conf, keys[0], pk1);
        match SettingText(conf, keys[0])
        case None => Err(EngineError("Object could not be converted to string"))
        case Some(t) =>
          match rest
          case Err(e) => Err(e)
          case Ok(ps) =>
            PairsForCons(conf, keys[0], t, pk1, ps);
            Ok([keys[0] + "=" + t] + ps)
      else
        assert PresentKeys(conf, keys) == pk1;
        rest
  }

  /** None of the keys present: no pairs. */
  lemma {:induction false} NoPairs(conf: seq<(Key, Value)>, keys: seq<string>)
    requires forall i :: 0 <= i < |keys| ==> !Assoc.HasKey(conf, StrKey(keys[i]))
    ensures Pairs(conf, keys) == Ok([])
    decreases |keys|
  {
    if |keys| > 0 {
      NoPairs(conf, keys[1..]);
    }
  }

  /** `getDsn($conf)`: an explicit "dsn" setting as it is; otherwise the
      type, ':' and the pairs of the present connection settings joined by
      ';'. */
  function GetDsn(conf: seq<(Key, Value)>): (r: Result<Value>)
    ensures Assoc.HasKey(conf, StrKey("dsn")) ==> r == Ok(Assoc.Get(conf, StrKey("dsn")).value)
    ensures !Assoc.HasKey(conf, StrKey("dsn")) && r.Ok? ==>
      Pairs(conf, DsnKeys).Ok? && SettingText(conf, "type").Some?
      && r.value == Str(SettingText(conf, "type").value + ":" + Join(Pairs(conf, DsnKeys).value, ";"))
  {
    if Assoc.HasKey(conf, StrKey("dsn")) then Ok(Assoc.Get(conf, StrKey("dsn")).value)
    else
      var pairs :- Pairs(conf, DsnKeys);
      match SettingText(conf, "type")
      case None => Err(EngineError("Object could not be converted to string"))
      case Some(t) => Ok(Str(t + ":" + Join(pairs, ";")))
  }

  /** A configuration with none of the connection settings gives the type
      and ':' alone. */
  lemma TypeOnly(conf: seq<(Key, Value)>, t: string)
    requires !Assoc.HasKey(conf, StrKey("dsn")) && Assoc.Get(conf, StrKey("type")) == Some(Str(t))
    requires forall i :: 0 <= i < |DsnKeys| ==> !Assoc.HasKey(conf, StrKey(DsnKeys[i]))
    ensures GetDsn(conf) == Ok(Str(t + ":"))
  {
    NoPairs(conf, DsnKeys);
    assert SettingText(conf, "type") == Some(t);
    assert Join([], ";") == "";
    assert t + ":" + "" == t + ":";
  }

  /** Each pair is free of ';' when the values are. */
  lemma PairsFree(conf: seq<(Key, Value)>)
    requires Pairs(conf, DsnKeys).Ok?
    requires forall i :: 0 <= i < |PresentKeys(conf, DsnKeys)| ==> ';' !in SettingText(conf, PresentKeys(conf, DsnKeys)[i]).value
    ensures forall i :: 0 <= i < |Pairs(conf, DsnKeys).value| ==> ';' !in Pairs(conf, DsnKeys).value[i]
  {
    var pairs := Pairs(conf, DsnKeys).value;
    var pk := PresentKeys(conf, DsnKeys);
    KeysFree();
    forall i | 0 <= i < |pairs| ensures ';' !in pairs[i] {
      PairFree(pk[i], SettingText(conf, pk[i]).value);
    }
  }

  lemma KeysFree()
    ensures forall k :: k in DsnKeys ==> ';' !in k
  {
  }

  lemma PairFree(k: string, v: string)
    requires ';' !in k && ';' !in v
    ensures ';' !in k + "=" + v
  {
    var s := k + "=" + v;
    forall i | 0 <= i < |s| ensures s[i] != ';' {
      if i < |k| {
        assert s[i] == k[i];
      } else if i > |k| {
        assert s[i] == v[i - |k| - 1];
      }
    }
  }

  /** A text "t:rest" with no ':' in t splits back into t and rest. */
  lemma TypeSplits(t: string, rest: string)
    requires ':' !in t
    ensures Split(t + ":" + rest, ':')[0] == t
    ensures (t + ":" + rest)[|t| + 1..] == rest
  {
    var dsn := t + ":" + rest;
    assert dsn == t + [':'] + rest;
    SplitAtFirst(t, ':', rest);
    assert dsn[..|t|] == t;
  }

  /** A built DSN reads back: the type before the first ':', the pairs
      after it split at ';', and the backend it selects named after the
      type. */
  lemma DsnReadsBack(conf: seq<(Key, Value)>, t: string)
    requires !Assoc.HasKey(conf, StrKey("dsn")) && Assoc.Get(conf, StrKey("type")) == Some(Str(t)) && ':' !in t
    requires Pairs(conf, DsnKeys).Ok? && |Pairs(conf, DsnKeys).value| > 0
    requires forall i :: 0 <= i < |PresentKeys(conf, DsnKeys)| ==> ';' !in SettingText(conf, PresentKeys(conf, DsnKeys)[i]).value
    ensures GetDsn(conf).Ok? && GetDsn(conf).value.Str?
    ensures var dsn := GetDsn(conf).value.s;
      Split(dsn, ':')[0] == t
      && Split(dsn[|t| + 1..], ';') == Pairs(conf, DsnKeys).value
      && Updater.BackendClass(dsn) == Updater.BackendNamespace + UpperFirst(t)
  {
    var pairs := Pairs(conf, DsnKeys).value;
    var rest := Join(pairs, ";");
    assert GetDsn(conf) == Ok(Str(t + ":" + rest));
    PairsFree(conf);
    SplitJoin(pairs, ';');
    TypeSplits(t, rest);
  }
}

=== FILE: download.dfy ===
/** `REST\Response\Download`: the file name a download is offered under,
    and the check that what it sends out is a renderer. */
module Download {
  import opened Errors
  import opened Strs
  import opened Php

  /** What a download wraps: a renderer (its class and file extension) or
      raw data. */
  datatype Body = Renderer(cls: string, extension: string) | Raw(v: Value)

  datatype Download = Download(name: string, body: Body)

  /** The name used when none is given: the request path with '/' turned
      into '_' ("file" for a falsy path), then "." + format for a truthy
      format. */
  function DefaultName(path: string, format: string): (r: string)
    ensures !Truthy(Str(path)) ==> |r| >= 4 && r[..4] == "file"
    ensures Truthy(Str(format)) ==> |r| > |format| && r[|r| - |format| - 1..] == "." + format
    ensures !Truthy(Str(format)) ==> r == (if Truthy(Str(path)) then ReplaceChar(path, '/', '_') else "file")
  {
    var base := if Truthy(Str(path)) then ReplaceChar(path, '/', '_') else "file";
    if Truthy(Str(format)) then base + "." + format else base
  }

  /** `new Download($data, $name)`: a truthy name is kept verbatim; otherwise
      the default name, with the renderer's extension for a renderer and
      the response format for raw data. */
  function Make(body: Body, name: Option<string>, path: string, responseFormat: string): (r: Download)
    ensures r.body == body
    ensures name.Some? && Truthy(Str(name.value)) ==> r.name == name.value
    ensures !(name.Some? && Truthy(Str(name.value))) ==>
      r.name == DefaultName(path, if body.Renderer? then body.extension else responseFormat)
  {
    if name.Some? && Truthy(Str(name.value)) then Download(name.value, body)
    else
      var format := if body.Renderer? then body.extension else responseFormat;
      Download(DefaultName(path, format), body)
  }

  /** `output()`: only a renderer can be sent. */
  function Output(d: Download): (r: Result<Body>)
    ensures r.Ok? <==> d.body.Renderer?
    ensures r.Ok? ==> r.value == d.body
    ensures r.Err? ==> r.error == BadType("HereYouGo\\REST\\Response\\Download", "scalar data")
  {
    if d.body.Renderer? then Ok(d.body) else Err(BadType("HereYouGo\\REST\\Response\\Download", "scalar data"))
  }

  /** A default name has no '/' when the format has none. */
  lemma DefaultNameFlat(path: string, format: string)
    requires '/' !in format
    ensures '/' !in DefaultName(path, format)
  {
    var base := if Truthy(Str(path)) then ReplaceChar(path, '/', '_') else "file";
    assert forall i :: 0 <= i < |base| ==> base[i] != '/';
    var r := DefaultName(path, format);
    if Truthy(Str(format)) {
      assert r == base + "." + format;
      forall i | 0 <= i < |r|
        ensures r[i] != '/'
      {
        if i < |base| {
          assert r[i] == base[i];
        } else if i > |base| {
          assert r[i] == format[i - |base| - 1];
        }
      }
    }
  }

  /** For a path without '_' and a falsy format, the path can be read back
      from the default name. */
  lemma DefaultNameReadsBack(path: string, format: string)
    requires Truthy(Str(path)) && '_' !in path && !Truthy(Str(format))
    ensures ReplaceChar(DefaultName(path, format), '_', '/') == path
  {
    var r := DefaultName(path, format);
    assert r == ReplaceChar(path, '/', '_');
    assert forall i :: 0 <= i < |path| ==> path[i] != '_';
  }
}

=== FILE: entity_cache.dfy ===
/** `Model\Cache`: the two-level class => cache key => entity store, with
    its get, set and drop operations as pure functions over the store. */
module EntityCache {
  import opened Errors
  import opened Php
  import Assoc

  /** A cached entity: its class, its cache key (`getCacheKey()`, already
      an array key) and an identity standing for the object. */
  datatype CachedEntity = CachedEntity(cls: string, key: Key, id: nat)

  type Entries = seq<(Key, CachedEntity)>
  type Store = seq<(string, Entries)>

  /** PHP truthiness of the optional arguments (`null` is None). */
  predicate ClassGiven(c: Option<string>) { c.Some? && c.value != "" && c.value != "0" }
  predicate KeyGiven(k: Option<Key>) { k.Some? && k.value != IntKey(0) && k.value != StrKey("") && k.value != StrKey("0") }

  /** The shape every store the operations build has: classes and keys
      unique, each entity filed under its own class and key. */
  ghost predicate WellFormed(s: Store) {
    Assoc.DistinctKeys(s)
    && forall c :: Assoc.Get(s, c).Some? ==> FiledUnder(c, Assoc.Get(s, c).value)
  }

  ghost predicate FiledUnder(c: string, es: Entries) {
    Assoc.DistinctKeys(es)
    && forall k :: Assoc.Get(es, k).Some? ==> Assoc.Get(es, k).value.cls == c && Assoc.Get(es, k).value.key == k
  }

  /** What `getEntity` returns. */
  datatype Lookup =
    | Everything(store: Store)   // no class given
    | ClassMap(entries: Entries) // a class and no key
    | Found(entity: CachedEntity)
    | Nothing                    // null

  /** The entity filed under a class and key, if any. */
  function EntryOf(s: Store, c: string, k: Key): Option<CachedEntity> {
    match Assoc.Get(s, c)
    case None => None
    case Some(es) => Assoc.Get(es, k)
  }

  /** `getEntity($class, $key)`. */
  function GetEntity(s: Store, c: Option<string>, k: Option<Key>): (r: Lookup)
    ensures !ClassGiven(c) ==> r == Everything(s)
    ensures ClassGiven(c) && KeyGiven(k) ==>
      (r.Found? || r.Nothing?) && (r.Found? <==> EntryOf(s, c.value, k.value).Some?)
      && (r.Found? ==> r.entity == EntryOf(s, c.value, k.value).value)
    ensures ClassGiven(c) && !KeyGiven(k) ==> r == ClassMap(Assoc.Get(s, c.value).GetOr([]))
  {
    if !ClassGiven(c) then Everything(s)
    else if !Assoc.HasKey(s, c.value) then (if KeyGiven(k) then Nothing else ClassMap([]))
    else
      var es := Assoc.Get(s, c.value).value;
      if !KeyGiven(k) then ClassMap(es)
      else if !Assoc.HasKey(es, k.value) then Nothing
      else Found(Assoc.Get(es, k.value).value)
  }

  /** `setEntity($entity)`: file it under its class and key, creating the
      class level when needed, replacing any entity already there. */
  function SetEntity(s: Store, e: CachedEntity): (r: Store)
    ensures EntryOf(r, e.cls, e.key) == Some(e)
    ensures forall c, k :: (c, k) != (e.cls, e.key) ==> EntryOf(r, c, k) == EntryOf(s, c, k)
    ensures forall c :: Assoc.HasKey(r, c) <==> Assoc.HasKey(s, c) || c == e.cls
  {
    var es := Assoc.Get(s, e.cls).GetOr([]);
    Assoc.Put(s, e.cls, Assoc.Put(es, e.key, e))
  }

  lemma SetKeepsWellFormed(s: Store, e: CachedEntity)
    requires WellFormed(s)
    ensures WellFormed(SetEntity(s, e))
  {
    var es := Assoc.Get(s, e.cls).GetOr([]);
    var es' := Assoc.Put(es, e.key, e);
    var r := Assoc.Put(s, e.cls, es');
    assert Assoc.DistinctKeys(r) by {
      Assoc.PutKeepsDistinct(s, e.cls, es');
    }
    assert FiledUnder(e.cls, es') by {
      assert FiledUnder(e.cls, es) by {
        if Assoc.Get(s, e.cls).Some? {
          assert FiledUnder(e.cls, Assoc.Get(s, e.cls).value);
        }
      }
      Assoc.PutKeepsDistinct(es, e.key, e);
    }
    forall c | Assoc.Get(r, c).Some?
      ensures FiledUnder(c, Assoc.Get(r, c).value)
    {
      if c != e.cls {
        assert Assoc.Get(r, c) == Assoc.Get(s, c);
      }
    }
  }

  /** After setting an entity, looking it up by its class and key finds
      it, provided both are truthy. */
  lemma SetThenGet(s: Store, e: CachedEntity)
    requires ClassGiven(Some(e.cls)) && KeyGiven(Some(e.key))
    ensures GetEntity(SetEntity(s, e), Some(e.cls), Some(e.key)) == Found(e)
  {
  }

  /** A later set with the same class and key wins. */
  lemma LastWriterWins(s: Store, e1: CachedEntity, e2: CachedEntity)
    requires e1.cls == e2.cls && e1.key == e2.key
    ensures EntryOf(SetEntity(SetEntity(s, e1), e2), e2.cls, e2.key) == Some(e2)
    ensures forall c, k :: (c, k) != (e1.cls, e1.key) ==>
      EntryOf(SetEntity(SetEntity(s, e1), e2), c, k) == EntryOf(s, c, k)
  {
  }

  /** What `dropEntity` is given: an entity, or an optional class and key. */
  datatype DropTarget = OfEntity(e: CachedEntity) | ByName(c: Option<string>, k: Option<Key>)

  /** `dropEntity`: an entity stands for its class and key; with a truthy
      class and key that one entry goes; with only a class, the whole
      class; with neither, everything. */
  function DropEntity(s: Store, t: DropTarget): (r: Store)
    ensures forall c, k :: EntryOf(r, c, k).Some? ==> EntryOf(r, c, k) == EntryOf(s, c, k)
    ensures t.ByName? && !ClassGiven(t.c) ==> r == []
    ensures t.ByName? && ClassGiven(t.c) && !KeyGiven(t.k) ==>
      !Assoc.HasKey(r, t.c.value) && forall c :: c != t.c.value ==> Assoc.Get(r, c) == Assoc.Get(s, c)
  {
    var (c, k) := match t
      case OfEntity(e) => (Some(e.cls), Some(e.key))
      case ByName(c, k) => (c, k);
    if ClassGiven(c) && KeyGiven(k) then
      if Assoc.HasKey(s, c.value) && Assoc.HasKey(Assoc.Get(s, c.value).value, k.value) then
        Assoc.Put(s, c.value, Assoc.Remove(Assoc.Get(s, c.value).value, k.value))
      else s
    else if ClassGiven(c) then
      Assoc.Remove(s, c.value)
    else []
  }

  /** Dropping by a truthy class and key removes exactly that entry. */
  lemma DropExact(s: Store, c: string, k: Key)
    requires ClassGiven(Some(c)) && KeyGiven(Some(k))
    ensures EntryOf(DropEntity(s, ByName(Some(c), Some(k))), c, k).None?
    ensures forall c', k' :: (c', k') != (c, k) ==>
      EntryOf(DropEntity(s, ByName(Some(c), Some(k))), c', k') == EntryOf(s, c', k')
  {
  }

  /** Dropping an entity whose class and key are truthy removes exactly its entry. */
  lemma DropEntityExact(s: Store, e: CachedEntity)
    requires ClassGiven(Some(e.cls)) && KeyGiven(Some(e.key))
    ensures EntryOf(DropEntity(s, OfEntity(e)), e.cls, e.key).None?
    ensures forall c, k :: (c, k) != (e.cls, e.key) ==>
      EntryOf(DropEntity(s, OfEntity(e)), c, k) == EntryOf(s, c, k)
  {
    DropExact(s, e.cls, e.key);
    assert DropEntity(s, OfEntity(e)) == DropEntity(s, ByName(Some(e.cls), Some(e.key)));
  }

  /** Dropping a class removes all of its entries and nothing else. */
  lemma DropClass(s: Store, c: string, k: Option<Key>)
    requires ClassGiven(Some(c)) && !KeyGiven(k)
    ensures forall k' :: EntryOf(DropEntity(s, ByName(Some(c), k)), c, k').None?
    ensures forall c', k' :: c' != c ==> EntryOf(DropEntity(s, ByName(Some(c), k)), c', k') == EntryOf(s, c', k')
  {
  }

  /** Dropping with no class empties the store. */
  lemma DropAll(s: Store, k: Option<Key>)
    ensures DropEntity(s, ByName(None, k)) == []
    ensures GetEntity(DropEntity(s, ByName(None, k)), None, None) == Everything([])
  {
  }

  /** An entity whose cache key is falsy (0 or "") is dropped with every
      other entity of its class: the key test sees no key. */
  lemma FalsyKeyDropsClass(s: Store, e: CachedEntity, other: Key)
    requires ClassGiven(Some(e.cls)) && e.key == IntKey(0)
    ensures EntryOf(DropEntity(s, OfEntity(e)), e.cls, other).None?
  {
  }

  lemma DropKeepsWellFormed(s: Store, t: DropTarget)
    requires WellFormed(s)
    ensures WellFormed(DropEntity(s, t))
  {
    var (c, k) := match t
      case OfEntity(e) => (Some(e.cls), Some(e.key))
      case ByName(c, k) => (c, k);
    if ClassGiven(c) && KeyGiven(k) {
      if Assoc.HasKey(s, c.value) && Assoc.HasKey(Assoc.Get(s, c.value).value, k.value) {
        var es := Assoc.Get(s, c.value).value;
        Assoc.RemoveKeepsDistinct(es, k.value);
        Assoc.PutKeepsDistinct(s, c.value, Assoc.Remove(es, k.value));
      }
    } else if ClassGiven(c) {
      Assoc.RemoveKeepsDistinct(s, c.value);
    }
  }
}

=== FILE: enums.dfy ===
/** The model enumerations (`Model\Constant\Type`, `IntSize`, `Relation`) and
    their loose membership test `Enum::isValue`. The enumerations' values are
    class constants; membership is PHP's non-strict `in_array`. */
module Enums {
  import opened Errors
  import opened Php
  import opened Strs

  /** `Model\Constant\Type`. */
  datatype FieldType =
    | BoolType | IntType | DecimalType | FloatType | DoubleType
    | DateType | DateTimeType | TimeType
    | StringType | TextType | LongTextType

  function TypeName(t: FieldType): (s: string)
    ensures |s| > 0 && IsLowerAscii(s[0])
  {
    match t
    case BoolType => "bool"
    case IntType => "int"
    case DecimalType => "decimal"
    case FloatType => "float"
    case DoubleType => "double"
    case DateType => "date"
    case DateTimeType => "date_time"
    case TimeType => "time"
    case StringType => "string"
    case TextType => "text"
    case LongTextType => "long_text"
  }

  const AllTypes: seq<FieldType> := [BoolType, IntType, DecimalType, FloatType, DoubleType,
    DateType, DateTimeType, TimeType, StringType, TextType, LongTextType]

  function TypeIndex(t: FieldType): (i: nat)
    ensures i < |AllTypes| && AllTypes[i] == t
  {
    match t
    case BoolType => 0
    case IntType => 1
    case DecimalType => 2
    case FloatType => 3
    case DoubleType => 4
    case DateType => 5
    case DateTimeType => 6
    case TimeType => 7
    case StringType => 8
    case TextType => 9
    case LongTextType => 10
  }

  /** The type a constant's text names, if any. */
  function TypeOfName(s: string): (r: Option<FieldType>)
    ensures r.Some? ==> TypeName(r.value) == s
    ensures r.None? ==> forall t: FieldType :: TypeName(t) != s
  {
    if s == "bool" then Some(BoolType)
    else if s == "int" then Some(IntType)
    else if s == "decimal" then Some(DecimalType)
    else if s == "float" then Some(FloatType)
    else if s == "double" then Some(DoubleType)
    else if s == "date" then Some(DateType)
    else if s == "date_time" then Some(DateTimeType)
    else if s == "time" then Some(TimeType)
    else if s == "string" then Some(StringType)
    else if s == "text" then Some(TextType)
    else if s == "long_text" then Some(LongTextType)
    else None
  }

  /** No type name starts with 'o' or 'm'. */
  lemma LetterNoType(s: string)
    requires |s| > 0 && (s[0] == 'o' || s[0] == 'm')
    ensures TypeOfName(s).None?
  {
  }

  /** The word "type" is not itself a type name. */
  lemma TypeWordNamesNoType()
    ensures TypeOfName("type").None?
  {
  }

  lemma TypeNameRoundTrip(t: FieldType)
    ensures TypeOfName(TypeName(t)) == Some(t)
  {
  }

  /** `Model\Constant\IntSize`: the byte widths MySQL integer columns come in. */
  const IntSizes: seq<int> := [1, 2, 3, 4, 8]

  /** `Model\Constant\Relation`. */
  datatype RelationKind = One | Many | OneToMany | ManyToOne | ManyToMany

  function RelationName(k: RelationKind): string {
    match k
    case One => "one"
    case Many => "many"
    case OneToMany => "one_to_many"
    case ManyToOne => "many_to_one"
    case ManyToMany => "many_to_many"
  }

  /** The enumeration classes. */
  datatype EnumClass = TypeEnum | IntSizeEnum | RelationEnum

  /** What `getConstants()` yields for each class, in declaration order. */
  function ValuesOf(e: EnumClass): (vs: seq<Value>)
    ensures |vs| > 0
  {
    match e
    case TypeEnum => seq(|AllTypes|, i requires 0 <= i < |AllTypes| => Str(TypeName(AllTypes[i])))
    case IntSizeEnum => [Int(1), Int(2), Int(3), Int(4), Int(8)]
    case RelationEnum => [Str("one"), Str("many"), Str("one_to_many"), Str("many_to_one"), Str("many_to_many")]
  }

  /** `E::isValue($v)` when every class reads its own constants. */
  predicate IsValue(e: EnumClass, v: Value) {
    InArray(v, ValuesOf(e))
  }

  /** A string that starts with a lower-case letter is not numeric. */
  lemma LetterNotNumeric(s: string)
    requires |s| > 0 && IsLowerAscii(s[0])
    ensures !IsIntNumeric(s)
  {
    assert TrimLeftPcre(s) == s;
  }

  /** For a string, being a Type value is exactly naming a type. */
  lemma IsTypeValueIffName(s: string)
    ensures IsValue(TypeEnum, Str(s)) <==> TypeOfName(s).Some?
  {
    var vs := ValuesOf(TypeEnum);
    if TypeOfName(s).Some? {
      var t := TypeOfName(s).value;
      var i := TypeIndex(t);
      LetterNotNumeric(TypeName(t));
      assert LooseEq(Str(s), vs[i]);
    } else {
      forall i | 0 <= i < |vs|
        ensures !LooseEq(Str(s), vs[i])
      {
        LetterNotNumeric(TypeName(AllTypes[i]));
      }
    }
  }

  /** An int-size test on a string compares the number the string denotes
      (PHP 7's conversion of a string compared with an int), so it holds
      exactly when that number is an integral width. */
  lemma IsIntSizeOfString(s: string)
    ensures IsValue(IntSizeEnum, Str(s)) <==> StringAsInt(s).Some? && StringAsInt(s).value in IntSizes
  {
    assert ValuesOf(IntSizeEnum) == IntValues(IntSizes);
    StringInInts(s, IntSizes);
  }

  /** A width written with a fraction such as "4.5" fails the int-size
      test. */
  lemma FractionalSizeRefused(ip: string, fp: string)
    requires |ip| >= 1 && AllDigits(ip) && AllDigits(fp) && |fp| >= 1 && fp[|fp| - 1] != '0'
    ensures !IsValue(IntSizeEnum, Str(ip + "." + fp))
  {
    FractionNotInt(ip, fp);
    IsIntSizeOfString(ip + "." + fp);
  }

  /** A bare flag (`true`) passes the int-size test: `true == 1`. */
  lemma FlagIsIntSize()
    ensures IsValue(IntSizeEnum, Bool(true))
  {
    assert LooseEq(Bool(true), ValuesOf(IntSizeEnum)[0]);
  }

  // ---------------------------------------------------------------------
  // The values cache, as written: `Enum::$values` is one static slot that
  // every subclass shares, so the first class to ask fills it for all.

  datatype SharedCache = SharedCache(values: Option<seq<Value>>)

  /** `static::isValue` as written: the result and the cache after the call. */
  function IsValueShared(cache: SharedCache, e: EnumClass, v: Value): (r: (bool, SharedCache))
    ensures r.1.values.Some?
    ensures cache.values.Some? ==> r.1 == cache
    ensures r.0 == InArray(v, r.1.values.value)
  {
    var vs := if cache.values.None? then ValuesOf(e) else cache.values.value;
    (InArray(v, vs), SharedCache(Some(vs)))
  }

  /** A string that starts with something other than a lower-case letter
      is not among the Type values. */
  lemma NotTypeValue(s: string)
    requires |s| > 0 && !IsLowerAscii(s[0])
    ensures !InArray(Str(s), ValuesOf(TypeEnum))
  {
    var tv := ValuesOf(TypeEnum);
    forall i | 0 <= i < |tv|
      ensures !LooseEq(Str(s), tv[i])
    {
      var name := TypeName(AllTypes[i]);
      LetterNotNumeric(name);
      assert tv[i] == Str(name);
      assert s[0] != name[0];
    }
  }

  lemma LeadingIntOfFour()
    ensures LeadingInt("4") == 4
  {
    assert TrimLeftPcre("4") == "4";
    assert DigitPrefix("4") == "4";
  }

  lemma FourIsIntSize()
    ensures IsValue(IntSizeEnum, Str("4"))
  {
    LeadingIntOfFour();
    IntNotationAsInt("4");
    IsIntSizeOfString("4");
  }

  /** Once `Type::isValue` has run, `IntSize::isValue("4")` and
      `Relation::isValue("one")` are false although both are members. */
  lemma SharedCacheConfusesClasses()
    ensures var c := IsValueShared(SharedCache(None), TypeEnum, Str("int")).1;
            !IsValueShared(c, IntSizeEnum, Str("4")).0 && IsValue(IntSizeEnum, Str("4"))
    ensures var c := IsValueShared(SharedCache(None), TypeEnum, Str("int")).1;
            !IsValueShared(c, RelationEnum, Str("one")).0 && IsValue(RelationEnum, Str("one"))
  {
    var c := IsValueShared(SharedCache(None), TypeEnum, Str("int")).1;
    assert c.values.value == ValuesOf(TypeEnum);
    NotTypeValue("4");
    FourIsIntSize();
    IsTypeValueIffName("one");
    assert LooseEq(Str("one"), ValuesOf(RelationEnum)[0]);
  }

  // ---------------------------------------------------------------------
  // The intended cache: one slot per class.

  datatype ClassCache = ClassCache(values: map<EnumClass, seq<Value>>)

  /** Every filled slot holds its own class's constants. */
  predicate Faithful(cache: ClassCache) {
    forall e :: e in cache.values ==> cache.values[e] == ValuesOf(e)
  }

  function IsValuePerClass(cache: ClassCache, e: EnumClass, v: Value): (r: (bool, ClassCache))
    requires Faithful(cache)
    ensures Faithful(r.1)
    ensures e in r.1.values
    ensures r.0 == IsValue(e, v)
  {
    var vs := if e in cache.values then cache.values[e] else ValuesOf(e);
    (InArray(v, vs), ClassCache(cache.values[e := vs]))
  }

  /** Whatever was asked before, a per-class cache answers as the constants do. */
  lemma {:induction false} PerClassAnswersAgree(cache: ClassCache, asks: seq<(EnumClass, Value)>, e: EnumClass, v: Value)
    requires Faithful(cache)
    ensures Faithful(Replay(cache, asks))
    ensures IsValuePerClass(Replay(cache, asks), e, v).0 == IsValue(e, v)
    decreases |asks|
  {
    if |asks| > 0 {
      PerClassAnswersAgree(IsValuePerClass(cache, asks[0].0, asks[0].1).1, asks[1..], e, v);
    }
  }

  function Replay(cache: ClassCache, asks: seq<(EnumClass, Value)>): (r: ClassCache)
    requires Faithful(cache)
    decreases |asks|
  {
    if |asks| == 0 then cache
    else Replay(IsValuePerClass(cache, asks[0].0, asks[0].1).1, asks[1..])
  }
}

=== FILE: errors.dfy ===
/** The exceptions the system raises, and the failure-compatible result types
    the model returns in their place. */
module Errors {

  /** One constructor per exception class of the system that the modelled
      code raises, plus the engine-level errors PHP raises on its own. */
  datatype Error =
    | Broken(subject: string, reason: string)          // Model\Exception\Broken
    | BadType(subject: string, expected: string)       // Exception\BadType
    | BadParameter(name: string)                       // REST\Exception\BadParameter
    | BadMethod(verb: string)                        // REST\Exception\BadMethod
    | MissingArgument(verb: string, route: string, param: string) // Router\Exception\MissingArgument
    | NoMatchingRoute(verb: string, path: string)    // Router\Exception\NoMatchingRoute
    | ValidationFailed(field: string, constraint: string) // Form\Exception\ValidationFailed
    | UnknownProperty(subject: string, name: string)   // Exception\UnknownProperty
    | ClassNotFound(cls: string)                       // Autoloader\Exception\ClassNotFound
    | EngineError(what: string)                        // a PHP TypeError / Error (not a system exception)
    | Foreign(what: string)                            // raised by a foreign call (JSON decoding, a callback)

  /** A value or the exception that replaced it. */
  datatype Result<+T> = Ok(value: T) | Err(error: Error) {
    predicate IsFailure() { Err? }

    function PropagateFailure<U>(): Result<U>
      requires Err?
    {
      Err(error)
    }

    function Extract(): T
      requires Ok?
    {
      value
    }
  }

  /** PHP's `null`-or-value. */
  datatype Option<+T> = None | Some(value: T) {
    function GetOr(default: T): T {
      match this
      case Some(v) => v
      case None => default
    }
  }
}

=== FILE: event.dfy ===
/** `Event`: handlers registered per event name and position, and the
    dispatch of an event through the before-handlers, its default action
    and the after-handlers, with the stop and prevent flags. */
module Event {
  import opened Errors
  import opened Php
  import Assoc

  /** A registered handler; what it does is given to `Trigger`. */
  datatype Handler = Handler(id: nat)

  /** The handlers, by event name, then by position. */
  type Registry = seq<(string, seq<(string, seq<Handler>)>)>

  const Before := "before"
  const After := "after"

  /** An event: its name and data, the result of its default action, and
      the two flags handlers may set. */
  datatype Event = Event(name: string, data: Value, result: Value, stopped: bool, prevented: bool)

  /** `new Event($name, $data)`. */
  function New(name: string, data: Value): (e: Event)
    ensures e.name == name && e.data == data && e.result == Null && !e.stopped && !e.prevented
  {
    Event(name, data, Null, false, false)
  }

  /** `getHandlers($position, $name)`: none when nothing was registered. */
  function GetHandlers(reg: Registry, position: string, name: string): seq<Handler> {
    match Assoc.Get(reg, name)
    case None => []
    case Some(byPosition) => Assoc.Get(byPosition, position).GetOr([])
  }

  /** `register($position, $name, $callback)`: appended to the handlers of
      that name and position. */
  function Register(reg: Registry, position: string, name: string, h: Handler): (r: Registry)
    ensures GetHandlers(r, position, name) == GetHandlers(reg, position, name) + [h]
    ensures forall p, n :: (p, n) != (position, name) ==> GetHandlers(r, p, n) == GetHandlers(reg, p, n)
  {
    var byPosition := Assoc.Get(reg, name).GetOr([]);
    var handlers := Assoc.Get(byPosition, position).GetOr([]);
    var r := Assoc.Put(reg, name, Assoc.Put(byPosition, position, handlers + [h]));
    forall p, n | (p, n) != (position, name)
      ensures GetHandlers(r, p, n) == GetHandlers(reg, p, n)
    {
      RegisterElsewhere(reg, position, name, h, p, n);
    }
    r
  }

  lemma RegisterElsewhere(reg: Registry, position: string, name: string, h: Handler, p: string, n: string)
    requires (p, n) != (position, name)
    ensures var byPosition := Assoc.Get(reg, name).GetOr([]);
      var handlers := Assoc.Get(byPosition, position).GetOr([]);
      GetHandlers(Assoc.Put(reg, name, Assoc.Put(byPosition, position, handlers + [h])), p, n) == GetHandlers(reg, p, n)
  {
    var byPosition := Assoc.Get(reg, name).GetOr([]);
    var handlers := Assoc.Get(byPosition, position).GetOr([]);
    var inner := Assoc.Put(byPosition, position, handlers + [h]);
    if n == name {
      assert Assoc.Get(inner, p) == Assoc.Get(byPosition, p);
    }
  }

  /** Registering handlers one after the other lists them in call order. */
  lemma RegisterOrder(reg: Registry, position: string, name: string, h1: Handler, h2: Handler)
    ensures GetHandlers(Register(Register(reg, position, name, h1), position, name, h2), position, name)
      == GetHandlers(reg, position, name) + [h1, h2]
  {
  }

  /** Every handler run in turn, whatever the flags. */
  function RunAll(hs: seq<Handler>, e: Event, run: (Handler, Event) -> Event): Event
    decreases |hs|
  {
    if |hs| == 0 then e else run(hs[|hs| - 1], RunAll(hs[..|hs| - 1], e, run))
  }

  /** The handlers run in registration order until one of them stops
      propagation; `n` is how many ran. */
  function RunHandlers(hs: seq<Handler>, e: Event, run: (Handler, Event) -> Event): (r: (Event, nat))
    ensures r.1 <= |hs| && r.0 == RunAll(hs[..r.1], e, run)
    ensures r.1 < |hs| ==> r.1 > 0 && r.0.stopped
    ensures forall j :: 0 < j < r.1 ==> !RunAll(hs[..j], e, run).stopped
    decreases |hs|
  {
    Scan(hs, e, run, 0)
  }

  /** The scan of `RunHandlers` from position `i`, where the first `i`
      handlers ran without stopping. */
  function Scan(hs: seq<Handler>, e: Event, run: (Handler, Event) -> Event, i: nat): (r: (Event, nat))
    requires i <= |hs|
    requires forall j :: 0 < j <= i ==> !RunAll(hs[..j], e, run).stopped
    ensures i <= r.1 <= |hs| && r.0 == RunAll(hs[..r.1], e, run)
    ensures r.1 < |hs| ==> r.1 > 0 && r.0.stopped
    ensures forall j :: 0 < j < r.1 ==> !RunAll(hs[..j], e, run).stopped
    decreases |hs| - i
  {
    if i == |hs| then (RunAll(hs[..i], e, run), i)
    else
      var next := run(hs[i], RunAll(hs[..i], e, run));
      assert hs[..i + 1][..i] == hs[..i];
      assert next == RunAll(hs[..i + 1], e, run);
      if next.stopped then (next, i + 1)
      else Scan(hs, e, run, i + 1)
  }

  /** The default action: given the data spread as arguments, it gives the
      result or fails (an exception). */
  type Default = seq<Value> -> Result<Value>

  /** The arguments the default is called with: an array's values, else the
      data alone. */
  function Arguments(data: Value): (args: seq<Value>)
    ensures data.Arr? ==> args == Assoc.Values(data.items)
    ensures !data.Arr? ==> args == [data]
  {
    if data.Arr? then Assoc.Values(data.items) else [data]
  }

  /** `trigger($default)`: the before-handlers; then the result is reset and
      the default runs unless prevented; then, unless propagation was
      stopped, the after-handlers. A failing default ends the trigger. The
      result and the event as the handlers left it come back. */
  function Trigger(reg: Registry, e: Event, run: (Handler, Event) -> Event, default: Option<Default>): (r: Result<(Value, Event)>)
    ensures r.Ok? ==> r.value.0 == r.value.1.result
  {
    var before := RunHandlers(GetHandlers(reg, Before, e.name), e, run).0;
    var reset := before.(result := Null);
    var done :-
      if default.Some? && !reset.prevented then
        match default.value(Arguments(reset.data))
        case Ok(v) => Ok(reset.(result := v))
        case Err(err) => Err(err)
      else Ok(reset);
    var after := if done.stopped then done else RunHandlers(GetHandlers(reg, After, e.name), done, run).0;
    Ok((after.result, after))
  }

  /** The state the before-handlers leave. */
  function AfterBefore(reg: Registry, e: Event, run: (Handler, Event) -> Event): Event {
    RunHandlers(GetHandlers(reg, Before, e.name), e, run).0
  }

  /** A before-handler that stops propagation skips every after-handler:
      the result is the default's (or null when there is none or it was
      prevented), whatever the after-handlers would do. */
  lemma StoppedSkipsAfter(reg: Registry, e: Event, run: (Handler, Event) -> Event, default: Option<Default>)
    requires AfterBefore(reg, e, run).stopped
    ensures var b := AfterBefore(reg, e, run);
      Trigger(reg, e, run, default) ==
        if default.Some? && !b.prevented then
          (match default.value(Arguments(b.data))
           case Ok(v) => Ok((v, b.(result := v)))
           case Err(err) => Err(err))
        else Ok((Null, b.(result := Null)))
  {
  }

  /** A default that always fails (the router's "no matching route") makes
      the trigger fail exactly when no before-handler prevented it. */
  lemma FailingDefault(reg: Registry, e: Event, run: (Handler, Event) -> Event, err: Error)
    ensures var fail: Default := _ => Err(err);
      Trigger(reg, e, run, Some(fail)).Err? <==> !AfterBefore(reg, e, run).prevented
    ensures var fail: Default := _ => Err(err);
      Trigger(reg, e, run, Some(fail)).Err? ==> Trigger(reg, e, run, Some(fail)).error == err
  {
  }

  /** With no handlers at all, the trigger is the default applied to the
      data. */
  lemma NoHandlers(e: Event, run: (Handler, Event) -> Event, d: Default)
    requires !e.prevented && !e.stopped
    ensures Trigger([], e, run, Some(d)) ==
      match d(Arguments(e.data))
      case Ok(v) => Ok((v, e.(result := v)))
      case Err(err) => Err(err)
  {
    assert GetHandlers([], Before, e.name) == [];
    assert RunHandlers([], e, run).0 == e;
  }

  // ---- Reading the name ----

  /** `$event->name` as written: the magic getter answers "name" with the
      data. */
  function GetPropertyAsWritten(e: Event, prop: string): (r: Result<Value>)
    ensures prop == "name" ==> r == Ok(e.data)
    ensures prop != "name" ==> r == Err(UnknownProperty("HereYouGo\\Event#" + e.name, prop))
  {
    if prop == "name" then Ok(e.data) else Err(UnknownProperty("HereYouGo\\Event#" + e.name, prop))
  }

  /** `$event->name` as intended: the event's name. */
  function GetProperty(e: Event, prop: string): (r: Result<Value>)
    ensures prop == "name" ==> r == Ok(Str(e.name))
    ensures prop != "name" ==> r == Err(UnknownProperty("HereYouGo\\Event#" + e.name, prop))
  {
    if prop == "name" then Ok(Str(e.name)) else Err(UnknownProperty("HereYouGo\\Event#" + e.name, prop))
  }

  /** The getter as written does not give the name of an event created with
      data. */
  lemma NameReadsData()
    ensures GetPropertyAsWritten(New("no_mathing_route", Arr([])), "name") == Ok(Arr([]))
    ensures GetProperty(New("no_mathing_route", Arr([])), "name") == Ok(Str("no_mathing_route"))
    ensures GetPropertyAsWritten(New("no_mathing_route", Arr([])), "name") != GetProperty(New("no_mathing_route", Arr([])), "name")
  {
  }
}

=== FILE: fieldset.dfy ===
/** `Form\FieldSet`: an ordered list of members (fields, other fragments,
    plain strings) and the rule that absent optional fields are skipped,
    absent required fields fail and present fields check themselves.
    What a field checks is its own `validate`, here the parameter
    `check`. */
module FieldSets {
  import opened Errors
  import opened Php
  import Assoc
  import Constraints

  /** Where a holder sits: a set or a field, with the fragment it was
      added to. */
  datatype Holder = SetHolder(parent: Option<Holder>) | FieldHolder(name: string, parent: Option<Holder>)

  /** `getPath()`: a set has its parent's path ("" at the root); a field
      has its parent's path and '.', then its name. */
  function Path(h: Holder): string {
    match h
    case SetHolder(p) => if p.Some? then Path(p.value) else ""
    case FieldHolder(n, p) => (if p.Some? then Path(p.value) + "." else "") + n
  }

  /** Every holder up the chain is a set. */
  predicate OnlySets(h: Holder) {
    h.SetHolder? && (h.parent.Some? ==> OnlySets(h.parent.value))
  }

  /** A set with no field above it has the empty path. */
  lemma {:induction false} SetsOnlyPathEmpty(h: Holder)
    requires OnlySets(h)
    ensures Path(h) == ""
  {
    if h.parent.Some? {
      SetsOnlyPathEmpty(h.parent.value);
    }
  }

  /** A field in a set with no field above it has a path that starts with
      '.': the root set contributes "" and the field still adds the dot. */
  lemma RootFieldPath(name: string, outer: Holder)
    requires OnlySets(outer)
    ensures Path(FieldHolder(name, Some(outer))) == "." + name
  {
    SetsOnlyPathEmpty(outer);
  }

  /** A field inside a set inside a parentless field: the names joined by
      '.'. */
  lemma NestedFieldPath(outer: string, inner: string)
    ensures Path(FieldHolder(inner, Some(SetHolder(Some(FieldHolder(outer, None)))))) == outer + "." + inner
  {
    assert Path(SetHolder(Some(FieldHolder(outer, None)))) == outer;
  }

  /** A field: its name, its constraints (possibly none) and its parent. */
  datatype Field = Field(name: string, constraints: Option<Constraints.Collection>, parent: Option<Holder>)

  /** A set member: a field, another fragment of class `cls` (a nested set
      among them), or a plain string. */
  datatype Member =
    | MField(field: Field)
    | MOther(cls: string, parent: Option<Holder>)
    | MText(text: string)

  /** What `addField` is given: a member, or any other value. */
  datatype Candidate = Holds(member: Member) | Other(value: Value)

  datatype FieldSet = FieldSet(parent: Option<Holder>, members: seq<Member>)

  /** The set's own path. */
  function SetPath(fs: FieldSet): string {
    Path(SetHolder(fs.parent))
  }

  const FieldTypes: string := "HereYouGo\\Form\\DataHolder or HereYouGo\\Form\\Fragment or string"

  /** A member as it is stored: fragments get the set as parent, strings
      stay as they are. */
  function Adopt(fs: FieldSet, m: Member): Member {
    match m
    case MField(f) => MField(f.(parent := Some(SetHolder(fs.parent))))
    case MOther(cls, _) => MOther(cls, Some(SetHolder(fs.parent)))
    case MText(s) => MText(s)
  }

  /** `addField` takes strings and form members, and nothing else. */
  predicate Accepts(c: Candidate) {
    c.Holds? || c.value.Str?
  }

  /** The member a candidate becomes. */
  function AsMember(c: Candidate): Member
    requires Accepts(c)
  {
    if c.Holds? then c.member else MText(c.value.s)
  }

  /** `addField($field)`: appends the member after the others, parenting
      fragments; anything else is refused. */
  function AddField(fs: FieldSet, c: Candidate): (r: Result<FieldSet>)
    ensures r.Err? <==> !Accepts(c)
    ensures r.Err? ==> r.error == BadType("field", FieldTypes)
    ensures r.Ok? ==> r.value.parent == fs.parent && |r.value.members| == |fs.members| + 1
    ensures r.Ok? ==> r.value.members[..|fs.members|] == fs.members
    ensures r.Ok? && c.Holds? && c.member.MField? ==>
      r.value.members[|fs.members|] == MField(c.member.field.(parent := Some(SetHolder(fs.parent))))
    ensures r.Ok? && c.Other? ==> r.value.members[|fs.members|] == MText(c.value.s)
  {
    if !Accepts(c) then Err(BadType("field", FieldTypes))
    else Ok(fs.(members := fs.members + [Adopt(fs, AsMember(c))]))
  }

  /** Adds each candidate in turn, stopping at the first refused one. */
  function AddAll(fs: FieldSet, cs: seq<Candidate>): (r: Result<FieldSet>)
    ensures r.Ok? <==> forall i :: 0 <= i < |cs| ==> Accepts(cs[i])
    ensures r.Err? ==> r.error == BadType("field", FieldTypes)
    ensures r.Ok? ==> r.value.parent == fs.parent && |r.value.members| == |fs.members| + |cs|
    ensures r.Ok? ==> r.value.members[..|fs.members|] == fs.members
    ensures r.Ok? ==> forall i :: 0 <= i < |cs| ==> r.value.members[|fs.members| + i] == Adopt(fs, AsMember(cs[i]))
    decreases |cs|
  {
    if |cs| == 0 then Ok(fs)
    else
      match AddField(fs, cs[0])
      case Err(e) => Err(e)
      case Ok(next) =>
        var r := AddAll(next, cs[1..]);
        assert forall i :: 1 <= i < |cs| ==> cs[i] == cs[1..][i - 1];
        if r.Ok? then
          var ms := r.value.members;
          assert ms[..|next.members|] == next.members;
          assert ms[..|fs.members|] == next.members[..|fs.members|];
          r
        else r
  }

  /** `new FieldSet($fields)`: the members in the given order; the
      fragment constructor that runs afterwards leaves the set without a
      parent. */
  function New(cs: seq<Candidate>): (r: Result<FieldSet>)
    ensures r.Ok? <==> forall i :: 0 <= i < |cs| ==> Accepts(cs[i])
    ensures r.Ok? ==> r.value.parent == None && |r.value.members| == |cs|
    ensures r.Ok? ==> forall i :: 0 <= i < |cs| ==> r.value.members[i] == Adopt(FieldSet(None, []), AsMember(cs[i]))
  {
    var r := AddAll(FieldSet(None, []), cs);
    assert r.Ok? ==> forall i :: 0 <= i < |cs| ==> r.value.members[i] == r.value.members[|FieldSet(None, []).members| + i];
    r
  }

  /** Fields added by the constructor sit directly under a parentless set,
      so their path is '.' and the name. */
  lemma ConstructedFieldPath(cs: seq<Candidate>, i: nat)
    requires New(cs).Ok? && i < |cs| && cs[i].Holds? && cs[i].member.MField?
    ensures New(cs).value.members[i].MField?
    ensures var f := New(cs).value.members[i].field; Path(FieldHolder(f.name, f.parent)) == "." + cs[i].member.field.name
  {
    RootFieldPath(cs[i].member.field.name, SetHolder(None));
  }

  type FieldCheck = (Field, seq<(Key, Value)>) -> Result<()>

  /** One member's turn in `validate($data)`. The member's name is looked
      up as an array key; a string member has no name (null, the key "")
      and no methods; a fragment other than a field has no `name`
      property, and the resulting error cannot describe it. */
  function CheckMember(m: Member, data: seq<(Key, Value)>, check: FieldCheck): (r: Result<()>)
    ensures m.MField? && Assoc.HasKey(data, KeyOfString(m.field.name)) ==> r == check(m.field, data)
    ensures m.MField? && !Assoc.HasKey(data, KeyOfString(m.field.name)) && m.field.constraints.Some? ==>
      (r.Ok? <==> !Constraints.Has(m.field.constraints.value, "required"))
    ensures m.MField? && r.Err? && !Assoc.HasKey(data, KeyOfString(m.field.name)) && m.field.constraints.Some? ==>
      r.error == ValidationFailed(m.field.name, "required")
    ensures !m.MField? ==> r.Err? && r.error.EngineError?
  {
    match m
    case MField(f) =>
      if Assoc.HasKey(data, KeyOfString(f.name)) then check(f, data)
      else if f.constraints.None? then Err(EngineError("Call to a member function has() on null"))
      else if Constraints.Has(f.constraints.value, "required") then Err(ValidationFailed(f.name, "required"))
      else Ok(())
    case MOther(cls, _) => Err(EngineError("Object of class " + cls + " could not be converted to string"))
    case MText(_) =>
      if Assoc.HasKey(data, StrKey("")) then Err(EngineError("Call to a member function validate() on string"))
      else Err(EngineError("Call to a member function hasConstraint() on string"))
  }

  /** Each member's turn, in order. */
  function Outcomes(ms: seq<Member>, data: seq<(Key, Value)>, check: FieldCheck): (rs: seq<Result<()>>)
    ensures |rs| == |ms|
    ensures forall i :: 0 <= i < |ms| ==> rs[i] == CheckMember(ms[i], data, check)
  {
    seq(|ms|, i requires 0 <= i < |ms| => CheckMember(ms[i], data, check))
  }

  /** Index of the first failed outcome. */
  function FirstErr(rs: seq<Result<()>>): (r: Option<nat>)
    ensures r.None? <==> forall i :: 0 <= i < |rs| ==> rs[i].Ok?
    ensures r.Some? ==> r.value < |rs| && rs[r.value].Err?
    ensures r.Some? ==> forall i :: 0 <= i < r.value ==> rs[i].Ok?
    decreases |rs|
  {
    if |rs| == 0 then None
    else if rs[0].Err? then Some(0)
    else
      var rest := FirstErr(rs[1..]);
      assert forall i :: 1 <= i < |rs| ==> rs[i] == rs[1..][i - 1];
      match rest
      case None => None
      case Some(j) => Some(j + 1)
  }

  /** The members' turns in order: the first failure is the outcome. */
  function CheckAll(ms: seq<Member>, data: seq<(Key, Value)>, check: FieldCheck): (r: Result<()>)
    ensures r.Ok? <==> forall i :: 0 <= i < |ms| ==> CheckMember(ms[i], data, check).Ok?
  {
    FirstOutcome(Outcomes(ms, data, check))
  }

  /** The first failed outcome, or success when none failed. */
  function FirstOutcome(rs: seq<Result<()>>): (r: Result<()>)
    ensures r.Ok? <==> forall i :: 0 <= i < |rs| ==> rs[i].Ok?
    ensures r.Err? ==> exists i :: 0 <= i < |rs| && rs[i] == r
  {
    match FirstErr(rs)
    case None => Ok(())
    case Some(i) => rs[i]
  }

  /** An outcome list starting with a success has the outcome of its
      tail; one starting with a failure has that failure. */
  lemma FirstOutcomeCons(r: Result<()>, rs: seq<Result<()>>)
    ensures r.Ok? ==> FirstOutcome([r] + rs) == FirstOutcome(rs)
    ensures r.Err? ==> FirstOutcome([r] + rs) == r
  {
    var all := [r] + rs;
    assert all[1..] == rs;
    if r.Ok? {
      match FirstErr(rs)
      case None =>
      case Some(j) => assert all[j + 1] == rs[j];
    }
  }

  /** `validate($data)`: non-array data is refused with the set's path;
      otherwise the members take their turns in order. */
  function Validate(fs: FieldSet, data: Value, check: FieldCheck): (r: Result<()>)
    ensures !data.Arr? ==> r == Err(BadType(SetPath(fs) + " data", "array"))
    ensures data.Arr? ==> (r.Ok? <==> forall i :: 0 <= i < |fs.members| ==> CheckMember(fs.members[i], data.items, check).Ok?)
  {
    if !data.Arr? then Err(BadType(SetPath(fs) + " data", "array"))
    else CheckAll(fs.members, data.items, check)
  }

  /** A failure is the first failing member's own error. */
  lemma FirstFailureWins(ms: seq<Member>, data: seq<(Key, Value)>, check: FieldCheck, k: nat)
    requires k < |ms| && CheckMember(ms[k], data, check).Err?
    requires forall i :: 0 <= i < k ==> CheckMember(ms[i], data, check).Ok?
    ensures CheckAll(ms, data, check) == CheckMember(ms[k], data, check)
  {
  }

  /** A passing first member leaves the outcome to the rest. */
  lemma ConsPassing(x: Member, xs: seq<Member>, data: seq<(Key, Value)>, check: FieldCheck)
    requires CheckMember(x, data, check).Ok?
    ensures CheckAll([x] + xs, data, check) == CheckAll(xs, data, check)
  {
    OutcomesCons(x, xs, data, check);
    FirstOutcomeCons(CheckMember(x, data, check), Outcomes(xs, data, check));
  }

  lemma OutcomesCons(x: Member, xs: seq<Member>, data: seq<(Key, Value)>, check: FieldCheck)
    ensures Outcomes([x] + xs, data, check) == [CheckMember(x, data, check)] + Outcomes(xs, data, check)
  {
    var os := Outcomes([x] + xs, data, check);
    forall i | 1 <= i < |os|
      ensures os[i] == Outcomes(xs, data, check)[i - 1]
    {
      assert ([x] + xs)[i] == xs[i - 1];
    }
  }

  /** A failing first member is the outcome. */
  lemma ConsFailing(x: Member, xs: seq<Member>, data: seq<(Key, Value)>, check: FieldCheck)
    requires CheckMember(x, data, check).Err?
    ensures CheckAll([x] + xs, data, check) == CheckMember(x, data, check)
  {
    OutcomesCons(x, xs, data, check);
    FirstOutcomeCons(CheckMember(x, data, check), Outcomes(xs, data, check));
  }

  /** A member whose turn passes can be dropped without changing the
      outcome. */
  lemma {:induction false} SkipPassing(a: seq<Member>, m: Member, b: seq<Member>, data: seq<(Key, Value)>, check: FieldCheck)
    requires CheckMember(m, data, check).Ok?
    ensures CheckAll(a + [m] + b, data, check) == CheckAll(a + b, data, check)
    decreases |a|
  {
    if |a| == 0 {
      assert a + [m] + b == [m] + b && a + b == b;
      ConsPassing(m, b, data, check);
    } else {
      var x := a[0];
      assert a + [m] + b == [x] + (a[1..] + [m] + b);
      assert a + b == [x] + (a[1..] + b);
      if CheckMember(x, data, check).Ok? {
        ConsPassing(x, a[1..] + [m] + b, data, check);
        ConsPassing(x, a[1..] + b, data, check);
        SkipPassing(a[1..], m, b, data, check);
      } else {
        ConsFailing(x, a[1..] + [m] + b, data, check);
        ConsFailing(x, a[1..] + b, data, check);
      }
    }
  }

  /** Adding a field that is absent from the data and not required does
      not change the verdict on that data. */
  lemma AbsentOptionalIgnored(fs: FieldSet, f: Field, data: seq<(Key, Value)>, check: FieldCheck)
    requires !Assoc.HasKey(data, KeyOfString(f.name))
    requires f.constraints.Some? && !Constraints.Has(f.constraints.value, "required")
    ensures AddField(fs, Holds(MField(f))).Ok?
    ensures Validate(AddField(fs, Holds(MField(f))).value, Arr(data), check) == Validate(fs, Arr(data), check)
  {
    var m := Adopt(fs, MField(f));
    assert CheckMember(m, data, check).Ok?;
    SkipPassing(fs.members, m, [], data, check);
    assert fs.members + [m] + [] == fs.members + [m];
    assert fs.members + [] == fs.members;
  }

  /** A required field absent from the data fails with its name, once the
      members before it have passed. */
  lemma RequiredAbsentFails(fs: FieldSet, f: Field, data: seq<(Key, Value)>, check: FieldCheck)
    requires !Assoc.HasKey(data, KeyOfString(f.name))
    requires f.constraints.Some? && Constraints.Has(f.constraints.value, "required")
    requires Validate(fs, Arr(data), check).Ok?
    ensures AddField(fs, Holds(MField(f))).Ok?
    ensures Validate(AddField(fs, Holds(MField(f))).value, Arr(data), check) == Err(ValidationFailed(f.name, "required"))
  {
    var ms := AddField(fs, Holds(MField(f))).value.members;
    assert forall i :: 0 <= i < |fs.members| ==> ms[i] == fs.members[i];
    FirstFailureWins(ms, data, check, |fs.members|);
  }

  /** A present field's turn is its own check, on the whole data. */
  lemma PresentDelegates(fs: FieldSet, f: Field, data: seq<(Key, Value)>, check: FieldCheck)
    requires Assoc.HasKey(data, KeyOfString(f.name))
    requires Validate(fs, Arr(data), check).Ok?
    ensures AddField(fs, Holds(MField(f))).Ok?
    ensures Validate(AddField(fs, Holds(MField(f))).value, Arr(data), check) == check(f.(parent := Some(SetHolder(fs.parent))), data)
  {
    var ms := AddField(fs, Holds(MField(f))).value.members;
    assert forall i :: 0 <= i < |fs.members| ==> ms[i] == fs.members[i];
    var g := f.(parent := Some(SetHolder(fs.parent)));
    assert ms[|fs.members|] == MField(g);
    assert CheckMember(ms[|fs.members|], data, check) == check(g, data);
    if check(g, data).Err? {
      FirstFailureWins(ms, data, check, |fs.members|);
    } else {
      assert forall i :: 0 <= i < |ms| ==> CheckMember(ms[i], data, check).Ok? by {
        forall i | 0 <= i < |ms|
          ensures CheckMember(ms[i], data, check).Ok?
        {
          if i < |fs.members| {
            assert ms[i] == fs.members[i];
          }
        }
      }
      assert Validate(AddField(fs, Holds(MField(f))).value, Arr(data), check) == CheckAll(ms, data, check);
      var u: () := check(g, data).value;
      assert u == ();
      assert check(g, data) == Ok(());
    }
  }

  /** A field whose constraints hold `Required` added the way the source
      adds it: as written, its absence goes unnoticed; with the type
      computed as intended, it fails. */
  lemma RequiredFieldSkipped(name: string, id: nat, req: Constraints.Constraint, data: seq<(Key, Value)>, check: FieldCheck)
    requires req.cls == Constraints.RequiredClass && !Assoc.HasKey(data, KeyOfString(name))
    ensures var written := Constraints.AddConstraintAsWritten(Constraints.Collection(id, [], Constraints.NoHint, ""), req);
      CheckMember(MField(Field(name, Some(written), None)), data, check) == Ok(())
    ensures var fixed := Constraints.AddConstraint(Constraints.Collection(id, [], Constraints.NoHint, ""), req);
      CheckMember(MField(Field(name, Some(fixed), None)), data, check) == Err(ValidationFailed(name, "required"))
  {
    Constraints.RequiredNotFound(Constraints.Collection(id, [], Constraints.NoHint, ""), req);
  }
}

=== FILE: http_request.dfy ===
/** `HTTP\Request::parse`: the method (with override), the normalised path,
    and the content type split into its media type and parameters. The
    superglobals are given as inputs; the parsed state persists between
    calls, as the source never sets its "parsed" guard. */
module HttpRequest {
  import opened Errors
  import opened Strs
  import opened Php
  import Assoc

  datatype State = State(verb: string, path: string, contentType: string, params: seq<(Key, string)>)

  const Initial := State("", "", "", [])

  /** `$_SERVER` and `$_REQUEST` (their string entries), and the
      `nice_urls` setting. */
  datatype Env = Env(server: seq<(string, string)>, request: seq<(string, string)>, niceUrls: bool)

  /** The last of the given server keys that is present, else the default. */
  function LastPresent(server: seq<(string, string)>, keys: seq<string>, default: string): (r: string)
    ensures (forall i :: 0 <= i < |keys| ==> !Assoc.HasKey(server, keys[i])) ==> r == default
    ensures |keys| > 0 && Assoc.HasKey(server, keys[|keys| - 1]) ==> r == Assoc.Get(server, keys[|keys| - 1]).value
    decreases |keys|
  {
    if |keys| == 0 then default
    else
      var n := |keys| - 1;
      if Assoc.HasKey(server, keys[n]) then Assoc.Get(server, keys[n]).value
      else
        AbsentInit(server, keys, keys[..n]);
        LastPresent(server, keys[..n], default)
  }

  lemma AbsentInit(server: seq<(string, string)>, keys: seq<string>, init: seq<string>)
    requires |keys| > 0 && init == keys[..|keys| - 1]
    ensures (forall i :: 0 <= i < |keys| ==> !Assoc.HasKey(server, keys[i])) ==>
            forall i :: 0 <= i < |init| ==> !Assoc.HasKey(server, init[i])
  {
    forall i | 0 <= i < |init| ensures init[i] == keys[i] { }
  }

  /** The lower-cased method; the override header, read second, wins. */
  function Method(server: seq<(string, string)>): (r: string)
    ensures Assoc.HasKey(server, "X_HTTP_METHOD_OVERRIDE") ==> r == Lower(Assoc.Get(server, "X_HTTP_METHOD_OVERRIDE").value)
    ensures !Assoc.HasKey(server, "X_HTTP_METHOD_OVERRIDE") && Assoc.HasKey(server, "REQUEST_METHOD") ==>
      r == Lower(Assoc.Get(server, "REQUEST_METHOD").value)
    ensures !Assoc.HasKey(server, "X_HTTP_METHOD_OVERRIDE") && !Assoc.HasKey(server, "REQUEST_METHOD") ==> r == ""
  {
    Lower(LastPresent(server, ["REQUEST_METHOD", "X_HTTP_METHOD_OVERRIDE"], ""))
  }

  // ---- Path ----

  /** Length of the run of PCRE white space at the start. */
  function SpaceRun(s: string): (n: nat)
    ensures n <= |s| && forall i :: 0 <= i < n ==> IsPcreSpace(s[i])
    ensures n < |s| ==> !IsPcreSpace(s[n])
  {
    if |s| > 0 && IsPcreSpace(s[0]) then 1 + SpaceRun(s[1..]) else 0
  }

  /** Does `/\s*\/` match at the start? */
  predicate SlashPairAt(s: string) {
    |s| > 0 && s[0] == '/' && 1 + SpaceRun(s[1..]) < |s| && s[1 + SpaceRun(s[1..])] == '/'
  }

  /** `preg_replace('`/\s*\/`', '/', $s)`: matches are taken left to right
      and do not overlap, so "///" becomes "//". */
  function Collapse(s: string): (r: string)
    ensures |r| <= |s|
    decreases |s|
  {
    if |s| == 0 then ""
    else if SlashPairAt(s) then "/" + Collapse(s[2 + SpaceRun(s[1..])..])
    else [s[0]] + Collapse(s[1..])
  }

  /** `trim($s, '/')`. */
  function TrimSlashes(s: string): (r: string)
    ensures |r| <= |s|
    ensures |r| > 0 ==> r[0] != '/' && r[|r| - 1] != '/'
    ensures (|s| == 0 || (s[0] != '/' && s[|s| - 1] != '/')) ==> r == s
    decreases |s|
  {
    if |s| > 0 && s[0] == '/' then TrimSlashes(s[1..])
    else if |s| > 0 && s[|s| - 1] == '/' then TrimSlashes(s[..|s| - 1])
    else s
  }

  /** The stored path: exactly one leading '/', no trailing '/' but for "/". */
  function NormalisePath(p: string): (r: string)
    ensures |r| >= 1 && r[0] == '/'
    ensures |r| > 1 ==> r[1] != '/' && r[|r| - 1] != '/'
  {
    "/" + TrimSlashes(Collapse(p))
  }

  /** A path already in the stored shape, with no '/'-white space-'/' run
      left, is kept. */
  lemma {:induction false} CollapseFixed(s: string)
    requires forall i :: 0 <= i < |s| ==> !SlashPairAt(s[i..])
    ensures Collapse(s) == s
    decreases |s|
  {
    if |s| > 0 {
      assert !SlashPairAt(s[0..]) && s[0..] == s;
      assert forall i :: 0 <= i < |s| - 1 ==> s[1..][i..] == s[i + 1..];
      CollapseFixed(s[1..]);
    }
  }

  lemma NormalisedFixed(q: string)
    requires |q| >= 1 && q[0] == '/' && (|q| > 1 ==> q[1] != '/' && q[|q| - 1] != '/')
    requires forall i :: 0 <= i < |q| ==> !SlashPairAt(q[i..])
    ensures NormalisePath(q) == q
  {
    CollapseFixed(q);
    var t := q[1..];
    if |t| > 0 {
      assert TrimSlashes(t) == t;
      assert TrimSlashes(q) == TrimSlashes(t);
    }
  }

  lemma CollapseShortTail()
    ensures Collapse("b") == "b"
    ensures Collapse("/b") == "/b"
  {
    assert Collapse("b") == "b";
    assert !SlashPairAt("/b");
    assert "/b"[1..] == "b";
  }

  /** "///" loses one slash: the match is the first two, and the third
      starts no new match. */
  lemma CollapseTriple()
    ensures Collapse("///b") == "//b"
  {
    assert SpaceRun("//b") == 0;
    assert SlashPairAt("///b");
    assert "///b"[2..] == "/b";
    CollapseShortTail();
  }

  lemma CollapseDouble()
    ensures Collapse("//b") == "/b"
  {
    assert SpaceRun("/b") == 0;
    assert SlashPairAt("//b");
    assert "//b"[2..] == "b";
    CollapseShortTail();
  }

  /** A run of three slashes is only halved once, so normalising twice is
      not normalising once. */
  lemma TripleSlashHalved()
    ensures NormalisePath("a///b") == "/a//b"
    ensures NormalisePath(NormalisePath("a///b")) == "/a/b"
  {
    NormaliseTriple();
    NormaliseDouble();
  }

  lemma NormaliseTriple()
    ensures NormalisePath("a///b") == "/a//b"
  {
    CollapseTriple();
    assert !SlashPairAt("a///b") && "a///b"[1..] == "///b";
    assert Collapse("a///b") == "a//b";
    assert TrimSlashes("a//b") == "a//b";
  }

  lemma NormaliseDouble()
    ensures NormalisePath("/a//b") == "/a/b"
  {
    CollapseDouble();
    assert "a//b"[1..] == "//b";
    assert !SlashPairAt("a//b");
    assert Collapse("a//b") == "a/b";
    assert !SlashPairAt("/a//b") && "/a//b"[1..] == "a//b";
    assert Collapse("/a//b") == "/a/b";
    assert TrimSlashes("/a/b") == TrimSlashes("a/b");
  }

  /** Where the raw path comes from: PATH_INFO with nice URLs, the 'path'
      request argument otherwise, the previous path when absent. */
  function RawPath(previous: string, env: Env): string {
    if env.niceUrls then
      (if Assoc.HasKey(env.server, "PATH_INFO") then Assoc.Get(env.server, "PATH_INFO").value else previous)
    else if Assoc.HasKey(env.request, "path") then Assoc.Get(env.request, "path").value
    else previous
  }

  // ---- Content type ----

  /** The content type assumed when the request gives none. */
  const DefaultType := "application/binary"

  /** The trimmed `k=v` pieces of one parameter, when it has an '='. */
  function Param(part: string): Option<(Key, string)> {
    var kv := Split(part, '=');
    if |kv| < 2 then None else Some((KeyOfString(Trim(kv[0])), Trim(kv[1])))
  }

  /** The parameters after the media type, each assigned in turn. */
  function AddParams(params: seq<(Key, string)>, ps: seq<Option<(Key, string)>>): (r: seq<(Key, string)>)
    decreases |ps|
  {
    if |ps| == 0 then params
    else
      var p := AddParams(params, ps[..|ps| - 1]);
      match ps[|ps| - 1]
      case None => p
      case Some((k, v)) => Assoc.Put(p, k, v)
  }

  /** Does the part at `i` set key `k` with no later part setting it again? */
  predicate LastSets(ps: seq<Option<(Key, string)>>, i: nat, k: Key, v: string) {
    i < |ps| && ps[i] == Some((k, v))
    && forall j :: i < j < |ps| ==> !(ps[j].Some? && ps[j].value.0 == k)
  }

  predicate NeverSets(ps: seq<Option<(Key, string)>>, k: Key) {
    forall j :: 0 <= j < |ps| ==> !(ps[j].Some? && ps[j].value.0 == k)
  }

  /** Keys no part sets keep their earlier value. */
  lemma {:induction false} AddParamsUnset(params: seq<(Key, string)>, ps: seq<Option<(Key, string)>>, k: Key)
    requires NeverSets(ps, k)
    ensures Assoc.Get(AddParams(params, ps), k) == Assoc.Get(params, k)
    decreases |ps|
  {
    if |ps| > 0 {
      var pre := ps[..|ps| - 1];
      assert NeverSets(pre, k);
      AddParamsUnset(params, pre, k);
    }
  }

  /** Each parameter holds the value of the last part that sets it. */
  lemma {:induction false} AddParamsLastWins(params: seq<(Key, string)>, ps: seq<Option<(Key, string)>>, i: nat, k: Key, v: string)
    requires LastSets(ps, i, k, v)
    ensures Assoc.Get(AddParams(params, ps), k) == Some(v)
    decreases |ps|
  {
    var pre := ps[..|ps| - 1];
    if i < |ps| - 1 {
      assert LastSets(pre, i, k, v);
      AddParamsLastWins(params, pre, i, k, v);
    }
  }

  /** The parameter parts, each read as a key and value when it has '='. */
  function Params(parts: seq<string>): (ps: seq<Option<(Key, string)>>)
    ensures |ps| == |parts| && forall i :: 0 <= i < |parts| ==> ps[i] == Param(parts[i])
  {
    seq(|parts|, i requires 0 <= i < |parts| => Param(parts[i]))
  }

  /** The media type (trimmed text before the first ';') and the
      parameters of a content-type header. */
  function ContentType(header: string, params: seq<(Key, string)>): (r: (string, seq<(Key, string)>))
    ensures r.0 == Trim(Split(header, ';')[0])
    ensures r.1 == AddParams(params, Params(Split(header, ';')[1..]))
  {
    var parts := Split(header, ';');
    (Trim(parts[0]), AddParams(params, Params(parts[1..])))
  }

  /** The media type is the text before any ';', trimmed. */
  lemma MediaTypeBeforeParams(media: string, rest: string, params: seq<(Key, string)>)
    requires ';' !in media
    ensures ContentType(media + ";" + rest, params).0 == Trim(media)
  {
    var s := media + ";" + rest;
    SplitAtFirst(media, ';', rest);
    assert s[..|media|] == media;
    assert Split(s, ';')[0] == media;
  }

  /** `parse()`. */
  function Parse(st: State, env: Env): (r: State)
    ensures r.verb == Method(env.server)
    ensures r.path == NormalisePath(RawPath(st.path, env))
    ensures r.contentType == ContentType(LastPresent(env.server, ["HTTP_CONTENT_TYPE", "CONTENT_TYPE"], DefaultType), st.params).0
  {
    var header := LastPresent(env.server, ["HTTP_CONTENT_TYPE", "CONTENT_TYPE"], DefaultType);
    var (media, params) := ContentType(header, st.params);
    State(Method(env.server), NormalisePath(RawPath(st.path, env)), media, params)
  }

  lemma DefaultUnsplit()
    ensures Split(DefaultType, ';') == [DefaultType]
  {
    assert ';' !in DefaultType;
  }

  lemma DefaultMedia(params: seq<(Key, string)>)
    ensures ContentType(DefaultType, params).0 == DefaultType
  {
    DefaultUnsplit();
    TrimPlain(DefaultType);
  }

  /** Without a content-type header the media type is application/binary. */
  lemma DefaultContentType(st: State, env: Env)
    requires !Assoc.HasKey(env.server, "HTTP_CONTENT_TYPE") && !Assoc.HasKey(env.server, "CONTENT_TYPE")
    ensures Parse(st, env).contentType == DefaultType
  {
    var keys := ["HTTP_CONTENT_TYPE", "CONTENT_TYPE"];
    assert forall i :: 0 <= i < |keys| ==> !Assoc.HasKey(env.server, keys[i]);
    DefaultMedia(st.params);
  }

  /** CONTENT_TYPE wins over HTTP_CONTENT_TYPE. */
  lemma ContentTypeWins(st: State, env: Env)
    requires Assoc.HasKey(env.server, "CONTENT_TYPE")
    ensures Parse(st, env).contentType == Trim(Split(Assoc.Get(env.server, "CONTENT_TYPE").value, ';')[0])
  {
    var keys := ["HTTP_CONTENT_TYPE", "CONTENT_TYPE"];
    assert keys[|keys| - 1] == "CONTENT_TYPE";
  }
}

=== FILE: indexes.dfy ===
/** Index aggregation over a data map, as the MySQL backend performs it for
    `createTable` (one group per uniqueness) and `checkConstraints` (one
    group per name, uniqueness OR-ed): each index name collects the columns
    of the properties declaring it, in data-map order. */
module Indexes {
  import opened Errors
  import opened Properties
  import Assoc

  datatype IndexGroup = IndexGroup(columns: seq<string>, unique: bool)

  /** Whether an index entry list declares `n` with a uniqueness the
      selection admits (None admits both). */
  predicate Selects(entries: seq<(string, bool)>, n: string, sel: Option<bool>) {
    Assoc.Get(entries, n).Some? && (sel.None? || Assoc.Get(entries, n) == sel)
  }

  /** Reference definition: the columns of the properties that declare
      index `n` (admitted by `sel`), in order. */
  function IndexColumns(props: seq<Property>, n: string, sel: Option<bool>): seq<string>
    decreases |props|
  {
    if |props| == 0 then []
    else
      var last := props[|props| - 1];
      IndexColumns(props[..|props| - 1], n, sel) + (if Selects(last.indexes, n, sel) then [last.column] else [])
  }

  /** Reference definition: some property declares `n` unique (admitted by `sel`). */
  predicate IndexUnique(props: seq<Property>, n: string, sel: Option<bool>)
    decreases |props|
  {
    if |props| == 0 then false
    else
      var last := props[|props| - 1];
      IndexUnique(props[..|props| - 1], n, sel) || (Selects(last.indexes, n, sel) && Assoc.Get(last.indexes, n).value)
  }

  lemma {:induction false} UniqueNeedsColumns(props: seq<Property>, n: string, sel: Option<bool>)
    requires IndexUnique(props, n, sel)
    ensures |IndexColumns(props, n, sel)| > 0
    decreases |props|
  {
    var last := props[|props| - 1];
    if !(Selects(last.indexes, n, sel) && Assoc.Get(last.indexes, n).value) {
      UniqueNeedsColumns(props[..|props| - 1], n, sel);
    }
  }

  /** One more column in a group (a new group when there is none yet). */
  function Extend(g: Option<IndexGroup>, column: string, unique: bool): (r: IndexGroup)
    ensures |r.columns| >= 1 && r.columns[|r.columns| - 1] == column
  {
    match g
    case None => IndexGroup([column], unique)
    case Some(g) => IndexGroup(g.columns + [column], g.unique || unique)
  }

  /** The inner loop over one property's indexes. */
  function AddEntries(agg: seq<(string, IndexGroup)>, column: string, entries: seq<(string, bool)>,
                      sel: Option<bool>): (r: seq<(string, IndexGroup)>)
    requires Assoc.DistinctKeys(entries)
    ensures forall n :: (Assoc.Get(r, n) ==
      (if Selects(entries, n, sel) then Some(Extend(Assoc.Get(agg, n), column, Assoc.Get(entries, n).value))
       else Assoc.Get(agg, n)))
    decreases |entries|
  {
    if |entries| == 0 then agg
    else
      var (n, u) := entries[0];
      var agg' := if sel.None? || sel == Some(u) then Assoc.Put(agg, n, Extend(Assoc.Get(agg, n), column, u)) else agg;
      var r := AddEntries(agg', column, entries[1..], sel);
      EntriesStep(entries);
      r
  }

  lemma EntriesStep(entries: seq<(string, bool)>)
    requires |entries| > 0 && Assoc.DistinctKeys(entries)
    ensures Assoc.Get(entries, entries[0].0) == Some(entries[0].1)
    ensures !Assoc.HasKey(entries[1..], entries[0].0)
    ensures forall n :: n != entries[0].0 ==> Assoc.Get(entries, n) == Assoc.Get(entries[1..], n)
  {
  }

  /** The whole loop: every property of the map, in order. */
  function Collect(props: seq<Property>, sel: Option<bool>): (r: seq<(string, IndexGroup)>)
    requires forall i :: 0 <= i < |props| ==> Assoc.DistinctKeys(props[i].indexes)
    decreases |props|
  {
    if |props| == 0 then []
    else
      var last := props[|props| - 1];
      AddEntries(Collect(props[..|props| - 1], sel), last.column, last.indexes, sel)
  }

  /** The aggregation computes the reference: an index is present iff some
      property declares it, with exactly those properties' columns, in
      order, unique iff one of them says so. */
  lemma {:induction false} CollectSpec(props: seq<Property>, sel: Option<bool>, n: string)
    requires forall i :: 0 <= i < |props| ==> Assoc.DistinctKeys(props[i].indexes)
    ensures Assoc.Get(Collect(props, sel), n) ==
      (if |IndexColumns(props, n, sel)| > 0 then Some(IndexGroup(IndexColumns(props, n, sel), IndexUnique(props, n, sel))) else None)
    decreases |props|
  {
    if |props| > 0 {
      var prefix := props[..|props| - 1];
      var last := props[|props| - 1];
      var before := Collect(prefix, sel);
      var cols := IndexColumns(prefix, n, sel);
      var uniq := IndexUnique(prefix, n, sel);
      CollectSpec(prefix, sel, n);
      assert Assoc.Get(before, n) == (if |cols| > 0 then Some(IndexGroup(cols, uniq)) else None);
      if uniq {
        UniqueNeedsColumns(prefix, n, sel);
      }
      var after := AddEntries(before, last.column, last.indexes, sel);
      assert Collect(props, sel) == after;
      if Selects(last.indexes, n, sel) {
        var u := Assoc.Get(last.indexes, n).value;
        assert Assoc.Get(after, n) == Some(Extend(Assoc.Get(before, n), last.column, u));
        assert IndexColumns(props, n, sel) == cols + [last.column];
        assert IndexUnique(props, n, sel) == (uniq || u);
        if |cols| == 0 {
          assert !uniq && cols + [last.column] == [last.column];
        }
      } else {
        assert Assoc.Get(after, n) == Assoc.Get(before, n);
        assert IndexColumns(props, n, sel) == cols;
        assert IndexUnique(props, n, sel) == uniq;
      }
    }
  }

  /** With a fixed uniqueness, the group's flag is that uniqueness. */
  lemma {:induction false} SelectedUniqueness(props: seq<Property>, n: string, u: bool)
    ensures IndexUnique(props, n, Some(u)) ==> u
    decreases |props|
  {
    if |props| > 0 {
      SelectedUniqueness(props[..|props| - 1], n, u);
    }
  }
}

=== FILE: locale.dfy ===
/** `UI\Locale`: the stack of locale codes a request is served in, and the
    lookup of dotted translation ids in the compiled dictionary. */
module Locale {
  import opened Errors
  import opened Strs
  import opened Php
  import Assoc
  import Translations

  // ---- Codes ----

  /** The available locales, keyed by code. */
  type Available = seq<(Key, Value)>

  /** The code a text names: lower-cased, '_' read as '-', cut at the first
      '-'. */
  function BaseCode(code: string): (r: string)
    ensures '-' !in r && '_' !in r
    ensures forall i :: 0 <= i < |r| ==> !IsUpperAscii(r[i])
  {
    var s := ReplaceChar(Lower(code), '_', '-');
    FirstPieceIsPrefix(s, '-');
    Split(s, '-')[0]
  }

  lemma FirstPieceIsPrefix(s: string, sep: char)
    ensures |Split(s, sep)[0]| <= |s| && Split(s, sep)[0] == s[..|Split(s, sep)[0]|]
  {
    if IndexOf(s, sep).None? {
      assert s[..|s|] == s;
    }
  }

  /** `cleanCode($code)`: the base code when it is available, else null. */
  function CleanCode(available: Available, code: string): (r: Option<string>)
    ensures r.Some? <==> Assoc.HasKey(available, KeyOfString(BaseCode(code)))
    ensures r.Some? ==> r.value == BaseCode(code)
  {
    var c := BaseCode(code);
    if Assoc.HasKey(available, KeyOfString(c)) then Some(c) else None
  }

  /** A base code is its own base code. */
  lemma BaseCodeIdempotent(code: string)
    ensures BaseCode(BaseCode(code)) == BaseCode(code)
  {
    var c := BaseCode(code);
    assert Lower(c) == c;
    assert ReplaceChar(c, '_', '-') == c;
    assert Split(c, '-') == [c];
  }

  /** Cleaning a cleaned code changes nothing. */
  lemma CleanCodeIdempotent(available: Available, code: string)
    requires CleanCode(available, code).Some?
    ensures CleanCode(available, CleanCode(available, code).value) == CleanCode(available, code)
  {
    BaseCodeIdempotent(code);
  }

  /** `in_array($code, self::$codes)`: loose comparison. */
  predicate OnStack(code: string, codes: seq<string>) {
    exists i :: 0 <= i < |codes| && LooseEq(Str(code), Str(codes[i]))
  }

  /** No two codes of the stack are loosely equal (so no two are equal). */
  predicate NoDuplicates(codes: seq<string>) {
    forall i, j :: 0 <= i < j < |codes| ==> !LooseEq(Str(codes[i]), Str(codes[j]))
  }

  /** Every code of the stack is an available, truthy code. */
  predicate AllAvailable(available: Available, codes: seq<string>) {
    forall i :: 0 <= i < |codes| ==> Assoc.HasKey(available, KeyOfString(codes[i])) && Truthy(Str(codes[i]))
  }

  /** `addCode($code)`: the cleaned code is pushed when it is truthy and not
      on the stack yet; the cleaned code is returned either way. */
  function AddCode(available: Available, codes: seq<string>, code: string): (r: (Option<string>, seq<string>))
    ensures r.0 == CleanCode(available, code)
    ensures r.1 == codes || (r.0.Some? && r.1 == codes + [r.0.value])
    ensures r.1 != codes <==> r.0.Some? && Truthy(Str(r.0.value)) && !OnStack(r.0.value, codes)
    ensures NoDuplicates(codes) ==> NoDuplicates(r.1)
    ensures AllAvailable(available, codes) ==> AllAvailable(available, r.1)
  {
    var c := CleanCode(available, code);
    if c.Some? && Truthy(Str(c.value)) && !OnStack(c.value, codes) then
      var r := codes + [c.value];
      assert forall i :: 0 <= i < |codes| ==> !LooseEq(Str(codes[i]), Str(c.value)) by {
        forall i | 0 <= i < |codes| ensures !LooseEq(Str(codes[i]), Str(c.value)) {
          assert !LooseEq(Str(c.value), Str(codes[i]));
        }
      }
      assert |r| != |codes|;
      (c, r)
    else (c, codes)
  }

  /** After `addCode`, an available truthy code is on the stack. */
  lemma AddCodeLands(available: Available, codes: seq<string>, code: string)
    requires CleanCode(available, code).Some? && Truthy(Str(CleanCode(available, code).value))
    ensures OnStack(CleanCode(available, code).value, AddCode(available, codes, code).1)
  {
    var c := CleanCode(available, code).value;
    var r := AddCode(available, codes, code).1;
    if !OnStack(c, codes) {
      assert r[|codes|] == c;
      assert LooseEq(Str(c), Str(r[|codes|]));
    } else {
      var i :| 0 <= i < |codes| && LooseEq(Str(c), Str(codes[i]));
      assert r[i] == codes[i];
    }
  }

  /** `addCode` for every code in turn. */
  function AddCodes(available: Available, codes: seq<string>, more: seq<string>): (r: seq<string>)
    ensures NoDuplicates(codes) ==> NoDuplicates(r)
    ensures AllAvailable(available, codes) ==> AllAvailable(available, r)
    ensures |codes| <= |r| && r[..|codes|] == codes
    decreases |more|
  {
    if |more| == 0 then codes
    else
      var step := AddCode(available, codes, more[0]).1;
      assert step[..|codes|] == codes;
      var r := AddCodes(available, step, more[1..]);
      assert r[..|codes|] == r[..|step|][..|codes|];
      r
  }

  // ---- Where codes come from ----

  /** `[a-z]+(-.+)?` over the whole text: lower-case letters, then
      optionally '-' and at least one more character other than a newline. */
  predicate CodeShape(s: string) {
    var n := LowerRun(s);
    n > 0 && (n == |s| || (s[n] == '-' && n + 1 < |s| && forall i :: n + 1 <= i < |s| ==> s[i] != '\n'))
  }

  /** The shape `^[a-z]+(-.+)?$` asks of `lang` in the query: the code shape,
      alone or followed by one "\n". */
  function UrlCodeShape(s: string): (r: bool)
    ensures CodeShape(s) ==> r
    ensures r ==> |s| > 0 && IsLowerAscii(s[0])
    ensures r ==> forall i :: 0 <= i < |s| - 1 ==> s[i] != '\n'
  {
    CodeShape(s) || (Chomp(s).Some? && CodeShape(Chomp(s).value))
  }

  /** A code followed by one "\n" still has the shape. */
  lemma UrlCodeShapeNewline(t: string)
    requires CodeShape(t)
    ensures UrlCodeShape(t + "\n")
  {
    ChompNewline(t);
  }

  function LowerRun(s: string): (n: nat)
    ensures n <= |s| && forall i :: 0 <= i < n ==> IsLowerAscii(s[i])
    ensures n < |s| ==> !IsLowerAscii(s[n])
  {
    if |s| > 0 && IsLowerAscii(s[0]) then 1 + LowerRun(s[1..]) else 0
  }

  /** The text `strtolower` sees for a value: its string form, and "" for
      an array (which PHP refuses, giving null). */
  function CodeText(v: Value): string {
    if v.Arr? then "" else ToText(v).GetOr("")
  }

  /** The part of an Accept-Language entry before its first ';', when there
      is one: what `^([^;]+)` captures. */
  function LanguageRange(part: string): (r: Option<string>)
    ensures r.Some? ==> |r.value| > 0 && ';' !in r.value
  {
    var range := Split(part, ';')[0];
    if |range| > 0 then Some(range) else None
  }

  /** The available codes an Accept-Language header names, in the order they
      appear. */
  function BrowserCodes(available: Available, parts: seq<string>): (r: seq<string>)
    decreases |parts|
  {
    if |parts| == 0 then []
    else
      var rest := BrowserCodes(available, parts[1..]);
      match LanguageRange(Trim(parts[0]))
      case None => rest
      case Some(range) =>
        match CleanCode(available, range)
        case Some(c) =>
          if Truthy(Str(c)) then [c] + rest else rest
        case None => rest
  }

  /** What `getCodes` reads: the available locales, the language settings,
      the query's `lang`, the session (None when there is none) and the
      Accept-Language header. */
  datatype Env = Env(
    available: Available,
    useUrl: bool,
    useBrowser: bool,
    defaultCode: string,
    lang: Option<Value>,
    session: Option<seq<(Key, Value)>>,
    acceptLanguage: Option<string>)

  /** The code stack and the session after it was computed. */
  datatype State = State(codes: seq<string>, session: Option<seq<(Key, Value)>>)

  /** The query's `lang`, when it has the expected shape: pushed, and
      remembered in the session. */
  function UrlStep(env: Env, st: State): (r: State)
    ensures |st.codes| <= |r.codes| && r.codes[..|st.codes|] == st.codes
    ensures NoDuplicates(st.codes) ==> NoDuplicates(r.codes)
    ensures AllAvailable(env.available, st.codes) ==> AllAvailable(env.available, r.codes)
  {
    match env.lang
    case Some(Str(s)) =>
      if UrlCodeShape(s) then
        var (c, codes) := AddCode(env.available, st.codes, s);
        var session :=
          if c.Some? && Truthy(Str(c.value)) && st.session.Some?
          then Some(Assoc.Put(st.session.value, StrKey("locale"), Str(c.value)))
          else st.session;
        State(codes, session)
      else st
    case _ => st
  }

  /** The session's locale, when there is one. */
  function SessionStep(env: Env, st: State): (r: State)
    ensures |st.codes| <= |r.codes| && r.codes[..|st.codes|] == st.codes
    ensures NoDuplicates(st.codes) ==> NoDuplicates(r.codes)
    ensures AllAvailable(env.available, st.codes) ==> AllAvailable(env.available, r.codes)
  {
    match st.session
    case Some(session) =>
      (match Assoc.Get(session, StrKey("locale"))
       case Some(v) => State(AddCode(env.available, st.codes, CodeText(v)).1, st.session)
       case None => st)
    case None => st
  }

  /** The browser's languages, in header order. */
  function BrowserStep(env: Env, st: State): (r: State)
    ensures |st.codes| <= |r.codes| && r.codes[..|st.codes|] == st.codes
    ensures NoDuplicates(st.codes) ==> NoDuplicates(r.codes)
    ensures AllAvailable(env.available, st.codes) ==> AllAvailable(env.available, r.codes)
  {
    match env.acceptLanguage
    case Some(header) =>
      if env.useBrowser then State(AddCodes(env.available, st.codes, BrowserCodes(env.available, Split(header, ','))), st.session)
      else st
    case None => st
  }

  /** The codes the request asks for: with more than one locale available,
      the query (when URLs may choose), the session and the browser, in
      turn. */
  function Asked(st: State, env: Env): (r: State)
    ensures |st.codes| <= |r.codes| && r.codes[..|st.codes|] == st.codes
    ensures NoDuplicates(st.codes) ==> NoDuplicates(r.codes)
    ensures AllAvailable(env.available, st.codes) ==> AllAvailable(env.available, r.codes)
  {
    if |env.available| > 1 then
      var fromUrl := if env.useUrl then SessionStep(env, UrlStep(env, st)) else st;
      BrowserStep(env, fromUrl)
    else st
  }

  /** `getCodes()`: computed once, from what the request asks for, then the
      default code and "en". */
  function GetCodes(st: State, env: Env): (r: State)
    ensures |st.codes| > 0 ==> r == st
    ensures |st.codes| == 0 ==> NoDuplicates(r.codes) && AllAvailable(env.available, r.codes)
    ensures |st.codes| == 0 ==> |Asked(st, env).codes| <= |r.codes| && r.codes[..|Asked(st, env).codes|] == Asked(st, env).codes
  {
    if |st.codes| > 0 then st
    else
      var asked := Asked(st, env);
      var withDefault := AddCode(env.available, asked.codes, env.defaultCode).1;
      var r := AddCode(env.available, withDefault, "en").1;
      FreshStack(st, env);
      State(r, asked.session)
  }

  /** The stack computed from scratch: no duplicates, all available, and
      what the request asked for comes first. */
  lemma FreshStack(st: State, env: Env)
    requires |st.codes| == 0
    ensures var asked := Asked(st, env).codes;
      var r := AddCode(env.available, AddCode(env.available, asked, env.defaultCode).1, "en").1;
      NoDuplicates(r) && AllAvailable(env.available, r) && |asked| <= |r| && r[..|asked|] == asked
  {
    var asked := Asked(st, env).codes;
    assert NoDuplicates(asked) && AllAvailable(env.available, asked) by {
      assert NoDuplicates(st.codes) && AllAvailable(env.available, st.codes);
    }
    var withDefault := AddCode(env.available, asked, env.defaultCode).1;
    var r := AddCode(env.available, withDefault, "en").1;
    AddCodeKeepsPrefix(env.available, asked, env.defaultCode);
    AddCodeKeepsPrefix(env.available, withDefault, "en");
    Assoc.PrefixOfPrefix(r, withDefault, |asked|);
  }

  /** `addCode` only ever appends. */
  lemma AddCodeKeepsPrefix(available: Available, codes: seq<string>, code: string)
    ensures |codes| <= |AddCode(available, codes, code).1| && AddCode(available, codes, code).1[..|codes|] == codes
  {
    var r := AddCode(available, codes, code).1;
    if r != codes {
      assert r[..|codes|] == codes;
    }
  }

  lemma CleanEn(available: Available)
    requires Assoc.HasKey(available, StrKey("en"))
    ensures CleanCode(available, "en") == Some("en")
  {
    assert Lower("en") == "en";
    assert ReplaceChar("en", '_', '-') == "en";
    assert Split("en", '-') == ["en"];
    assert !IsCanonicalInt("en");
  }

  /** Adding "en" when it is available puts it on the stack. */
  lemma AddEnLands(available: Available, codes: seq<string>)
    requires Assoc.HasKey(available, StrKey("en"))
    ensures "en" in AddCode(available, codes, "en").1
  {
    CleanEn(available);
    var r := AddCode(available, codes, "en").1;
    AddCodeLands(available, codes, "en");
    var i :| 0 <= i < |r| && LooseEq(Str("en"), Str(r[i]));
    assert !IsIntNumeric("en") by {
      NotNumericEn();
    }
    assert r[i] == "en";
  }

  lemma NotNumericEn()
    ensures !IsIntNumeric("en")
  {
  }

  /** "en" is on a freshly computed stack whenever it is available. */
  lemma EnOnStack(st: State, env: Env)
    requires |st.codes| == 0 && Assoc.HasKey(env.available, StrKey("en"))
    ensures "en" in GetCodes(st, env).codes
  {
    var withDefault := AddCode(env.available, Asked(st, env).codes, env.defaultCode).1;
    assert GetCodes(st, env).codes == AddCode(env.available, withDefault, "en").1;
    AddEnLands(env.available, withDefault);
  }

  /** With at most one locale available, neither the query, the session nor
      the browser matters: the stack is the default code and "en". */
  lemma SingleLocaleIgnoresRequest(st: State, env: Env)
    requires |st.codes| == 0 && |env.available| <= 1
    ensures GetCodes(st, env).codes == AddCode(env.available, AddCode(env.available, [], env.defaultCode).1, "en").1
    ensures GetCodes(st, env).session == st.session
  {
  }

  lemma UrlPushes(env: Env, st: State, s: string)
    requires |st.codes| == 0 && env.lang == Some(Str(s)) && UrlCodeShape(s)
    requires CleanCode(env.available, s).Some? && Truthy(Str(BaseCode(s)))
    ensures UrlStep(env, st).codes == [BaseCode(s)]
  {
    assert !OnStack(BaseCode(s), []);
  }

  /** With several locales and URLs allowed to choose, an available code
      given as the query's `lang` heads the stack. */
  lemma UrlCodeFirst(st: State, env: Env, s: string)
    requires |st.codes| == 0 && |env.available| > 1 && env.useUrl
    requires env.lang == Some(Str(s)) && UrlCodeShape(s)
    requires CleanCode(env.available, s).Some? && Truthy(Str(BaseCode(s)))
    ensures |GetCodes(st, env).codes| > 0 && GetCodes(st, env).codes[0] == BaseCode(s)
  {
    var url := UrlStep(env, st);
    UrlPushes(env, st, s);
    var mid := SessionStep(env, url);
    HeadOfPrefix(mid.codes, url.codes);
    var asked := BrowserStep(env, mid);
    HeadOfPrefix(asked.codes, mid.codes);
    assert Asked(st, env) == asked;
    HeadOfPrefix(GetCodes(st, env).codes, asked.codes);
  }

  lemma HeadOfPrefix<T>(r: seq<T>, p: seq<T>)
    requires 0 < |p| <= |r| && r[..|p|] == p
    ensures |r| > 0 && r[0] == p[0]
  {
    assert r[0] == r[..|p|][0];
  }

  // ---- Translations ----

  /** The dictionary entry at the end of the id's segments, each read as an
      array key; None at the first segment missing. */
  function Find(dict: Value, bits: seq<string>): (r: Option<Value>)
    ensures |bits| == 0 ==> r == Some(dict)
    ensures |bits| > 0 && r.Some? ==> dict.Arr? && Assoc.HasKey(dict.items, KeyOfString(bits[0]))
    decreases |bits|
  {
    if |bits| == 0 then Some(dict)
    else
      match Lookup(dict, KeyOfString(bits[0]))
      case None => None
      case Some(sub) => Find(sub, bits[1..])
  }

  /** `getTranslation($id)`: the entry the '.'-separated id leads to. An
      entry holding null is returned as null, which the callers cannot
      tell from a missing one. */
  function GetTranslation(dict: Value, id: string): (r: Option<Value>)
    ensures r.Some? <==> Find(dict, Split(id, '.')).Some? && Find(dict, Split(id, '.')).value != Null
    ensures r.Some? ==> r == Find(dict, Split(id, '.'))
  {
    match Find(dict, Split(id, '.'))
    case Some(Null) => None
    case other => other
  }

  /** Walking a path in two parts is walking the first, then the second
      from where the first ended. */
  lemma {:induction false} FindAppend(dict: Value, a: seq<string>, b: seq<string>)
    ensures Find(dict, a + b) == (match Find(dict, a) case Some(v) => Find(v, b) case None => None)
    decreases |a|
  {
    if |a| == 0 {
      assert a + b == b;
    } else {
      assert (a + b)[0] == a[0] && (a + b)[1..] == a[1..] + b;
      match Lookup(dict, KeyOfString(a[0]))
      case None =>
      case Some(sub) => FindAppend(sub, a[1..], b);
    }
  }

  /** The translation of "a.b" is the entry "b" of the translation of "a". */
  lemma TranslationNests(dict: Value, a: string, b: string)
    ensures GetTranslation(dict, a + "." + b) ==
      (match GetTranslation(dict, a) case Some(v) => GetTranslation(v, b) case None => None)
  {
    SplitAppend(a, '.', b);
    assert a + "." + b == a + ['.'] + b;
    FindAppend(dict, Split(a, '.'), Split(b, '.'));
    var bits := Split(b, '.');
    assert Find(Null, bits) == None by {
      assert Lookup(Null, KeyOfString(bits[0])).None?;
    }
  }

  /** `isTranslatable($id)`: there is an entry, and it is not null. */
  function IsTranslatable(dict: Value, id: string): (r: bool)
    ensures r <==> Find(dict, Split(id, '.')).Some? && Find(dict, Split(id, '.')).value != Null
  {
    GetTranslation(dict, id).Some?
  }

  /** An entry holding null is not translatable and translates as a
      missing one. */
  lemma NullEntryNotFound(dict: Value, id: string)
    requires Find(dict, Split(id, '.')) == Some(Null)
    ensures !IsTranslatable(dict, id)
    ensures Translate(dict, id) == Ok(Translations.Make(Some(id), Str(""), true))
    ensures Translations.Out(Translate(dict, id).value) == Str("{" + id + "}")
  {
  }

  /** `translate($id)`: the entry cast to a string (an array reads
      "Array"), marked not found when there is no entry. An object without
      a string form is refused. */
  function Translate(dict: Value, id: string): (r: Result<Translations.Translation>)
    ensures r.Ok? ==> (r.value.notFound <==> !IsTranslatable(dict, id))
    ensures r.Ok? ==> r.value.id == Some(id) && r.value.contents.Text?
    ensures r.Err? <==> GetTranslation(dict, id).Some? && GetTranslation(dict, id).value.Object?
  {
    match GetTranslation(dict, id)
    case None => Ok(Translations.Make(Some(id), Str(""), true))
    case Some(v) =>
      match ToText(v)
      case Some(s) => Ok(Translations.Make(Some(id), Str(s), false))
      case None => Err(EngineError("Object could not be converted to string"))
  }

  /** A string entry is what the translation outputs; a missing or null one
      outputs "{id}". */
  lemma TranslateOutput(dict: Value, id: string)
    ensures GetTranslation(dict, id).None? ==> Translations.Out(Translate(dict, id).value) == Str("{" + id + "}")
    ensures GetTranslation(dict, id).Some? && GetTranslation(dict, id).value.Str? ==>
      Translations.Out(Translate(dict, id).value) == GetTranslation(dict, id).value
  {
  }

  /** A group of entries translates to the text "Array", not to a group. */
  lemma GroupReadsArray(dict: Value, id: string)
    requires GetTranslation(dict, id).Some? && GetTranslation(dict, id).value.Arr?
    ensures Translate(dict, id) == Ok(Translations.Translation(Some(id), Translations.Text("Array"), false))
  {
  }
}

=== FILE: mysql.dfy ===
/** `Model\Backend\Mysql`: the DDL the MySQL backend derives from property
    descriptors. What the database reports (the columns found, the current
    primary key) is an input, and the statements the backend would execute
    are returned in execution order. */
module Mysql {
  import opened Errors
  import opened Strs
  import opened Php
  import opened Enums
  import opened Properties
  import Assoc
  import Indexes
  import Schema

  predicate EndsWith(s: string, suffix: string) {
    |suffix| <= |s| && s[|s| - |suffix|..] == suffix
  }

  /** An identifier in backquotes. */
  function Quoted(name: string): string { "`" + name + "`" }

  // -------------------------------------------------------------------
  // Column types

  /** `INT_TYPES`: the integer column type of each byte width. */
  const IntTypes: seq<(Key, string)> := [(IntKey(1), "TINYINT"), (IntKey(2), "SMALLINT"),
    (IntKey(3), "MEDIUMINT"), (IntKey(4), "INT"), (IntKey(8), "BIGINT")]

  /** The array key a raw size attribute indexes `INT_TYPES` with: `true`
      becomes 1 and a string is normalised like any array key. */
  function SizeKey(a: Attr): Key {
    match a
    case Flag => IntKey(1)
    case Text(s) => KeyOfString(s)
  }

  /** `INT_TYPES[$size]`; a missing key reads as null, which prints as "". */
  function IntTypeName(a: Attr): string {
    Assoc.Get(IntTypes, SizeKey(a)).GetOr("")
  }

  /** The names `INT_TYPES` holds, and "" for a missing width. */
  predicate IntName(n: string) {
    n == "TINYINT" || n == "SMALLINT" || n == "MEDIUMINT" || n == "INT" || n == "BIGINT" || n == ""
  }

  lemma IntTypeNames(a: Attr)
    ensures IntName(IntTypeName(a))
  {
    var g := Assoc.Get(IntTypes, SizeKey(a));
    if g.Some? {
      Assoc.GetInValues(IntTypes, SizeKey(a));
      var vs := Assoc.Values(IntTypes);
      var i :| 0 <= i < |vs| && vs[i] == g.value;
      assert g.value == IntTypes[i].1;
    }
  }

  lemma IntNamePlain(n: string)
    requires IntName(n)
    ensures !EndsWith(n, " UNSIGNED")
  {
    if n == "MEDIUMINT" {
      assert n[0] != " UNSIGNED"[0];
    }
  }

  lemma ClosedPlain(d: string)
    requires |d| > 0 && d[|d| - 1] == ')'
    ensures !EndsWith(d, " UNSIGNED")
  {
    if |d| >= 9 {
      assert d[|d| - 9..][8] == d[|d| - 1];
    }
  }

  lemma WithSuffix(d: string, suffix: string)
    ensures EndsWith(d + suffix, suffix)
  {
    assert (d + suffix)[|d|..] == suffix;
  }

  /** The suffix is there exactly when the flag is set, on a text that
      does not already end in it. */
  lemma SuffixIff(d: string, p: Property)
    requires !EndsWith(d, " UNSIGNED")
    ensures EndsWith(d + UnsignedSuffix(p), " UNSIGNED") <==> IsUnsigned(p)
  {
    if IsUnsigned(p) {
      WithSuffix(d, " UNSIGNED");
    } else {
      assert d + UnsignedSuffix(p) == d;
    }
  }

  /** The size slot has the shape the column type reads (the constructor
      guarantees it, see `SizedWhenValid`). */
  predicate WellSized(p: Property) {
    (p.typ == IntType ==> p.size.SizeAttr?)
    && (p.typ == DecimalType ==> p.size.Precision?)
    && (p.typ == StringType ==> p.size.SizeAttr?)
  }

  lemma SizedWhenValid(p: Property)
    requires Valid(p)
    ensures WellSized(p)
  {
  }

  function UnsignedSuffix(p: Property): string {
    if IsUnsigned(p) then " UNSIGNED" else ""
  }

  /** `getColumnType`, reading the unsigned flag directly. The text ends in
      " UNSIGNED" exactly for bools and for unsigned ints and decimals. */
  function ColumnType(p: Property): (t: string)
    requires WellSized(p)
    ensures EndsWith(t, " UNSIGNED") <==>
      p.typ == BoolType || ((p.typ == IntType || p.typ == DecimalType) && IsUnsigned(p))
  {
    match p.typ
    case BoolType =>
      WithSuffix("TINYINT(1)", " UNSIGNED");
      "TINYINT(1)" + " UNSIGNED"
    case IntType =>
      var n := IntTypeName(p.size.a);
      IntTypeNames(p.size.a);
      IntNamePlain(n);
      SuffixIff(n, p);
      n + UnsignedSuffix(p)
    case DecimalType =>
      var d := "DECIMAL(" + NatToString(p.size.precision) + "," + NatToString(p.size.places) + ")";
      ClosedPlain(d);
      SuffixIff(d, p);
      d + UnsignedSuffix(p)
    case FloatType => "FLOAT"
    case DoubleType => "DOUBLE"
    case DateType => "DATE"
    case DateTimeType => "DATETIME"
    case TimeType => "TIME"
    case StringType =>
      var v := "VARCHAR(" + AttrString(p.size.a) + ")";
      ClosedPlain(v);
      v
    case TextType => "TEXT"
    case LongTextType => "LONGTEXT"
  }

  /** The field type a column type text stands for: the inverse of
      `ColumnType` on the type, whatever the sizes and the unsigned flag. */
  function ColumnTypeOf(t: string): FieldType {
    if t == "TINYINT(1) UNSIGNED" then BoolType
    else if |t| >= 8 && t[..8] == "DECIMAL(" then DecimalType
    else if |t| >= 8 && t[..8] == "VARCHAR(" then StringType
    else if t == "FLOAT" then FloatType
    else if t == "DOUBLE" then DoubleType
    else if t == "DATE" then DateType
    else if t == "DATETIME" then DateTimeType
    else if t == "TIME" then TimeType
    else if t == "TEXT" then TextType
    else if t == "LONGTEXT" then LongTextType
    else IntType
  }

  /** A column type reads back as the field type it was made for. */
  lemma ColumnTypeReadsBack(p: Property)
    requires WellSized(p)
    ensures ColumnTypeOf(ColumnType(p)) == p.typ
  {
    var t := ColumnType(p);
    match p.typ
    case IntType =>
      IntTypeNames(p.size.a);
      IntColumnOf(IntTypeName(p.size.a), IsUnsigned(p));
    case DecimalType =>
      assert t[..8] == "DECIMAL(";
    case StringType =>
      assert t[..8] == "VARCHAR(";
    case BoolType =>
    case DateTimeType =>
      assert t[..8][0] == 'D' && t[..8][1] == 'A';
    case LongTextType =>
      assert t[..8][0] == 'L';
    case _ =>
  }

  /** An int name, with or without the suffix, is read as an int column. */
  lemma IntColumnOf(n: string, unsigned: bool)
    requires IntName(n)
    ensures ColumnTypeOf(n + (if unsigned then " UNSIGNED" else "")) == IntType
  {
    var t := n + (if unsigned then " UNSIGNED" else "");
    if |t| >= 8 {
      assert t[..8][0] == t[0] != 'D' && t[0] != 'V';
    }
    if n == "TINYINT" {
      assert t != "TINYINT(1) UNSIGNED" by { assert |t| > 7 ==> t[7] == ' '; }
      assert t != "TIME" && t != "TEXT" by { assert t[1] == 'I' && t[2] == 'N'; }
    } else if n == "INT" || n == "" {
      assert t != "TINYINT(1) UNSIGNED" && t != "TIME" && t != "TEXT" by {
        assert |t| > 0 ==> t[0] != 'T';
      }
    } else {
      assert t[0] != 'T';
    }
  }

  /** Different field types never share a column type, whatever the sizes. */
  lemma ColumnTypeNamesType(p: Property, q: Property)
    requires WellSized(p) && WellSized(q)
    requires ColumnType(p) == ColumnType(q)
    ensures p.typ == q.typ
  {
    ColumnTypeReadsBack(p);
    ColumnTypeReadsBack(q);
  }

  /** Every width of the IntSize enumeration, written canonically, selects
      its entry of `INT_TYPES`. */
  lemma CanonicalWidthHasType(w: int)
    requires w in IntSizes
    ensures IntTypeName(Text(IntToString(w))) == Assoc.Get(IntTypes, IntKey(w)).value
    ensures IntTypeName(Text(IntToString(w))) != ""
  {
    assert SizeKey(Text(IntToString(w))) == IntKey(w) by {
      IntKeyRoundTrip(w);
    }
    var i :| 0 <= i < |IntSizes| && IntSizes[i] == w;
    assert IntTypes[i].0 == IntKey(w);
    assert Assoc.Get(IntTypes, IntKey(w)) == Some(IntTypes[i].1) by {
      IntTypesDistinct();
      Assoc.GetAt(IntTypes, i);
    }
  }

  lemma IntTypesDistinct()
    ensures Assoc.DistinctKeys(IntTypes)
  {
  }

  /** The size test compares loosely, so a padded width such as "04" passes
      it, but the table is indexed by the key "04", which it lacks: the
      column type is empty. */
  lemma PaddedWidthHasNoType()
    ensures IntSizeOk(Text("04"))
    ensures IntTypeName(Text("04")) == ""
  {
    assert TrimLeftPcre("04") == "04";
    assert DigitPrefix("04") == "04";
    assert DigitsValue("04") == 4 by {
      assert "04"[..1] == "0";
    }
    IntNotationAsInt("04");
    assert !IsCanonicalInt("04");
  }

  /** `getColumnType` as written: int and decimal columns read
      `$definition->unsigned` from outside the class, and the getter
      whitelist lacks that name, so they raise UnknownProperty. */
  function ColumnTypeAsWritten(p: Property): (r: Result<string>)
    requires WellSized(p)
    ensures r.Err? <==> p.typ == IntType || p.typ == DecimalType
    ensures r.Ok? ==> r.value == ColumnType(p)
  {
    if (p.typ == IntType || p.typ == DecimalType) && "unsigned" !in Readable then
      Err(UnknownProperty(Subject(p), "unsigned"))
    else Ok(ColumnType(p))
  }

  // -------------------------------------------------------------------
  // Column definitions

  /** The foreign calls a definition makes: the converter's `encode` and the
      connection's string quoting (`DBI::quote`). */
  datatype Codec = Codec(encode: (Converter, Value) -> string, quote: string -> string)

  /** Types whose default is written as a quoted string. */
  predicate QuotedType(t: FieldType) {
    t == DateType || t == DateTimeType || t == TimeType || t == StringType || t == TextType || t == LongTextType
  }

  /** The default can be written: objects are only rendered through a converter
      (or as a bool's truthiness). */
  predicate Renderable(p: Property) {
    p.default.Null? || p.converter.Some? || p.typ == BoolType || !p.default.Object?
  }

  /** The default after the converter, if there is one. */
  function EncodedDefault(p: Property, codec: Codec): Value {
    if p.converter.Some? then Str(codec.encode(p.converter.value, p.default)) else p.default
  }

  /** The default's text before quoting: bools by truthiness, anything
      else by its string cast. This is also what the server reports back
      as the column's default. */
  function DefaultText(p: Property, codec: Codec): string
    requires Renderable(p)
  {
    var v := EncodedDefault(p, codec);
    if p.typ == BoolType then (if Truthy(v) then "1" else "0") else ToText(v).value
  }

  function NullClause(nullable: bool): string {
    if nullable then " NULL" else " NOT NULL"
  }

  function DefaultClause(p: Property, codec: Codec): string
    requires Renderable(p)
  {
    if p.default.Null? then ""
    else
      var text := DefaultText(p, codec);
      " DEFAULT " + (if QuotedType(p.typ) then codec.quote(text) else text)
  }

  /** `columnDefinition`. */
  function ColumnDefinition(p: Property, codec: Codec): (r: string)
    requires WellSized(p) && Renderable(p)
    ensures ColumnType(p) <= r && |r| >= |ColumnType(p)| + 5
    ensures p.nullable <==> r[|ColumnType(p)|..][..5] == " NULL"
    ensures p.default.Null? <==> r == ColumnType(p) + NullClause(p.nullable)
  {
    var t := ColumnType(p);
    var d := DefaultClause(p, codec);
    DefinitionShape(t, p.nullable, d);
    assert d == "" <==> p.default.Null?;
    t + NullClause(p.nullable) + d
  }

  /** A type, then a null clause, then a default clause: the type leads,
      the null clause can be read off after it, and the text is the type
      and null clause alone exactly when the default clause is empty. */
  lemma DefinitionShape(t: string, nullable: bool, d: string)
    ensures var r := t + NullClause(nullable) + d;
      t <= r && |r| >= |t| + 5
      && (nullable <==> r[|t|..][..5] == " NULL")
      && (d == "" <==> r == t + NullClause(nullable))
  {
    var n := NullClause(nullable);
    var r := t + n + d;
    HeadPrefix(t, n + d);
    assert r == t + (n + d);
    assert r[|t|..] == n + d;
    assert (n + d)[..5] == n[..5];
    assert n[..5] == " NULL" <==> nullable by {
      if !nullable { assert n[..5][2] == 'O'; }
    }
    if r == t + n {
      assert |d| == 0;
    }
  }

  /** A definition is the column type, the null clause, then the default clause. */
  lemma DefinitionParts(p: Property, codec: Codec)
    requires WellSized(p) && Renderable(p)
    ensures ColumnDefinition(p, codec) == ColumnType(p) + NullClause(p.nullable) + DefaultClause(p, codec)
  {
  }

  /** How defaults are written: none for a null default; a bool's as 1 or
      0 by truthiness; a date, time or string default quoted; any other
      default by its string cast. */
  lemma DefinitionDefaults(p: Property, codec: Codec)
    requires WellSized(p) && Renderable(p) && p.converter.None?
    ensures p.default.Null? ==> DefaultClause(p, codec) == ""
    ensures p.typ == BoolType && !p.default.Null? ==>
      DefaultClause(p, codec) == " DEFAULT " + (if Truthy(p.default) then "1" else "0")
    ensures QuotedType(p.typ) && p.default.Str? ==>
      DefaultClause(p, codec) == " DEFAULT " + codec.quote(p.default.s)
    ensures p.default.Int? && !QuotedType(p.typ) && p.typ != BoolType ==>
      DefaultClause(p, codec) == " DEFAULT " + IntToString(p.default.i)
  {
  }

  /** `columnDefinition` as written: the column type comes from
      `ColumnTypeAsWritten`, so an int or decimal column fails before any
      clause is printed. */
  function ColumnDefinitionAsWritten(p: Property, codec: Codec): (r: Result<string>)
    requires WellSized(p) && Renderable(p)
    ensures r.Err? <==> p.typ == IntType || p.typ == DecimalType
    ensures r.Ok? ==> r.value == ColumnDefinition(p, codec)
  {
    match ColumnTypeAsWritten(p)
    case Err(e) => Err(e)
    case Ok(t) => Ok(t + NullClause(p.nullable) + DefaultClause(p, codec))
  }

  /** A relation key as written fails outright for an int or decimal key
      (the unsigned flag is unreadable); a float or double key carries the
      default `false`, which prints as "", so its definition ends in a
      dangling " DEFAULT ". With the null default it is the plain nullable
      column. */
  lemma RelationKeyDefinition(p: Property, other: string, codec: Codec)
    requires WellSized(p) && p.converter.None?
    requires p.typ == IntType || p.typ == DecimalType || p.typ == FloatType || p.typ == DoubleType
    ensures Renderable(MakeRelationPropertyAsWritten(p, other))
    ensures p.typ == IntType || p.typ == DecimalType ==>
      ColumnDefinitionAsWritten(MakeRelationPropertyAsWritten(p, other), codec).Err?
    ensures p.typ == FloatType || p.typ == DoubleType ==>
      ColumnDefinitionAsWritten(MakeRelationPropertyAsWritten(p, other), codec) == Ok(ColumnType(p) + " NULL DEFAULT ")
    ensures ColumnDefinition(RelationProperty(p, other), codec) == ColumnType(p) + " NULL"
  {
    AsWrittenKeyDefinition(p, other, codec);
    NullKeyDefinition(p, other, codec);
  }

  lemma AsWrittenKeyDefinition(p: Property, other: string, codec: Codec)
    requires WellSized(p) && p.converter.None?
    requires p.typ == IntType || p.typ == DecimalType || p.typ == FloatType || p.typ == DoubleType
    ensures var q := MakeRelationPropertyAsWritten(p, other);
      WellSized(q) && Renderable(q) && ColumnDefinition(q, codec) == ColumnType(p) + " NULL DEFAULT "
  {
    var q := MakeRelationPropertyAsWritten(p, other);
    AsWrittenKeyParts(p, other, codec);
    DefinitionParts(q, codec);
    var t, n, d := ColumnType(p), NullClause(q.nullable), DefaultClause(q, codec);
    assert n + d == " NULL DEFAULT " by {
      assert n == " NULL" && d == " DEFAULT ";
    }
    Assoc.SeqAssoc(t, n, d);
  }

  lemma NullKeyDefinition(p: Property, other: string, codec: Codec)
    requires WellSized(p)
    ensures var q := RelationProperty(p, other);
      WellSized(q) && Renderable(q) && ColumnDefinition(q, codec) == ColumnType(p) + " NULL"
  {
    NullKeyParts(p, other, codec);
    DefinitionParts(RelationProperty(p, other), codec);
  }

  lemma AsWrittenKeyParts(p: Property, other: string, codec: Codec)
    requires WellSized(p) && p.converter.None?
    requires p.typ == IntType || p.typ == DecimalType || p.typ == FloatType || p.typ == DoubleType
    ensures var q := MakeRelationPropertyAsWritten(p, other);
      WellSized(q) && Renderable(q) && ColumnType(q) == ColumnType(p) && q.nullable
      && q.typ == p.typ && DefaultClause(q, codec) == " DEFAULT "
  {
    var q := MakeRelationPropertyAsWritten(p, other);
    SameShapeSameType(p, q);
    assert EncodedDefault(q, codec) == Bool(false);
  }

  lemma NullKeyParts(p: Property, other: string, codec: Codec)
    requires WellSized(p)
    ensures var q := RelationProperty(p, other);
      WellSized(q) && Renderable(q) && ColumnType(q) == ColumnType(p) && q.nullable
      && DefaultClause(q, codec) == ""
  {
    SameShapeSameType(p, RelationProperty(p, other));
  }

  /** The column type reads only the type, the size and the unsigned flag. */
  lemma SameShapeSameType(p: Property, q: Property)
    requires WellSized(p) && p.typ == q.typ && p.size == q.size && p.unsigned == q.unsigned
    ensures WellSized(q) && ColumnType(q) == ColumnType(p)
  {
  }

  /** A column clause: the definition, plus " AUTO_INCREMENT" for an
      auto-increment property. */
  function ColumnClause(p: Property, codec: Codec): string
    requires WellSized(p) && Renderable(p)
  {
    ColumnDefinition(p, codec) + (if p.autoIncrement then " AUTO_INCREMENT" else "")
  }

  // -------------------------------------------------------------------
  // Column check

  /** A row of `SHOW COLUMNS`: the type text, `Null` ("YES"/"NO") and
      `Default` (a string, or null for none). */
  datatype FoundColumn = FoundColumn(typ: string, nullText: string, default: Option<string>)

  /** What the server reports for a column created from `p`. */
  function Described(p: Property, codec: Codec): FoundColumn
    requires WellSized(p) && Renderable(p)
  {
    FoundColumn(ColumnType(p), if p.nullable then "YES" else "NO",
      if p.default.Null? then None else Some(DefaultText(p, codec)))
  }

  predicate TypeDiffers(p: Property, f: FoundColumn)
    requires WellSized(p)
  {
    Trim(Lower(f.typ)) != Trim(Lower(ColumnType(p)))
  }

  predicate NullDiffers(p: Property, f: FoundColumn) {
    (p.nullable && f.nullText == "NO") || (!p.nullable && f.nullText == "YES")
  }

  /** The default comparison as written: strict `!==` between the reported
      default (a string or null) and the descriptor's default value. */
  predicate DefaultDiffersAsWritten(p: Property, f: FoundColumn) {
    match f.default
    case None => !p.default.Null?
    case Some(s) => p.default != Str(s)
  }

  /** The comparison the check means: the reported default against the
      text the definition stores. */
  predicate DefaultDiffers(p: Property, f: FoundColumn, codec: Codec)
    requires Renderable(p)
  {
    f.default != (if p.default.Null? then None else Some(DefaultText(p, codec)))
  }

  function AlterColumn(table: string, todo: string, p: Property, codec: Codec): string
    requires WellSized(p) && Renderable(p)
  {
    "ALTER TABLE " + Quoted(table) + " " + todo + " " + Quoted(p.column) + " " + ColumnClause(p, codec)
  }

  /** `checkColumn`: ADD COLUMN when the column is absent, MODIFY when its
      type (trimmed, case-insensitively), nullability or default differ,
      nothing otherwise. */
  function CheckColumn(table: string, p: Property, found: Option<FoundColumn>, codec: Codec): (r: Option<string>)
    requires WellSized(p) && Renderable(p)
    ensures found.None? ==> r == Some(AlterColumn(table, "ADD COLUMN", p, codec))
    ensures found.Some? ==>
      (r.Some? <==> TypeDiffers(p, found.value) || NullDiffers(p, found.value) || DefaultDiffers(p, found.value, codec))
    ensures found.Some? && r.Some? ==> r == Some(AlterColumn(table, "MODIFY", p, codec))
  {
    match found
    case None => Some(AlterColumn(table, "ADD COLUMN", p, codec))
    case Some(f) =>
      var update := TypeDiffers(p, f);
      var update := update || (p.nullable && f.nullText == "NO");
      var update := update || (!p.nullable && f.nullText == "YES");
      var update := update || DefaultDiffers(p, f, codec);
      if update then Some(AlterColumn(table, "MODIFY", p, codec)) else None
  }

  /** Once a column matches its definition, checking it again does nothing. */
  lemma CheckColumnSettles(table: string, p: Property, codec: Codec)
    requires WellSized(p) && Renderable(p)
    ensures CheckColumn(table, p, Some(Described(p, codec)), codec) == None
  {
  }

  /** `checkColumn` as written: the type comparison asks for the column
      type first, which fails for an int or decimal column, and the default
      comparison is strict. */
  function CheckColumnAsWritten(table: string, p: Property, found: Option<FoundColumn>, codec: Codec): (r: Result<Option<string>>)
    requires WellSized(p) && Renderable(p)
    ensures r.Err? <==> p.typ == IntType || p.typ == DecimalType
    ensures r.Ok? && found.None? ==> r.value == CheckColumn(table, p, found, codec)
    ensures r.Ok? && found.Some? ==>
      (r.value.Some? <==> TypeDiffers(p, found.value) || NullDiffers(p, found.value) || DefaultDiffersAsWritten(p, found.value))
    ensures r.Ok? && r.value.Some? && found.Some? ==> r.value == Some(AlterColumn(table, "MODIFY", p, codec))
  {
    match found
    case None =>
      (match ColumnDefinitionAsWritten(p, codec)
       case Err(e) => Err(e)
       case Ok(_) => Ok(Some(AlterColumn(table, "ADD COLUMN", p, codec))))
    case Some(f) =>
      match ColumnTypeAsWritten(p)
      case Err(e) => Err(e)
      case Ok(t) =>
        if Trim(Lower(f.typ)) != Trim(Lower(t)) || NullDiffers(p, f) || DefaultDiffersAsWritten(p, f) then
          (match ColumnDefinitionAsWritten(p, codec)
           case Err(e) => Err(e)
           case Ok(_) => Ok(Some(AlterColumn(table, "MODIFY", p, codec))))
        else Ok(None)
  }

  /** As written, a column whose default is neither null nor a string never
      settles: an int or decimal column fails on every run, and any other
      is modified on every run, even right after it was created from its
      definition. */
  lemma CheckColumnAsWrittenNeverSettles(table: string, p: Property, codec: Codec)
    requires WellSized(p) && Renderable(p)
    requires !p.default.Null? && !p.default.Str?
    ensures CheckColumnAsWritten(table, p, Some(Described(p, codec)), codec) != Ok(None)
    ensures p.typ != IntType && p.typ != DecimalType ==>
      CheckColumnAsWritten(table, p, Some(Described(p, codec)), codec) == Ok(Some(AlterColumn(table, "MODIFY", p, codec)))
  {
  }

  /** The column of the reported case: a bool column whose default `false`
      the server reports as "0". */
  lemma BoolColumnNeverSettles(table: string, name: string, codec: Codec)
    ensures var p := Property("", name, BoolType, NoSize, None, false, Bool(false), false, false, [], None, name, None);
      WellSized(p) && Renderable(p) && Described(p, codec).default == Some("0")
      && CheckColumnAsWritten(table, p, Some(Described(p, codec)), codec) == Ok(Some(AlterColumn(table, "MODIFY", p, codec)))
      && CheckColumn(table, p, Some(Described(p, codec)), codec) == None
  {
    var p := Property("", name, BoolType, NoSize, None, false, Bool(false), false, false, [], None, name, None);
    CheckColumnAsWrittenNeverSettles(table, p, codec);
    CheckColumnSettles(table, p, codec);
  }

  // -------------------------------------------------------------------
  // Table creation

  /** Each property can be turned into a column clause, and its index
      entries name each index once. */
  predicate Writable(props: seq<Property>) {
    forall i :: 0 <= i < |props| ==>
      WellSized(props[i]) && Renderable(props[i]) && Assoc.DistinctKeys(props[i].indexes)
  }

  function ColumnClauses(props: seq<Property>, codec: Codec): (r: seq<string>)
    requires Writable(props)
    ensures |r| == |props|
    ensures forall i :: 0 <= i < |props| ==> r[i] == Quoted(props[i].column) + " " + ColumnClause(props[i], codec)
  {
    seq(|props|, i requires 0 <= i < |props| && Writable(props) => Quoted(props[i].column) + " " + ColumnClause(props[i], codec))
  }

  /** The columns of the primary properties, in map order. */
  function PrimaryColumns(props: seq<Property>): (r: seq<string>)
    ensures |r| == 0 <==> forall i :: 0 <= i < |props| ==> !props[i].primary
    ensures forall c :: c in r <==> exists i :: 0 <= i < |props| && props[i].primary && props[i].column == c
    decreases |props|
  {
    if |props| == 0 then []
    else
      var rest := PrimaryColumns(props[1..]);
      assert forall i :: 1 <= i < |props| ==> props[i] == props[1..][i - 1];
      if props[0].primary then [props[0].column] + rest else rest
  }

  function IndexClause(kind: string, name: string, g: Indexes.IndexGroup): string {
    kind + " " + Quoted(name) + " (" + Join(g.columns, ", ") + ")"
  }

  function IndexClauses(kind: string, groups: seq<(string, Indexes.IndexGroup)>): (r: seq<string>)
    ensures |r| == |groups|
    ensures forall i :: 0 <= i < |groups| ==> r[i] == IndexClause(kind, groups[i].0, groups[i].1)
  {
    seq(|groups|, i requires 0 <= i < |groups| => IndexClause(kind, groups[i].0, groups[i].1))
  }

  function PrimaryClauses(props: seq<Property>): seq<string> {
    var primary := PrimaryColumns(props);
    if |primary| > 0 then ["PRIMARY KEY (" + Join(primary, ", ") + ")"] else []
  }

  /** The clauses of `createTable`: the columns, the primary key if any,
      then the plain and the unique indexes, each grouped by name. */
  function CreateClauses(props: seq<Property>, codec: Codec): (r: seq<string>)
    requires Writable(props)
  {
    ColumnClauses(props, codec) + (PrimaryClauses(props) + IndexPart(props))
  }

  /** The plain index clauses, then the unique ones. */
  function IndexPart(props: seq<Property>): (r: seq<string>)
    requires forall i :: 0 <= i < |props| ==> Assoc.DistinctKeys(props[i].indexes)
    ensures forall c :: c in r ==> |c| > 0 && (c[0] == 'I' || c[0] == 'U')
  {
    IndexClausesStart("INDEX", Indexes.Collect(props, Some(false)));
    IndexClausesStart("UNIQUE", Indexes.Collect(props, Some(true)));
    IndexClauses("INDEX", Indexes.Collect(props, Some(false)))
      + IndexClauses("UNIQUE", Indexes.Collect(props, Some(true)))
  }

  /** `createTable`. */
  function CreateTable(table: string, props: seq<Property>, codec: Codec): (r: string)
    requires Writable(props)
    ensures CreateHead(table) <= r
    ensures r[|r| - 1] == ')'
  {
    var rest := Join(CreateClauses(props, codec), ", ") + ")";
    HeadPrefix(CreateHead(table), rest);
    CreateHead(table) + rest
  }

  function CreateHead(table: string): string {
    "CREATE TABLE " + Quoted(table) + " ("
  }

  /** Index clauses start with their kind's first letter. */
  lemma IndexClausesStart(kind: string, groups: seq<(string, Indexes.IndexGroup)>)
    requires |kind| > 0
    ensures forall c :: c in IndexClauses(kind, groups) ==> |c| > 0 && c[0] == kind[0]
  {
  }

  /** The table is created with one clause per property, in map order. */
  lemma CreateClausesColumns(props: seq<Property>, codec: Codec)
    requires Writable(props)
    ensures var r := CreateClauses(props, codec);
      |props| <= |r|
      && (forall i :: 0 <= i < |props| ==> r[i] == Quoted(props[i].column) + " " + ColumnClause(props[i], codec))
  {
    var cols := ColumnClauses(props, codec);
    var r := CreateClauses(props, codec);
    assert r[..|props|] == cols;
  }

  /** After the columns comes a primary key clause when some property is
      primary... */
  lemma CreateClausesPrimary(props: seq<Property>, codec: Codec)
    requires Writable(props)
    requires exists i :: 0 <= i < |props| && props[i].primary
    ensures var r := CreateClauses(props, codec);
      |r| > |props| && r[|props|] == "PRIMARY KEY (" + Join(PrimaryColumns(props), ", ") + ")"
  {
    var cols := ColumnClauses(props, codec);
    var rest := PrimaryClauses(props) + IndexPart(props);
    assert rest[0] == "PRIMARY KEY (" + Join(PrimaryColumns(props), ", ") + ")";
    assert (cols + rest)[|cols|] == rest[0];
  }

  /** ...and otherwise every clause after the columns is an index clause. */
  lemma CreateClausesNoPrimary(props: seq<Property>, codec: Codec)
    requires Writable(props)
    requires forall i :: 0 <= i < |props| ==> !props[i].primary
    ensures |props| <= |CreateClauses(props, codec)|
    ensures forall c :: c in CreateClauses(props, codec)[|props|..] ==> |c| > 0 && (c[0] == 'I' || c[0] == 'U')
  {
    assert PrimaryClauses(props) == [];
    assert PrimaryClauses(props) + IndexPart(props) == IndexPart(props);
    Assoc.AfterPrefix(ColumnClauses(props, codec), IndexPart(props));
  }

  /** A group of `Collect` is listed under its name. */
  lemma GroupListed(groups: seq<(string, Indexes.IndexGroup)>, n: string, kind: string)
    requires Assoc.Get(groups, n).Some?
    ensures IndexClause(kind, n, Assoc.Get(groups, n).value) in IndexClauses(kind, groups)
  {
    var i := Assoc.GetSomeAt(groups, n);
  }

  /** Each index name the properties declare gets one clause listing
      exactly the columns that declare it, in map order, under INDEX or
      UNIQUE by the uniqueness of the declarations. */
  lemma CreateTableIndexes(props: seq<Property>, codec: Codec, n: string, unique: bool)
    requires Writable(props)
    requires |Indexes.IndexColumns(props, n, Some(unique))| > 0
    ensures IndexClause(if unique then "UNIQUE" else "INDEX", n,
      Indexes.IndexGroup(Indexes.IndexColumns(props, n, Some(unique)), unique)) in CreateClauses(props, codec)
  {
    Indexes.CollectSpec(props, Some(unique), n);
    Indexes.SelectedUniqueness(props, n, unique);
    var groups := Indexes.Collect(props, Some(unique));
    var kind := if unique then "UNIQUE" else "INDEX";
    if unique && !Indexes.IndexUnique(props, n, Some(unique)) {
      NotUniqueWithoutFlag(props, n);
    }
    GroupListed(groups, n, kind);
  }

  /** Every declaration the unique selection admits is unique. */
  lemma {:induction false} NotUniqueWithoutFlag(props: seq<Property>, n: string)
    requires |Indexes.IndexColumns(props, n, Some(true))| > 0
    ensures Indexes.IndexUnique(props, n, Some(true))
    decreases |props|
  {
    var last := props[|props| - 1];
    if !Indexes.Selects(last.indexes, n, Some(true)) {
      NotUniqueWithoutFlag(props[..|props| - 1], n);
    }
  }

  // -------------------------------------------------------------------
  // Constraint check

  /** One statement of the primary-key part of `checkConstraints`. */
  datatype KeyAction =
    | ModifyColumn(column: string, definition: string)   // still mapped, no longer primary
    | DropColumn(column: string)                          // no longer mapped
    | ResetPrimary(columns: seq<string>)                  // drop and re-add the primary key

  /** The head every statement of `checkConstraints` starts with. */
  function AlterHead(table: string): string {
    "ALTER TABLE " + Quoted(table) + " "
  }

  function KeyClause(a: KeyAction): string {
    match a
    case ModifyColumn(c, d) => "MODIFY COLUMN " + Quoted(c) + " " + d
    case DropColumn(c) => "DROP COLUMN " + Quoted(c)
    case ResetPrimary(cs) => "DROP PRIMARY KEY, ADD PRIMARY KEY (" + Join(QuotedAll(cs), ", ") + ")"
  }

  function RenderKeyAction(table: string, a: KeyAction): string {
    AlterHead(table) + KeyClause(a)
  }

  function QuotedAll(cs: seq<string>): (r: seq<string>)
    ensures |r| == |cs| && forall i :: 0 <= i < |cs| ==> r[i] == Quoted(cs[i])
  {
    seq(|cs|, i requires 0 <= i < |cs| => Quoted(cs[i]))
  }

  /** The loop over the existing primary columns that are no longer
      required: a column still in the map keeps its definition, any other
      is dropped. */
  function DropPrimaries(existing: seq<string>, required: seq<string>, byColumn: seq<(string, Property)>,
                         codec: Codec): (r: seq<KeyAction>)
    requires forall c :: Assoc.Get(byColumn, c).Some? ==>
      WellSized(Assoc.Get(byColumn, c).value) && Renderable(Assoc.Get(byColumn, c).value)
    ensures forall a :: a in r ==> !a.ResetPrimary? && a.column in existing && a.column !in required
    ensures forall a :: a in r ==> (a.ModifyColumn? <==> Assoc.HasKey(byColumn, a.column))
    ensures forall a :: a in r && a.ModifyColumn? ==>
      a.definition == ColumnDefinition(Assoc.Get(byColumn, a.column).value, codec)
    ensures forall c :: c in existing && c !in required ==> exists a :: a in r && a.column == c
    decreases |existing|
  {
    if |existing| == 0 then []
    else
      var c := existing[0];
      var rest := DropPrimaries(existing[1..], required, byColumn, codec);
      var here := if c in required then []
        else if Assoc.Get(byColumn, c).Some? then [ModifyColumn(c, ColumnDefinition(Assoc.Get(byColumn, c).value, codec))]
        else [DropColumn(c)];
      assert forall x :: x in existing ==> x == c || x in existing[1..];
      here + rest
  }

  /** What each step of the loop over the old primary columns does. */
  predicate DropStep(props: seq<Property>, existing: seq<string>, a: KeyAction) {
    && !a.ResetPrimary? && a.column in existing
    && (forall j :: 0 <= j < |props| && props[j].primary ==> props[j].column != a.column)
    && (a.DropColumn? <==> forall j :: 0 <= j < |props| ==> props[j].column != a.column)
  }

  lemma DropSteps(props: seq<Property>, existing: seq<string>, codec: Codec)
    requires Writable(props)
    ensures forall a :: a in DropPrimaries(existing, PrimaryColumns(props), Schema.FileBy(props, Schema.ByColumn), codec) ==>
      DropStep(props, existing, a)
  {
    var byColumn := Schema.FileBy(props, Schema.ByColumn);
    var drops := DropPrimaries(existing, PrimaryColumns(props), byColumn, codec);
    forall a | a in drops
      ensures DropStep(props, existing, a)
    {
      if !a.DropColumn? {
        var c := a.column;
        assert Assoc.HasKey(byColumn, c);
        var j :| 0 <= j < |props| && Schema.KeyOf(props[j], Schema.ByColumn) == c;
        assert props[j].column == c;
      }
    }
  }

  /** The primary-key part of `checkConstraints`: the columns dropped from
      the key are kept or dropped, then the key is rebuilt from exactly the
      required columns. */
  function CheckPrimaries(props: seq<Property>, existing: seq<string>, codec: Codec): (r: seq<KeyAction>)
    requires Writable(props)
    ensures |r| >= 1 && r[|r| - 1] == ResetPrimary(PrimaryColumns(props))
    ensures forall i :: 0 <= i < |r| - 1 ==> DropStep(props, existing, r[i])
  {
    var drops := DropPrimaries(existing, PrimaryColumns(props), Schema.FileBy(props, Schema.ByColumn), codec);
    DropSteps(props, existing, codec);
    drops + [ResetPrimary(PrimaryColumns(props))]
  }

  /** `checkConstraints` up to the index diff: the statements it executes
      for the primary key. */
  function CheckConstraints(table: string, props: seq<Property>, existing: seq<string>, codec: Codec): (r: seq<string>)
    requires Writable(props)
    ensures forall i :: 0 <= i < |r| ==> AlterHead(table) <= r[i]
    ensures |r| >= 1 && r[|r| - 1] ==
      AlterHead(table) + "DROP PRIMARY KEY, ADD PRIMARY KEY (" + Join(QuotedAll(PrimaryColumns(props)), ", ") + ")"
  {
    var actions := CheckPrimaries(props, existing, codec);
    var cs := PrimaryColumns(props);
    ResetRendering(table, cs);
    RenderKeyActions(table, actions)
  }

  /** The statements for a list of key actions, one each, in order. */
  function RenderKeyActions(table: string, actions: seq<KeyAction>): (r: seq<string>)
    ensures |r| == |actions|
    ensures forall i :: 0 <= i < |r| ==> r[i] == RenderKeyAction(table, actions[i]) && AlterHead(table) <= r[i]
  {
    if |actions| == 0 then []
    else
      HeadPrefix(AlterHead(table), KeyClause(actions[0]));
      [RenderKeyAction(table, actions[0])] + RenderKeyActions(table, actions[1..])
  }

  lemma ResetRendering(table: string, cs: seq<string>)
    ensures RenderKeyAction(table, ResetPrimary(cs)) ==
      AlterHead(table) + "DROP PRIMARY KEY, ADD PRIMARY KEY (" + Join(QuotedAll(cs), ", ") + ")"
  {
  }

  lemma HeadPrefix(head: string, rest: string)
    ensures head <= head + rest
  {
    assert (head + rest)[..|head|] == head;
  }

  /** An existing primary column that stays required is left alone. */
  lemma KeptPrimaryUntouched(props: seq<Property>, existing: seq<string>, codec: Codec, i: nat)
    requires Writable(props)
    requires i < |props| && props[i].primary
    ensures forall a :: a in CheckPrimaries(props, existing, codec) && !a.ResetPrimary? ==> a.column != props[i].column
  {
  }
}

=== FILE: php.dfy ===
/** PHP 7 values as the system manipulates them: scalars, ordered arrays with
    int-or-string keys, and opaque objects; plus the engine rules the source
    relies on (truthiness, array-key normalisation, loose `==`, string casts).
    Floats are not part of this model. */
module Php {
  import opened Errors
  import opened Strs
  import Assoc

  /** An array key: PHP turns canonical decimal strings into int keys. */
  datatype Key = IntKey(i: int) | StrKey(s: string)

  /** A PHP value. Objects are opaque: a class name and an identity. */
  datatype Value =
    | Null
    | Bool(b: bool)
    | Int(i: int)
    | Str(s: string)
    | Arr(items: seq<(Key, Value)>)
    | Object(cls: string, id: nat)

  /** Boolean conversion (`if ($v)`, `array_filter` without callback). */
  predicate Truthy(v: Value) {
    match v
    case Null => false
    case Bool(b) => b
    case Int(i) => i != 0
    case Str(s) => s != "" && s != "0"
    case Arr(items) => |items| > 0
    case Object(_, _) => true
  }

  function Digit(d: nat): (c: char)
    requires d < 10
    ensures IsDigit(c)
  {
    ('0' as int + d) as char
  }

  /** Decimal digits of a natural number, most significant first, no leading zero. */
  function NatToString(n: nat): (s: string)
    ensures |s| >= 1 && AllDigits(s)
    ensures s[0] == '0' ==> n == 0 && s == "0"
    decreases n
  {
    if n < 10 then [Digit(n)] else NatToString(n / 10) + [Digit(n % 10)]
  }

  /** Value of a string of decimal digits. */
  function DigitsValue(s: string): (n: nat)
    requires AllDigits(s)
  {
    if |s| == 0 then 0 else DigitsValue(s[..|s| - 1]) * 10 + (s[|s| - 1] as int - '0' as int)
  }

  lemma {:induction false} DigitsOfNat(n: nat)
    ensures DigitsValue(NatToString(n)) == n
    decreases n
  {
    if n >= 10 {
      DigitsOfNat(n / 10);
      var s := NatToString(n);
      assert s[..|s| - 1] == NatToString(n / 10);
    }
  }

  /** The decimal text of an int, as `(string)$i` gives it. */
  function IntToString(i: int): (s: string)
    ensures |s| >= 1
  {
    if i < 0 then "-" + NatToString(-i) else NatToString(i)
  }

  /** A string PHP would turn into an int array key: "0", or an optional '-'
      followed by digits without a leading zero (and not "-0"). */
  predicate IsCanonicalInt(s: string) {
    if |s| > 0 && s[0] == '-' then
      |s| >= 2 && AllDigits(s[1..]) && s[1] != '0'
    else
      |s| >= 1 && AllDigits(s) && (s[0] != '0' || s == "0")
  }

  function CanonicalIntValue(s: string): int
    requires IsCanonicalInt(s)
  {
    if s[0] == '-' then -(DigitsValue(s[1..]) as int) else DigitsValue(s)
  }

  lemma {:induction false} NatToStringOfDigits(s: string)
    requires AllDigits(s) && |s| >= 1 && (s[0] != '0' || s == "0")
    ensures NatToString(DigitsValue(s)) == s
    decreases |s|
  {
    if |s| == 1 {
    } else {
      var p := s[..|s| - 1];
      assert p[0] == s[0];
      NatToStringOfDigits(p);
      var n := DigitsValue(s);
      PositiveDigits(p);
      assert n / 10 == DigitsValue(p);
      assert n % 10 == s[|s| - 1] as int - '0' as int;
      assert s == p + [s[|s| - 1]];
    }
  }

  lemma {:induction false} PositiveDigits(s: string)
    requires AllDigits(s) && |s| >= 1 && s[0] != '0'
    ensures DigitsValue(s) > 0
    decreases |s|
  {
    if |s| > 1 {
      var p := s[..|s| - 1];
      assert p[0] == s[0];
      PositiveDigits(p);
    }
  }

  /** Key normalisation: `$a["12"]` and `$a[12]` are the same slot. */
  function KeyOfString(s: string): (k: Key)
    ensures k.StrKey? ==> k.s == s
  {
    if IsCanonicalInt(s) then IntKey(CanonicalIntValue(s)) else StrKey(s)
  }

  /** A key as the string PHP gives for it (`(string)$k`). */
  function KeyToString(k: Key): string {
    match k
    case IntKey(i) => IntToString(i)
    case StrKey(s) => s
  }

  /** A key as the value `array_keys` gives for it. */
  function KeyValue(k: Key): (v: Value)
    ensures v.Int? || v.Str?
    ensures KeyToString(k) == ToText(v).value
  {
    match k
    case IntKey(i) => Int(i)
    case StrKey(s) => Str(s)
  }

  /** `$a == $b` on two array keys. */
  predicate LooseKeyEq(a: Key, b: Key) {
    LooseEq(KeyValue(a), KeyValue(b))
  }

  /** `in_array($k, $keys)` on array keys, without the strict flag. */
  predicate KeyListed(k: Key, keys: seq<Key>) {
    exists i :: 0 <= i < |keys| && LooseKeyEq(k, keys[i])
  }

  /** The decimal text of an int is canonical and reads back as that int. */
  lemma IntKeyRoundTrip(i: int)
    ensures KeyOfString(IntToString(i)) == IntKey(i)
  {
    var s := IntToString(i);
    if i < 0 {
      DigitsOfNat(-i);
      assert s[1..] == NatToString(-i);
    } else {
      DigitsOfNat(i);
    }
  }

  /** Normalising a string key and printing it back gives the same string. */
  lemma StringKeyRoundTrip(s: string)
    ensures KeyToString(KeyOfString(s)) == s
  {
    if IsCanonicalInt(s) {
      if s[0] == '-' {
        NatToStringOfDigits(s[1..]);
        PositiveDigits(s[1..]);
        assert s == "-" + s[1..];
      } else {
        NatToStringOfDigits(s);
      }
    }
  }

  /** PHP 7's "integer numeric string": optional leading whitespace, an
      optional sign, then at least one digit and nothing else. */
  predicate IsIntNumeric(s: string) {
    var t := TrimLeftPcre(s);
    if |t| > 0 && (t[0] == '-' || t[0] == '+') then
      |t| >= 2 && AllDigits(t[1..])
    else
      |t| >= 1 && AllDigits(t)
  }

  function TrimLeftPcre(s: string): (r: string)
    ensures |r| <= |s|
  {
    if |s| > 0 && IsPcreSpace(s[0]) then TrimLeftPcre(s[1..]) else s
  }

  /** Longest digit prefix. */
  function DigitPrefix(s: string): (r: string)
    ensures AllDigits(r) && |r| <= |s| && r == s[..|r|]
    ensures |r| < |s| ==> !IsDigit(s[|r|])
  {
    if |s| > 0 && IsDigit(s[0]) then [s[0]] + DigitPrefix(s[1..]) else []
  }

  /** PHP 7's string-to-number conversion restricted to integers: leading
      whitespace, an optional sign and the longest digit prefix; 0 when
      there is none. */
  function LeadingInt(s: string): int {
    var t := TrimLeftPcre(s);
    if |t| > 0 && t[0] == '-' then -(DigitsValue(DigitPrefix(t[1..])) as int)
    else if |t| > 0 && t[0] == '+' then DigitsValue(DigitPrefix(t[1..]))
    else DigitsValue(DigitPrefix(t))
  }

  /** An exact decimal number: `mantissa * 10^scale`, negated when
      `negative`. */
  datatype Decimal = Decimal(negative: bool, mantissa: nat, scale: int)

  function Pow10(n: nat): (r: nat)
    ensures r >= 1
  {
    if n == 0 then 1 else 10 * Pow10(n - 1)
  }

  /** The exponent an `e`/`E` part at the start of `w` gives: an optional
      sign and at least one digit, else no exponent (0). */
  function ExponentOf(w: string): int {
    if |w| >= 2 && (w[0] == 'e' || w[0] == 'E') then
      var x := w[1..];
      if (x[0] == '-' || x[0] == '+') && |DigitPrefix(x[1..])| > 0 then
        var e := DigitsValue(DigitPrefix(x[1..])) as int;
        if x[0] == '-' then -e else e
      else DigitsValue(DigitPrefix(x))
    else 0
  }

  /** PHP 7's conversion of a string to a number when it is compared with
      an int: leading whitespace, an optional sign, then the longest prefix
      of the form `digits[.digits][e[sign]digits]` or `.digits[e[sign]digits]`;
      0 when there is none. */
  function LeadingNumber(s: string): (d: Decimal) {
    var t := TrimLeftPcre(s);
    if |t| > 0 && (t[0] == '-' || t[0] == '+') then Unsigned(t[1..]).(negative := t[0] == '-')
    else Unsigned(t)
  }

  /** The number at the start of a text without sign. */
  function Unsigned(u: string): (d: Decimal)
    ensures !d.negative
  {
    var ip := DigitPrefix(u);
    var v := u[|ip|..];
    if |v| > 0 && v[0] == '.' then Fraction(ip, v[1..])
    else if |ip| == 0 then Decimal(false, 0, 0)
    else Decimal(false, DigitsValue(ip), ExponentOf(v))
  }

  /** The number whose integer digits are `ip` and whose fraction digits
      start `x`, after the decimal point. */
  function Fraction(ip: string, x: string): (d: Decimal)
    requires AllDigits(ip)
    ensures !d.negative
  {
    var fp := DigitPrefix(x);
    if |ip| + |fp| == 0 then Decimal(false, 0, 0)
    else Decimal(false, DigitsValue(ip + fp), ExponentOf(x[|fp|..]) - |fp|)
  }

  /** A string with no decimal point and no exponent letter converts to
      its leading integer. */
  lemma IntNotationAsInt(s: string)
    requires forall i :: 0 <= i < |s| ==> s[i] != '.' && s[i] != 'e' && s[i] != 'E'
    ensures StringAsInt(s) == Some(LeadingInt(s))
  {
    var t := TrimLeftPcre(s);
    TrimLeftIsSuffix(s);
    var signed := |t| > 0 && (t[0] == '-' || t[0] == '+');
    var u := if signed then t[1..] else t;
    var ip := DigitPrefix(u);
    var v := u[|ip|..];
    assert |v| > 0 ==> v[0] != '.' && v[0] != 'e' && v[0] != 'E' by {
      if |v| > 0 {
        var k := (if signed then 1 else 0) + |ip|;
        assert v[0] == t[k];
        assert t[k] == s[|s| - |t| + k];
      }
    }
    assert ExponentOf(v) == 0;
    var d := LeadingNumber(s);
    assert d.scale == 0 && Signed(d) == LeadingInt(s);
  }

  lemma TrimLeftIsSuffix(s: string)
    ensures TrimLeftPcre(s) == s[|s| - |TrimLeftPcre(s)|..]
  {
  }

  /** The int a decimal number equals, None when it is not integral. */
  function AsInt(d: Decimal): (r: Option<int>)
    ensures r.Some? ==> (if d.scale >= 0 then r.value == Signed(d) * Pow10(d.scale)
                         else r.value * Pow10(-d.scale) == Signed(d))
    ensures d.scale >= 0 ==> r.Some?
  {
    var m := Signed(d);
    if d.scale >= 0 then Some(m * Pow10(d.scale))
    else
      var p := Pow10(-d.scale);
      if m % p == 0 then Some(m / p) else None
  }

  function Signed(d: Decimal): int {
    if d.negative then -(d.mantissa as int) else d.mantissa as int
  }

  /** The int a string equals when it is compared with an int, None when
      its numeric value is not integral (`"4.5"`). */
  function StringAsInt(s: string): (r: Option<int>) {
    AsInt(LeadingNumber(s))
  }

  /** PHP 7 loose equality `==` on the values the modelled code compares
      (scalars and arrays of them). Integer-numeric strings are compared as
      numbers; an int against a string converts the string by its leading
      numeric prefix, decimal point and exponent included. */
  predicate LooseEq(a: Value, b: Value) {
    match (a, b)
    case (Null, Null) => true
    case (Bool(x), _) => x == Truthy(b)
    case (_, Bool(y)) => Truthy(a) == y
    case (Null, Str(s)) => s == ""
    case (Str(s), Null) => s == ""
    case (Null, _) => !Truthy(b)
    case (_, Null) => !Truthy(a)
    case (Int(x), Int(y)) => x == y
    case (Int(x), Str(s)) => StringAsInt(s) == Some(x)
    case (Str(s), Int(y)) => StringAsInt(s) == Some(y)
    case (Str(s), Str(t)) =>
      if IsIntNumeric(s) && IsIntNumeric(t) then LeadingInt(s) == LeadingInt(t) else s == t
    case (Object(c, i), Object(d, j)) => c == d && i == j
    case _ => a == b
  }

  /** A fraction whose last digit is not zero is no int, so no int is
      loosely equal to it: `4 == "4.5"` is false. */
  lemma FractionNotInt(ip: string, fp: string)
    requires |ip| >= 1 && AllDigits(ip) && AllDigits(fp) && |fp| >= 1 && fp[|fp| - 1] != '0'
    ensures StringAsInt(ip + "." + fp) == None
    ensures forall x :: !LooseEq(Int(x), Str(ip + "." + fp))
  {
    DotNumber(ip + "." + fp, ip, fp);
    var ds := ip + fp;
    assert ds[|ds| - 1] == fp[|fp| - 1];
    LastDigit(ds);
    NotScaled(DigitsValue(ds), |fp|);
  }

  /** The last digit is the value's remainder modulo 10. */
  lemma LastDigit(ds: string)
    requires |ds| >= 1 && AllDigits(ds)
    ensures DigitsValue(ds) % 10 == ds[|ds| - 1] as int - '0' as int
  {
  }

  /** What 10 does not divide, no positive power of 10 divides. */
  lemma NotScaled(m: int, k: nat)
    requires m % 10 != 0 && k >= 1
    ensures m % Pow10(k) != 0
  {
    var q := Pow10(k - 1);
    assert Pow10(k) == 10 * q;
    var r := m % (10 * q);
    var x := q * (m / (10 * q));
    assert m == 10 * x + r;
    AddTens(x, r);
  }

  lemma AddTens(x: int, r: int)
    ensures (10 * x + r) % 10 == r % 10
  {
  }

  /** An exponent scales the mantissa: `1000 == "1e3"` holds and
      `1 == "1e3"` does not. */
  lemma ExponentScales(ip: string, ex: string)
    requires |ip| >= 1 && AllDigits(ip) && |ex| >= 1 && AllDigits(ex)
    ensures StringAsInt(ip + "e" + ex) == Some(DigitsValue(ip) * Pow10(DigitsValue(ex)))
    ensures forall x :: LooseEq(Int(x), Str(ip + "e" + ex)) <==> x == DigitsValue(ip) * Pow10(DigitsValue(ex))
  {
    var s := ip + "e" + ex;
    assert s[0] == ip[0];
    DigitStart(s);
    ExponentSplits(ip, ex);
  }

  lemma ExponentSplits(ip: string, ex: string)
    requires |ip| >= 1 && AllDigits(ip) && |ex| >= 1 && AllDigits(ex)
    ensures Unsigned(ip + "e" + ex) == Decimal(false, DigitsValue(ip), DigitsValue(ex))
  {
    var s := ip + "e" + ex;
    assert s == ip + ("e" + ex);
    DigitPrefixStops(ip, "e" + ex);
    assert s[|ip|..] == "e" + ex;
    ExponentOfDigits(ex);
  }

  /** An `e` followed by digits only is the exponent those digits give. */
  lemma ExponentOfDigits(ex: string)
    requires |ex| >= 1 && AllDigits(ex)
    ensures ExponentOf("e" + ex) == DigitsValue(ex)
  {
    assert ("e" + ex)[1..] == ex;
    DigitPrefixStops(ex, "");
    assert ex + "" == ex;
  }

  /** A number written `digits.digits` and nothing else. */
  lemma DotNumber(s: string, ip: string, fp: string)
    requires |ip| >= 1 && AllDigits(ip) && AllDigits(fp) && s == ip + "." + fp
    ensures LeadingNumber(s) == Decimal(false, DigitsValue(ip + fp), -|fp|)
  {
    DigitStart(s);
    DotSplits(ip, fp);
    WholeFraction(ip, fp);
  }

  /** A text that starts with a digit has no space or sign to skip. */
  lemma DigitStart(s: string)
    requires |s| > 0 && IsDigit(s[0])
    ensures LeadingNumber(s) == Unsigned(s)
  {
    assert TrimLeftPcre(s) == s;
  }

  lemma DotSplits(ip: string, fp: string)
    requires AllDigits(ip)
    ensures Unsigned(ip + "." + fp) == Fraction(ip, fp)
  {
    var s := ip + "." + fp;
    assert s == ip + ("." + fp);
    DigitPrefixStops(ip, "." + fp);
    var v := s[|ip|..];
    assert v == "." + fp && v[1..] == fp;
  }

  lemma WholeFraction(ip: string, fp: string)
    requires AllDigits(ip) && AllDigits(fp) && |ip| + |fp| > 0
    ensures Fraction(ip, fp) == Decimal(false, DigitsValue(ip + fp), -|fp|)
  {
    DigitPrefixStops(fp, "");
    assert fp + "" == fp;
    assert fp[|fp|..] == "";
  }

  /** The digit prefix of digits followed by a non-digit is those digits. */
  lemma {:induction false} DigitPrefixStops(ds: string, rest: string)
    requires AllDigits(ds) && (|rest| > 0 ==> !IsDigit(rest[0]))
    ensures DigitPrefix(ds + rest) == ds
    decreases |ds|
  {
    if |ds| > 0 {
      assert (ds + rest)[1..] == ds[1..] + rest;
      DigitPrefixStops(ds[1..], rest);
    }
  }

  /** `in_array($v, $values)` without the strict flag. */
  predicate InArray(v: Value, values: seq<Value>) {
    exists i :: 0 <= i < |values| && LooseEq(v, values[i])
  }

  function IntValues(xs: seq<int>): (vs: seq<Value>)
    ensures |vs| == |xs| && forall i :: 0 <= i < |xs| ==> vs[i] == Int(xs[i])
  {
    seq(|xs|, i requires 0 <= i < |xs| => Int(xs[i]))
  }

  /** A string is loosely in a list of ints exactly when the number it
      denotes is an integer of the list. */
  lemma StringInInts(s: string, xs: seq<int>)
    ensures InArray(Str(s), IntValues(xs)) <==> StringAsInt(s).Some? && StringAsInt(s).value in xs
  {
    var vs := IntValues(xs);
    var n := StringAsInt(s);
    forall i | 0 <= i < |vs|
      ensures LooseEq(Str(s), vs[i]) <==> n == Some(xs[i])
    {
    }
    if n.Some? && n.value in xs {
      var i :| 0 <= i < |xs| && xs[i] == n.value;
      assert LooseEq(Str(s), vs[i]);
    }
  }

  predicate IsArray(v: Value) { v.Arr? }
  predicate IsScalarOrNull(v: Value) { v.Null? || v.Bool? || v.Int? || v.Str? }

  /** `$a[$k]` on an array value, None when the key is absent (`array_key_exists`). */
  function Lookup(v: Value, k: Key): (r: Option<Value>)
    ensures !v.Arr? ==> r.None?
  {
    if v.Arr? then Assoc.Get(v.items, k) else None
  }

  /** String cast for the values that have one; arrays give "Array" (with a
      notice) and objects need a `__toString` this model does not see. */
  function ToText(v: Value): (r: Option<string>)
    ensures r.None? <==> v.Object?
    ensures v.Str? ==> r == Some(v.s)
    ensures v.Null? || v == Bool(false) ==> r == Some("")
  {
    match v
    case Null => Some("")
    case Bool(b) => Some(if b then "1" else "")
    case Int(i) => Some(IntToString(i))
    case Str(s) => Some(s)
    case Arr(_) => Some("Array")
    case Object(_, _) => None
  }

  /** A list of strings as a PHP list array. */
  function ListOf(xs: seq<Value>): (v: Value)
    ensures v.Arr? && |v.items| == |xs|
    ensures forall i :: 0 <= i < |xs| ==> v.items[i] == (IntKey(i), xs[i])
  {
    Arr(seq(|xs|, i requires 0 <= i < |xs| => (IntKey(i), xs[i])))
  }
}

=== FILE: property.dfy ===
/** `Model\Property`: a field-definition string parsed into a validated column
    descriptor, the relation-key copy of a descriptor, and the casts between
    entity values and database values. */
module Properties {
  import opened Errors
  import opened Strs
  import opened Php
  import opened Enums
  import Assoc

  /** The value of a definition attribute: a bare word stands for PHP `true`,
      `k=v` gives the text `v`. */
  datatype Attr = Flag | Text(s: string)

  function AttrValue(a: Attr): Value {
    match a
    case Flag => Bool(true)
    case Text(s) => Str(s)
  }

  predicate AttrTruthy(a: Attr) { Truthy(AttrValue(a)) }

  /** String interpolation of an attribute: `true` prints as "1". */
  function AttrString(a: Attr): string {
    match a
    case Flag => "1"
    case Text(s) => s
  }

  /** The `size` slot: absent (PHP null), the raw attribute, or the parsed
      `precision`/`decimal_places` pair of a decimal. */
  datatype Size = NoSize | SizeAttr(a: Attr) | Precision(precision: nat, places: nat)

  /** An opaque data converter object. */
  datatype Converter = Converter(id: string)

  datatype Property = Property(
    cls: string,
    name: string,
    typ: FieldType,
    size: Size,
    unsigned: Option<Attr>,        // None is PHP's initial `false`
    nullable: bool,
    default: Value,
    primary: bool,
    autoIncrement: bool,
    indexes: seq<(string, bool)>,  // index name => unique flag, in insertion order
    converter: Option<Converter>,
    column: string,
    relatedClass: Option<string>)

  predicate IsUnsigned(p: Property) { p.unsigned.Some? && AttrTruthy(p.unsigned.value) }

  /** The names the magic getter lets code outside the class read; any other
      name raises UnknownProperty. `unsigned` is not among them. */
  const Readable: seq<string> := ["class", "name", "type", "size", "null", "default",
    "primary", "auto_increment", "indexes", "uniques", "converter", "column", "related_class"]

  /** How a descriptor names itself in exceptions. */
  function Subject(p: Property): string { p.cls + "->" + p.name }

  // -------------------------------------------------------------------
  // Lexical pieces of a definition

  predicate NoPcreSpace(s: string) {
    forall i :: 0 <= i < |s| ==> !IsPcreSpace(s[i])
  }

  function FirstSpace(s: string): (r: Option<nat>)
    ensures r.None? ==> NoPcreSpace(s)
    ensures r.Some? ==> r.value < |s| && IsPcreSpace(s[r.value]) && NoPcreSpace(s[..r.value])
  {
    if |s| == 0 then None
    else if IsPcreSpace(s[0]) then Some(0)
    else
      match FirstSpace(s[1..])
      case None => None
      case Some(i) =>
        assert s[..i + 1] == [s[0]] + s[1..][..i];
        Some(i + 1)
  }

  function SkipSpaces(s: string): (r: string)
    ensures |r| <= |s| && r == s[|s| - |r|..]
    ensures |r| > 0 ==> !IsPcreSpace(r[0])
    ensures |s| > 0 && IsPcreSpace(s[0]) ==> |r| < |s|
  {
    if |s| > 0 && IsPcreSpace(s[0]) then SkipSpaces(s[1..]) else s
  }

  /** `preg_split('`\s+`', s)`: the pieces between maximal runs of white
      space, including an empty first or last piece when s starts or ends
      with white space. */
  function SplitWs(s: string): (r: seq<string>)
    ensures |r| >= 1
    ensures forall i :: 0 <= i < |r| ==> NoPcreSpace(r[i])
    ensures NoPcreSpace(s) ==> r == [s]
    decreases |s|
  {
    match FirstSpace(s)
    case None => [s]
    case Some(i) =>
      var rest := SplitWs(SkipSpaces(s[i..]));
      PiecesCons(s[..i], rest);
      [s[..i]] + rest
  }

  lemma PiecesCons(x: string, rest: seq<string>)
    requires NoPcreSpace(x) && forall i :: 0 <= i < |rest| ==> NoPcreSpace(rest[i])
    ensures forall i :: 0 <= i < |rest| + 1 ==> NoPcreSpace(([x] + rest)[i])
  {
    forall i | 0 <= i < |rest| + 1
      ensures NoPcreSpace(([x] + rest)[i])
    {
      if i > 0 {
        assert ([x] + rest)[i] == rest[i - 1];
      }
    }
  }

  /** `^[a-z](?:[a-z0-9_]*[a-z0-9])?$`: the shape of column and index names. */
  predicate ValidIdent(s: string) {
    |s| >= 1 && IsLowerAscii(s[0])
    && (forall i :: 0 <= i < |s| ==> IsLowerAscii(s[i]) || IsDigit(s[i]) || s[i] == '_')
    && s[|s| - 1] != '_'
  }

  /** The trimmed text before the first '=' of an attribute word (all of it
      when there is none). */
  function PartKey(part: string): string {
    match SplitOnce(part, '=')
    case None => Trim(part)
    case Some((a, _)) => Trim(a)
  }

  /** One attribute word, as the loop over the definition parts reads it:
      `k=v` or a bare `k`, both sides trimmed; a bare type name or a type
      name before '=' becomes `type=<name>`. */
  function ParsePart(part: string): (kv: (string, Attr))
    ensures TypeOfName(PartKey(part)).Some? ==> kv == ("type", Text(PartKey(part)))
    ensures TypeOfName(PartKey(part)).None? ==> kv.0 == PartKey(part) && (kv.1 == Flag <==> '=' !in part)
    ensures TypeOfName(kv.0).None?
  {
    var k := PartKey(part);
    var v := match SplitOnce(part, '=')
      case None => Flag
      case Some((_, b)) => Text(Trim(b));
    if TypeOfName(k).Some? then
      TypeWordNamesNoType();
      ("type", Text(k))
    else (k, v)
  }

  /** The attribute map built from the parts after the type hint; a later
      key overwrites an earlier one in place. */
  function ParseAttrs(parts: seq<string>): (m: seq<(string, Attr)>)
    ensures Assoc.DistinctKeys(m)
    ensures forall i :: 0 <= i < |parts| ==> Assoc.HasKey(m, ParsePart(parts[i]).0)
  {
    if |parts| == 0 then []
    else
      var m0 := ParseAttrs(parts[..|parts| - 1]);
      var kv := ParsePart(parts[|parts| - 1]);
      Assoc.PutKeepsDistinct(m0, kv.0, kv.1);
      forall i | 0 <= i < |parts| ensures Assoc.HasKey(Assoc.Put(m0, kv.0, kv.1), ParsePart(parts[i]).0) {
        if i < |parts| - 1 {
          assert parts[i] == parts[..|parts| - 1][i];
          assert Assoc.HasKey(m0, ParsePart(parts[i]).0);
        }
      }
      Assoc.Put(m0, kv.0, kv.1)
  }

  /** The first name in the `|`-separated hint that is a type name. */
  function FirstType(hint: seq<string>): (r: Option<FieldType>)
    ensures r.Some? ==> exists i :: 0 <= i < |hint| && TypeOfName(hint[i]) == r
    ensures r.None? ==> forall i :: 0 <= i < |hint| ==> TypeOfName(hint[i]).None?
  {
    if |hint| == 0 then None
    else if TypeOfName(hint[0]).Some? then TypeOfName(hint[0])
    else
      var r := FirstType(hint[1..]);
      assert forall i :: 1 <= i < |hint| ==> hint[i] == hint[1..][i - 1];
      r
  }

  /** `^([1-9][0-9]*),([1-9][0-9]*)$` on a decimal size: the two numbers. */
  function ParseDecimalSize(s: string): (r: Option<(nat, nat)>)
    ensures r.Some? ==> r.value.0 >= 1 && r.value.1 >= 1
  {
    match SplitOnce(s, ',')
    case None => None
    case Some((a, b)) =>
      if |a| >= 1 && |b| >= 1 && AllDigits(a) && AllDigits(b) && a[0] != '0' && b[0] != '0' then
        PositiveDigits(a);
        PositiveDigits(b);
        Some((DigitsValue(a), DigitsValue(b)))
      else None
  }

  /** Where a converter named in `convert=` is found. */
  datatype ConverterEnv = ConverterEnv(
    /** Classes `\HereYouGo\Converter\<name>`: whether each has both `encode` and `decode`. */
    standard: map<string, bool>,
    /** Static methods `<class>::get<Name>Converter`: what each returns (None: not a Converter). */
    factories: map<(string, string), Option<Converter>>)

  function ResolveConverter(cls: string, subject: string, a: Attr, env: ConverterEnv): (r: Result<Converter>)
    ensures AttrString(a) in env.standard ==>
      (r.Ok? <==> env.standard[AttrString(a)])
      && (r.Ok? ==> r.value.id == "\\HereYouGo\\Converter\\" + AttrString(a))
    ensures AttrString(a) !in env.standard ==>
      var f := (cls, "get" + UpperFirst(AttrString(a)) + "Converter");
      (r.Ok? <==> f in env.factories && env.factories[f].Some?)
      && (r.Ok? ==> r.value == env.factories[f].value)
  {
    var name := AttrString(a);
    if name in env.standard then
      if !env.standard[name] then Err(Broken(subject, "data converter misses either encode or decode method(s)"))
      else Ok(Converter("\\HereYouGo\\Converter\\" + name))
    else
      var factoryMethod := "get" + UpperFirst(name) + "Converter";
      if (cls, factoryMethod) !in env.factories then Err(Broken(subject, "not standard converter and no factory method"))
      else if env.factories[(cls, factoryMethod)].None? then Err(Broken(subject, "factory did not return a Converter"))
      else Ok(env.factories[(cls, factoryMethod)].value)
  }

  /** `addIndex(name, false)`: a bare flag names one index after the column,
      a text is a comma-separated list of trimmed names; every name must be
      an identifier, and each is registered as not unique. */
  function AddIndex(indexes: seq<(string, bool)>, a: Attr, column: string, subject: string): (r: Result<seq<(string, bool)>>)
    ensures r.Ok? ==> forall n :: n in IndexNames(a, column) ==> Assoc.Get(r.value, n) == Some(false)
    ensures r.Ok? <==> forall n :: n in IndexNames(a, column) ==> ValidIdent(n)
    ensures r.Ok? ==> forall n :: n !in IndexNames(a, column) ==> Assoc.Get(r.value, n) == Assoc.Get(indexes, n)
  {
    AddNames(indexes, IndexNames(a, column), subject)
  }

  function IndexNames(a: Attr, column: string): seq<string> {
    match a
    case Flag => [column]
    case Text(s) => TrimAll(Split(s, ','))
  }

  function TrimAll(xs: seq<string>): (r: seq<string>)
    ensures |r| == |xs| && forall i :: 0 <= i < |xs| ==> r[i] == Trim(xs[i])
  {
    seq(|xs|, i requires 0 <= i < |xs| => Trim(xs[i]))
  }

  function AddNames(indexes: seq<(string, bool)>, names: seq<string>, subject: string): (r: Result<seq<(string, bool)>>)
    ensures r.Ok? ==> forall n :: n in names ==> Assoc.Get(r.value, n) == Some(false)
    ensures r.Ok? <==> forall n :: n in names ==> ValidIdent(n)
    ensures r.Ok? ==> forall n :: n !in names ==> Assoc.Get(r.value, n) == Assoc.Get(indexes, n)
    decreases |names|
  {
    if |names| == 0 then Ok(indexes)
    else if !ValidIdent(names[0]) then Err(Broken(subject, "malformed index name"))
    else
      var r := AddNames(Assoc.Put(indexes, names[0], false), names[1..], subject);
      assert forall n :: n in names <==> n == names[0] || n in names[1..];
      r
  }

  // -------------------------------------------------------------------
  // The constructor

  function AttrOf(m: seq<(string, Attr)>, k: string): Option<Attr> { Assoc.Get(m, k) }
  predicate Has(m: seq<(string, Attr)>, k: string) { Assoc.HasKey(m, k) }
  predicate HasTruthy(m: seq<(string, Attr)>, k: string) { Has(m, k) && AttrTruthy(AttrOf(m, k).value) }

  /** The attributes and the type-hint list of a definition string. */
  function Lex(definition: string): (r: (seq<string>, seq<(string, Attr)>))
  {
    var parts := SplitWs(Trim(definition));
    (Split(parts[0], '|'), ParseAttrs(parts[1..]))
  }

  /** The type a definition declares: an explicit `type=` (or bare type
      name) attribute, else the first type name of the hint. */
  function DeclaredType(hint: seq<string>, attrs: seq<(string, Attr)>, subject: string): (r: Result<FieldType>)
    ensures Has(attrs, "type") && AttrOf(attrs, "type").value.Text? ==>
      (r.Ok? <==> TypeOfName(AttrOf(attrs, "type").value.s).Some?)
    ensures !Has(attrs, "type") ==> (r.Ok? <==> FirstType(hint).Some?)
    ensures r.Ok? && !Has(attrs, "type") ==> r == Ok(FirstType(hint).value)
  {
    match AttrOf(attrs, "type")
    case Some(Flag) => Err(Broken(subject, "unknown data type"))
    case Some(Text(t)) =>
      if TypeOfName(t).None? then Err(Broken(subject, "unknown data type " + t)) else Ok(TypeOfName(t).value)
    case None =>
      if FirstType(hint).None? then Err(Broken(subject, "missing data type")) else Ok(FirstType(hint).value)
  }

  /** The size checks: int, decimal and string need one; an int size must be
      an IntSize value; a decimal size is parsed into precision 1..65 and
      places up to 30. The string check of the source never fires. */
  function CheckedSize(t: FieldType, attrs: seq<(string, Attr)>, subject: string): (r: Result<Size>)
    ensures (t == IntType || t == DecimalType || t == StringType) && !Has(attrs, "size") ==> r.Err?
    ensures t == IntType && r.Ok? ==> r.value.SizeAttr? && IsValue(IntSizeEnum, AttrValue(r.value.a))
    ensures t == IntType && Has(attrs, "size") ==>
      (r.Ok? <==> IsValue(IntSizeEnum, AttrValue(AttrOf(attrs, "size").value)))
    ensures t == DecimalType && r.Ok? ==>
      r.value.Precision? && 1 <= r.value.precision <= 65 && 1 <= r.value.places <= 30
    ensures t != IntType && t != DecimalType && t != StringType ==>
      r == Ok(if Has(attrs, "size") then SizeAttr(AttrOf(attrs, "size").value) else NoSize)
    ensures t == StringType && Has(attrs, "size") ==> r == Ok(SizeAttr(AttrOf(attrs, "size").value))
  {
    var size := AttrOf(attrs, "size");
    if (t == IntType || t == DecimalType || t == StringType) && size.None? then
      Err(Broken(subject, TypeName(t) + " type requires size"))
    else if t == IntType && !IsValue(IntSizeEnum, AttrValue(size.value)) then
      Err(Broken(subject, "unknown int size"))
    else if t == DecimalType then
      match ParseDecimalSize(AttrString(size.value))
      case None => Err(Broken(subject, "unknown int size"))
      case Some((m, d)) =>
        if m < 1 || m > 65 then Err(Broken(subject, "precision is expected to be within 1..65"))
        else if d > 30 then Err(Broken(subject, "number of decimal places is expected to be within 0..30"))
        else Ok(Precision(m, d))
    else if size.None? then Ok(NoSize)
    else Ok(SizeAttr(size.value))
  }

  /** The attribute-driven flags, checked in the constructor's order:
      `unsigned` only on int/decimal; nullable iff a null default;
      `auto_increment` only on a primary int. */
  datatype Flags = Flags(unsigned: Option<Attr>, nullable: bool, primary: bool, autoIncrement: bool)

  function CheckedFlags(t: FieldType, attrs: seq<(string, Attr)>, default: Value, subject: string): (r: Result<Flags>)
    ensures Has(attrs, "unsigned") && t != IntType && t != DecimalType ==> r.Err?
    ensures HasTruthy(attrs, "null") && !default.Null? ==> r.Err?
    ensures !HasTruthy(attrs, "null") && default.Null? ==> r.Err?
    ensures HasTruthy(attrs, "auto_increment") && (t != IntType || !HasTruthy(attrs, "primary")) ==> r.Err?
    ensures r.Ok? ==> r.value == Flags(AttrOf(attrs, "unsigned"), HasTruthy(attrs, "null"),
                                        HasTruthy(attrs, "primary"), HasTruthy(attrs, "auto_increment"))
  {
    if Has(attrs, "unsigned") && t != IntType && t != DecimalType then
      Err(Broken(subject, "cannot use unsigned on non-int"))
    else
      var nullable := HasTruthy(attrs, "null");
      if nullable && !default.Null? then Err(Broken(subject, "nullable property cannot have non-null default"))
      else if !nullable && default.Null? then Err(Broken(subject, "non-nullable property cannot have null default"))
      else
        var primary := HasTruthy(attrs, "primary");
        var autoInc := HasTruthy(attrs, "auto_increment");
        if autoInc && (t != IntType || !primary) then
          Err(Broken(subject, "cannot use auto increment on non-primary or non-int property"))
        else Ok(Flags(AttrOf(attrs, "unsigned"), nullable, primary, autoInc))
  }

  /** The column: `column=` when given, else the property name; it must be
      an identifier. */
  function CheckedColumn(name: string, attrs: seq<(string, Attr)>, subject: string): (r: Result<string>)
    ensures var c := if Has(attrs, "column") then AttrString(AttrOf(attrs, "column").value) else name;
            (r.Ok? <==> ValidIdent(c)) && (r.Ok? ==> r.value == c)
  {
    var column := if Has(attrs, "column") then AttrString(AttrOf(attrs, "column").value) else name;
    if !ValidIdent(column) then Err(Broken(subject, "malformed column name")) else Ok(column)
  }

  /** `index` then `unique` each register their names, all as not unique. */
  function CheckedIndexes(attrs: seq<(string, Attr)>, column: string, subject: string): (r: Result<seq<(string, bool)>>)
    ensures r.Ok? ==> forall n :: Assoc.Get(r.value, n).Some? ==> ValidIdent(n) && Assoc.Get(r.value, n) == Some(false)
    ensures r.Ok? && Has(attrs, "index") ==>
      forall n :: n in IndexNames(AttrOf(attrs, "index").value, column) ==> Assoc.HasKey(r.value, n)
    ensures r.Ok? && Has(attrs, "unique") ==>
      forall n :: n in IndexNames(AttrOf(attrs, "unique").value, column) ==> Assoc.HasKey(r.value, n)
    ensures r.Ok? ==> forall n :: Assoc.HasKey(r.value, n) ==>
      (Has(attrs, "index") && n in IndexNames(AttrOf(attrs, "index").value, column)) ||
      (Has(attrs, "unique") && n in IndexNames(AttrOf(attrs, "unique").value, column))
  {
    var ix1 :- if Has(attrs, "index") then AddIndex([], AttrOf(attrs, "index").value, column, subject) else Ok([]);
    var ix2 :- if Has(attrs, "unique") then AddIndex(ix1, AttrOf(attrs, "unique").value, column, subject) else Ok(ix1);
    assert forall n :: Assoc.Get<string, bool>([], n).None?;
    Ok(ix2)
  }

  function CheckedConverter(cls: string, attrs: seq<(string, Attr)>, env: ConverterEnv, subject: string): (r: Result<Option<Converter>>)
    ensures !Has(attrs, "convert") ==> r == Ok(None)
    ensures Has(attrs, "convert") && r.Ok? ==> r.value.Some?
  {
    if Has(attrs, "convert") then
      var c :- ResolveConverter(cls, subject, AttrOf(attrs, "convert").value, env);
      Ok(Some(c))
    else Ok(None)
  }

  /** The constructor body after lexing: type, size, flags, column, indexes
      and converter, each checked in turn. */
  function Build(cls: string, name: string, hint: seq<string>, attrs: seq<(string, Attr)>,
                 default: Value, env: ConverterEnv): (r: Result<Property>)
    ensures r.Ok? ==> Valid(r.value)
    ensures r.Ok? ==> r.value.cls == cls && r.value.name == name && r.value.default == default
    ensures r.Ok? ==> r.value.relatedClass.None?
    ensures r.Ok? ==> Ok(r.value.typ) == DeclaredType(hint, attrs, cls + "->" + name)
    ensures r.Ok? ==>
      && r.value.column == (if Has(attrs, "column") then AttrString(AttrOf(attrs, "column").value) else name)
      && r.value.nullable == HasTruthy(attrs, "null")
      && r.value.primary == HasTruthy(attrs, "primary")
      && r.value.autoIncrement == HasTruthy(attrs, "auto_increment")
      && r.value.unsigned == AttrOf(attrs, "unsigned")
      && (forall n :: Assoc.Get(r.value.indexes, n) != Some(true))
    ensures r.Ok? && Has(attrs, "index") ==>
      forall n :: n in IndexNames(AttrOf(attrs, "index").value, r.value.column) ==> Assoc.HasKey(r.value.indexes, n)
    ensures r.Ok? && Has(attrs, "unique") ==>
      forall n :: n in IndexNames(AttrOf(attrs, "unique").value, r.value.column) ==> Assoc.HasKey(r.value.indexes, n)
  {
    var subject := cls + "->" + name;
    var t :- DeclaredType(hint, attrs, subject);
    var size :- CheckedSize(t, attrs, subject);
    var flags :- CheckedFlags(t, attrs, default, subject);
    var column :- CheckedColumn(name, attrs, subject);
    var ix :- CheckedIndexes(attrs, column, subject);
    var conv :- CheckedConverter(cls, attrs, env, subject);
    assert size.SizeAttr? ==> IntSizeOk(size.a) == IsValue(IntSizeEnum, AttrValue(size.a)) by {
      if size.SizeAttr? { IntSizeOkIsValue(size.a); }
    }
    Ok(Property(cls, name, t, size, flags.unsigned, flags.nullable, default, flags.primary,
                flags.autoIncrement, ix, conv, column, None))
  }

  /** `new Property($class, $name, $definition, $default)`. */
  function Parse(cls: string, name: string, definition: string, default: Value, env: ConverterEnv): (r: Result<Property>)
    ensures r.Ok? ==> Valid(r.value) && r.value.cls == cls && r.value.name == name && r.value.default == default
    ensures r.Ok? ==> r.value.relatedClass.None? && r.value.nullable == default.Null?
  {
    var (hint, attrs) := Lex(definition);
    Build(cls, name, hint, attrs, default, env)
  }

  /** An int size the IntSize test accepts: a bare flag, or a text whose
      numeric value is one of the widths. */
  predicate IntSizeOk(a: Attr) {
    a.Flag? || (StringAsInt(a.s).Some? && StringAsInt(a.s).value in IntSizes)
  }

  lemma IntSizeOkIsValue(a: Attr)
    ensures IntSizeOk(a) <==> IsValue(IntSizeEnum, AttrValue(a))
  {
    if a.Flag? {
      FlagIsIntSize();
    } else {
      IsIntSizeOfString(a.s);
    }
  }

  /** The invariants every parsed descriptor keeps. */
  ghost predicate Valid(p: Property) {
    (p.nullable <==> p.default.Null?)
    && (p.autoIncrement ==> p.typ == IntType && p.primary)
    && (p.unsigned.Some? ==> p.typ == IntType || p.typ == DecimalType)
    && (p.typ == IntType ==> p.size.SizeAttr? && IntSizeOk(p.size.a))
    && (p.typ == DecimalType ==> p.size.Precision? && 1 <= p.size.precision <= 65 && 1 <= p.size.places <= 30)
    && (p.typ == StringType ==> p.size.SizeAttr?)
    && ValidIdent(p.column)
    && (forall n :: Assoc.Get(p.indexes, n).Some? ==> ValidIdent(n))
  }

  // -------------------------------------------------------------------
  // Relation keys

  /** `makeRelationProperty` as written: the default becomes `false`, so a
      nullable relation key carries a non-null default. */
  function MakeRelationPropertyAsWritten(p: Property, other: string): (q: Property)
    ensures q.nullable && q.default == Bool(false)
    ensures q.name == p.cls + "_" + p.name && q.column == p.cls + "_" + p.column
  {
    p.(name := p.cls + "_" + p.name, column := p.cls + "_" + p.column,
       nullable := true, default := Bool(false), primary := false, autoIncrement := false,
       indexes := [], relatedClass := Some(other))
  }

  /** `getRelationProperty` with the default the nullable key needs (null):
      a copy of `p` renamed after the owning class, optional, not primary,
      not auto-incremented, without indexes, pointing at `other`. */
  function RelationProperty(p: Property, other: string): (q: Property)
    ensures q.name == p.cls + "_" + p.name && q.column == p.cls + "_" + p.column
    ensures q.nullable && q.default == Null && !q.primary && !q.autoIncrement
    ensures q.indexes == [] && q.relatedClass == Some(other)
    ensures q.cls == p.cls && q.typ == p.typ && q.size == p.size && q.unsigned == p.unsigned && q.converter == p.converter
  {
    p.(name := p.cls + "_" + p.name, column := p.cls + "_" + p.column,
       nullable := true, default := Null, primary := false, autoIncrement := false,
       indexes := [], relatedClass := Some(other))
  }

  /** A relation key of a valid descriptor is valid again (its column stays
      an identifier when the owning class name is one). */
  lemma RelationPropertyValid(p: Property, other: string)
    requires Valid(p) && ValidIdent(p.cls + "_" + p.column)
    ensures Valid(RelationProperty(p, other))
  {
  }

  /** The as-written relation key breaks the nullable-iff-null-default rule
      that the constructor enforces on every other descriptor. */
  lemma RelationPropertyAsWrittenInvalid(p: Property, other: string)
    ensures !Valid(MakeRelationPropertyAsWritten(p, other))
  {
  }

  // -------------------------------------------------------------------
  // Casts

  /** `castToEntity`: a converter decodes first; null is only accepted when
      nullable; a bool is true iff the stored text is exactly "1"; text
      types cast to string. The numeric, decimal and date casts are the
      foreign `cast`. */
  function CastToEntity(p: Property, value: Value, decode: (Converter, Value) -> Value,
                        cast: (FieldType, Value) -> Result<Value>): (r: Result<Value>)
    ensures var v := if p.converter.Some? then decode(p.converter.value, value) else value;
      && (v.Null? ==> (r.Ok? <==> p.nullable) && (r.Ok? ==> r.value == Null))
      && (!v.Null? && p.typ == BoolType ==> r == Ok(Bool(v == Str("1"))))
  {
    var v := if p.converter.Some? then decode(p.converter.value, value) else value;
    if v.Null? then
      if !p.nullable then Err(Broken(p.cls + "->" + p.name, "got null value but is not nullable")) else Ok(Null)
    else
      if p.typ == BoolType then Ok(Bool(v == Str("1")))
      else if p.typ in {StringType, TextType, LongTextType} then
        match ToText(v)
        case None => Err(EngineError("object of class " + v.cls + " could not be converted to string"))
        case Some(s) => Ok(Str(s))
      else cast(p.typ, v)
  }

  /** `castToDatabase`: a converter takes priority over everything; without
      one, null is only accepted when nullable, a bool is written "1"/"0",
      ints and text types are interpolated. Decimal and date formatting is
      the foreign `format`. */
  function CastToDatabase(p: Property, value: Value, encode: (Converter, Value) -> string,
                          format: (Property, Value) -> Result<string>): (r: Result<Option<string>>)
    ensures p.converter.Some? ==> r == Ok(Some(encode(p.converter.value, value)))
    ensures p.converter.None? && value.Null? ==> (r.Ok? <==> p.nullable) && (r.Ok? ==> r.value.None?)
    ensures p.converter.None? && !value.Null? && p.typ == BoolType ==>
      r == Ok(Some(if Truthy(value) then "1" else "0"))
  {
    if p.converter.Some? then Ok(Some(encode(p.converter.value, value)))
    else if value.Null? then
      if !p.nullable then Err(Broken(p.cls + "->" + p.name, "got null value but is not nullable")) else Ok(None)
    else
      if p.typ == BoolType then Ok(Some(if Truthy(value) then "1" else "0"))
      else if p.typ in {IntType, FloatType, DoubleType, StringType, TextType, LongTextType} then
        match ToText(value)
        case None => Err(EngineError("object of class " + value.cls + " could not be converted to string"))
        case Some(s) => Ok(Some(s))
      else
        var s :- format(p, value);
        Ok(Some(s))
  }

  /** A stored value as the database hands it back: text or SQL NULL. */
  function FromDb(s: Option<string>): Value {
    match s
    case None => Null
    case Some(t) => Str(t)
  }

  /** Without a converter, a bool property stores and reads back the
      truthiness of any non-null value; in particular bools round-trip. */
  lemma BoolRoundTrip(p: Property, v: Value, encode: (Converter, Value) -> string,
                      format: (Property, Value) -> Result<string>,
                      decode: (Converter, Value) -> Value, cast: (FieldType, Value) -> Result<Value>)
    requires p.typ == BoolType && p.converter.None? && !v.Null?
    ensures CastToDatabase(p, v, encode, format).Ok?
    ensures CastToEntity(p, FromDb(CastToDatabase(p, v, encode, format).value), decode, cast) == Ok(Bool(Truthy(v)))
  {
  }

  /** Null survives the trip on a nullable property and is refused both ways
      on a non-nullable one. */
  lemma NullRoundTrip(p: Property, encode: (Converter, Value) -> string,
                      format: (Property, Value) -> Result<string>,
                      decode: (Converter, Value) -> Value, cast: (FieldType, Value) -> Result<Value>)
    requires p.converter.None?
    ensures p.nullable ==> CastToDatabase(p, Null, encode, format) == Ok(None)
    ensures p.nullable ==> CastToEntity(p, FromDb(None), decode, cast) == Ok(Null)
    ensures !p.nullable ==> CastToDatabase(p, Null, encode, format).Err? && CastToEntity(p, Null, decode, cast).Err?
  {
  }
}

=== FILE: query.dfy ===
/** `Model\Query`: query nodes linked into a join tree. Queries are objects
    that point at each other (`joins` down, `joined_to` up), so the model
    keeps them in an arena and refers to them by index; every operation
    takes the arena and returns the new one. */
module Queries {
  import opened Errors
  import opened Php
  import opened Properties
  import Assoc

  type Placeholders = seq<(Key, Value)>

  datatype Query = Query(
    cls: string,
    table: string,
    columns: seq<(string, string)>,   // column => property name
    criteria: string,
    placeholders: Placeholders,
    joins: seq<nat>,
    joinedTo: Option<nat>,
    joinedOn: Value)

  type Arena = seq<Query>

  /** Every index an arena mentions points into it. */
  ghost predicate Linked(a: Arena) {
    forall i :: 0 <= i < |a| ==>
      (a[i].joinedTo.Some? ==> a[i].joinedTo.value < |a|)
      && (forall j :: 0 <= j < |a[i].joins| ==> a[i].joins[j] < |a|)
  }

  /** Reference definition: the property name of the last property of the
      data map mapped to `column`. */
  function LastNamed(props: seq<Property>, column: string): Option<string>
    decreases |props|
  {
    if |props| == 0 then None
    else if props[|props| - 1].column == column then Some(props[|props| - 1].name)
    else LastNamed(props[..|props| - 1], column)
  }

  /** The constructor's column map: each data-map column to its property name. */
  function ColumnNames(props: seq<Property>): (r: seq<(string, string)>)
    ensures Assoc.DistinctKeys(r)
    decreases |props|
  {
    if |props| == 0 then []
    else
      var before := ColumnNames(props[..|props| - 1]);
      Assoc.PutKeepsDistinct(before, props[|props| - 1].column, props[|props| - 1].name);
      Assoc.Put(before, props[|props| - 1].column, props[|props| - 1].name)
  }

  /** Every column of the data map is mapped, to the name of the last
      property using it, and nothing else is. */
  lemma {:induction false} ColumnNamesSpec(props: seq<Property>, column: string)
    ensures Assoc.Get(ColumnNames(props), column) == LastNamed(props, column)
    decreases |props|
  {
    if |props| > 0 {
      ColumnNamesSpec(props[..|props| - 1], column);
    }
  }

  /** Whether a placeholder key's first character is ':' (an int key's
      text starts with a digit or '-'). */
  predicate ColonKey(k: Key) {
    k.StrKey? && |k.s| > 0 && k.s[0] == ':'
  }

  /** The index of the first placeholder key the check rejects. */
  function FirstRejected(ph: Placeholders, reject: Key -> bool): (r: Option<nat>)
    ensures r.Some? ==> (r.value < |ph| && reject(ph[r.value].0)
      && forall i :: 0 <= i < r.value ==> !reject(ph[i].0))
    ensures r.None? ==> forall i :: 0 <= i < |ph| ==> !reject(ph[i].0)
    decreases |ph|
  {
    if |ph| == 0 then None
    else if reject(ph[0].0) then Some(0)
    else match FirstRejected(ph[1..], reject)
      case None => None
      case Some(j) => Some(j + 1)
  }

  const PlaceholderReason := "placeholders must start with \":\""

  function Build(cls: string, table: string, props: seq<Property>, criteria: string,
                 ph: Placeholders, reject: Key -> bool): Result<Query>
  {
    match FirstRejected(ph, reject)
    case Some(i) => Err(Broken(KeyToString(ph[i].0), PlaceholderReason))
    case None => Ok(Query(cls, table, ColumnNames(props), criteria, ph, [], None, Null))
  }

  /** The constructor as written: it throws for the first key that DOES
      start with ':', although its message asks for the opposite. */
  function NewAsWritten(cls: string, table: string, props: seq<Property>, criteria: string,
                        ph: Placeholders): (r: Result<Query>)
    ensures r.Err? <==> exists i :: 0 <= i < |ph| && ColonKey(ph[i].0)
  {
    Build(cls, table, props, criteria, ph, ColonKey)
  }

  /** The constructor as its message intends: every placeholder key must
      start with ':'. The table and data map are the class model's. */
  function New(cls: string, table: string, props: seq<Property>, criteria: string,
               ph: Placeholders): (r: Result<Query>)
    requires Assoc.DistinctKeys(ph)
    ensures r.Ok? <==> forall i :: 0 <= i < |ph| ==> ColonKey(ph[i].0)
    ensures r.Err? ==> r.error.Broken? && r.error.reason == PlaceholderReason
    ensures r.Ok? ==> (r.value.placeholders == ph && r.value.joins == [] && r.value.joinedTo.None?
      && r.value.cls == cls && r.value.table == table && r.value.criteria == criteria
      && !Truthy(r.value.joinedOn))
  {
    Build(cls, table, props, criteria, ph, (k: Key) => !ColonKey(k))
  }

  /** `on($criteria)`: set the join criteria. */
  function On(a: Arena, i: nat, c: Value): (r: Arena)
    requires i < |a|
    ensures |r| == |a| && r[i].joinedOn == c
    ensures forall j :: 0 <= j < |a| && j != i ==> r[j] == a[j]
    ensures r[i] == a[i].(joinedOn := c)
  {
    a[i := a[i].(joinedOn := c)]
  }

  /** What `join` is given: a query, an array (possibly nested) of them, or
      anything else. */
  datatype JoinArg = JoinQuery(j: nat) | JoinList(items: seq<JoinArg>) | JoinOther(v: Value)

  /** Every query the argument names is one of the first `n`. */
  predicate ArgIn(n: nat, arg: JoinArg)
    decreases arg
  {
    match arg
    case JoinQuery(j) => j < n
    case JoinList(items) => forall k :: 0 <= k < |items| ==> ArgIn(n, items[k])
    case JoinOther(_) => true
  }

  /** Joining one query: it must have criteria; it then points to `i`,
      comes last among `i`'s joins and is returned, and nothing else
      changes. Without criteria nothing changes and Broken is raised. */
  function JoinOne(a: Arena, i: nat, j: nat): (r: (Arena, Result<nat>))
    requires i < |a| && j < |a|
    ensures r.1.Ok? <==> Truthy(a[j].joinedOn)
    ensures r.1.Ok? ==> (r.1 == Ok(j) && |r.0| == |a|
      && r.0[j].joinedTo == Some(i) && r.0[i].joins == a[i].joins + [j]
      && forall k :: 0 <= k < |a| && k != i && k != j ==> r.0[k] == a[k])
    ensures r.1.Err? ==> r.0 == a && r.1.error.Broken?
  {
    if !Truthy(a[j].joinedOn) then (a, Err(Broken("query", "cannot join without criteria")))
    else
      var a1 := a[j := a[j].(joinedTo := Some(i))];
      (a1[i := a1[i].(joins := a1[i].joins + [j])], Ok(j))
  }

  /** `join($query)`. An exception leaves the joins made before it in
      place, so the arena is returned with the result. */
  function Join(a: Arena, i: nat, arg: JoinArg): (r: (Arena, Result<nat>))
    requires i < |a| && ArgIn(|a|, arg)
    ensures |r.0| == |a|
    ensures arg.JoinList? && r.1.Ok? ==> r.1 == Ok(i)
    ensures arg.JoinOther? ==> r == (a, Err(Broken("query", "expecting Query or Query[]")))
    decreases arg, 1
  {
    match arg
    case JoinQuery(j) => JoinOne(a, i, j)
    case JoinList(items) =>
      var (a', res) := JoinAll(a, i, items);
      (a', if res.Err? then res else Ok(i))
    case JoinOther(_) => (a, Err(Broken("query", "expecting Query or Query[]")))
  }

  function JoinAll(a: Arena, i: nat, items: seq<JoinArg>): (r: (Arena, Result<nat>))
    requires i < |a| && forall k :: 0 <= k < |items| ==> ArgIn(|a|, items[k])
    ensures |r.0| == |a|
    decreases items, 0
  {
    if |items| == 0 then (a, Ok(i))
    else
      var (a', res) := Join(a, i, items[0]);
      if res.Err? then (a', res)
      else JoinAll(a', i, items[1..])
  }

  /** Joining a list of queries that all have criteria joins each one in
      order (their indexes are appended to `i`'s joins) and returns `i`. */
  lemma {:induction false} JoinListAppends(a: Arena, i: nat, js: seq<nat>)
    requires i < |a|
    requires forall k :: 0 <= k < |js| ==> js[k] < |a| && js[k] != i && Truthy(a[js[k]].joinedOn)
    ensures var r := JoinAll(a, i, ListArgs(js));
      r.1 == Ok(i) && r.0[i].joins == a[i].joins + js
      && forall k :: 0 <= k < |js| ==> r.0[js[k]].joinedTo == Some(i)
    decreases |js|
  {
    if |js| > 0 {
      var j := js[0];
      var a1 := JoinAllStep(a, i, js);
      JoinListAppends(a1, i, js[1..]);
      var r := JoinAll(a1, i, ListArgs(js[1..]));
      JoinedToAfterAppend(a1, r.0, i, js);
      Combine(a, a1, r, i, js);
    }
  }

  lemma Combine(a: Arena, a1: Arena, r: (Arena, Result<nat>), i: nat, js: seq<nat>)
    requires |js| > 0 && i < |a| && |a1| == |a| && |r.0| == |a|
    requires forall k :: 0 <= k < |js| ==> js[k] < |a|
    requires a1[i].joins == a[i].joins + [js[0]]
    requires r.1 == Ok(i) && r.0[i].joins == a1[i].joins + js[1..]
    requires forall k :: 0 <= k < |js| ==> r.0[js[k]].joinedTo == Some(i)
    ensures r.1 == Ok(i) && r.0[i].joins == a[i].joins + js
    ensures forall k :: 0 <= k < |js| ==> r.0[js[k]].joinedTo == Some(i)
  {
    assert [js[0]] + js[1..] == js;
  }

  /** One step of joining a list of queries that all have criteria. */
  lemma JoinAllStep(a: Arena, i: nat, js: seq<nat>) returns (a1: Arena)
    requires i < |a| && |js| > 0
    requires forall k :: 0 <= k < |js| ==> js[k] < |a| && js[k] != i && Truthy(a[js[k]].joinedOn)
    ensures |a1| == |a| && a1 == JoinOne(a, i, js[0]).0
    ensures JoinAll(a, i, ListArgs(js)) == JoinAll(a1, i, ListArgs(js[1..]))
    ensures a1[i].joins == a[i].joins + [js[0]] && a1[js[0]].joinedTo == Some(i)
    ensures forall k :: 0 <= k < |js[1..]| ==> a1[js[1..][k]].joinedOn == a[js[1..][k]].joinedOn
  {
    a1 := JoinOne(a, i, js[0]).0;
    assert ListArgs(js)[0] == JoinQuery(js[0]);
    assert ListArgs(js)[1..] == ListArgs(js[1..]);
  }

  lemma JoinedToAfterAppend(a1: Arena, a2: Arena, i: nat, js: seq<nat>)
    requires |js| > 0 && |a1| == |a2| && i < |a1|
    requires forall k :: 0 <= k < |js| ==> js[k] < |a1| && js[k] != i
    requires a1[js[0]].joinedTo == Some(i)
    requires a2 == JoinAll(a1, i, ListArgs(js[1..])).0
    requires forall k :: 0 <= k < |js[1..]| ==> a2[js[1..][k]].joinedTo == Some(i)
    ensures forall k :: 0 <= k < |js| ==> a2[js[k]].joinedTo == Some(i)
  {
    var j := js[0];
    forall k | 0 <= k < |js|
      ensures a2[js[k]].joinedTo == Some(i)
    {
      if k > 0 {
        assert js[k] == js[1..][k - 1];
      } else if j !in js[1..] {
        JoinAllKeepsOthers(a1, i, ListArgs(js[1..]), j);
      } else {
        var m :| 0 <= m < |js[1..]| && js[1..][m] == j;
      }
    }
  }

  /** A node that neither is `i` nor is joined by the list keeps its state. */
  lemma {:induction false} JoinAllKeepsOthers(a: Arena, i: nat, items: seq<JoinArg>, x: nat)
    requires i < |a| && x < |a| && x != i
    requires forall k :: 0 <= k < |items| ==> items[k].JoinQuery? && items[k].j < |a| && items[k].j != x
    ensures JoinAll(a, i, items).0[x] == a[x]
    decreases |items|
  {
    if |items| > 0 {
      var a1 := Join(a, i, items[0]).0;
      if Join(a, i, items[0]).1.Ok? {
        JoinAllKeepsOthers(a1, i, items[1..], x);
      }
    }
  }

  function ListArgs(js: seq<nat>): (r: seq<JoinArg>)
    ensures |r| == |js| && forall k :: 0 <= k < |js| ==> r[k] == JoinQuery(js[k])
  {
    seq(|js|, k requires 0 <= k < |js| => JoinQuery(js[k]))
  }

  /** `main`: follow `joined_to` up to the root, within `fuel` steps; a
      cycle of joins (which PHP would follow forever) gives None. */
  function MainWithin(a: Arena, i: nat, fuel: nat): (r: Option<nat>)
    requires Linked(a) && i < |a|
    ensures r.Some? ==> r.value < |a| && a[r.value].joinedTo.None?
    decreases fuel
  {
    match a[i].joinedTo
    case None => Some(i)
    case Some(p) => if fuel == 0 then None else MainWithin(a, p, fuel - 1)
  }

  function Main(a: Arena, i: nat): (r: Option<nat>)
    requires Linked(a) && i < |a|
    ensures r.Some? ==> r.value < |a| && a[r.value].joinedTo.None?
    ensures a[i].joinedTo.None? ==> r == Some(i)
  {
    MainWithin(a, i, |a|)
  }

  /** An unjoined query is its own main. */
  lemma UnjoinedIsMain(a: Arena, i: nat)
    requires Linked(a) && i < |a| && a[i].joinedTo.None?
    ensures Main(a, i) == Some(i)
  {
  }

  /** A joined query shares its parent's main. */
  lemma {:induction false} MainOfParent(a: Arena, i: nat, fuel: nat)
    requires Linked(a) && i < |a| && a[i].joinedTo.Some?
    requires MainWithin(a, a[i].joinedTo.value, fuel).Some?
    ensures MainWithin(a, i, fuel + 1) == MainWithin(a, a[i].joinedTo.value, fuel)
  {
  }

  /** More fuel never changes a found main. */
  lemma {:induction false} MainFuel(a: Arena, i: nat, fuel: nat, more: nat)
    requires Linked(a) && i < |a| && MainWithin(a, i, fuel).Some? && fuel <= more
    ensures MainWithin(a, i, more) == MainWithin(a, i, fuel)
    decreases fuel
  {
    if a[i].joinedTo.Some? {
      MainFuel(a, a[i].joinedTo.value, fuel - 1, more - 1);
    }
  }

  /** Two queries joined to each other have no main: the parent walk never ends. */
  lemma MutualJoinHasNoMain(a: Arena, fuel: nat)
    requires |a| == 2 && a[0].joinedTo == Some(1) && a[1].joinedTo == Some(0)
    requires Linked(a)
    ensures MainWithin(a, 0, fuel).None?
    decreases fuel
  {
    if fuel > 0 {
      if fuel > 1 {
        MutualJoinHasNoMain(a, fuel - 2);
      }
    }
  }

  /** The scoped name of a placeholder: ':' + class + "___" + the key
      without its first character. */
  function Scoped(cls: string, k: Key): (r: Key)
    ensures r.StrKey? && |r.s| > 0 && r.s[0] == ':'
  {
    var t := KeyToString(k);
    StrKey(":" + cls + "___" + (if |t| >= 1 then t[1..] else ""))
  }

  /** Reference definition: the value a key's last scoped occurrence carries. */
  function LastScoped(cls: string, ph: Placeholders, k: Key): Option<Value>
    decreases |ph|
  {
    if |ph| == 0 then None
    else if Scoped(cls, ph[|ph| - 1].0) == k then Some(ph[|ph| - 1].1)
    else LastScoped(cls, ph[..|ph| - 1], k)
  }

  /** Assign each own placeholder under its scoped name. */
  function ScopeInto(acc: Placeholders, cls: string, ph: Placeholders): (r: Placeholders)
    requires Assoc.DistinctKeys(acc)
    ensures Assoc.DistinctKeys(r)
    decreases |ph|
  {
    if |ph| == 0 then acc
    else
      var before := ScopeInto(acc, cls, ph[..|ph| - 1]);
      var (k, v) := ph[|ph| - 1];
      Assoc.PutKeepsDistinct(before, Scoped(cls, k), v);
      Assoc.Put(before, Scoped(cls, k), v)
  }

  lemma {:induction false} ScopeIntoSpec(acc: Placeholders, cls: string, ph: Placeholders, k: Key)
    requires Assoc.DistinctKeys(acc)
    ensures Assoc.Get(ScopeInto(acc, cls, ph), k) ==
      (if LastScoped(cls, ph, k).Some? then LastScoped(cls, ph, k) else Assoc.Get(acc, k))
    decreases |ph|
  {
    if |ph| > 0 {
      ScopeIntoSpec(acc, cls, ph[..|ph| - 1], k);
    }
  }

  /** Keys that start with ':' scope injectively. */
  lemma ScopedInjective(cls: string, k1: Key, k2: Key)
    requires ColonKey(k1) && ColonKey(k2) && Scoped(cls, k1) == Scoped(cls, k2)
    ensures k1 == k2
  {
    var p := ":" + cls + "___";
    var t1 := k1.s[1..];
    var t2 := k2.s[1..];
    assert (p + t1)[|p|..] == t1;
    assert (p + t2)[|p|..] == t2;
    assert k1.s == [':'] + t1 && k2.s == [':'] + t2;
  }

  /** With ':'-prefixed, distinct keys, each own placeholder is found under
      its scoped name. */
  lemma {:induction false} LastScopedOfColonKeys(cls: string, ph: Placeholders, k: Key)
    requires Assoc.DistinctKeys(ph) && forall i :: 0 <= i < |ph| ==> ColonKey(ph[i].0)
    requires ColonKey(k)
    ensures LastScoped(cls, ph, Scoped(cls, k)) == Assoc.Get(ph, k)
    decreases |ph|
  {
    if |ph| > 0 {
      var last := ph[|ph| - 1];
      var init := ph[..|ph| - 1];
      ColonInit(ph);
      LastScopedOfColonKeys(cls, init, k);
      GetLast(ph);
      if Scoped(cls, last.0) == Scoped(cls, k) {
        ScopedInjective(cls, last.0, k);
      }
    }
  }

  lemma ColonInit(ph: Placeholders)
    requires |ph| > 0 && Assoc.DistinctKeys(ph) && forall i :: 0 <= i < |ph| ==> ColonKey(ph[i].0)
    ensures var init := ph[..|ph| - 1];
      Assoc.DistinctKeys(init) && forall i :: 0 <= i < |init| ==> ColonKey(init[i].0)
  {
    var init := ph[..|ph| - 1];
    assert forall i :: 0 <= i < |init| ==> init[i] == ph[i];
  }

  /** Looking a key up in a map with distinct keys: the last entry, or the rest. */
  lemma GetLast<K, V>(m: seq<(K, V)>)
    requires |m| > 0 && Assoc.DistinctKeys(m)
    ensures Assoc.Get(m, m[|m| - 1].0) == Some(m[|m| - 1].1)
    ensures forall k :: k != m[|m| - 1].0 ==> Assoc.Get(m, k) == Assoc.Get(m[..|m| - 1], k)
  {
    var n := |m| - 1;
    assert Assoc.Get(m, m[n].0) == Some(m[n].1) by {
      Assoc.GetAt(m, n);
    }
    forall k | k != m[n].0
      ensures Assoc.Get(m, k) == Assoc.Get(m[..n], k)
    {
      GetPrefix(m, n, k);
    }
  }

  lemma {:induction false} GetPrefix<K, V>(m: seq<(K, V)>, n: nat, k: K)
    requires n < |m| && m[n].0 != k && n == |m| - 1
    ensures Assoc.Get(m, k) == Assoc.Get(m[..n], k)
    decreases n
  {
    if n > 0 && m[0].0 != k {
      assert m[1..][..n - 1] == m[..n][1..];
      GetPrefix(m[1..], n - 1, k);
    }
  }

  /** `getAggregatedPlaceholders($at_level)`: the joins of this query (or
      of its main) merged in order, then this query's own placeholders
      under their scoped names. None when the walk does not end within
      `fuel` levels. */
  function AggregateWithin(a: Arena, i: nat, atLevel: bool, fuel: nat): (r: Option<Placeholders>)
    requires Linked(a) && i < |a|
    ensures r.Some? ==> Assoc.DistinctKeys(r.value)
    decreases fuel, 1
  {
    var q := if atLevel then Some(i) else Main(a, i);
    if q.None? then None
    else
      match MergeJoins(a, a[q.value].joins, fuel)
      case None => None
      case Some(merged) => Some(ScopeInto(merged, a[i].cls, a[i].placeholders))
  }

  function MergeJoins(a: Arena, kids: seq<nat>, fuel: nat): (r: Option<Placeholders>)
    requires Linked(a) && forall k :: 0 <= k < |kids| ==> kids[k] < |a|
    ensures r.Some? ==> Assoc.DistinctKeys(r.value)
    decreases fuel, 0, |kids|
  {
    if |kids| == 0 then Some([])
    else if fuel == 0 then None
    else
      match MergeJoins(a, kids[..|kids| - 1], fuel)
      case None => None
      case Some(before) =>
        match AggregateWithin(a, kids[|kids| - 1], true, fuel - 1)
        case None => None
        case Some(child) =>
          Assoc.UpdateKeepsDistinct(before, child);
          Some(Assoc.Update(before, child))
  }

  function Aggregate(a: Arena, i: nat, atLevel: bool): (r: Option<Placeholders>)
    requires Linked(a) && i < |a|
    ensures r.Some? ==> Assoc.DistinctKeys(r.value)
    ensures !atLevel && Main(a, i).None? ==> r.None?
    ensures r.Some? && OwnKeysColon(a[i].placeholders) ==>
      forall k :: Assoc.HasKey(a[i].placeholders, k) ==>
        Assoc.Get(r.value, Scoped(a[i].cls, k)) == Assoc.Get(a[i].placeholders, k)
  {
    AggregateOwnScoped(a, i, atLevel);
    AggregateWithin(a, i, atLevel, |a|)
  }

  /** Distinct placeholder names, each starting with ':'. */
  predicate OwnKeysColon(ph: Placeholders) {
    Assoc.DistinctKeys(ph) && forall j :: 0 <= j < |ph| ==> ColonKey(ph[j].0)
  }

  lemma AggregateOwnScoped(a: Arena, i: nat, atLevel: bool)
    requires Linked(a) && i < |a|
    ensures AggregateWithin(a, i, atLevel, |a|).Some? && OwnKeysColon(a[i].placeholders) ==>
      forall k :: Assoc.HasKey(a[i].placeholders, k) ==>
        Assoc.Get(AggregateWithin(a, i, atLevel, |a|).value, Scoped(a[i].cls, k)) == Assoc.Get(a[i].placeholders, k)
  {
    var r := AggregateWithin(a, i, atLevel, |a|);
    if r.Some? && OwnKeysColon(a[i].placeholders) {
      forall k | Assoc.HasKey(a[i].placeholders, k)
        ensures Assoc.Get(r.value, Scoped(a[i].cls, k)) == Assoc.Get(a[i].placeholders, k)
      {
        OwnPlaceholdersScoped(a, i, atLevel, |a|, k);
      }
    }
  }

  /** A query's own placeholders win over its joins': each own ':'-key is
      found, with its value, under its scoped name. */
  lemma OwnPlaceholdersScoped(a: Arena, i: nat, atLevel: bool, fuel: nat, k: Key)
    requires Linked(a) && i < |a|
    requires Assoc.DistinctKeys(a[i].placeholders)
    requires forall j :: 0 <= j < |a[i].placeholders| ==> ColonKey(a[i].placeholders[j].0)
    requires Assoc.HasKey(a[i].placeholders, k) && AggregateWithin(a, i, atLevel, fuel).Some?
    ensures ColonKey(k)
    ensures Assoc.Get(AggregateWithin(a, i, atLevel, fuel).value, Scoped(a[i].cls, k)) == Assoc.Get(a[i].placeholders, k)
  {
    var ph := a[i].placeholders;
    var j := Assoc.GetSomeAt(ph, k);
    var q := if atLevel then Some(i) else Main(a, i);
    var merged := MergeJoins(a, a[q.value].joins, fuel).value;
    ScopeIntoSpec(merged, a[i].cls, ph, Scoped(a[i].cls, k));
    LastScopedOfColonKeys(a[i].cls, ph, k);
  }

  /** A key that is no own placeholder's scoped name comes from the merged
      joins, a later join winning. */
  lemma JoinedPlaceholders(a: Arena, i: nat, fuel: nat, k: Key)
    requires Linked(a) && i < |a| && AggregateWithin(a, i, true, fuel).Some?
    requires LastScoped(a[i].cls, a[i].placeholders, k).None?
    ensures MergeJoins(a, a[i].joins, fuel).Some?
    ensures Assoc.Get(AggregateWithin(a, i, true, fuel).value, k) == Assoc.Get(MergeJoins(a, a[i].joins, fuel).value, k)
  {
    ScopeIntoSpec(MergeJoins(a, a[i].joins, fuel).value, a[i].cls, a[i].placeholders, k);
  }

  /** A later join's placeholder wins over an earlier one's. */
  lemma MergeLaterWins(a: Arena, kids: seq<nat>, fuel: nat, k: Key)
    requires Linked(a) && |kids| > 0 && forall j :: 0 <= j < |kids| ==> kids[j] < |a|
    requires MergeJoins(a, kids, fuel).Some?
    ensures fuel > 0 && AggregateWithin(a, kids[|kids| - 1], true, fuel - 1).Some?
    ensures MergeJoins(a, kids[..|kids| - 1], fuel).Some?
    ensures Assoc.Get(MergeJoins(a, kids, fuel).value, k) ==
      (var last := AggregateWithin(a, kids[|kids| - 1], true, fuel - 1).value;
       if Assoc.HasKey(last, k) then Assoc.Get(last, k) else Assoc.Get(MergeJoins(a, kids[..|kids| - 1], fuel).value, k))
  {
  }

  /** As written, the check lets through keys without ':', and two such
      keys that differ only in their first character scope to the same
      name, so one placeholder silently replaces the other. */
  lemma AsWrittenPlaceholdersCollide()
    ensures NewAsWritten("User", "users", [], "id = :id", [(StrKey("ab"), Int(1)), (StrKey("cb"), Int(2))]).Ok?
    ensures Scoped("User", StrKey("ab")) == Scoped("User", StrKey("cb"))
    ensures NewAsWritten("User", "users", [], "id = :id", [(StrKey(":id"), Int(1))]).Err?
  {
    assert !ColonKey(StrKey("ab")) && !ColonKey(StrKey("cb"));
    assert ColonKey(StrKey(":id"));
    assert StrKey("ab").s[1..] == StrKey("cb").s[1..];
  }

  /** With the intended check, distinct own placeholders keep distinct
      scoped names: a query without joins aggregates to exactly as many
      placeholders as it has. */
  lemma IntendedPlaceholdersDistinct(cls: string, k1: Key, k2: Key)
    requires k1 != k2 && New(cls, "t", [], "", [(k1, Null), (k2, Null)]).Ok?
    ensures Scoped(cls, k1) != Scoped(cls, k2)
  {
    var ph := [(k1, Null), (k2, Null)];
    assert ColonKey(ph[0].0) && ColonKey(ph[1].0);
    if Scoped(cls, k1) == Scoped(cls, k2) {
      ScopedInjective(cls, k1, k2);
    }
  }
}

=== FILE: rest_request.dfy ===
/** `REST\Request::parse`: after the HTTP parse, the callback arguments,
    the format suffix of the path, and the query-string arguments that set
    the paging, filter, field list and sort order of a REST call. The
    state is static in the source, so an exception leaves behind whatever
    was assigned before it. */
module RestRequest {
  import opened Errors
  import opened Strs
  import opened Php
  import Assoc
  import HttpRequest
  import Response

  datatype State = State(
    http: HttpRequest.State,
    response: Response.State,
    count: Option<int>,
    startIndex: Option<int>,
    filter: Option<Value>,
    fields: Option<seq<(int, string)>>,
    order: seq<(Key, Value)>,
    updatedSince: Option<int>)

  const Initial := State(HttpRequest.Initial, Response.Initial, None, None, None, None, [], None)

  /** The request and the code the parse calls but this model does not see:
      JSON decoding, the property list an `(array)` cast gives a decoded
      object, and the date arithmetic behind `updatedSince` (a timestamp,
      or None where every accepted form fails). */
  datatype Env = Env(
    http: HttpRequest.Env,
    get: seq<(Key, Value)>,
    decode: string -> Result<Value>,
    members: Value -> seq<(Key, Value)>,
    since: string -> Option<int>)

  /** The state reached, and the exception that ended the parse early. */
  datatype Parsed = Parsed(st: State, error: Option<Error>)

  /** PHP_INT_MAX on a 64-bit build: `(int)` of a longer digit string
      saturates there. */
  const IntMax: int := 0x7FFF_FFFF_FFFF_FFFF

  /** `(string)$v` for a query-string value: the string itself, or "Array"
      for an array. Objects do not come from a query string. */
  function QueryText(v: Value): (r: string)
    ensures v.Str? ==> r == v.s
    ensures v.Arr? ==> r == "Array"
  {
    ToText(v).GetOr("")
  }

  /** What `preg_match` and `explode` see: nothing for an array, which
      they refuse with a warning. */
  function Subject(v: Value): (r: Option<string>)
    ensures v.Arr? ==> r.None?
    ensures v.Str? ==> r == Some(v.s)
  {
    if v.Arr? || v.Object? then None else ToText(v)
  }

  function Arg(get: seq<(Key, Value)>, name: string): Option<Value> {
    Assoc.Get(get, StrKey(name))
  }

  // ---- Callbacks ----

  /** `callback`: only a GET may ask for one; it is set as a javascript
      callback. */
  function CallbackStep(st: State, get: seq<(Key, Value)>): (r: Result<State>)
    ensures Arg(get, "callback").None? ==> r == Ok(st)
    ensures Arg(get, "callback").Some? && st.http.verb != "get" ==> r == Err(BadMethod(st.http.verb))
    ensures Arg(get, "callback").Some? && st.http.verb == "get" ==>
      r == (match Response.SetCallback(st.response, "javascript", QueryText(Arg(get, "callback").value))
            case Ok(resp) => Ok(st.(response := resp))
            case Err(e) => Err(e))
  {
    match Arg(get, "callback")
    case None => Ok(st)
    case Some(name) =>
      if st.http.verb != "get" then Err(BadMethod(st.http.verb))
      else
        var resp :- Response.SetCallback(st.response, "javascript", QueryText(name));
        Ok(st.(response := resp))
  }

  /** `frame_callback`: only a GET or POST may ask for one, and then the
      'frame' type is refused by the response. */
  function FrameStep(st: State, get: seq<(Key, Value)>): (r: Result<State>)
    ensures Arg(get, "frame_callback").None? <==> r == Ok(st)
    ensures Arg(get, "frame_callback").Some? ==>
      r == Err(if st.http.verb == "get" || st.http.verb == "post" then BadParameter("callback_type") else BadMethod(st.http.verb))
  {
    if Arg(get, "frame_callback").None? then Ok(st)
    else if st.http.verb != "get" && st.http.verb != "post" then Err(BadMethod(st.http.verb))
    else
      var name := QueryText(Arg(get, "callback").GetOr(Null));
      Response.FrameCallbackRefused(st.response, name);
      match Response.SetCallback(st.response, "frame", name)
      case Ok(resp) => Ok(st.(response := resp))
      case Err(e) => Err(e)
  }

  // ---- Format suffix ----

  /** The groups of `^(.+)\.([A-Za-z0-9]{1,5})$`: a non-empty first line
      and a short alphanumeric extension. */
  predicate SuffixShape(prefix: string, ext: string) {
    |prefix| > 0 && '\n' !in prefix && 1 <= |ext| <= 5 && forall i :: 0 <= i < |ext| ==> IsAlnum(ext[i])
  }

  /** Tries extensions of length `j`, `j + 1`, ... up to 5. */
  function FindSuffix(path: string, j: nat): (r: Option<(string, string)>)
    requires j >= 1
    ensures r.Some? ==> r.value.0 + "." + r.value.1 == path && SuffixShape(r.value.0, r.value.1)
    decreases 6 - j
  {
    if j > 5 || |path| < j + 2 then None
    else
      var n := |path| - j - 1;
      var (prefix, ext) := (path[..n], path[n + 1..]);
      if path[n] == '.' && SuffixShape(prefix, ext) then
        assert prefix + "." + ext == path;
        Some((prefix, ext))
      else FindSuffix(path, j + 1)
  }

  /** The path split at its extension, when it has one. `$` also holds
      before a final "\n", which then belongs to neither group. */
  function SplitSuffix(path: string): (r: Option<(string, string)>)
    ensures r.Some? ==> SuffixShape(r.value.0, r.value.1)
    ensures r.Some? ==> r.value.0 + "." + r.value.1 == path || r.value.0 + "." + r.value.1 + "\n" == path
  {
    match FindSuffix(path, 1)
    case Some(parts) => Some(parts)
    case None =>
      match Chomp(path)
      case Some(line) => FindSuffix(line, 1)
      case None => None
  }

  /** A path ending in "\n" has no extension of its own: the extension
      would end in that "\n". */
  lemma {:induction false} FindSuffixNewline(path: string, j: nat)
    requires j >= 1 && |path| > 0 && path[|path| - 1] == '\n'
    ensures FindSuffix(path, j).None?
    decreases 6 - j
  {
    if !(j > 5 || |path| < j + 2) {
      var n := |path| - j - 1;
      assert path[n + 1..][j - 1] == '\n';
      FindSuffixNewline(path, j + 1);
    }
  }

  /** A path of the suffix shape followed by "\n" splits as the path
      without it does. */
  lemma SuffixBeforeNewline(prefix: string, ext: string)
    requires SuffixShape(prefix, ext)
    ensures SplitSuffix(prefix + "." + ext + "\n") == Some((prefix, ext))
  {
    var path := prefix + "." + ext + "\n";
    FindSuffixNewline(path, 1);
    ChompNewline(prefix + "." + ext);
    FindSuffixReaches(prefix, ext, 1);
  }

  /** A shorter try cannot succeed: the dot it needs is inside the
      alphanumeric extension. */
  lemma {:induction false} FindSuffixReaches(prefix: string, ext: string, j: nat)
    requires SuffixShape(prefix, ext) && 1 <= j <= |ext|
    ensures FindSuffix(prefix + "." + ext, j) == Some((prefix, ext))
    decreases |ext| - j
  {
    var path := prefix + "." + ext;
    var n := |path| - j - 1;
    if j < |ext| {
      assert path[n] == ext[|ext| - j - 1];
      FindSuffixReaches(prefix, ext, j + 1);
    } else {
      assert path[..n] == prefix && path[n + 1..] == ext;
    }
  }

  /** Every path of the suffix shape splits back into its two parts. */
  lemma SuffixSplitComplete(prefix: string, ext: string)
    requires SuffixShape(prefix, ext)
    ensures SplitSuffix(prefix + "." + ext) == Some((prefix, ext))
  {
    FindSuffixReaches(prefix, ext, 1);
  }

  /** The format text the suffix asks for: "download:" when the download
      argument is present, ":" + the format options when they are. */
  function SuffixFormat(ext: string, get: seq<(Key, Value)>): string {
    var f := if Arg(get, "download").Some? then "download:" + ext else ext;
    if Arg(get, "format_options").Some? then f + ":" + QueryText(Arg(get, "format_options").value) else f
  }

  /** A path with an extension loses it, and the extension becomes the
      requested format. */
  function SuffixStep(st: State, get: seq<(Key, Value)>): (r: State)
    ensures SplitSuffix(st.http.path).None? ==> r == st
    ensures SplitSuffix(st.http.path).Some? ==>
      r.http == st.http.(path := SplitSuffix(st.http.path).value.0)
      && r.response == Response.SetFormat(st.response, SuffixFormat(SplitSuffix(st.http.path).value.1, get))
  {
    match SplitSuffix(st.http.path)
    case None => st
    case Some((prefix, ext)) =>
      st.(http := st.http.(path := prefix), response := Response.SetFormat(st.response, SuffixFormat(ext, get)))
  }

  /** With neither download nor format options asked, "/users.csv" is
      served as csv from "/users". */
  lemma SuffixBecomesFormat(st: State, get: seq<(Key, Value)>, prefix: string, ext: string)
    requires SuffixShape(prefix, ext) && st.http.path == prefix + "." + ext
    requires Arg(get, "download").None? && Arg(get, "format_options").None?
    ensures SuffixStep(st, get).http.path == prefix
    ensures SuffixStep(st, get).response == st.response.(download := false, format := Response.Alias(ext), formatOptions := None)
  {
    SuffixSplitComplete(prefix, ext);
    assert SuffixFormat(ext, get) == ext;
    assert Response.NameRun(ext) == |ext| by { AlnumRun(ext); }
    assert !Response.DownloadPrefixed(ext);
  }

  lemma {:induction false} AlnumRun(s: string)
    requires forall i :: 0 <= i < |s| ==> IsAlnum(s[i])
    ensures Response.NameRun(s) == |s|
    decreases |s|
  {
    if |s| > 0 {
      AlnumRun(s[1..]);
    }
  }

  // ---- The argument switch ----

  /** The case labels, in the order `switch` tries them. */
  const Labels: seq<string> := ["count", "startIndex", "format", "filterOp", "filter", "fields", "sortOrder", "order", "updatedSince"]

  /** The first label the key loosely equals. */
  function FirstLabel(k: Key, labels: seq<string>): (r: Option<string>)
    ensures r.Some? ==> r.value in labels && LooseKeyEq(k, StrKey(r.value))
    ensures r.None? ==> forall i :: 0 <= i < |labels| ==> !LooseKeyEq(k, StrKey(labels[i]))
    ensures |labels| > 0 && LooseKeyEq(k, StrKey(labels[0])) ==> r == Some(labels[0])
  {
    if |labels| == 0 then None
    else if LooseKeyEq(k, StrKey(labels[0])) then Some(labels[0])
    else FirstLabel(k, labels[1..])
  }

  function Label(k: Key): Option<string> {
    FirstLabel(k, Labels)
  }

  /** A word starting with a letter is not an integer numeric string, and
      compared with an int it is 0. */
  lemma WordNotNumeric(s: string)
    requires |s| > 0 && (IsLowerAscii(s[0]) || IsUpperAscii(s[0]))
    ensures !IsIntNumeric(s)
    ensures LeadingInt(s) == 0
    ensures StringAsInt(s) == Some(0)
  {
    assert TrimLeftPcre(s) == s;
    assert DigitPrefix(s) == [];
    assert LeadingNumber(s) == Decimal(false, 0, 0);
  }

  /** Against a word, a string key compares as text and an int key as a
      number against 0. */
  lemma LooseKeyWord(k: Key, w: string)
    requires |w| > 0 && (IsLowerAscii(w[0]) || IsUpperAscii(w[0]))
    ensures k.StrKey? ==> (LooseKeyEq(k, StrKey(w)) <==> k.s == w)
    ensures k.IntKey? ==> (LooseKeyEq(k, StrKey(w)) <==> k.i == 0)
  {
    WordNotNumeric(w);
  }

  /** Each label selects its own case; the int key 0 falls into the first,
      'count'; no other int key selects any. */
  lemma LabelOfKey(k: Key)
    ensures k.StrKey? && k.s in Labels ==> Label(k) == Some(k.s)
    ensures k.StrKey? && k.s !in Labels ==> Label(k).None?
    ensures k == IntKey(0) ==> Label(k) == Some("count")
    ensures k.IntKey? && k.i != 0 ==> Label(k).None?
  {
    LabelsAreWords();
    FirstLabelOfKey(k, Labels);
  }

  lemma LabelsAreWords()
    ensures forall i :: 0 <= i < |Labels| ==> |Labels[i]| > 0 && (IsLowerAscii(Labels[i][0]) || IsUpperAscii(Labels[i][0]))
  {
  }

  /** Among labels that are words, a string key finds itself and an int
      key finds the first label when it is 0 and none otherwise. */
  lemma {:induction false} FirstLabelOfKey(k: Key, labels: seq<string>)
    requires forall i :: 0 <= i < |labels| ==> |labels[i]| > 0 && (IsLowerAscii(labels[i][0]) || IsUpperAscii(labels[i][0]))
    ensures k.StrKey? && k.s in labels ==> FirstLabel(k, labels) == Some(k.s)
    ensures k.StrKey? && k.s !in labels ==> FirstLabel(k, labels).None?
    ensures k == IntKey(0) && |labels| > 0 ==> FirstLabel(k, labels) == Some(labels[0])
    ensures k.IntKey? && k.i != 0 ==> FirstLabel(k, labels).None?
    decreases |labels|
  {
    if |labels| > 0 {
      LooseKeyWord(k, labels[0]);
      assert forall i :: 1 <= i < |labels| ==> labels[1..][i - 1] == labels[i];
      FirstLabelOfKey(k, labels[1..]);
      assert k.StrKey? && k.s != labels[0] ==> (k.s in labels <==> k.s in labels[1..]);
    }
  }

  // ---- count and startIndex ----

  /** A non-empty digit string. */
  predicate DigitText(d: string) { |d| > 0 && AllDigits(d) }

  /** The digits `^[0-9]+$` accepts: the whole text, or the text before a
      final "\n"; `(int)` then reads those digits. */
  function PagingDigits(d: string): (r: Option<string>)
    ensures r.Some? ==> DigitText(r.value) && (r.value == d || r.value + "\n" == d)
    ensures DigitText(d) ==> r == Some(d)
    ensures Chomp(d).Some? && DigitText(Chomp(d).value) ==> r == Chomp(d)
    ensures r.None? ==> !DigitText(d) && !(Chomp(d).Some? && DigitText(Chomp(d).value))
  {
    if DigitText(d) then Some(d)
    else
      match Chomp(d)
      case Some(line) => if DigitText(line) then Some(line) else None
      case None => None
  }

  /** The value a `count` or `startIndex` argument gives: a non-empty digit
      string (`^[0-9]+$`, which also takes one final "\n"), cast with
      `(int)`, which saturates at PHP_INT_MAX. */
  function PagingValue(v: Value): (r: Option<int>)
    ensures r.Some? ==> 0 <= r.value <= IntMax
    ensures v.Arr? ==> r.None?
    ensures v.Str? && !DigitText(v.s) && !(Chomp(v.s).Some? && DigitText(Chomp(v.s).value)) ==> r.None?
    ensures v.Str? && DigitText(v.s) ==> r.Some? && (DigitsValue(v.s) <= IntMax ==> r.value == DigitsValue(v.s))
    ensures v.Str? && Chomp(v.s).Some? && DigitText(Chomp(v.s).value) ==>
      r.Some? && (DigitsValue(Chomp(v.s).value) <= IntMax ==> r.value == DigitsValue(Chomp(v.s).value))
  {
    match Subject(v)
    case Some(d) =>
      (match PagingDigits(d)
       case Some(t) => Some(if DigitsValue(t) > IntMax then IntMax else DigitsValue(t))
       case None => None)
    case None => None
  }

  /** The decimal text of any count up to PHP_INT_MAX reads back as it. */
  lemma PagingReadsBack(n: nat)
    requires n <= IntMax
    ensures PagingValue(Str(NatToString(n))) == Some(n)
    ensures PagingValue(Str(NatToString(n) + "\n")) == Some(n)
  {
    DigitsOfNat(n);
    ChompNewline(NatToString(n));
  }

  /** The assignment goes to the property the key names; the int key 0,
      which reaches this case through loose comparison, names none. */
  function PagingStep(st: State, k: Key, v: Value): (r: Parsed)
    ensures r.st.http == st.http
    ensures PagingValue(v).None? ==> r == Parsed(st, None)
    ensures PagingValue(v).Some? && k == StrKey("count") ==> r == Parsed(st.(count := PagingValue(v)), None)
    ensures PagingValue(v).Some? && k == StrKey("startIndex") ==> r == Parsed(st.(startIndex := PagingValue(v)), None)
    ensures PagingValue(v).Some? && k != StrKey("count") && k != StrKey("startIndex") ==> r.st == st && r.error.Some?
  {
    if PagingValue(v).None? then Parsed(st, None)
    else if k == StrKey("count") then Parsed(st.(count := PagingValue(v)), None)
    else if k == StrKey("startIndex") then Parsed(st.(startIndex := PagingValue(v)), None)
    else Parsed(st, Some(EngineError("Access to undeclared static property " + KeyToString(k))))
  }

  // ---- format ----

  /** `format`: the text goes to `setFormat`; an array is refused by its
      pattern match and changes nothing. */
  function FormatStep(st: State, v: Value): (r: State)
    ensures Subject(v).None? ==> r == st
    ensures Subject(v).Some? ==> r == st.(response := Response.SetFormat(st.response, Subject(v).value))
  {
    match Subject(v)
    case None => st
    case Some(text) => st.(response := Response.SetFormat(st.response, text))
  }

  // ---- filterOp ----

  /** The operators a `filterOp` test may use, in the order they are read. */
  const FilterOps: seq<string> := ["equals", "startWith", "contains", "present"]

  /** One clause of the built filter: `[op => [field => operand]]`. */
  function Clause(op: string, field: Key, operand: Value): Value {
    Arr([(StrKey(op), Arr([(field, operand)]))])
  }

  /** The clauses one field's test gives, for the operators in `ops` that
      the test holds. A test that is not an array holds none. */
  function TestClauses(field: Key, test: Value, ops: seq<string>): (r: seq<Value>)
    ensures forall c :: c in r <==>
      exists i :: 0 <= i < |ops| && Lookup(test, StrKey(ops[i])).Some? && c == Clause(ops[i], field, Lookup(test, StrKey(ops[i])).value)
  {
    if |ops| == 0 then []
    else
      var rest := TestClauses(field, test, ops[1..]);
      assert forall i :: 1 <= i < |ops| ==> ops[1..][i - 1] == ops[i];
      match Lookup(test, StrKey(ops[0]))
      case Some(operand) => [Clause(ops[0], field, operand)] + rest
      case None => rest
  }

  /** The clauses of all fields, field by field. */
  function AllClauses(tests: seq<(Key, Value)>): (r: seq<Value>)
    ensures forall c :: c in r <==> exists j :: 0 <= j < |tests| && c in TestClauses(tests[j].0, tests[j].1, FilterOps)
  {
    if |tests| == 0 then []
    else
      var rest := AllClauses(tests[1..]);
      assert forall j :: 1 <= j < |tests| ==> tests[1..][j - 1] == tests[j];
      TestClauses(tests[0].0, tests[0].1, FilterOps) + rest
  }

  /** The filter a `filterOp` array builds: `['and' => clauses]`. */
  function FilterOf(tests: seq<(Key, Value)>): Value {
    Arr([(StrKey("and"), ListOf(AllClauses(tests)))])
  }

  /** Every clause of the built filter comes from one operator of one
      field's test, and every operator a test holds gives its clause. */
  lemma FilterOfClauses(tests: seq<(Key, Value)>, c: Value)
    ensures c in AllClauses(tests) <==>
      exists j, i :: 0 <= j < |tests| && 0 <= i < |FilterOps| && Lookup(tests[j].1, StrKey(FilterOps[i])).Some?
        && c == Clause(FilterOps[i], tests[j].0, Lookup(tests[j].1, StrKey(FilterOps[i])).value)
  {
  }

  /** `filterOp`: an array of per-field tests replaces the filter; anything
      else is ignored. */
  function FilterOpStep(st: State, v: Value): (r: State)
    ensures !v.Arr? ==> r == st
    ensures v.Arr? ==> r == st.(filter := Some(FilterOf(v.items)))
  {
    if v.Arr? then st.(filter := Some(FilterOf(v.items))) else st
  }

  // ---- filter ----

  /** `filter`: JSON that decodes to a truthy value replaces the filter. */
  function FilterStep(st: State, v: Value, decode: string -> Result<Value>): (r: Parsed)
    ensures r.st.http == st.http
    ensures decode(QueryText(v)).Err? ==> r == Parsed(st, Some(decode(QueryText(v)).error))
    ensures decode(QueryText(v)).Ok? && !Truthy(decode(QueryText(v)).value) ==> r == Parsed(st, Some(BadParameter("filter")))
    ensures r.error.None? <==> decode(QueryText(v)).Ok? && Truthy(decode(QueryText(v)).value)
    ensures r.error.None? ==> r.st == st.(filter := Some(decode(QueryText(v)).value))
  {
    match decode(QueryText(v))
    case Err(e) => Parsed(st, Some(e))
    case Ok(f) =>
      if !Truthy(f) then Parsed(st, Some(BadParameter("filter")))
      else Parsed(st.(filter := Some(f)), None)
  }

  // ---- fields ----

  /** `array_filter(array_unique($names))` over the trimmed names: the first
      occurrence of each name keeps its position, and the empty and "0"
      names are dropped. */
  function UniqueNames(names: seq<string>): (r: seq<(int, string)>)
    ensures forall e :: e in r ==> (0 <= e.0 < |names| && names[e.0] == e.1
      && Truthy(Str(e.1)) && e.1 !in names[..e.0])
    ensures forall i :: 0 <= i < |names| && Truthy(Str(names[i])) && names[i] !in names[..i] ==> (i, names[i]) in r
    ensures forall a, b :: 0 <= a < b < |r| ==> r[a].0 < r[b].0
    decreases |names|
  {
    if |names| == 0 then []
    else
      var n := |names| - 1;
      var pre := UniqueNames(names[..n]);
      assert forall i :: 0 <= i < n ==> names[..n][i] == names[i] && names[..n][..i] == names[..i];
      if names[n] in names[..n] || !Truthy(Str(names[n])) then pre else pre + [(n, names[n])]
  }

  /** The field list named by the text: its comma-separated, trimmed,
      de-duplicated, non-empty names with their positions. */
  function FieldList(text: string): (r: seq<(int, string)>) {
    var parts := Split(text, ',');
    UniqueNames(seq(|parts|, i requires 0 <= i < |parts| => Trim(parts[i])))
  }

  /** No name is listed twice. */
  lemma FieldNamesDistinct(text: string)
    ensures var r := FieldList(text); forall a, b :: 0 <= a < b < |r| ==> r[a].1 != r[b].1
  {
    var parts := Split(text, ',');
    var names := seq(|parts|, i requires 0 <= i < |parts| => Trim(parts[i]));
    var r := FieldList(text);
    forall a, b | 0 <= a < b < |r| ensures r[a].1 != r[b].1 {
      assert r[a] in r && r[b] in r;
      assert names[r[a].0] in names[..r[b].0];
    }
  }

  /** `fields`: a text naming at least one field replaces the field list;
      an array, or a text naming none, is refused. */
  function FieldsStep(st: State, v: Value): (r: Parsed)
    ensures r.st.http == st.http
    ensures Subject(v).None? ==> r == Parsed(st, Some(BadParameter("fields")))
    ensures Subject(v).Some? && |FieldList(Subject(v).value)| == 0 ==> r == Parsed(st, Some(BadParameter("fields")))
    ensures Subject(v).Some? && |FieldList(Subject(v).value)| > 0 ==> r == Parsed(st.(fields := Some(FieldList(Subject(v).value))), None)
  {
    match Subject(v)
    case None => Parsed(st, Some(BadParameter("fields")))
    case Some(text) =>
      var fs := FieldList(text);
      if |fs| == 0 then Parsed(st, Some(BadParameter("fields")))
      else Parsed(st.(fields := Some(fs)), None)
  }

  // ---- sortOrder and order ----

  /** The short spellings of the two directions, compared strictly. */
  function LongForm(o: Value): (r: Value)
    ensures o == Str("asc") ==> r == Str("ascending")
    ensures o == Str("desc") ==> r == Str("descending")
    ensures o != Str("asc") && o != Str("desc") ==> r == o
  {
    if o == Str("asc") then Str("ascending")
    else if o == Str("desc") then Str("descending")
    else o
  }

  /** `sortOrder`: one of the two directions (or its short spelling) becomes
      the default order, stored under '*'. */
  function SortOrderStep(st: State, v: Value): (r: Parsed)
    ensures r.st.http == st.http
    ensures r.error.None? <==> InArray(LongForm(v), [Str("ascending"), Str("descending")])
    ensures r.error.Some? ==> r == Parsed(st, Some(BadParameter("sortOrder")))
    ensures r.error.None? ==> r.st == st.(order := Assoc.Put(st.order, StrKey("*"), LongForm(v)))
  {
    var o := LongForm(v);
    if !InArray(o, [Str("ascending"), Str("descending")]) then Parsed(st, Some(BadParameter("sortOrder")))
    else Parsed(st.(order := Assoc.Put(st.order, StrKey("*"), o)), None)
  }

  /** Against a direction, a string compares as text. */
  lemma DirectionText(s: string)
    ensures LooseEq(Str(s), Str("ascending")) <==> s == "ascending"
    ensures LooseEq(Str(s), Str("descending")) <==> s == "descending"
  {
    WordNotNumeric("ascending");
    WordNotNumeric("descending");
  }

  lemma InPair(o: Value, a: Value, b: Value)
    ensures InArray(o, [a, b]) <==> LooseEq(o, a) || LooseEq(o, b)
  {
    if LooseEq(o, a) {
      assert LooseEq(o, [a, b][0]);
    }
    if LooseEq(o, b) {
      assert LooseEq(o, [a, b][1]);
    }
  }

  /** For a string argument, the accepted texts are exactly the four
      spellings, and the long one is stored. */
  lemma SortOrderTexts(st: State, s: string)
    ensures SortOrderStep(st, Str(s)).error.None? <==> s in {"asc", "desc", "ascending", "descending"}
    ensures s in {"asc", "ascending"} ==> Assoc.Get(SortOrderStep(st, Str(s)).st.order, StrKey("*")) == Some(Str("ascending"))
    ensures s in {"desc", "descending"} ==> Assoc.Get(SortOrderStep(st, Str(s)).st.order, StrKey("*")) == Some(Str("descending"))
  {
    var o := LongForm(Str(s));
    InPair(o, Str("ascending"), Str("descending"));
    DirectionText(o.s);
  }

  /** `[a-z][a-z0-9_]*` under the `i` flag, over the whole text. */
  predicate NameShape(s: string) {
    |s| > 0 && (IsLowerAscii(s[0]) || IsUpperAscii(s[0]))
    && forall i :: 0 <= i < |s| ==> IsAlnum(s[i]) || s[i] == '_'
  }

  /** `^[a-z][a-z0-9_]*$` under the `i` flag: the name, alone or followed
      by one "\n". */
  predicate OrderName(s: string) {
    NameShape(s) || (Chomp(s).Some? && NameShape(Chomp(s).value))
  }

  /** The direction test as written: loose `!=` against both texts, which
      `true` and `0` also pass. */
  predicate DirectionAsWritten(o: Value) {
    LooseEq(o, Str("ascending")) || LooseEq(o, Str("descending"))
  }

  /** The intended direction test: one of the two texts. */
  predicate Direction(o: Value) {
    o == Str("ascending") || o == Str("descending")
  }

  /** The message of a refused direction, `'order[k] = '.$o`; an object
      cannot be turned into text. */
  function DirectionRefused(sk: Key, o: Value): Error {
    match ToText(o)
    case Some(t) => BadParameter("order[" + KeyToString(sk) + "] = " + t)
    case None => EngineError("Object of class " + o.cls + " could not be converted to string")
  }

  /** The order entries, assigned one by one until one is refused. */
  function OrderEntries(order: seq<(Key, Value)>, entries: seq<(Key, Value)>): (r: (seq<(Key, Value)>, Option<Error>))
    decreases |entries|
  {
    if |entries| == 0 then (order, None)
    else
      var (sk, o) := entries[0];
      if !OrderName(KeyToString(sk)) then (order, Some(BadParameter("order[" + KeyToString(sk) + "]")))
      else if !Direction(LongForm(o)) then (order, Some(DirectionRefused(sk, LongForm(o))))
      else OrderEntries(Assoc.Put(order, sk, LongForm(o)), entries[1..])
  }

  /** Some entry names the key. */
  predicate Mentions(entries: seq<(Key, Value)>, k: Key) {
    exists i :: 0 <= i < |entries| && entries[i].0 == k
  }

  lemma MentionsTail(entries: seq<(Key, Value)>, k: Key)
    requires |entries| > 0 && Mentions(entries[1..], k)
    ensures Mentions(entries, k)
  {
    var i :| 0 <= i < |entries[1..]| && entries[1..][i].0 == k;
    assert entries[i + 1].0 == k;
  }

  /** Whatever the entries store is a name mapped to a direction; what
      they do not name keeps its value. */
  lemma {:induction false} OrderStoresDirections(order: seq<(Key, Value)>, entries: seq<(Key, Value)>, k: Key)
    ensures var got := Assoc.Get(OrderEntries(order, entries).0, k);
      got != Assoc.Get(order, k) ==> (got.Some? && Direction(got.value) && OrderName(KeyToString(k))
        && Mentions(entries, k))
    decreases |entries|
  {
    if |entries| > 0 {
      var (sk, o) := entries[0];
      if OrderName(KeyToString(sk)) && Direction(LongForm(o)) {
        var next := Assoc.Put(order, sk, LongForm(o));
        OrderStoresDirections(next, entries[1..], k);
        var got := Assoc.Get(OrderEntries(order, entries).0, k);
        if got != Assoc.Get(order, k) && got == Assoc.Get(next, k) {
          assert k == sk;
          assert entries[0].0 == k;
        }
        if got != Assoc.Get(next, k) {
          MentionsTail(entries, k);
        }
      }
    }
  }

  /** An accepted order stores every entry: each name holds the direction
      of its last entry. */
  lemma {:induction false} OrderAllStored(order: seq<(Key, Value)>, entries: seq<(Key, Value)>, i: nat)
    requires OrderEntries(order, entries).1.None?
    requires i < |entries| && forall j :: i < j < |entries| ==> entries[j].0 != entries[i].0
    ensures Assoc.Get(OrderEntries(order, entries).0, entries[i].0) == Some(LongForm(entries[i].1))
    decreases |entries|
  {
    var (sk, o) := entries[0];
    var next := Assoc.Put(order, sk, LongForm(o));
    if i > 0 {
      OrderAllStored(next, entries[1..], i - 1);
    } else {
      OrderKeepsUnnamed(next, entries[1..], sk);
    }
  }

  /** A name no entry mentions keeps its value. */
  lemma {:induction false} OrderKeepsUnnamed(order: seq<(Key, Value)>, entries: seq<(Key, Value)>, k: Key)
    requires forall j :: 0 <= j < |entries| ==> entries[j].0 != k
    ensures Assoc.Get(OrderEntries(order, entries).0, k) == Assoc.Get(order, k)
    decreases |entries|
  {
    if |entries| > 0 {
      var (sk, o) := entries[0];
      if OrderName(KeyToString(sk)) && Direction(LongForm(o)) {
        OrderKeepsUnnamed(Assoc.Put(order, sk, LongForm(o)), entries[1..], k);
      }
    }
  }

  /** As written, a JSON `true` or `0` passes as a direction. */
  lemma LooseDirectionAccepted()
    ensures DirectionAsWritten(Bool(true)) && !Direction(Bool(true))
    ensures DirectionAsWritten(Int(0)) && !Direction(Int(0))
  {
    WordNotNumeric("ascending");
  }

  /** The `(array)` cast: an array is itself, null is empty, an object gives
      its properties and a scalar becomes `[0 => scalar]`. */
  function ArrayCast(v: Value, members: Value -> seq<(Key, Value)>): (r: seq<(Key, Value)>)
    ensures v.Arr? ==> r == v.items
    ensures IsScalarOrNull(v) && !v.Null? ==> r == [(IntKey(0), v)]
  {
    match v
    case Arr(items) => items
    case Null => []
    case Object(_, _) => members(v)
    case _ => [(IntKey(0), v)]
  }

  /** `order`: JSON that decodes to a truthy value gives entries from name
      to direction; the entries before a refused one stay assigned. */
  function OrderStep(st: State, v: Value, decode: string -> Result<Value>, members: Value -> seq<(Key, Value)>): (r: Parsed)
    ensures r.st.http == st.http
    ensures decode(QueryText(v)).Err? ==> r == Parsed(st, Some(decode(QueryText(v)).error))
    ensures decode(QueryText(v)).Ok? && !Truthy(decode(QueryText(v)).value) ==> r == Parsed(st, Some(BadParameter("order")))
    ensures decode(QueryText(v)).Ok? && Truthy(decode(QueryText(v)).value) ==>
      var (order, err) := OrderEntries(st.order, ArrayCast(decode(QueryText(v)).value, members));
      r == Parsed(st.(order := order), err)
  {
    match decode(QueryText(v))
    case Err(e) => Parsed(st, Some(e))
    case Ok(o) =>
      if !Truthy(o) then Parsed(st, Some(BadParameter("order")))
      else
        var (order, err) := OrderEntries(st.order, ArrayCast(o, members));
        Parsed(st.(order := order), err)
  }

  /** A scalar order (JSON `"name"`) is read as `[0 => "name"]`, and the key
      0 is not a name. */
  lemma ScalarOrderRefused(st: State, v: Value, decode: string -> Result<Value>, members: Value -> seq<(Key, Value)>)
    requires decode(QueryText(v)).Ok? && decode(QueryText(v)).value.Str? && Truthy(decode(QueryText(v)).value)
    ensures OrderStep(st, v, decode, members) == Parsed(st, Some(BadParameter("order[0]")))
  {
    var o := decode(QueryText(v)).value;
    assert ArrayCast(o, members) == [(IntKey(0), o)];
    assert Digit(0) == '0';
    assert KeyToString(IntKey(0)) == "0";
    assert !OrderName("0");
    var e := [(IntKey(0), o)];
    assert e[0].0 == IntKey(0);
    assert "order[" + "0" + "]" == "order[0]";
    assert OrderEntries(st.order, e).1 == Some(BadParameter("order[" + KeyToString(IntKey(0)) + "]"));
  }

  // ---- updatedSince ----

  /** `updatedSince`: a date the given arithmetic turns into a non-zero
      timestamp; an array, or a text it cannot read, is refused. */
  function UpdatedSinceStep(st: State, v: Value, since: string -> Option<int>): (r: Parsed)
    ensures r.st.http == st.http
    ensures r.error.None? <==> Subject(v).Some? && since(Subject(v).value).Some? && since(Subject(v).value).value != 0
    ensures r.error.Some? ==> r == Parsed(st, Some(BadParameter("updatedSince")))
    ensures r.error.None? ==> r.st == st.(updatedSince := since(Subject(v).value))
  {
    match Subject(v)
    case None => Parsed(st, Some(BadParameter("updatedSince")))
    case Some(text) =>
      match since(text)
      case Some(t) =>
        if t == 0 then Parsed(st, Some(BadParameter("updatedSince")))
        else Parsed(st.(updatedSince := Some(t)), None)
      case None => Parsed(st, Some(BadParameter("updatedSince")))
  }

  // ---- The parse ----

  /** One query-string argument: the case its key selects. */
  function Step(st: State, k: Key, v: Value, env: Env): (r: Parsed)
    ensures r.st.http == st.http
    ensures Label(k).None? ==> r == Parsed(st, None)
    ensures Label(k) == Some("count") || Label(k) == Some("startIndex") ==> r == PagingStep(st, k, v)
    ensures Label(k) == Some("format") ==> r == Parsed(FormatStep(st, v), None)
    ensures Label(k) == Some("filterOp") ==> r == Parsed(FilterOpStep(st, v), None)
    ensures Label(k) == Some("filter") ==> r == FilterStep(st, v, env.decode)
    ensures Label(k) == Some("fields") ==> r == FieldsStep(st, v)
    ensures Label(k) == Some("sortOrder") ==> r == SortOrderStep(st, v)
    ensures Label(k) == Some("order") ==> r == OrderStep(st, v, env.decode, env.members)
    ensures Label(k) == Some("updatedSince") ==> r == UpdatedSinceStep(st, v, env.since)
  {
    match Label(k)
    case None => Parsed(st, None)
    case Some(name) =>
      if name == "count" || name == "startIndex" then PagingStep(st, k, v)
      else if name == "format" then Parsed(FormatStep(st, v), None)
      else if name == "filterOp" then Parsed(FilterOpStep(st, v), None)
      else if name == "filter" then FilterStep(st, v, env.decode)
      else if name == "fields" then FieldsStep(st, v)
      else if name == "sortOrder" then SortOrderStep(st, v)
      else if name == "order" then OrderStep(st, v, env.decode, env.members)
      else UpdatedSinceStep(st, v, env.since)
  }

  /** The arguments in order, until one throws. */
  function Args(st: State, args: seq<(Key, Value)>, env: Env): (r: Parsed)
    decreases |args|
  {
    if |args| == 0 then Parsed(st, None)
    else
      var p := Step(st, args[0].0, args[0].1, env);
      if p.error.Some? then p else Args(p.st, args[1..], env)
  }

  /** `parse()`: the HTTP parse, the callbacks, the suffix, the arguments. */
  function Parse(st: State, env: Env): (r: Parsed)
    ensures r.st.http.verb == HttpRequest.Method(env.http.server)
    ensures Arg(env.get, "callback").Some? && HttpRequest.Method(env.http.server) != "get" ==>
      r.error == Some(BadMethod(HttpRequest.Method(env.http.server)))
    ensures Arg(env.get, "frame_callback").Some? && Arg(env.get, "callback").None? ==> r.error.Some?
  {
    var s0 := st.(http := HttpRequest.Parse(st.http, env.http));
    var p := Callbacks(s0, env.get);
    if p.error.Some? then p
    else
      ArgsKeepHttp(SuffixStep(p.st, env.get), env.get, env);
      Args(SuffixStep(p.st, env.get), env.get, env)
  }

  /** The two callback arguments, in order; the state reached and the
      exception that stops the parse there. */
  function Callbacks(st: State, get: seq<(Key, Value)>): (r: Parsed)
    ensures r.st.http == st.http
    ensures Arg(get, "callback").Some? && st.http.verb != "get" ==> r.error == Some(BadMethod(st.http.verb))
    ensures Arg(get, "frame_callback").Some? && Arg(get, "callback").None? ==> r.error.Some?
  {
    match CallbackStep(st, get)
    case Err(e) => Parsed(st, Some(e))
    case Ok(s1) =>
      match FrameStep(s1, get)
      case Err(e) => Parsed(s1, Some(e))
      case Ok(s2) => Parsed(s2, None)
  }

  /** The arguments leave the HTTP state alone. */
  lemma {:induction false} ArgsKeepHttp(st: State, args: seq<(Key, Value)>, env: Env)
    ensures Args(st, args, env).st.http == st.http
    decreases |args|
  {
    if |args| > 0 {
      var p := Step(st, args[0].0, args[0].1, env);
      if p.error.None? {
        ArgsKeepHttp(p.st, args[1..], env);
      }
    }
  }

  /** Arguments no case selects leave the state as it is. */
  lemma {:induction false} UnlabelledIgnored(st: State, args: seq<(Key, Value)>, env: Env)
    requires forall i :: 0 <= i < |args| ==> Label(args[i].0).None?
    ensures Args(st, args, env) == Parsed(st, None)
    decreases |args|
  {
    if |args| > 0 {
      UnlabelledIgnored(st, args[1..], env);
    }
  }

  /** The first argument that throws ends the parse with its exception. */
  lemma {:induction false} ArgsStopAt(st: State, args: seq<(Key, Value)>, env: Env, e: Error)
    requires |args| > 0 && Step(st, args[0].0, args[0].1, env).error == Some(e)
    ensures Args(st, args, env).error == Some(e)
    ensures Args(st, args, env).st == Step(st, args[0].0, args[0].1, env).st
  {
  }

  /** A list array (`?0=5`) reaches the 'count' case with the key 0, which
      names no property. */
  lemma ZeroKeyRaises(st: State, env: Env)
    ensures Step(st, IntKey(0), Str("5"), env).error.Some?
    ensures Step(st, IntKey(0), Str("5"), env).st == st
  {
    LabelOfKey(IntKey(0));
    assert PagingValue(Str("5")).Some?;
  }
}

=== FILE: rest_response.dfy ===
/** `REST\Response`: the requested format and callback, and how `send`
    picks the renderer and the HTTP code. Headers and output are left to
    the renderers; the choices are returned instead. */
module Response {
  import opened Errors
  import opened Strs
  import opened Php
  import Structured
  import Autoloader

  /** The callback a JSONP-style response wraps its data in. */
  datatype Callback = Callback(kind: string, name: string)

  /** The response's static state. `formatOptions` is None where PHP 7's
      `substr` gives `false` (no ":options" part). */
  datatype State = State(format: string, download: bool, formatOptions: Option<string>, callback: Option<Callback>)

  const Initial := State("json", false, None, None)

  // ---- setFormat ----

  /** `[a-z0-9_-]` under the `i` flag. */
  predicate NameChar(c: char) { IsAlnum(c) || c == '_' || c == '-' }

  /** Length of the longest run of name characters at the start. */
  function NameRun(s: string): (n: nat)
    ensures n <= |s|
    ensures forall i :: 0 <= i < n ==> NameChar(s[i])
    ensures n < |s| ==> !NameChar(s[n])
  {
    if |s| > 0 && NameChar(s[0]) then 1 + NameRun(s[1..]) else 0
  }

  /** The name and option groups of `([a-z0-9_-]+)((?::.+)?)` over the
      whole text; the option group without its ':' (None when empty). */
  function WholeNameAndOptions(s: string): (r: Option<(string, Option<string>)>)
    ensures r.Some? ==> ValidName(r.value.0) && ValidOptions(r.value.1)
    ensures r.Some? ==> s == FormatText(false, r.value.0, r.value.1)
  {
    var n := NameRun(s);
    if n == 0 then None
    else if n == |s| then Some((s, None))
    else if s[n] == ':' && n + 1 < |s| && '\n' !in s[n + 1..] then
      assert s == s[..n] + ":" + s[n + 1..];
      Some((s[..n], Some(s[n + 1..])))
    else None
  }

  /** The same groups when the pattern ends in `$`: the whole text, or
      else the text before a final "\n". */
  function NameAndOptions(s: string): (r: Option<(string, Option<string>)>)
    ensures r.Some? ==> ValidName(r.value.0) && ValidOptions(r.value.1)
    ensures r.Some? ==> s == FormatText(false, r.value.0, r.value.1) || s == FormatText(false, r.value.0, r.value.1) + "\n"
  {
    match WholeNameAndOptions(s)
    case Some(m) => Some(m)
    case None =>
      match Chomp(s)
      case Some(line) => WholeNameAndOptions(line)
      case None => None
  }

  /** No text ending in "\n" is matched whole: neither a name nor the
      options hold a "\n". */
  lemma WholeRefusesNewline(s: string)
    requires |s| > 0 && s[|s| - 1] == '\n'
    ensures WholeNameAndOptions(s).None?
  {
  }

  /** A format text followed by "\n" gives the same name and options. */
  lemma NameAndOptionsNewline(name: string, options: Option<string>)
    requires ValidName(name) && ValidOptions(options)
    ensures NameAndOptions(FormatText(false, name, options) + "\n") == Some((name, options))
  {
    var t := FormatText(false, name, options);
    WholeRefusesNewline(t + "\n");
    ChompNewline(t);
    NameAndOptionsOf(name, options);
    assert t == name + (if options.Some? then ":" + options.value else "");
  }

  /** Does the text open with "download:" in any letter case? */
  predicate DownloadPrefixed(s: string) {
    |s| >= 9 && Lower(s[..9]) == "download:"
  }

  /** The match of the format pattern: the optional "download:" group is
      tried first, and given up when the rest does not match after it.
      The download flag is set only by the lower-case spelling. */
  function MatchFormat(raw: string): (r: Option<(bool, string, Option<string>)>)
    ensures r.Some? && r.value.0 ==> |raw| >= 9 && raw[..9] == "download:"
  {
    if DownloadPrefixed(raw) && NameAndOptions(raw[9..]).Some? then
      var (name, opts) := NameAndOptions(raw[9..]).value;
      Some((raw[..9] == "download:", name, opts))
    else
      match NameAndOptions(raw)
      case None => None
      case Some((name, opts)) => Some((false, name, opts))
  }

  /** The format aliases, matched case-sensitively. */
  function Alias(name: string): (r: string)
    ensures name !in {"txt", "htm", "jpg"} ==> r == name
  {
    if name == "txt" then "plain"
    else if name == "htm" then "html"
    else if name == "jpg" then "jpeg"
    else name
  }

  /** `setFormat($raw)`: a matching text sets the download flag, the
      format and its options; any other text changes nothing. */
  function SetFormat(st: State, raw: string): (r: State)
    ensures MatchFormat(raw).None? ==> r == st
    ensures MatchFormat(raw).Some? ==>
      r == st.(download := MatchFormat(raw).value.0, format := Alias(MatchFormat(raw).value.1),
        formatOptions := MatchFormat(raw).value.2)
  {
    match MatchFormat(raw)
    case None => st
    case Some((dl, name, opts)) => st.(download := dl, format := Alias(name), formatOptions := opts)
  }

  /** The text `setFormat` reads: "download:" when asked, the name, and
      ":" + options when there are options. */
  function FormatText(download: bool, name: string, options: Option<string>): string {
    (if download then "download:" else "") + name + (if options.Some? then ":" + options.value else "")
  }

  predicate ValidName(name: string) {
    |name| > 0 && forall i :: 0 <= i < |name| ==> NameChar(name[i])
  }

  predicate ValidOptions(options: Option<string>) {
    options.Some? ==> |options.value| > 0 && '\n' !in options.value
  }

  /** Reading a well-formed format text sets exactly what it was written
      from, the name through its alias. */
  lemma SetFormatReadsBack(st: State, download: bool, name: string, options: Option<string>)
    requires ValidName(name) && ValidOptions(options) && Lower(name) != "download"
    ensures SetFormat(st, FormatText(download, name, options)) ==
      st.(download := download, format := Alias(name), formatOptions := options)
  {
    MatchFormatText(download, name, options);
  }

  lemma MatchFormatText(download: bool, name: string, options: Option<string>)
    requires ValidName(name) && ValidOptions(options) && Lower(name) != "download"
    ensures MatchFormat(FormatText(download, name, options)) == Some((download, name, options))
  {
    var tail := name + (if options.Some? then ":" + options.value else "");
    NameAndOptionsOf(name, options);
    if download {
      assert FormatText(download, name, options) == "download:" + tail;
      DownloadedFormat(tail);
    } else {
      assert FormatText(download, name, options) == tail;
      PlainFormat(name, tail);
    }
  }

  lemma DownloadedFormat(tail: string)
    requires NameAndOptions(tail).Some?
    ensures var (name, opts) := NameAndOptions(tail).value; MatchFormat("download:" + tail) == Some((true, name, opts))
  {
    var raw := "download:" + tail;
    assert raw[9..] == tail;
    assert raw[..9] == "download:";
    LowerDownload();
    assert DownloadPrefixed(raw);
  }

  lemma LowerDownload()
    ensures Lower("download:") == "download:"
  {
    var d := "download:";
    forall i | 0 <= i < |d|
      ensures LowerChar(d[i]) == d[i]
    {
    }
  }

  lemma PlainFormat(name: string, tail: string)
    requires ValidName(name) && Lower(name) != "download"
    requires |tail| >= |name| && tail[..|name|] == name
    requires NameAndOptions(tail).Some? && (|tail| == |name| || tail[|name|] == ':')
    ensures var (n, opts) := NameAndOptions(tail).value; MatchFormat(tail) == Some((false, n, opts))
  {
    if DownloadPrefixed(tail) {
      NotDownloadPrefixed(name, tail);
    }
  }

  lemma NotDownloadPrefixed(name: string, tail: string)
    requires ValidName(name) && Lower(name) != "download"
    requires |tail| >= |name| && tail[..|name|] == name
    requires |tail| == |name| || tail[|name|] == ':'
    ensures !DownloadPrefixed(tail)
  {
    if |tail| >= 9 {
      var low := Lower(tail[..9]);
      if |name| >= 9 {
        assert tail[8] == name[8];
      } else if |name| == 8 {
        assert Lower(name) == low[..8];
      } else {
        assert low[|name|] == LowerChar(tail[|name|]);
      }
    }
  }

  lemma NameAndOptionsOf(name: string, options: Option<string>)
    requires ValidName(name) && ValidOptions(options)
    ensures WholeNameAndOptions(name + (if options.Some? then ":" + options.value else "")) == Some((name, options))
    ensures NameAndOptions(name + (if options.Some? then ":" + options.value else "")) == Some((name, options))
  {
    var s := name + (if options.Some? then ":" + options.value else "");
    NameRunOf(name, if options.Some? then ":" + options.value else "");
    if options.Some? {
      assert s[|name|] == ':';
      assert s[|name| + 1..] == options.value;
      assert s[..|name|] == name;
    } else {
      assert s == name;
    }
  }

  lemma {:induction false} NameRunOf(name: string, rest: string)
    requires forall i :: 0 <= i < |name| ==> NameChar(name[i])
    requires |rest| == 0 || !NameChar(rest[0])
    ensures NameRun(name + rest) == |name|
    decreases |name|
  {
    if |name| > 0 {
      assert (name + rest)[1..] == name[1..] + rest;
      NameRunOf(name[1..], rest);
    }
  }

  /** The upper-case "DOWNLOAD:" prefix is matched but sets no download. */
  lemma UpperDownloadIgnored(st: State)
    ensures SetFormat(st, "DOWNLOAD:csv") == st.(download := false, format := "csv", formatOptions := None)
  {
    var raw := "DOWNLOAD:csv";
    assert raw[..9] == "DOWNLOAD:" && raw[9..] == "csv";
    assert DownloadPrefixed(raw) by { LowerUpperDownload(); }
    assert NameAndOptions("csv") == Some(("csv", None)) by { CsvName(); }
    assert MatchFormat(raw) == Some((false, "csv", None));
  }

  lemma LowerUpperDownload()
    ensures Lower("DOWNLOAD:") == "download:"
  {
    var d := "DOWNLOAD:";
    var l := Lower(d);
    assert |l| == 9;
    forall i | 0 <= i < 9
      ensures l[i] == "download:"[i]
    {
    }
  }

  lemma CsvName()
    ensures NameAndOptions("csv") == Some(("csv", None))
  {
    NameRunOf("csv", "");
    assert "csv" + "" == "csv";
    assert WholeNameAndOptions("csv") == Some(("csv", None));
  }

  // ---- setCallback ----

  /** `[a-z0-9_.-]` under the `i` flag. */
  predicate CallbackChar(c: char) { IsAlnum(c) || c == '_' || c == '.' || c == '-' }

  /** `setCallback($type, $name)`: a falsy type clears the callback; the type
      must be javascript or html; the name keeps only its safe characters
      and must stay truthy. */
  function SetCallback(st: State, kind: string, name: string): (r: Result<State>)
    ensures !Truthy(Str(kind)) ==> r == Ok(st.(callback := None))
    ensures Truthy(Str(kind)) && kind != "javascript" && kind != "html" ==> r == Err(BadParameter("callback_type"))
    ensures r.Ok? && Truthy(Str(kind)) ==> ((kind == "javascript" || kind == "html")
      && r.value == st.(callback := Some(Callback(kind, Keep(name, CallbackChar))))
      && Truthy(Str(r.value.callback.value.name)))
    ensures (kind == "javascript" || kind == "html") && !Truthy(Str(Keep(name, CallbackChar))) ==>
      r == Err(BadParameter("callback"))
  {
    if !Truthy(Str(kind)) then Ok(st.(callback := None))
    else if kind != "javascript" && kind != "html" then Err(BadParameter("callback_type"))
    else
      var clean := Keep(name, CallbackChar);
      if !Truthy(Str(clean)) then Err(BadParameter("callback"))
      else Ok(st.(callback := Some(Callback(kind, clean))))
  }

  /** A stored callback name is made of safe characters only, and setting
      it again stores it unchanged. */
  lemma CallbackStable(st: State, kind: string, name: string)
    requires SetCallback(st, kind, name).Ok? && SetCallback(st, kind, name).value.callback.Some?
    ensures var cb := SetCallback(st, kind, name).value.callback.value;
      (forall i :: 0 <= i < |cb.name| ==> CallbackChar(cb.name[i]))
      && SetCallback(st, kind, cb.name) == SetCallback(st, kind, name)
  {
    KeepIdempotent(name, CallbackChar);
  }

  /** The 'frame' type is refused. */
  lemma FrameCallbackRefused(st: State, name: string)
    ensures SetCallback(st, "frame", name) == Err(BadParameter("callback_type"))
  {
  }

  // ---- send ----

  /** What `send` is given: data, or an exception with its code. */
  datatype Payload = Data(v: Value) | Raised(e: Structured.Thrown, code: int)

  /** What `send` does. */
  datatype Sent =
    | Script(text: string)               // "name(json);" for a javascript callback
    | CallbackRefused(error: Error)      // the JSON exception a bad callback gives
    | Rendered(renderer: string, code: int, payload: Payload, download: bool)
    | Diverges                           // the handler sends again, without end

  /** The exception `send` substitutes for an unknown format, a REST
      `BadParameter`. Its object handle is immaterial: a REST exception is
      always cast before it is encoded. */
  const FormatRefused := Raised(Structured.Thrown("bad_rest_parameter", None, None, true,
                                                  Object("HereYouGo\\REST\\Exception\\BadParameter", 0)), 400)

  /** The renderer class name for a format: a falsy format ("" or "0")
      means json; json and csv are spelt out, others get an upper-case
      first letter. */
  function RendererFor(format: string): (r: string)
    ensures var f := Lower(format); (!Truthy(Str(f)) || f == "json") ==> r == "JSON"
    ensures Lower(format) == "csv" ==> r == "CSV"
  {
    var f := Lower(format);
    var f := if !Truthy(Str(f)) then "json" else f;
    if f == "json" then "JSON" else if f == "csv" then "CSV" else UpperFirst(f)
  }

  /** The format "0" is falsy, so it is served as JSON. */
  lemma ZeroFormatIsJson()
    ensures RendererFor("0") == "JSON"
  {
    assert Lower("0") == "0";
  }

  /** The code an exception is sent with: its own when in [400, 600), else 500. */
  function ErrorCode(code: int): (r: int)
    ensures 400 <= r < 600
    ensures 400 <= code < 600 <==> r == code
  {
    if code < 400 || code >= 600 then 500 else code
  }

  /** What the engine knows of the class a format names in the renderer
      namespace: not declared anywhere, declared but abstract or not a
      renderer, or a concrete renderer. */
  datatype RendererClass = Undeclared | NotARenderer | Concrete

  const RendererNamespace: string := "HereYouGo\\REST\\Response\\"

  /** The class a download is wrapped in, resolved in the response's own
      namespace, where no class of that name is declared. */
  const DownloadClass: string := "HereYouGo\\REST\\RestFileDownload"

  /** The renderer `send` picks and the payload and code it renders, before
      any download wrapping. `classes` describes each renderer class; the
      JSON renderer the fallback uses ships with the framework. An
      undeclared class makes `class_exists`, through the framework's
      autoloader, throw ClassNotFound instead of answering false. */
  function Render(st: State, data: Payload, code: int, classes: string -> RendererClass): (r: Result<Sent>)
    ensures r.Err? <==> classes(RendererFor(st.format)) == Undeclared
    ensures r.Err? ==> r.error == ClassNotFound(RendererNamespace + RendererFor(st.format))
    ensures r.Ok? ==> r.value.Rendered? && !r.value.download
    ensures classes(RendererFor(st.format)) == Concrete ==>
      r.value.renderer == RendererFor(st.format) && r.value.payload == data
    ensures classes(RendererFor(st.format)) == NotARenderer ==> r == Ok(Rendered("JSON", 400, FormatRefused, false))
    ensures r.Ok? && r.value.payload.Raised? ==> 400 <= r.value.code < 600
    ensures r.Ok? && r.value.payload.Data? ==> r.value.code == code
  {
    var name := RendererFor(st.format);
    RendererInFramework(name);
    var found :- Autoloader.ClassExists(RendererNamespace + name, classes(name) != Undeclared);
    Ok(Choose(name, found && classes(name) == Concrete, data, code))
  }

  /** Every renderer class is looked up in the framework's namespace. */
  lemma RendererInFramework(name: string)
    ensures Autoloader.InFramework(RendererNamespace + name)
  {
    assert RendererNamespace[..10] == "HereYouGo\\";
    Autoloader.NamespacedInFramework(RendererNamespace, name);
  }

  /** The rendering with the named renderer when it is usable, else the
      JSON format refusal; an exception's code is brought into 400..599. */
  function Choose(name: string, usable: bool, data: Payload, code: int): (r: Sent)
    ensures r.Rendered? && !r.download
    ensures usable ==> r.renderer == name && r.payload == data
    ensures !usable ==> r == Rendered("JSON", 400, FormatRefused, false)
    ensures r.payload.Raised? ==> 400 <= r.code < 600
    ensures r.payload.Data? ==> r.code == code
  {
    var (renderer, payload) := if usable then (name, data) else ("JSON", FormatRefused);
    var code := match payload
      case Raised(_, c) => ErrorCode(c)
      case Data(_) => code;
    Rendered(renderer, code, payload, false)
  }

  /** One pass of `send`'s try block without a callback: the rendering, or
      the exception that reaches the handler. A requested download
      constructs `RestFileDownload`, which the autoloader cannot find. */
  function Attempt(st: State, data: Payload, code: int, classes: string -> RendererClass): (r: Result<Sent>)
    ensures r.Err? <==> st.download || classes(RendererFor(st.format)) == Undeclared
    ensures r.Ok? ==> r == Render(st, data, code, classes)
    ensures st.download && Render(st, data, code, classes).Ok? ==> r == Err(ClassNotFound(DownloadClass))
  {
    var x :- Render(st, data, code, classes);
    if st.download then Err(ClassNotFound(DownloadClass)) else Ok(x)
  }

  /** Whether a pass fails depends on the state alone, not on what is
      sent. */
  lemma AttemptFailsAlike(st: State, data: Payload, code: int, data': Payload, code': int,
                          classes: string -> RendererClass)
    ensures Attempt(st, data, code, classes).Err? == Attempt(st, data', code', classes).Err?
  {
  }

  /** What a javascript callback is given. The test at the head of the
      callback branch names `Exception` unqualified inside the namespace
      `HereYouGo\REST` with no import of that name, so it means
      `HereYouGo\REST\Exception`: only such an exception is cast to its
      array, and any other exception reaches the encoder as the object. */
  function CallbackValue(data: Payload): (v: Value)
    ensures data.Data? ==> v == data.v
    ensures data.Raised? && data.e.rest ==> v.Arr? && Lookup(v, StrKey("message")) == Some(Str(data.e.message))
    ensures data.Raised? && !data.e.rest ==> v == data.e.raw
  {
    match data
    case Data(v) => v
    case Raised(e, _) =>
      if e.rest then Structured.CastExceptionReadsBack(e); Structured.CastException(e)
      else e.raw
  }

  /** The callback branch of `send`: a script for a javascript callback,
      the callback refusal otherwise. A falsy name cannot be stored, since
      `setCallback` refuses it (Response.SetCallback); the source would
      print the refusal and then go on to the script, and the model gives
      the refusal alone. */
  function CallbackSent(cb: Callback, data: Payload, encode: Value -> string): (r: Sent)
    ensures r.Script? <==> Truthy(Str(cb.name)) && cb.kind == "javascript"
    ensures r.Script? ==> r.text == cb.name + "(" + encode(CallbackValue(data)) + ");"
    ensures r.CallbackRefused? ==> r.error == BadParameter("callback") || r.error == BadParameter("callback type")
  {
    if !Truthy(Str(cb.name)) then CallbackRefused(BadParameter("callback"))
    else if cb.kind == "javascript" then Script(cb.name + "(" + encode(CallbackValue(data)) + ");")
    else CallbackRefused(BadParameter("callback type"))
  }

  /** With a javascript callback, a REST exception is sent as its cast
      array, with its message readable, and any other exception (a
      `BadType` from the router, the loader's ClassNotFound) as the object
      itself. */
  lemma CallbackExceptionScript(st: State, e: Structured.Thrown, code: int, classes: string -> RendererClass,
                                encode: Value -> string)
    requires st.callback.Some? && st.callback.value.kind == "javascript" && Truthy(Str(st.callback.value.name))
    ensures e.rest ==>
      Send(st, Raised(e, code), code, classes, encode) == Script(st.callback.value.name + "(" + encode(Structured.CastException(e)) + ");")
    ensures !e.rest ==>
      Send(st, Raised(e, code), code, classes, encode) == Script(st.callback.value.name + "(" + encode(e.raw) + ");")
  {
  }

  /** `send` unrolled `fuel` times: a pass that throws is caught, and the
      exception is sent again, with code 500, on the same state. `thrown`
      gives what `castException` reads off a caught exception. None when
      the passes run out first. */
  function SendWithin(st: State, data: Payload, code: int, classes: string -> RendererClass,
                      encode: Value -> string, thrown: Error -> Structured.Thrown, fuel: nat): (r: Option<Sent>)
    ensures st.callback.Some? ==> r == Some(CallbackSent(st.callback.value, data, encode))
    ensures st.callback.None? && fuel > 0 && Attempt(st, data, code, classes).Ok? ==>
      r == Some(Attempt(st, data, code, classes).value)
    decreases fuel
  {
    match st.callback
    case Some(cb) => Some(CallbackSent(cb, data, encode))
    case None =>
      if fuel == 0 then None
      else match Attempt(st, data, code, classes)
        case Ok(x) => Some(x)
        case Err(e) => SendWithin(st, Raised(thrown(e), 500), 500, classes, encode, thrown, fuel - 1)
  }

  /** `send($data, $code)` as written, up to the renderer's output:
      `Diverges` when a pass throws, since the handler sends again on the
      same state and that pass throws alike. */
  function Send(st: State, data: Payload, code: int, classes: string -> RendererClass, encode: Value -> string): (r: Sent)
    ensures st.callback.None? ==> (r == Diverges <==> st.download || classes(RendererFor(st.format)) == Undeclared)
    ensures st.callback.None? && r != Diverges ==> Render(st, data, code, classes) == Ok(r)
    ensures st.callback.Some? ==> r.Script? || r.CallbackRefused?
  {
    match st.callback
    case Some(cb) => CallbackSent(cb, data, encode)
    case None =>
      match Attempt(st, data, code, classes)
      case Ok(x) => x
      case Err(_) => Diverges
  }

  /** `Diverges` is exactly the request no number of passes finishes, and
      any other outcome is the one every unrolling gives. */
  lemma {:induction false} SendIsChain(st: State, data: Payload, code: int, classes: string -> RendererClass,
                                       encode: Value -> string, thrown: Error -> Structured.Thrown, fuel: nat)
    ensures Send(st, data, code, classes, encode) == Diverges ==>
      SendWithin(st, data, code, classes, encode, thrown, fuel) == None
    ensures Send(st, data, code, classes, encode) != Diverges && fuel > 0 ==>
      SendWithin(st, data, code, classes, encode, thrown, fuel) == Some(Send(st, data, code, classes, encode))
    decreases fuel
  {
    if st.callback.None? && fuel > 0 {
      var a := Attempt(st, data, code, classes);
      if a.Err? {
        var data' := Raised(thrown(a.error), 500);
        AttemptFailsAlike(st, data, code, data', 500, classes);
        SendIsChain(st, data', 500, classes, encode, thrown, fuel - 1);
      }
    }
  }

  /** `render` as its comment intends: an unknown or abstract renderer
      falls back to the JSON format refusal. */
  function RenderIntended(st: State, data: Payload, code: int, classes: string -> RendererClass): (r: Sent)
    ensures r.Rendered? && !r.download
    ensures classes(RendererFor(st.format)) == Concrete ==>
      r.renderer == RendererFor(st.format) && r.payload == data
    ensures classes(RendererFor(st.format)) != Concrete ==> r == Rendered("JSON", 400, FormatRefused, false)
    ensures Render(st, data, code, classes).Ok? ==> Render(st, data, code, classes).value == r
  {
    var name := RendererFor(st.format);
    Choose(name, classes(name) == Concrete, data, code)
  }

  /** `send` as intended: an unknown renderer falls back to JSON, and a
      requested download wraps the chosen renderer in the download
      renderer; nothing diverges. */
  function SendIntended(st: State, data: Payload, code: int, classes: string -> RendererClass,
                        encode: Value -> string): (r: Sent)
    ensures st.callback.None? ==> r.Rendered? && r.download == st.download
    ensures st.callback.None? ==> var x := RenderIntended(st, data, code, classes);
      r.renderer == x.renderer && r.code == x.code && r.payload == x.payload
    ensures st.callback.Some? ==> r == Send(st, data, code, classes, encode)
    ensures r != Diverges
  {
    if st.callback.None? then
      var x := RenderIntended(st, data, code, classes);
      Rendered(x.renderer, x.code, x.payload, st.download)
    else Send(st, data, code, classes, encode)
  }

  /** Every download request without a callback diverges as written, and
      is rendered, flagged as a download, as intended. */
  lemma DownloadSendFails(st: State, data: Payload, code: int, classes: string -> RendererClass,
                          encode: Value -> string, thrown: Error -> Structured.Thrown, fuel: nat)
    requires st.callback.None? && st.download
    ensures Send(st, data, code, classes, encode) == Diverges
    ensures SendWithin(st, data, code, classes, encode, thrown, fuel) == None
    ensures SendIntended(st, data, code, classes, encode).Rendered?
    ensures SendIntended(st, data, code, classes, encode).download
  {
    SendIsChain(st, data, code, classes, encode, thrown, fuel);
  }

  /** A format whose renderer class is declared nowhere (such as "xml")
      diverges as written, and is refused as JSON with code 400 as
      intended. */
  lemma UnknownFormatDiverges(st: State, data: Payload, code: int, classes: string -> RendererClass,
                              encode: Value -> string, thrown: Error -> Structured.Thrown, fuel: nat)
    requires st.callback.None? && classes(RendererFor(st.format)) == Undeclared
    ensures Send(st, data, code, classes, encode) == Diverges
    ensures SendWithin(st, data, code, classes, encode, thrown, fuel) == None
    ensures SendIntended(st, data, code, classes, encode) == Rendered("JSON", 400, FormatRefused, st.download)
  {
    SendIsChain(st, data, code, classes, encode, thrown, fuel);
  }

  /** Where `send` as written finishes, the intended one does the same. */
  lemma SendAgreesWhenFinished(st: State, data: Payload, code: int, classes: string -> RendererClass,
                               encode: Value -> string)
    ensures Send(st, data, code, classes, encode) != Diverges ==>
      SendIntended(st, data, code, classes, encode) == Send(st, data, code, classes, encode)
  {
  }

  /** The html callback type is accepted when set but refused when sent. */
  lemma HtmlCallbackRefusedOnSend(st: State, name: string, data: Payload, code: int,
                                  classes: string -> RendererClass, encode: Value -> string)
    requires SetCallback(st, "html", name).Ok?
    ensures Send(SetCallback(st, "html", name).value, data, code, classes, encode) == CallbackRefused(BadParameter("callback type"))
  {
  }
}

=== FILE: router.dfy ===
/** `Router`: routes registered per method and path, the first matching
    route of the request's method table, and the binding of its action's
    parameters to the named captures. A registered path is a regular
    expression; this model reads the part of the syntax the routes use:
    literal characters, '.', a starred atom, and the ":name" captures. */
module Router {
  import opened Errors
  import opened Strs
  import opened Php
  import Assoc
  import HttpRequest

  // ---- Patterns ----

  /** One character position of the pattern: a literal, or '.'. */
  datatype Atom = Char(c: char) | Dot

  /** A compiled pattern piece: an atom, an atom under '*', or the named
      capture `(?<name>[^/]+)` a ":name" becomes. */
  datatype Piece = One(a: Atom) | Star(a: Atom) | Capture(name: string)

  /** `\w` without the `u` flag. */
  predicate IsWord(c: char) { IsAlnum(c) || c == '_' }

  /** Length of the run of word characters at the start. */
  function WordRun(s: string): (n: nat)
    ensures n <= |s| && forall i :: 0 <= i < n ==> IsWord(s[i])
    ensures n < |s| ==> !IsWord(s[n])
  {
    if |s| > 0 && IsWord(s[0]) then 1 + WordRun(s[1..]) else 0
  }

  function AtomOf(c: char): Atom {
    if c == '.' then Dot else Char(c)
  }

  /** The pattern a registered path stands for: each ":name" (the longest
      run of word characters) becomes a capture, '.' matches any character
      but a newline, and a character followed by '*' repeats. */
  function Compile(p: string): seq<Piece>
    decreases |p|
  {
    if |p| == 0 then []
    else if p[0] == ':' && WordRun(p[1..]) > 0 then
      var n := WordRun(p[1..]);
      [Capture(p[1..1 + n])] + Compile(p[1 + n..])
    else if |p| > 1 && p[1] == '*' then [Star(AtomOf(p[0]))] + Compile(p[2..])
    else [One(AtomOf(p[0]))] + Compile(p[1..])
  }

  /** A compiled pattern has no more pieces than the pattern has
      characters, every capture has a non-empty name of word characters, and
      a pattern without ':' has no capture. */
  lemma {:induction false} CompileShape(p: string)
    ensures |Compile(p)| <= |p|
    ensures forall i :: 0 <= i < |Compile(p)| && Compile(p)[i].Capture? ==> NameOk(Compile(p)[i].name)
    ensures ':' !in p ==> forall i :: 0 <= i < |Compile(p)| ==> !Compile(p)[i].Capture?
    decreases |p|
  {
    if |p| == 0 {
    } else if p[0] == ':' && WordRun(p[1..]) > 0 {
      var n := WordRun(p[1..]);
      CompileShape(p[1 + n..]);
      assert p[1..1 + n] == p[1..][..n];
    } else if |p| > 1 && p[1] == '*' {
      CompileShape(p[2..]);
      assert ':' !in p ==> ':' !in p[2..];
    } else {
      CompileShape(p[1..]);
      assert ':' !in p ==> ':' !in p[1..];
    }
  }

  /** A capture name: non-empty, word characters only. */
  predicate NameOk(n: string) {
    0 < |n| && forall j :: 0 <= j < |n| ==> IsWord(n[j])
  }

  predicate AtomMatches(a: Atom, c: char) {
    match a
    case Char(x) => c == x
    case Dot => c != '\n'
  }

  /** Length of the run of characters the atom matches at the start. */
  function AtomRun(a: Atom, s: string): (n: nat)
    ensures n <= |s| && forall i :: 0 <= i < n ==> AtomMatches(a, s[i])
    ensures n < |s| ==> !AtomMatches(a, s[n])
  {
    if |s| > 0 && AtomMatches(a, s[0]) then 1 + AtomRun(a, s[1..]) else 0
  }

  /** Length of the run of characters other than '/' at the start. */
  function SegmentRun(s: string): (n: nat)
    ensures n <= |s| && forall i :: 0 <= i < n ==> s[i] != '/'
    ensures n < |s| ==> s[n] == '/'
  {
    if |s| > 0 && s[0] != '/' then 1 + SegmentRun(s[1..]) else 0
  }

  /** The captures, by name, in pattern order. */
  type Captures = seq<(string, string)>

  /** The anchored match of the whole text, in PCRE's order: a repeat or a
      capture first takes as much as it can and gives back one character
      at a time. The closing `$` holds at the end of the text and also
      just before a final "\n". */
  function Match(ps: seq<Piece>, s: string): (r: Option<Captures>)
    ensures r.Some? ==> Captured(ps, r.value)
    decreases |ps|, 1, 0
  {
    if |ps| == 0 then (if s == "" || s == "\n" then Some([]) else None)
    else
      match ps[0]
      case One(a) => if |s| > 0 && AtomMatches(a, s[0]) then Match(ps[1..], s[1..]) else None
      case Star(a) => TryStar(ps[1..], s, AtomRun(a, s))
      case Capture(name) => TryCapture(name, ps[1..], s, SegmentRun(s))
  }

  /** The repeat takes `n` characters, then fewer. */
  function TryStar(rest: seq<Piece>, s: string, n: nat): (r: Option<Captures>)
    requires n <= |s|
    ensures r.Some? ==> Captured(rest, r.value)
    decreases |rest| + 1, 0, n
  {
    match Match(rest, s[n..])
    case Some(c) => Some(c)
    case None => if n == 0 then None else TryStar(rest, s, n - 1)
  }

  /** The capture takes `n` characters, then fewer, but at least one. */
  function TryCapture(name: string, rest: seq<Piece>, s: string, n: nat): (r: Option<Captures>)
    requires n <= SegmentRun(s)
    ensures r.Some? ==> |r.value| > 0 && r.value[0].0 == name
    ensures r.Some? ==> Captured([Capture(name)] + rest, r.value)
    decreases |rest| + 1, 0, n
  {
    if n == 0 then None
    else
      match Match(rest, s[n..])
      case Some(c) =>
        assert ([Capture(name)] + rest)[1..] == rest;
        assert forall i :: 0 <= i < n ==> s[..n][i] == s[i];
        Some([(name, s[..n])] + c)
      case None => TryCapture(name, rest, s, n - 1)
  }

  function CaptureNames(ps: seq<Piece>): (r: seq<string>)
  {
    if |ps| == 0 then []
    else if ps[0].Capture? then [ps[0].name] + CaptureNames(ps[1..])
    else CaptureNames(ps[1..])
  }

  /** One capture per named group, in pattern order, each a non-empty run
      of characters other than '/'. */
  predicate Captured(ps: seq<Piece>, c: Captures) {
    var names := CaptureNames(ps);
    |c| == |names|
    && (forall i :: 0 <= i < |c| ==> c[i].0 == names[i])
    && (forall i :: 0 <= i < |c| ==> 0 < |c[i].1| && '/' !in c[i].1)
  }

  /** PCRE refuses to compile a group name longer than 32 characters or
      starting with a digit, and two groups of the same name; such a route
      never matches. */
  predicate Compiles(ps: seq<Piece>) {
    var names := CaptureNames(ps);
    (forall i :: 0 <= i < |names| ==> 0 < |names[i]| <= 32 && !IsDigit(names[i][0]))
    && (forall i, j :: 0 <= i < j < |names| ==> names[i] != names[j])
  }

  // ---- Registration ----

  /** What reflection tells of one parameter of an action. */
  datatype Param = Param(name: string, optional: bool, default: Value)

  /** An action: its text, whether it is callable, and its parameters as
      reflection lists them (None where reflection fails). */
  datatype Action = Action(name: string, callable: bool, reflected: Option<seq<Param>>)

  datatype Route = Route(pattern: seq<Piece>, profile: Value, action: Action)

  /** A method's routes, keyed by registered path, in insertion order. */
  type Table = seq<(string, Route)>

  /** The method tables, keyed by lower-cased method. */
  type Routes = seq<(string, Table)>

  /** The registered path as written: one trailing '/' removed, which
      turns "/" into the empty path. */
  function StripAsWritten(p: string): (r: string)
    ensures |p| > 0 && p[|p| - 1] == '/' ==> r == p[..|p| - 1]
    ensures !(|p| > 0 && p[|p| - 1] == '/') ==> r == p
  {
    if |p| > 0 && p[|p| - 1] == '/' then p[..|p| - 1] else p
  }

  /** The registered path as intended: a trailing '/' removed, except from
      the root path "/" itself. */
  function Strip(p: string): (r: string)
    ensures |p| > 1 && p[|p| - 1] == '/' ==> r == p[..|p| - 1]
    ensures !(|p| > 1 && p[|p| - 1] == '/') ==> r == p
  {
    if |p| > 1 && p[|p| - 1] == '/' then p[..|p| - 1] else p
  }

  /** The paths of one `addRoute` call added to one method table; a path
      already there is replaced in place. */
  function AddPaths(table: Table, paths: seq<string>, profile: Value, action: Action): (r: Table)
    ensures |r| >= |table| && forall j :: 0 <= j < |table| ==> r[j].0 == table[j].0
    ensures forall k :: Assoc.HasKey(r, k) ==> Assoc.HasKey(table, k) || Given(paths, k)
    decreases |paths|
  {
    if |paths| == 0 then table
    else
      var p := Strip(paths[|paths| - 1]);
      var pre := AddPaths(table, paths[..|paths| - 1], profile, action);
      var r := Assoc.Put(pre, p, Route(Compile(p), profile, action));
      Assoc.PutKeepsPrefix(pre, p, Route(Compile(p), profile, action));
      assert forall j :: 0 <= j < |pre| ==> r[j].0 == Assoc.Keys(r)[j] == Assoc.Keys(pre)[j] == pre[j].0;
      GivenGrows(paths);
      r
  }

  /** Some given path strips to `k`. */
  predicate Given(paths: seq<string>, k: string) {
    exists i :: 0 <= i < |paths| && Strip(paths[i]) == k
  }

  lemma GivenGrows(paths: seq<string>)
    requires |paths| > 0
    ensures Given(paths, Strip(paths[|paths| - 1]))
    ensures forall k :: Given(paths[..|paths| - 1], k) ==> Given(paths, k)
  {
    var pre := paths[..|paths| - 1];
    forall k | Given(pre, k)
      ensures Given(paths, k)
    {
      var i :| 0 <= i < |pre| && Strip(pre[i]) == k;
      assert paths[i] == pre[i];
    }
  }

  /** The last path is put into the table the others give. */
  lemma AddPathsLast(table: Table, paths: seq<string>, profile: Value, action: Action)
    requires |paths| > 0
    ensures var q := Strip(paths[|paths| - 1]);
      AddPaths(table, paths, profile, action)
      == Assoc.Put(AddPaths(table, paths[..|paths| - 1], profile, action), q, Route(Compile(q), profile, action))
  {
  }

  /** Each path holds the route compiled from it. */
  lemma {:induction false} AddPathsStores(table: Table, paths: seq<string>, profile: Value, action: Action, i: nat)
    requires i < |paths|
    ensures Assoc.Get(AddPaths(table, paths, profile, action), Strip(paths[i])) == Some(Route(Compile(Strip(paths[i])), profile, action))
    decreases |paths|
  {
    var n := |paths| - 1;
    var pre := paths[..n];
    var q := Strip(paths[n]);
    var before := AddPaths(table, pre, profile, action);
    var k := Strip(paths[i]);
    AddPathsLast(table, paths, profile, action);
    if k == q {
      assert Assoc.Get(Assoc.Put(before, q, Route(Compile(q), profile, action)), k) == Some(Route(Compile(q), profile, action));
    } else {
      assert i != n;
      assert pre[i] == paths[i];
      AddPathsStores(table, pre, profile, action, i);
      assert Assoc.Get(Assoc.Put(before, q, Route(Compile(q), profile, action)), k) == Assoc.Get(before, k);
    }
  }

  /** Paths not given keep their routes. */
  lemma {:induction false} AddPathsKeeps(table: Table, paths: seq<string>, profile: Value, action: Action, p: string)
    requires forall j :: 0 <= j < |paths| ==> Strip(paths[j]) != p
    ensures Assoc.Get(AddPaths(table, paths, profile, action), p) == Assoc.Get(table, p)
    decreases |paths|
  {
    if |paths| > 0 {
      var pre := paths[..|paths| - 1];
      assert forall j :: 0 <= j < |pre| ==> pre[j] == paths[j];
      AddPathsKeeps(table, pre, profile, action, p);
    }
  }

  /** `addRoute($methods, $paths, $profile, $action)`: every lower-cased
      method gets a table (even when there are no paths), and the table
      gets every path. */
  function AddRoute(routes: Routes, methods: seq<string>, paths: seq<string>, profile: Value, action: Action): (r: Routes)
    ensures |r| >= |routes| && Assoc.Keys(r)[..|routes|] == Assoc.Keys(routes)
    ensures forall m :: Assoc.HasKey(r, m) ==> Assoc.HasKey(routes, m) || Names(methods, m)
    decreases |methods|
  {
    if |methods| == 0 then routes
    else
      var pre := AddRoute(routes, methods[..|methods| - 1], paths, profile, action);
      var m := Lower(methods[|methods| - 1]);
      var t := AddPaths(Assoc.Get(pre, m).GetOr([]), paths, profile, action);
      var r := Assoc.Put(pre, m, t);
      Assoc.PutKeepsPrefix(pre, m, t);
      Assoc.PrefixOfPrefix(Assoc.Keys(r), Assoc.Keys(pre), |routes|);
      AddRouteKeys(routes, methods, pre, t);
      r
  }

  /** Some method of the list names `m` once lower-cased. */
  predicate Names(methods: seq<string>, m: string) {
    exists i :: 0 <= i < |methods| && Lower(methods[i]) == m
  }

  /** The tables after one more method are those before it and the
      method's own. */
  lemma AddRouteKeys(routes: Routes, methods: seq<string>, pre: Routes, t: Table)
    requires |methods| > 0
    requires forall m :: Assoc.HasKey(pre, m) ==> Assoc.HasKey(routes, m) || Names(methods[..|methods| - 1], m)
    ensures forall m :: Assoc.HasKey(Assoc.Put(pre, Lower(methods[|methods| - 1]), t), m) ==>
      Assoc.HasKey(routes, m) || Names(methods, m)
  {
    var n := |methods| - 1;
    var r := Assoc.Put(pre, Lower(methods[n]), t);
    forall m | Assoc.HasKey(r, m) && !Assoc.HasKey(routes, m)
      ensures Names(methods, m)
    {
      if m != Lower(methods[n]) {
        assert Assoc.Get(r, m) == Assoc.Get(pre, m);
        var i :| 0 <= i < n && Lower(methods[..n][i]) == m;
        assert methods[..n][i] == methods[i];
      }
    }
  }

  /** Every given method has a table holding every given path's route. */
  lemma {:induction false} AddRouteStores(routes: Routes, methods: seq<string>, paths: seq<string>, profile: Value, action: Action, i: nat, j: nat)
    requires i < |methods| && j < |paths|
    ensures var t := Assoc.Get(AddRoute(routes, methods, paths, profile, action), Lower(methods[i]));
      t.Some? && Assoc.Get(t.value, Strip(paths[j])) == Some(Route(Compile(Strip(paths[j])), profile, action))
    decreases |methods|
  {
    var n := |methods| - 1;
    var pre := methods[..n];
    var m := Lower(methods[n]);
    if m == Lower(methods[i]) {
      AddPathsStores(Assoc.Get(AddRoute(routes, pre, paths, profile, action), m).GetOr([]), paths, profile, action, j);
    } else {
      assert pre[i] == methods[i];
      AddRouteStores(routes, pre, paths, profile, action, i, j);
    }
  }

  /** Methods not given keep their tables. */
  lemma {:induction false} AddRouteKeeps(routes: Routes, methods: seq<string>, paths: seq<string>, profile: Value, action: Action, m: string)
    requires forall i :: 0 <= i < |methods| ==> Lower(methods[i]) != m
    ensures Assoc.Get(AddRoute(routes, methods, paths, profile, action), m) == Assoc.Get(routes, m)
    decreases |methods|
  {
    if |methods| > 0 {
      var pre := methods[..|methods| - 1];
      assert forall i :: 0 <= i < |pre| ==> pre[i] == methods[i];
      AddRouteKeeps(routes, pre, paths, profile, action, m);
    }
  }

  /** Re-registering a path keeps the table's size: the route is replaced. */
  lemma ReAddKeepsSize(table: Table, path: string, profile: Value, action: Action)
    requires Assoc.HasKey(table, Strip(path))
    ensures |AddPaths(table, [path], profile, action)| == |table|
  {
    assert [path][..0] == [];
    assert AddPaths(table, [path][..0], profile, action) == table;
    var r := AddPaths(table, [path], profile, action);
    assert r == Assoc.Put(table, Strip(path), Route(Compile(Strip(path)), profile, action));
    assert |Assoc.Keys(r)| == |Assoc.Keys(table)|;
  }

  // ---- Routing ----

  /** The table `route` searches: the method's own when it has one, else
      the '*' table, else none. */
  function TableFor(routes: Routes, verb: string): (r: Table)
    ensures Assoc.HasKey(routes, verb) ==> r == Assoc.Get(routes, verb).value
    ensures !Assoc.HasKey(routes, verb) && Assoc.HasKey(routes, "*") ==> r == Assoc.Get(routes, "*").value
    ensures !Assoc.HasKey(routes, verb) && !Assoc.HasKey(routes, "*") ==> r == []
  {
    if Assoc.HasKey(routes, verb) then Assoc.Get(routes, verb).value
    else if Assoc.HasKey(routes, "*") then Assoc.Get(routes, "*").value
    else []
  }

  /** Does the route's pattern match the path? */
  predicate Matches(route: Route, path: string) {
    Compiles(route.pattern) && Match(route.pattern, path).Some?
  }

  /** The first route of the table (from `from` on) that matches. */
  function FirstMatch(table: Table, path: string, from: nat): (r: Option<nat>)
    requires from <= |table|
    ensures r.Some? ==> (from <= r.value < |table| && Matches(table[r.value].1, path)
      && forall j :: from <= j < r.value ==> !Matches(table[j].1, path))
    ensures r.None? ==> forall j :: from <= j < |table| ==> !Matches(table[j].1, path)
    decreases |table| - from
  {
    if from == |table| then None
    else if Matches(table[from].1, path) then Some(from)
    else FirstMatch(table, path, from + 1)
  }

  /** The action's arguments: each parameter takes the capture of its name,
      else its default when optional; a required parameter without a
      capture is missing. */
  /** The request supplies a parameter: captured, or optional. */
  predicate Supplied(caps: Captures, p: Param) {
    Assoc.HasKey(caps, p.name) || p.optional
  }

  /** The argument a parameter receives: its capture, else its default. */
  function ArgOf(caps: Captures, p: Param): Value {
    if Assoc.HasKey(caps, p.name) then Str(Assoc.Get(caps, p.name).value) else p.default
  }

  function Bind(verb: string, key: string, params: seq<Param>, caps: Captures): (r: Result<seq<Value>>)
    ensures r.Ok? ==> |r.value| == |params|
    ensures r.Ok? ==> forall i :: 0 <= i < |params| ==> r.value[i] == ArgOf(caps, params[i])
    ensures r.Ok? <==> forall i :: 0 <= i < |params| ==> Supplied(caps, params[i])
    ensures r.Err? ==> exists i :: (0 <= i < |params| && !Supplied(caps, params[i])
      && r.error == MissingArgument(verb, key, params[i].name)
      && forall j :: 0 <= j < i ==> Supplied(caps, params[j]))
  {
    if |params| == 0 then Ok([])
    else
      var p := params[0];
      if !Supplied(caps, p) then Err(MissingArgument(verb, key, p.name))
      else
        var rest := Bind(verb, key, params[1..], caps);
        BindCons(verb, key, params, caps, rest);
        match rest
        case Err(e) => Err(e)
        case Ok(vs) => Ok([ArgOf(caps, p)] + vs)
  }

  /** A supplied first parameter passes the rest's outcome through. */
  lemma BindCons(verb: string, key: string, params: seq<Param>, caps: Captures, rest: Result<seq<Value>>)
    requires |params| > 0 && Supplied(caps, params[0])
    requires rest.Ok? ==> |rest.value| == |params| - 1
    requires rest.Ok? ==> forall i :: 0 <= i < |params| - 1 ==> rest.value[i] == ArgOf(caps, params[1..][i])
    requires rest.Ok? <==> forall i :: 0 <= i < |params| - 1 ==> Supplied(caps, params[1..][i])
    requires rest.Err? ==> exists i :: (0 <= i < |params| - 1 && !Supplied(caps, params[1..][i])
      && rest.error == MissingArgument(verb, key, params[1..][i].name)
      && forall j :: 0 <= j < i ==> Supplied(caps, params[1..][j]))
    ensures rest.Ok? ==> forall i :: 0 <= i < |params| ==> ([ArgOf(caps, params[0])] + rest.value)[i] == ArgOf(caps, params[i])
    ensures rest.Ok? <==> forall i :: 0 <= i < |params| ==> Supplied(caps, params[i])
    ensures rest.Err? ==> exists i :: (0 <= i < |params| && !Supplied(caps, params[i])
      && rest.error == MissingArgument(verb, key, params[i].name)
      && forall j :: 0 <= j < i ==> Supplied(caps, params[j]))
  {
    forall i | 1 <= i < |params|
      ensures params[i] == params[1..][i - 1]
    {
    }
    if rest.Err? {
      var i :| 0 <= i < |params| - 1 && !Supplied(caps, params[1..][i])
        && rest.error == MissingArgument(verb, key, params[1..][i].name)
        && forall j :: 0 <= j < i ==> Supplied(caps, params[1..][j]);
      assert params[i + 1] == params[1..][i];
      forall j | 0 <= j < i + 1
        ensures Supplied(caps, params[j])
      {
        if j > 0 {
          assert params[j] == params[1..][j - 1];
        }
      }
    }
  }

  /** What routing does: run an action with its arguments, or nothing when
      no route matched and the event's default was prevented. */
  datatype Outcome = Ran(action: Action, args: seq<Value>) | Unrouted

  /** `route()` for the request's method and path. `prevented` says whether
      a handler of the no-matching-route event prevented its default, the
      exception. */
  function RouteRequest(routes: Routes, verb: string, path: string, prevented: bool): (r: Result<Outcome>)
    ensures FirstMatch(TableFor(routes, verb), path, 0).None? ==>
      r == (if prevented then Ok(Unrouted) else Err(NoMatchingRoute(verb, path)))
    ensures r.Ok? && r.value.Ran? ==> exists i :: (0 <= i < |TableFor(routes, verb)|
      && Matches(TableFor(routes, verb)[i].1, path) && r.value.action == TableFor(routes, verb)[i].1.action
      && forall j :: 0 <= j < i ==> !Matches(TableFor(routes, verb)[j].1, path))
  {
    var table := TableFor(routes, verb);
    match FirstMatch(table, path, 0)
    case None => if prevented then Ok(Unrouted) else Err(NoMatchingRoute(verb, path))
    case Some(i) =>
      var (key, route) := table[i];
      var caps := Match(route.pattern, path).value;
      if !route.action.callable then Ok(Ran(route.action, []))
      else
        match route.action.reflected
        case None => Err(BadType(route.action.name, "Reflexion compliant callable"))
        case Some(params) =>
          var args :- Bind(verb, key, params, caps);
          Ok(Ran(route.action, args))
  }

  /** A method with a table, even an empty one, never falls back to '*'. */
  lemma EmptyTableShadowsWildcard(routes: Routes, verb: string, path: string, prevented: bool)
    requires Assoc.Get(routes, verb) == Some([])
    ensures RouteRequest(routes, verb, path, prevented) == (if prevented then Ok(Unrouted) else Err(NoMatchingRoute(verb, path)))
  {
  }

  // ---- What patterns match ----

  /** A pattern of plain characters matches exactly its own text, alone or
      followed by one "\n". */
  lemma {:induction false} PlainPatternExact(t: string, s: string)
    requires forall i :: 0 <= i < |t| ==> t[i] != ':' && t[i] != '.' && t[i] != '*'
    ensures Match(Compile(t), s).Some? <==> s == t || s == t + "\n"
    decreases |t|
  {
    if |t| > 0 {
      assert Compile(t) == [One(Char(t[0]))] + Compile(t[1..]);
      assert Compile(t)[1..] == Compile(t[1..]);
      if |s| > 0 {
        PlainPatternExact(t[1..], s[1..]);
        if s[0] == t[0] && s[1..] == t[1..] {
          assert s == t;
        }
        if s[0] == t[0] && s[1..] == t[1..] + "\n" {
          assert s == t + "\n";
        }
        if s == t + "\n" {
          assert s[1..] == t[1..] + "\n";
        }
      }
    } else {
      assert Compile(t) == [];
    }
  }

  /** Segments: the pieces of "/a/:x/b" kind, where every capture fills a
      whole path segment. */
  datatype Segment = Fixed(text: string) | Named(name: string)

  predicate SegmentsOk(segs: seq<Segment>) {
    forall i :: 0 <= i < |segs| ==> SegmentOk(segs[i])
  }

  /** A fixed segment free of pattern characters and '/'; a named one a
      non-empty run of word characters. */
  predicate SegmentOk(seg: Segment) {
    match seg
    case Fixed(t) => forall j :: 0 <= j < |t| ==> t[j] !in {':', '.', '*', '/'}
    case Named(n) => |n| > 0 && forall j :: 0 <= j < |n| ==> IsWord(n[j])
  }

  /** The route text: each segment after a '/'. */
  function SegmentsText(segs: seq<Segment>): (r: string)
    ensures |r| == 0 || r[0] == '/'
  {
    if |segs| == 0 then ""
    else "/" + (match segs[0] case Fixed(t) => t case Named(n) => ":" + n) + SegmentsText(segs[1..])
  }

  /** A request path: the fixed segments as written, the named ones filled
      with the given values. */
  function Fill(segs: seq<Segment>, vals: seq<string>): (r: string)
    requires |vals| == |segs|
    ensures |r| == 0 || r[0] == '/'
  {
    if |segs| == 0 then ""
    else "/" + (match segs[0] case Fixed(t) => t case Named(_) => vals[0]) + Fill(segs[1..], vals[1..])
  }

  /** The captures such a path gives: the values of the named segments. */
  function Bound(segs: seq<Segment>, vals: seq<string>): Captures
    requires |vals| == |segs|
  {
    if |segs| == 0 then []
    else (if segs[0].Named? then [(segs[0].name, vals[0])] else []) + Bound(segs[1..], vals[1..])
  }

  lemma CompileAppend(a: string, b: string)
    requires |a| > 0 && forall i :: 0 <= i < |a| ==> a[i] !in {':', '.', '*'}
    requires |b| == 0 || b[0] != '*'
    ensures Compile(a + b) == Compile(a) + Compile(b)
    decreases |a|
  {
    var s := a + b;
    assert s[0] == a[0] && s[0] != ':';
    if |a| == 1 {
      assert s[1..] == b;
      assert !(|s| > 1 && s[1] == '*');
      assert Compile(s) == [One(AtomOf(a[0]))] + Compile(b);
      assert a[1..] == [];
      assert Compile(a) == [One(AtomOf(a[0]))];
    } else {
      assert s[1..] == a[1..] + b;
      assert s[1] == a[1] && a[1] != '*';
      assert Compile(s) == [One(AtomOf(a[0]))] + Compile(a[1..] + b);
      assert Compile(a) == [One(AtomOf(a[0]))] + Compile(a[1..]);
      CompileAppend(a[1..], b);
      Assoc.ConsAssoc(One(AtomOf(a[0])), Compile(a[1..]), Compile(b));
    }
  }

  lemma CompileCapture(name: string, b: string)
    requires |name| > 0 && forall j :: 0 <= j < |name| ==> IsWord(name[j])
    requires |b| == 0 || b[0] == '/'
    ensures Compile(":" + name + b) == [Capture(name)] + Compile(b)
  {
    var s := ":" + name + b;
    assert s[1..] == name + b;
    WordRunOf(name, b);
    assert s[1..1 + |name|] == name;
    assert s[1 + |name|..] == b;
  }

  lemma {:induction false} WordRunOf(name: string, b: string)
    requires forall j :: 0 <= j < |name| ==> IsWord(name[j])
    requires |b| == 0 || b[0] == '/'
    ensures WordRun(name + b) == |name|
    decreases |name|
  {
    if |name| > 0 {
      assert (name + b)[1..] == name[1..] + b;
      WordRunOf(name[1..], b);
    } else {
      assert name + b == b;
    }
  }

  /** The text of a segment route compiles piece by piece. */
  lemma {:induction false} CompileSegments(segs: seq<Segment>)
    requires SegmentsOk(segs)
    ensures Compile(SegmentsText(segs)) == CompileSegs(segs)
    decreases |segs|
  {
    if |segs| > 0 {
      SegmentsOkTail(segs);
      CompileSegments(segs[1..]);
      CompileSegmentsStep(segs);
    }
  }

  lemma SegmentsOkTail(segs: seq<Segment>)
    requires |segs| > 0 && SegmentsOk(segs)
    ensures SegmentsOk(segs[1..])
  {
    forall i | 0 <= i < |segs| - 1 ensures segs[1..][i] == segs[i + 1] { }
  }

  /** The first segment compiles ahead of the rest. */
  lemma CompileSegmentsStep(segs: seq<Segment>)
    requires |segs| > 0 && SegmentsOk(segs)
    requires Compile(SegmentsText(segs[1..])) == CompileSegs(segs[1..])
    ensures Compile(SegmentsText(segs)) == CompileSegs(segs)
  {
    assert SegmentOk(segs[0]);
    match segs[0]
    case Fixed(t) => CompileFixedStep(segs, t);
    case Named(n) => CompileNamedStep(segs, n);
  }

  lemma CompileFixedStep(segs: seq<Segment>, t: string)
    requires |segs| > 0 && segs[0].Fixed? && segs[0].text == t && SegmentOk(segs[0])
    requires Compile(SegmentsText(segs[1..])) == CompileSegs(segs[1..])
    ensures Compile(SegmentsText(segs)) == CompileSegs(segs)
  {
    var rest := SegmentsText(segs[1..]);
    var ps := CompileSegs(segs[1..]);
    var text := ("/" + t) + rest;
    assert SegmentsText(segs) == text;
    assert Compile(text) == Literals("/" + t) + ps by {
      CompileFixed(t, rest);
    }
    assert CompileSegs(segs) == Literals("/" + t) + ps;
  }

  lemma CompileNamedStep(segs: seq<Segment>, n: string)
    requires |segs| > 0 && segs[0].Named? && segs[0].name == n && SegmentOk(segs[0])
    requires Compile(SegmentsText(segs[1..])) == CompileSegs(segs[1..])
    ensures Compile(SegmentsText(segs)) == CompileSegs(segs)
  {
    var rest := SegmentsText(segs[1..]);
    var ps := CompileSegs(segs[1..]);
    var text := "/" + (":" + n + rest);
    assert SegmentsText(segs) == text;
    assert Compile(text) == Literals("/") + ([Capture(n)] + ps) by {
      CompileNamed(n, rest);
    }
    assert CompileSegs(segs) == (Literals("/") + [Capture(n)]) + ps;
    Assoc.SeqAssoc(Literals("/"), [Capture(n)], ps);
  }

  lemma CompileFixed(t: string, rest: string)
    requires forall j :: 0 <= j < |t| ==> t[j] !in {':', '.', '*', '/'}
    requires |rest| == 0 || rest[0] == '/'
    ensures Compile(("/" + t) + rest) == Literals("/" + t) + Compile(rest)
  {
    CompileAppend("/" + t, rest);
    CompilePlain("/" + t);
  }

  lemma CompileNamed(n: string, rest: string)
    requires |n| > 0 && forall j :: 0 <= j < |n| ==> IsWord(n[j])
    requires |rest| == 0 || rest[0] == '/'
    ensures Compile("/" + (":" + n + rest)) == Literals("/") + ([Capture(n)] + Compile(rest))
  {
    CompileAppend("/", ":" + n + rest);
    CompilePlain("/");
    CompileCapture(n, rest);
  }

  /** Plain text compiles to one literal per character. */
  lemma {:induction false} CompilePlain(t: string)
    requires forall i :: 0 <= i < |t| ==> t[i] !in {':', '.', '*'}
    ensures Compile(t) == Literals(t)
    decreases |t|
  {
    if |t| > 0 {
      CompilePlain(t[1..]);
    }
  }

  function Literals(t: string): (r: seq<Piece>)
    ensures |r| == |t|
  {
    if |t| == 0 then [] else [One(Char(t[0]))] + Literals(t[1..])
  }

  /** The pieces of a segment route, segment by segment. */
  function CompileSegs(segs: seq<Segment>): seq<Piece> {
    if |segs| == 0 then []
    else
      (match segs[0] case Fixed(t) => Literals("/" + t) case Named(n) => Literals("/") + [Capture(n)])
      + CompileSegs(segs[1..])
  }

  /** Literal pieces consume their own text. */
  lemma {:induction false} MatchLiterals(t: string, ps: seq<Piece>, s: string)
    ensures Match(Literals(t) + ps, t + s) == Match(ps, s)
    decreases |t|
  {
    if |t| > 0 {
      var qs := Literals(t) + ps;
      assert qs[0] == One(Char(t[0]));
      assert qs[1..] == Literals(t[1..]) + ps;
      assert (t + s)[1..] == t[1..] + s;
      MatchLiterals(t[1..], ps, s);
    } else {
      assert Literals(t) + ps == ps;
      assert t + s == s;
    }
  }

  lemma {:induction false} SegmentRunOf(v: string, s: string)
    requires forall j :: 0 <= j < |v| ==> v[j] != '/'
    requires |s| == 0 || s[0] == '/'
    ensures SegmentRun(v + s) == |v|
    decreases |v|
  {
    if |v| > 0 {
      assert (v + s)[1..] == v[1..] + s;
      SegmentRunOf(v[1..], s);
    } else {
      assert v + s == s;
    }
  }

  /** A capture takes a whole segment when the rest matches after it. */
  lemma MatchCapture(name: string, v: string, ps: seq<Piece>, s: string)
    requires |v| > 0 && forall j :: 0 <= j < |v| ==> v[j] != '/'
    requires |s| == 0 || s[0] == '/'
    requires Match(ps, s).Some?
    ensures Match([Capture(name)] + ps, v + s) == Some([(name, v)] + Match(ps, s).value)
  {
    SegmentRunOf(v, s);
    assert ([Capture(name)] + ps)[1..] == ps;
    assert (v + s)[|v|..] == s;
    assert (v + s)[..|v|] == v;
  }

  /** What the segment route needs of the values filling its named
      segments: non-empty and free of '/'. */
  predicate ValuesOk(segs: seq<Segment>, vals: seq<string>)
    requires |vals| == |segs|
  {
    forall i :: 0 <= i < |segs| && segs[i].Named? ==>
      |vals[i]| > 0 && forall j :: 0 <= j < |vals[i]| ==> vals[i][j] != '/'
  }

  lemma MatchFixedStep(segs: seq<Segment>, vals: seq<string>, t: string)
    requires |vals| == |segs| && |segs| > 0 && segs[0] == Fixed(t)
    requires Match(CompileSegs(segs[1..]), Fill(segs[1..], vals[1..])) == Some(Bound(segs[1..], vals[1..]))
    ensures Match(CompileSegs(segs), Fill(segs, vals)) == Some(Bound(segs, vals))
  {
    var rest := Fill(segs[1..], vals[1..]);
    var ps := CompileSegs(segs[1..]);
    assert CompileSegs(segs) == Literals("/" + t) + ps;
    assert Bound(segs, vals) == Bound(segs[1..], vals[1..]);
    assert Fill(segs, vals) == ("/" + t) + rest;
    MatchLiterals("/" + t, ps, rest);
  }

  lemma MatchNamedStep(segs: seq<Segment>, vals: seq<string>, n: string)
    requires |vals| == |segs| && |segs| > 0 && segs[0] == Named(n)
    requires |vals[0]| > 0 && forall j :: 0 <= j < |vals[0]| ==> vals[0][j] != '/'
    requires Match(CompileSegs(segs[1..]), Fill(segs[1..], vals[1..])) == Some(Bound(segs[1..], vals[1..]))
    ensures Match(CompileSegs(segs), Fill(segs, vals)) == Some(Bound(segs, vals))
  {
    var rest := Fill(segs[1..], vals[1..]);
    var ps := CompileSegs(segs[1..]);
    var qs := [Capture(n)] + ps;
    var t := vals[0] + rest;
    assert CompileSegs(segs) == Literals("/") + qs;
    assert Fill(segs, vals) == "/" + t;
    assert Bound(segs, vals) == [(n, vals[0])] + Bound(segs[1..], vals[1..]);
    assert Match(CompileSegs(segs), Fill(segs, vals)) == Match(qs, t) by {
      MatchLiterals("/", qs, t);
    }
    assert Match(qs, t) == Some([(n, vals[0])] + Bound(segs[1..], vals[1..])) by {
      MatchCapture(n, vals[0], ps, rest);
    }
  }

  lemma {:induction false} MatchSegs(segs: seq<Segment>, vals: seq<string>)
    requires |vals| == |segs| && ValuesOk(segs, vals)
    ensures Match(CompileSegs(segs), Fill(segs, vals)) == Some(Bound(segs, vals))
    decreases |segs|
  {
    if |segs| > 0 {
      assert ValuesOk(segs[1..], vals[1..]) by {
        forall i | 0 <= i < |segs| - 1 ensures segs[1..][i] == segs[i + 1] && vals[1..][i] == vals[i + 1] { }
      }
      MatchSegs(segs[1..], vals[1..]);
      match segs[0]
      case Fixed(t) => MatchFixedStep(segs, vals, t);
      case Named(n) => MatchNamedStep(segs, vals, n);
    }
  }

  /** A route made of fixed segments and ":name" segments matches a path
      whose named segments are filled with non-empty values free of '/',
      and captures exactly those values under their names. */
  lemma SegmentRouteCaptures(segs: seq<Segment>, vals: seq<string>)
    requires SegmentsOk(segs) && |vals| == |segs| && ValuesOk(segs, vals)
    ensures Match(Compile(SegmentsText(segs)), Fill(segs, vals)) == Some(Bound(segs, vals))
  {
    CompileSegments(segs);
    MatchSegs(segs, vals);
  }

  /** "/.*" is a catch-all: it matches every path that starts with '/' and
      holds no newline. */
  lemma CatchAll(path: string)
    requires |path| > 0 && path[0] == '/'
    requires forall i :: 0 <= i < |path| ==> path[i] != '\n'
    ensures Match(Compile("/.*"), path) == Some([])
  {
    var ps := Compile("/.*");
    assert "/.*"[1..] == ".*";
    assert ".*"[2..] == "";
    assert ps == [One(Char('/')), Star(Dot)];
    var x := path[1..];
    assert AtomRun(Dot, x) == |x|;
    assert ps[1..][1..] == [];
  }

  /** The root route as written: "/" is registered as the empty pattern,
      which matches only the empty path (or a lone "\n"), and the request path is never
      empty, so the root route never runs. */
  lemma RootRouteNeverMatches(raw: string, profile: Value, action: Action)
    ensures StripAsWritten("/") == ""
    ensures !Matches(Route(Compile(StripAsWritten("/")), profile, action), HttpRequest.NormalisePath(raw))
  {
    assert Compile("") == [];
  }

  /** The root route as intended: "/" keeps its pattern and matches the
      request path "/", alone or followed by one "\n", and nothing else. */
  lemma RootRouteMatches(path: string, profile: Value, action: Action)
    ensures Strip("/") == "/"
    ensures Matches(Route(Compile(Strip("/")), profile, action), path) <==> path == "/" || path == "/\n"
  {
    PlainPatternExact("/", path);
    assert Compile("/") == [One(Char('/'))];
  }
}

=== FILE: sanitizer.dfy ===
/** `Sanitizer::sanitizeInput`: what request input looks like once it has
    been cleaned. Array keys lose every character outside [A-Za-z0-9._-],
    values are cleaned recursively, numbers, booleans and null pass, other
    strings are re-encoded and have their tags neutralised, and anything
    else becomes null. The re-encoding (`iconv` after `mb_detect_encoding`,
    then `html_entity_decode`) is the uninterpreted parameter `decode`. */
module Sanitizer {
  import opened Errors
  import opened Strs
  import opened Php
  import Assoc

  // ---------------------------------------------------------------------
  // Numeric strings
  // ---------------------------------------------------------------------

  /** Where PHP 7's numeric-string scanner stands: before the number, after
      the sign, in the integer digits, after a leading '.', in the fraction,
      after 'e', after the exponent's sign, in the exponent digits. */
  datatype NumState = Lead | Sign | Whole | Dot | Fraction | E | ESign | Exponent

  /** One character of the scan; None rejects the string. */
  function Next(st: NumState, c: char): (r: Option<NumState>)
    ensures r.Some? ==> NumericChar(c)
  {
    match st
    case Lead =>
      if IsPcreSpace(c) then Some(Lead)
      else if c == '+' || c == '-' then Some(Sign)
      else if IsDigit(c) then Some(Whole)
      else if c == '.' then Some(Dot)
      else None
    case Sign =>
      if IsDigit(c) then Some(Whole) else if c == '.' then Some(Dot) else None
    case Whole =>
      if IsDigit(c) then Some(Whole)
      else if c == '.' then Some(Fraction)
      else if c == 'e' || c == 'E' then Some(E)
      else None
    case Dot => if IsDigit(c) then Some(Fraction) else None
    case Fraction =>
      if IsDigit(c) then Some(Fraction) else if c == 'e' || c == 'E' then Some(E) else None
    case E =>
      if c == '+' || c == '-' then Some(ESign) else if IsDigit(c) then Some(Exponent) else None
    case ESign => if IsDigit(c) then Some(Exponent) else None
    case Exponent => if IsDigit(c) then Some(Exponent) else None
  }

  /** The states a number may end in: some digit seen, no dangling 'e'. */
  predicate Accepting(st: NumState) { st == Whole || st == Fraction || st == Exponent }

  predicate ScanFrom(s: string, st: NumState)
    decreases |s|
  {
    if |s| == 0 then Accepting(st)
    else
      match Next(st, s[0])
      case None => false
      case Some(st') => ScanFrom(s[1..], st')
  }

  /** PHP 7's `is_numeric` on a string: leading whitespace, an optional
      sign, digits with at most one '.' (at least one digit), an optional
      exponent, and nothing after it. */
  predicate IsNumericString(s: string) { ScanFrom(s, Lead) }

  /** The characters a numeric string is made of. */
  predicate NumericChar(c: char) {
    IsPcreSpace(c) || IsDigit(c) || c == '+' || c == '-' || c == '.' || c == 'e' || c == 'E'
  }

  predicate AllNumeric(s: string) {
    forall i :: 0 <= i < |s| ==> NumericChar(s[i])
  }

  /** A scanned string holds only digits, signs, '.', 'e', 'E' and
      whitespace. */
  lemma {:induction false} NumericChars(s: string, st: NumState)
    requires ScanFrom(s, st)
    ensures AllNumeric(s)
    decreases |s|
  {
    if |s| > 0 {
      var st' := Next(st, s[0]).value;
      NumericChars(s[1..], st');
      assert forall i :: 1 <= i < |s| ==> s[i] == s[1..][i - 1];
    }
  }

  /** Strings PHP 7 takes for numbers. */
  lemma NumericExamples()
    ensures IsNumericString(" -1.5e3") && IsNumericString(".5") && IsNumericString("1.")
  {
    NumericExponent();
    NumericDots();
  }

  lemma NumericExponent()
    ensures IsNumericString(" -1.5e3")
  {
    assert " -1.5e3"[1..] == "-1.5e3" && "-1.5e3"[1..] == "1.5e3" && "1.5e3"[1..] == ".5e3";
    assert ".5e3"[1..] == "5e3" && "5e3"[1..] == "e3" && "e3"[1..] == "3" && "3"[1..] == "";
  }

  lemma NumericDots()
    ensures IsNumericString(".5") && IsNumericString("1.")
  {
    assert ".5"[1..] == "5" && "5"[1..] == "";
    assert "1."[1..] == "." && "."[1..] == "";
  }

  /** Strings PHP 7 does not: no digit, a dangling exponent, trailing
      whitespace. */
  lemma NonNumericExamples()
    ensures !IsNumericString(".") && !IsNumericString("1e") && !IsNumericString("1 ") && !IsNumericString("")
  {
    assert "."[1..] == "";
    assert "1e"[1..] == "e" && "e"[1..] == "";
    assert "1 "[1..] == " " && " "[1..] == "";
  }

  // ---------------------------------------------------------------------
  // Tag neutralising
  // ---------------------------------------------------------------------

  /** No '<' is directly followed by a non-whitespace character. */
  predicate TagFree(s: string) {
    forall i :: 0 <= i < |s| - 1 && s[i] == '<' ==> IsPcreSpace(s[i + 1])
  }

  /** `r` is `s` with some spaces inserted. */
  predicate Widened(r: string, s: string)
    decreases |r|
  {
    if |r| == 0 then |s| == 0
    else (|s| > 0 && r[0] == s[0] && Widened(r[1..], s[1..])) || (r[0] == ' ' && Widened(r[1..], s))
  }

  /** `preg_replace('<([^\s])', '< $1')` as the source runs it: a match
      consumes the character after the '<', so scanning resumes after it. */
  function NeutraliseAsWritten(s: string): (r: string)
    ensures Widened(r, s)
    ensures '<' !in s ==> r == s
    ensures |s| > 0 ==> |r| > 0 && r[0] == s[0]
    decreases |s|
  {
    if |s| == 0 then s
    else if |s| >= 2 && s[0] == '<' && !IsPcreSpace(s[1]) then
      var rest := NeutraliseAsWritten(s[2..]);
      var r := "< " + [s[1]] + rest;
      assert r[1..][1..] == [s[1]] + rest && ([s[1]] + rest)[1..] == rest;
      assert s[1..][1..] == s[2..];
      r
    else
      var rest := NeutraliseAsWritten(s[1..]);
      var r := [s[0]] + rest;
      assert r[1..] == rest;
      r
  }

  /** Tag neutralising as intended: a space after every '<' directly
      followed by a non-whitespace character, that character included in
      the next match. */
  function Neutralise(s: string): (r: string)
    ensures Widened(r, s)
    ensures TagFree(r)
    ensures '<' !in s ==> r == s
    ensures |s| > 0 ==> |r| > 0 && r[0] == s[0]
    decreases |s|
  {
    if |s| == 0 then s
    else if |s| >= 2 && s[0] == '<' && !IsPcreSpace(s[1]) then
      var rest := Neutralise(s[1..]);
      var r := "< " + rest;
      assert r[1..][1..] == rest;
      assert forall i :: 2 <= i < |r| ==> r[i] == rest[i - 2];
      r
    else
      var rest := Neutralise(s[1..]);
      var r := [s[0]] + rest;
      assert r[1..] == rest;
      assert forall i :: 1 <= i < |r| ==> r[i] == rest[i - 1];
      r
  }

  /** A string without a live tag is left alone. */
  lemma {:induction false} NeutraliseTagFree(s: string)
    requires TagFree(s)
    ensures Neutralise(s) == s
    decreases |s|
  {
    if |s| > 0 {
      assert TagFree(s[1..]) by {
        forall i | 0 <= i < |s[1..]| - 1 && s[1..][i] == '<'
          ensures IsPcreSpace(s[1..][i + 1])
        {
          assert s[i + 1] == '<';
        }
      }
      NeutraliseTagFree(s[1..]);
    }
  }

  /** Neutralising twice is neutralising once. */
  lemma NeutraliseIdempotent(s: string)
    ensures Neutralise(Neutralise(s)) == Neutralise(s)
  {
    NeutraliseTagFree(Neutralise(s));
  }

  /** As written, "<<a" comes out as "< <a": the second '<' was consumed
      as the first one's `$1`, so the tag "<a" survives. */
  lemma OverlapLeavesTag()
    ensures NeutraliseAsWritten("<<a") == "< <a"
    ensures !TagFree(NeutraliseAsWritten("<<a"))
    ensures Neutralise("<<a") == "< < a"
  {
    AsWrittenOverlap();
    IntendedOverlap();
    var r := "< <a";
    assert r[2] == '<' && r[3] == 'a';
  }

  lemma AsWrittenOverlap()
    ensures NeutraliseAsWritten("<<a") == "< <a"
  {
    assert "<<a"[2..] == "a";
    assert NeutraliseAsWritten("a") == "a";
  }

  lemma IntendedOverlap()
    ensures Neutralise("<<a") == "< < a"
  {
    assert "<<a"[1..] == "<a" && "<a"[1..] == "a";
    assert Neutralise("a") == "a";
    assert Neutralise("<a") == "< a";
  }

  // ---------------------------------------------------------------------
  // Keys
  // ---------------------------------------------------------------------

  /** The characters a key may keep. */
  predicate KeyChar(c: char) { IsAlnum(c) || c == '.' || c == '_' || c == '-' }

  predicate CleanText(s: string) {
    forall i :: 0 <= i < |s| ==> KeyChar(s[i])
  }

  predicate CleanKey(k: Key) { CleanText(KeyToString(k)) }

  /** `preg_replace('[^a-z0-9\._-]i', '', $k)`. */
  function StripKey(s: string): (r: string)
    ensures CleanText(r)
    ensures |r| <= |s|
    ensures r == s <==> CleanText(s)
    decreases |s|
  {
    if |s| == 0 then s
    else
      var rest := StripKey(s[1..]);
      assert CleanText(s) ==> CleanText(s[1..]);
      if KeyChar(s[0]) then
        var r := [s[0]] + rest;
        assert r[1..] == rest;
        assert r == s ==> rest == s[1..];
        assert rest == s[1..] ==> r == s;
        r
      else
        assert !CleanText(s);
        rest
  }

  /** The key an entry ends up under: the stripped text, normalised as an
      array key. */
  function NewKey(k: Key): Key {
    KeyOfString(StripKey(KeyToString(k)))
  }

  /** `$k !== $nk`: an int key never equals the stripped string, a string
      key does when nothing was stripped. */
  predicate Moves(k: Key) {
    k.IntKey? || StripKey(k.s) != k.s
  }

  /** The key PHP would have stored for its own text. */
  predicate NormalKey(k: Key) { KeyOfString(KeyToString(k)) == k }

  /** The text of an int is digits and perhaps a '-'. */
  lemma IntKeyClean(i: int)
    ensures CleanKey(IntKey(i))
  {
    var s := IntToString(i);
    if i < 0 {
      assert s == "-" + NatToString(-i);
      assert forall j :: 1 <= j < |s| ==> s[j] == NatToString(-i)[j - 1];
    }
  }

  /** Stripped keys are clean, and an int key keeps its own place. */
  lemma NewKeyClean(k: Key)
    ensures CleanKey(NewKey(k))
    ensures k.IntKey? ==> NewKey(k) == k
  {
    StringKeyRoundTrip(StripKey(KeyToString(k)));
    if k.IntKey? {
      IntKeyClean(k.i);
      IntKeyRoundTrip(k.i);
    }
  }

  /** A key that moves is never another entry's new key, unless it is an
      int key landing on itself. */
  lemma MovedKeyIsNotNew(k: Key, j: Key)
    requires Moves(k) && NewKey(j) == k
    ensures k.IntKey? && NewKey(k) == k
  {
    NewKeyClean(j);
    NewKeyClean(k);
  }

  /** A normal key that does not move stays where it is. */
  lemma StillKey(k: Key)
    requires NormalKey(k) && !Moves(k)
    ensures NewKey(k) == k && CleanKey(k)
  {
  }

  // ---------------------------------------------------------------------
  // Re-keying an array
  // ---------------------------------------------------------------------

  /** One pass of the loop body: drop the old entry when its key changed,
      then store the cleaned value under the new key. */
  function Step(acc: seq<(Key, Value)>, k: Key, sv: Value): seq<(Key, Value)> {
    Assoc.Put(if Moves(k) then Assoc.Remove(acc, k) else acc, NewKey(k), sv)
  }

  type StepFn = (seq<(Key, Value)>, Key, Value) -> seq<(Key, Value)>

  /** The loop from entry `n` on, `acc` being the array so far (the loop
      walks a snapshot `orig` of the input); `svs` are the cleaned values
      and `step` the loop body. */
  function Rekeyed(orig: seq<(Key, Value)>, svs: seq<Value>, n: nat, acc: seq<(Key, Value)>, step: StepFn): seq<(Key, Value)>
    requires n <= |orig| == |svs|
    decreases |orig| - n
  {
    if n == |orig| then acc else Rekeyed(orig, svs, n + 1, step(acc, orig[n].0, svs[n]), step)
  }

  /** The new keys of a prefix of entries. */
  function NewKeys(m: seq<(Key, Value)>): (r: seq<Key>)
    ensures |r| == |m|
    ensures forall i :: 0 <= i < |m| ==> r[i] == NewKey(m[i].0)
  {
    if |m| == 0 then [] else NewKeys(m[..|m| - 1]) + [NewKey(m[|m| - 1].0)]
  }

  /** No later entry of the first `n` lands on entry i's new key. */
  predicate LastFor(orig: seq<(Key, Value)>, i: nat, n: nat)
    requires i < n <= |orig|
  {
    forall j :: i < j < n ==> NewKey(orig[j].0) != NewKey(orig[i].0)
  }

  /** What the loop body does to the array's keys: it adds the new key, and
      drops the old one when that one moves. */
  ghost predicate KeysLaw(step: StepFn) {
    forall a, k, sv, K :: K in Assoc.Keys(step(a, k, sv)) ==>
      K == NewKey(k) || (K in Assoc.Keys(a) && (K == k ==> !Moves(k)))
  }

  /** What the loop body does to the array's values: the new key gets the
      value, other entries' new keys keep theirs. */
  ghost predicate ValuesLaw(step: StepFn, nk: Key -> Key) {
    (forall a, k, sv :: Assoc.Get(step(a, k, sv), nk(k)) == Some(sv)) &&
    (forall a, k, sv, j :: nk(j) != nk(k) ==> Assoc.Get(step(a, k, sv), nk(j)) == Assoc.Get(a, nk(j)))
  }

  /** `LastFor` for any key mapping `nk`. */
  predicate LastUnder(orig: seq<(Key, Value)>, i: nat, n: nat, nk: Key -> Key)
    requires i < n <= |orig|
  {
    forall j :: i < j < n ==> nk(orig[j].0) != nk(orig[i].0)
  }

  lemma LastForUnder(orig: seq<(Key, Value)>, i: nat, n: nat)
    requires i < n <= |orig| && LastFor(orig, i, n)
    ensures LastUnder(orig, i, n, NewKey)
  {
  }

  /** The loop body keeps keys distinct, and leaves the keys alone for a
      key that stays. */
  ghost predicate ShapeLaw(step: StepFn) {
    DistinctLaw(step) && StayLaw(step)
  }

  ghost predicate DistinctLaw(step: StepFn) {
    forall a, k, sv :: Assoc.DistinctKeys(a) ==> Assoc.DistinctKeys(step(a, k, sv))
  }

  ghost predicate StayLaw(step: StepFn) {
    forall a, k, sv :: NormalKey(k) && !Moves(k) && k in Assoc.Keys(a) ==> Assoc.Keys(step(a, k, sv)) == Assoc.Keys(a)
  }

  lemma StepKeys(acc: seq<(Key, Value)>, k: Key, sv: Value, K: Key)
    requires K in Assoc.Keys(Step(acc, k, sv))
    ensures K == NewKey(k) || (K in Assoc.Keys(acc) && (K == k ==> !Moves(k)))
  {
    var y := if Moves(k) then Assoc.Remove(acc, k) else acc;
    if K != NewKey(k) {
      assert K in Assoc.Keys(y);
      var x :| 0 <= x < |y| && y[x].0 == K;
      if Moves(k) {
        Assoc.RemoveSubset(acc, k, x);
        assert !Assoc.HasKey(y, k);
      }
    }
  }

  /** A step leaves alone every key other than its own new key, provided
      that key is itself some entry's new key. */
  lemma StepKeeps(acc: seq<(Key, Value)>, k: Key, sv: Value, j: Key)
    requires NewKey(j) != NewKey(k)
    ensures Assoc.Get(Step(acc, k, sv), NewKey(j)) == Assoc.Get(acc, NewKey(j))
  {
    if Moves(k) && NewKey(j) == k {
      MovedKeyIsNotNew(k, j);
    }
  }

  lemma StepDistinct(acc: seq<(Key, Value)>, k: Key, sv: Value)
    requires Assoc.DistinctKeys(acc)
    ensures Assoc.DistinctKeys(Step(acc, k, sv))
  {
    if Moves(k) {
      Assoc.RemoveKeepsDistinct(acc, k);
      Assoc.PutKeepsDistinct(Assoc.Remove(acc, k), NewKey(k), sv);
    } else {
      Assoc.PutKeepsDistinct(acc, NewKey(k), sv);
    }
  }

  /** The loop body of `sanitizeInput` obeys the three laws. */
  lemma StepLaws()
    ensures KeysLaw(Step) && ValuesLaw(Step, NewKey) && ShapeLaw(Step)
  {
    forall a, k, sv, K | K in Assoc.Keys(Step(a, k, sv))
      ensures K == NewKey(k) || (K in Assoc.Keys(a) && (K == k ==> !Moves(k)))
    {
      StepKeys(a, k, sv, K);
    }
    forall a, k, sv, j | NewKey(j) != NewKey(k)
      ensures Assoc.Get(Step(a, k, sv), NewKey(j)) == Assoc.Get(a, NewKey(j))
    {
      StepKeeps(a, k, sv, j);
    }
    forall a, k, sv | Assoc.DistinctKeys(a)
      ensures Assoc.DistinctKeys(Step(a, k, sv))
    {
      StepDistinct(a, k, sv);
    }
    forall a, k, sv | NormalKey(k) && !Moves(k) && k in Assoc.Keys(a)
      ensures Assoc.Keys(Step(a, k, sv)) == Assoc.Keys(a)
    {
      StillKey(k);
    }
  }

  /** Once every entry is visited, every key is clean. */
  lemma {:induction false} RekeyedClean(orig: seq<(Key, Value)>, svs: seq<Value>, n: nat, acc: seq<(Key, Value)>, step: StepFn)
    requires n <= |orig| == |svs| && KeysLaw(step)
    requires forall K :: K in Assoc.Keys(acc) ==> CleanKey(K) || K in Assoc.Keys(orig[n..])
    ensures forall K :: K in Assoc.Keys(Rekeyed(orig, svs, n, acc, step)) ==> CleanKey(K)
    decreases |orig| - n
  {
    if n < |orig| {
      var k := orig[n].0;
      var next := step(acc, k, svs[n]);
      assert Assoc.Keys(orig[n..]) == [k] + Assoc.Keys(orig[n + 1..]);
      NewKeyClean(k);
      forall K | K in Assoc.Keys(next)
        ensures CleanKey(K) || K in Assoc.Keys(orig[n + 1..])
      {
      }
      RekeyedClean(orig, svs, n + 1, next, step);
    }
  }

  /** For normal keys, once every entry is visited, every key is the new
      key of some entry. */
  lemma {:induction false} RekeyedKeys(orig: seq<(Key, Value)>, svs: seq<Value>, n: nat, acc: seq<(Key, Value)>, step: StepFn)
    requires n <= |orig| == |svs| && KeysLaw(step)
    requires forall i :: 0 <= i < |orig| ==> NormalKey(orig[i].0)
    requires forall K :: K in Assoc.Keys(acc) ==> K in NewKeys(orig[..n]) || K in Assoc.Keys(orig[n..])
    ensures forall K :: K in Assoc.Keys(Rekeyed(orig, svs, n, acc, step)) ==> K in NewKeys(orig)
    decreases |orig| - n
  {
    if n < |orig| {
      var k := orig[n].0;
      var next := step(acc, k, svs[n]);
      assert Assoc.Keys(orig[n..]) == [k] + Assoc.Keys(orig[n + 1..]);
      assert orig[..n + 1][..n] == orig[..n];
      assert NewKeys(orig[..n + 1]) == NewKeys(orig[..n]) + [NewKey(k)];
      forall K | K in Assoc.Keys(next)
        ensures K in NewKeys(orig[..n + 1]) || K in Assoc.Keys(orig[n + 1..])
      {
        if K == k && !Moves(k) {
          StillKey(k);
        }
      }
      RekeyedKeys(orig, svs, n + 1, next, step);
    } else {
      assert orig[..n] == orig;
    }
  }

  /** The last entry landing on a key decides its value. */
  lemma {:induction false} RekeyedValue(orig: seq<(Key, Value)>, svs: seq<Value>, n: nat, acc: seq<(Key, Value)>, step: StepFn, nk: Key -> Key, i: nat)
    requires n <= |orig| == |svs| && ValuesLaw(step, nk)
    requires i < |orig| && LastUnder(orig, i, |orig|, nk)
    requires i < n ==> Assoc.Get(acc, nk(orig[i].0)) == Some(svs[i])
    ensures Assoc.Get(Rekeyed(orig, svs, n, acc, step), nk(orig[i].0)) == Some(svs[i])
    decreases |orig| - n
  {
    if n < |orig| {
      var next := step(acc, orig[n].0, svs[n]);
      if i < n {
        assert nk(orig[n].0) != nk(orig[i].0);
      }
      RekeyedValue(orig, svs, n + 1, next, step, nk, i);
    }
  }

  /** Distinct keys stay distinct. */
  lemma {:induction false} RekeyedDistinct(orig: seq<(Key, Value)>, svs: seq<Value>, n: nat, acc: seq<(Key, Value)>, step: StepFn)
    requires n <= |orig| == |svs| && DistinctLaw(step)
    requires Assoc.DistinctKeys(acc)
    ensures Assoc.DistinctKeys(Rekeyed(orig, svs, n, acc, step))
    decreases |orig| - n
  {
    if n < |orig| {
      var next := step(acc, orig[n].0, svs[n]);
      assert Assoc.DistinctKeys(next);
      RekeyedDistinct(orig, svs, n + 1, next, step);
    }
  }

  /** Clean string keys keep their places. */
  lemma {:induction false} CleanKeysStay(orig: seq<(Key, Value)>, svs: seq<Value>, n: nat, acc: seq<(Key, Value)>, step: StepFn)
    requires n <= |orig| == |svs| && StayLaw(step)
    requires forall i :: 0 <= i < |orig| ==> NormalKey(orig[i].0) && !Moves(orig[i].0)
    requires forall j :: n <= j < |orig| ==> orig[j].0 in Assoc.Keys(acc)
    ensures Assoc.Keys(Rekeyed(orig, svs, n, acc, step)) == Assoc.Keys(acc)
    decreases |orig| - n
  {
    if n < |orig| {
      var k := orig[n].0;
      var next := step(acc, k, svs[n]);
      assert k in Assoc.Keys(acc);
      assert Assoc.Keys(next) == Assoc.Keys(acc);
      CleanKeysStay(orig, svs, n + 1, next, step);
    }
  }

  // ---------------------------------------------------------------------
  // Cleaning a value
  // ---------------------------------------------------------------------

  /** What cleaned input looks like: no objects, clean keys, no live tags
      in strings, all the way down. */
  predicate Safe(v: Value)
    decreases v
  {
    match v
    case Str(s) => TagFree(s)
    case Arr(items) => forall i :: 0 <= i < |items| ==> CleanKey(items[i].0) && Safe(items[i].1)
    case Object(_, _) => false
    case _ => true
  }

  /** Arrays as PHP builds them: distinct, normalised keys, all the way
      down. */
  predicate WellFormed(v: Value)
    decreases v
  {
    match v
    case Arr(items) =>
      Assoc.DistinctKeys(items) && forall i :: 0 <= i < |items| ==> NormalKey(items[i].0) && WellFormed(items[i].1)
    case _ => true
  }

  /** `sanitizeInput($input)`, `decode` standing for the re-encoding of a
      string. */
  function Sanitize(v: Value, decode: string -> string): (r: Value)
    ensures v.Null? || v.Bool? || v.Int? ==> r == v
    ensures v.Object? ==> r == Null
    ensures v.Str? ==> r.Str? && TagFree(r.s)
    ensures v.Str? && '<' !in decode(v.s) ==> r == v || r == Str(decode(v.s))
    ensures v.Arr? <==> r.Arr?
    decreases v
  {
    match v
    case Arr(items) =>
      var svs := seq(|items|, i requires 0 <= i < |items| => Sanitize(items[i].1, decode));
      Arr(Rekeyed(items, svs, 0, items, Step))
    case Str(s) =>
      if IsNumericString(s) then
        NumericChars(s, Lead);
        v
      else Str(Neutralise(decode(s)))
    case Object(_, _) => Null
    case _ => v
  }

  /** The cleaned values of an array's entries. */
  function CleanedValues(items: seq<(Key, Value)>, decode: string -> string): (svs: seq<Value>)
    ensures |svs| == |items|
    ensures forall i :: 0 <= i < |items| ==> svs[i] == Sanitize(items[i].1, decode)
  {
    seq(|items|, i requires 0 <= i < |items| => Sanitize(items[i].1, decode))
  }

  /** A cleaned array: every key is clean, and each new key holds the
      cleaned value of the last entry that landed on it. */
  lemma SanitizeArray(items: seq<(Key, Value)>, decode: string -> string)
    ensures Sanitize(Arr(items), decode).Arr?
    ensures forall K :: K in Assoc.Keys(Sanitize(Arr(items), decode).items) ==> CleanKey(K)
    ensures forall i :: 0 <= i < |items| && LastFor(items, i, |items|) ==>
      Assoc.Get(Sanitize(Arr(items), decode).items, NewKey(items[i].0)) == Some(Sanitize(items[i].1, decode))
  {
    var svs := CleanedValues(items, decode);
    assert Sanitize(Arr(items), decode).items == Rekeyed(items, svs, 0, items, Step);
    assert items[0..] == items;
    StepLaws();
    RekeyedClean(items, svs, 0, items, Step);
    forall i | 0 <= i < |items| && LastFor(items, i, |items|)
      ensures Assoc.Get(Rekeyed(items, svs, 0, items, Step), NewKey(items[i].0)) == Some(svs[i])
    {
      LastForUnder(items, i, |items|);
      RekeyedValue(items, svs, 0, items, Step, NewKey, i);
    }
  }

  /** For well-formed input the result holds only new keys of the input. */
  lemma SanitizeArrayKeys(items: seq<(Key, Value)>, decode: string -> string)
    requires forall i :: 0 <= i < |items| ==> NormalKey(items[i].0)
    ensures forall K :: K in Assoc.Keys(Sanitize(Arr(items), decode).items) ==> K in NewKeys(items)
  {
    var svs := CleanedValues(items, decode);
    assert Sanitize(Arr(items), decode).items == Rekeyed(items, svs, 0, items, Step);
    assert items[0..] == items;
    StepLaws();
    RekeyedKeys(items, svs, 0, items, Step);
  }

  /** An array whose keys are all clean keeps its keys in their order. */
  lemma SanitizeCleanArray(items: seq<(Key, Value)>, decode: string -> string)
    requires forall i :: 0 <= i < |items| ==> NormalKey(items[i].0) && !Moves(items[i].0)
    ensures Assoc.Keys(Sanitize(Arr(items), decode).items) == Assoc.Keys(items)
  {
    var svs := CleanedValues(items, decode);
    assert Sanitize(Arr(items), decode).items == Rekeyed(items, svs, 0, items, Step);
    StepLaws();
    CleanKeysStay(items, svs, 0, items, Step);
  }

  /** The last entry with a given new key among the first `n`. */
  lemma {:induction false} LastEntry(items: seq<(Key, Value)>, i: nat, n: nat) returns (j: nat)
    requires i < n <= |items|
    ensures i <= j < n && NewKey(items[j].0) == NewKey(items[i].0) && LastFor(items, j, n)
    decreases n - i
  {
    if LastFor(items, i, n) {
      j := i;
    } else {
      var j' :| i < j' < n && NewKey(items[j'].0) == NewKey(items[i].0);
      j := LastEntry(items, j', n);
    }
  }

  /** Every entry of a cleaned well-formed array has a clean key and holds
      the cleaned value of some entry of the input. */
  lemma EntryOrigin(items: seq<(Key, Value)>, decode: string -> string, x: nat) returns (j: nat)
    requires Assoc.DistinctKeys(items)
    requires forall i :: 0 <= i < |items| ==> NormalKey(items[i].0)
    requires x < |Sanitize(Arr(items), decode).items|
    ensures j < |items|
    ensures CleanKey(Sanitize(Arr(items), decode).items[x].0)
    ensures Sanitize(Arr(items), decode).items[x].1 == Sanitize(items[j].1, decode)
  {
    var svs := CleanedValues(items, decode);
    var r := Sanitize(Arr(items), decode).items;
    assert r == Rekeyed(items, svs, 0, items, Step);
    SanitizeArray(items, decode);
    SanitizeArrayKeys(items, decode);
    StepLaws();
    RekeyedDistinct(items, svs, 0, items, Step);
    assert r[x].0 in Assoc.Keys(r);
    var i :| 0 <= i < |items| && NewKeys(items)[i] == r[x].0;
    j := LastEntry(items, i, |items|);
    Assoc.GetAt(r, x);
  }

  /** Cleaning well-formed input yields safe output: nothing is left that
      is an object, a key with stray characters or a live tag. */
  lemma {:induction false} SanitizeSafe(v: Value, decode: string -> string)
    requires WellFormed(v)
    ensures Safe(Sanitize(v, decode))
    decreases v
  {
    if v.Arr? {
      var r := Sanitize(v, decode).items;
      forall x | 0 <= x < |r|
        ensures CleanKey(r[x].0) && Safe(r[x].1)
      {
        var j := EntryOrigin(v.items, decode, x);
        SanitizeSafe(v.items[j].1, decode);
      }
    }
  }
}

=== FILE: schema.dfy ===
/** `Model`: the schema of one entity class — its declared relations, its
    table, its own properties — and the data map that merges own, extension
    and relation-key properties under global checks. */
module Schema {
  import opened Errors
  import opened Strs
  import opened Php
  import opened Enums
  import opened Properties
  import Assoc
  import Autoloader

  /** A property declaration as reflection hands it over: name, the text
      after `@var`, and the declared default. */
  datatype FieldDecl = FieldDecl(name: string, definition: string, default: Value)

  datatype Model = Model(
    cls: string,
    relations: seq<(string, RelationKind)>,   // related class => One or Many, in declaration order
    table: string,
    own: seq<(string, Property)>)

  // -------------------------------------------------------------------
  // Annotations

  /** `^(one|many)\s+(.+)$` on the text of a `@has` annotation: the kind and
      the related class name. */
  function ParseHas(value: string): (r: Option<(RelationKind, string)>)
    ensures r.Some? ==> (r.value.0 == One || r.value.0 == Many) && |r.value.1| >= 1
    ensures r.Some? ==> exists w :: SpaceRun(w) && value == RelationName(r.value.0) + w + r.value.1
  {
    if |value| >= 3 && value[..3] == "one" && HasTarget(value[3..]) then
      var t := Target(value[3..]);
      SplitTarget(value, 3);
      Some((One, t))
    else if |value| >= 4 && value[..4] == "many" && HasTarget(value[4..]) then
      var t := Target(value[4..]);
      SplitTarget(value, 4);
      Some((Many, t))
    else None
  }

  /** The text after the keyword is the white-space run, then the target. */
  lemma SplitTarget(value: string, k: nat)
    requires k <= |value| && HasTarget(value[k..])
    ensures exists w :: SpaceRun(w) && value == value[..k] + w + Target(value[k..])
  {
    var w := TargetSplit(value[k..]);
    SplitAt(value, k, w, Target(value[k..]));
  }

  lemma SplitAt<T>(v: seq<T>, k: nat, w: seq<T>, t: seq<T>)
    requires k <= |v| && v[k..] == w + t
    ensures v == v[..k] + w + t
  {
    assert v == v[..k] + v[k..];
    Assoc.SeqAssoc(v[..k], w, t);
  }

  /** The white-space run `Target` leaves in front of the capture. */
  lemma TargetSplit(rest: string) returns (w: string)
    requires HasTarget(rest)
    ensures SpaceRun(w) && rest == w + Target(rest)
  {
    var t := Target(rest);
    w := rest[..|rest| - |t|];
    assert rest == w + rest[|rest| - |t|..];
  }

  /** A declaration written `one Class` or `many Class` reads back as
      that kind and class. */
  lemma HasRoundTrip(kind: RelationKind, other: string)
    requires kind in {One, Many} && |other| >= 1 && !IsPcreSpace(other[0])
    ensures ParseHas(RelationName(kind) + " " + other) == Some((kind, other))
  {
    var value := RelationName(kind) + " " + other;
    if kind == One {
      assert value[..3] == "one" && value[3..] == " " + other;
    } else {
      assert value[..3] != "one" by { assert value[1] == 'a'; }
      assert value[..4] == "many" && value[4..] == " " + other;
    }
  }

  /** What `\s+` matches: one or more white-space characters. */
  predicate SpaceRun(w: string) {
    |w| >= 1 && forall i :: 0 <= i < |w| ==> IsPcreSpace(w[i])
  }

  /** `\s+(.+)$` can match the rest: white space, then at least one character. */
  predicate HasTarget(rest: string) { |rest| >= 2 && IsPcreSpace(rest[0]) }

  /** The greedy split of `\s+(.+)$`: the longest white-space run that still
      leaves one character for the capture. */
  function Target(rest: string): (t: string)
    requires HasTarget(rest)
    ensures 1 <= |t| < |rest| && rest[|rest| - |t|..] == t
    ensures forall i :: 0 <= i < |rest| - |t| ==> IsPcreSpace(rest[i])
    ensures |t| > 1 ==> !IsPcreSpace(t[0])
    decreases |rest|
  {
    if |rest| >= 3 && IsPcreSpace(rest[1]) then Target(rest[1..]) else rest[1..]
  }

  /** The class-level annotations that matter: `@has` and `@table`. */
  datatype Tag = Tag(name: string, value: string)

  /** The table: the last `@table` annotation, else the class name plus "s". */
  function TableOf(cls: string, tags: seq<Tag>): (t: string)
    ensures (forall i :: 0 <= i < |tags| ==> tags[i].name != "table") ==> t == cls + "s"
    ensures |tags| > 0 && tags[|tags| - 1].name == "table" ==> t == tags[|tags| - 1].value
  {
    if |tags| == 0 then cls + "s"
    else if tags[|tags| - 1].name == "table" then tags[|tags| - 1].value
    else TableOf(cls, tags[..|tags| - 1])
  }

  /** A tag `ReadRelations` accepts: anything but `@has`, or a well-formed
      `@has` naming an existing class. */
  predicate GoodHas(tag: Tag, classes: set<string>) {
    tag.name == "has" ==> ParseHas(tag.value).Some? && ParseHas(tag.value).value.1 in classes
  }

  /** Relations as read: a PHP array of existing classes, each One or Many. */
  ghost predicate Related(rels: seq<(string, RelationKind)>, classes: set<string>) {
    && Assoc.DistinctKeys(rels)
    && forall c :: Assoc.Get(rels, c).Some? ==> c in classes && Assoc.Get(rels, c).value in {One, Many}
  }

  /** The exception a tag that fails GoodHas raises: Broken when it is
      malformed; for a related class that does not exist, the autoloader's
      ClassNotFound when the name is in the framework's namespace, since
      `class_exists` loads it, and Broken otherwise. */
  function HasError(cls: string, tag: Tag, classes: set<string>): (e: Error)
    requires !GoodHas(tag, classes)
    ensures e.ClassNotFound? ==> Autoloader.InFramework(e.cls) && e.cls !in classes
  {
    match ParseHas(tag.value)
    case None => Broken(cls, "malformed @has")
    case Some((_, other)) =>
      match Autoloader.ClassExists(other, false)
      case Err(e) => e
      case Ok(_) => Broken(cls, "related class " + other + " does not exist")
  }

  /** Tag `i` is the first one GoodHas refuses. */
  predicate FirstBad(tags: seq<Tag>, classes: set<string>, i: int) {
    0 <= i < |tags| && !GoodHas(tags[i], classes) && forall j :: 0 <= j < i ==> GoodHas(tags[j], classes)
  }

  /** `e` is the exception of the first tag GoodHas refuses. */
  ghost predicate RaisedBy(cls: string, tags: seq<Tag>, classes: set<string>, e: Error) {
    exists i :: FirstBad(tags, classes, i) && e == HasError(cls, tags[i], classes)
  }

  /** The `@has` annotations read in order: each must be well formed and
      name an existing class, and the first that does not raises its
      exception; a later one for the same class wins. */
  function ReadRelations(cls: string, tags: seq<Tag>, classes: set<string>): (r: Result<seq<(string, RelationKind)>>)
    ensures r.Ok? ==> Related(r.value, classes)
    ensures r.Ok? <==> forall i :: 0 <= i < |tags| ==> GoodHas(tags[i], classes)
    ensures r.Err? ==> RaisedBy(cls, tags, classes, r.error)
    decreases |tags|
  {
    if |tags| == 0 then Ok([])
    else
      var n := |tags| - 1;
      var tag := tags[n];
      AllGoodSnoc(tags, tags[..n], classes);
      match ReadRelations(cls, tags[..n], classes)
      case Err(e) =>
        FirstBadPrefix(cls, tags, classes, e);
        Err(e)
      case Ok(init) =>
        if GoodHas(tag, classes) then
          var (kind, other) := if tag.name == "has" then ParseHas(tag.value).value else (One, "");
          if tag.name != "has" then Ok(init)
          else
            RelatedPut(init, other, kind, classes);
            Ok(Assoc.Put(init, other, kind))
        else
          BadLast(cls, tags, classes);
          Err(HasError(cls, tag, classes))
  }

  /** A `@has` naming a framework class that does not exist raises the
      autoloader's ClassNotFound, not the Broken of the existence check. */
  lemma MissingRelatedClass(cls: string, tag: Tag, classes: set<string>, kind: RelationKind, other: string)
    requires tag.name == "has" && ParseHas(tag.value) == Some((kind, other))
    requires other !in classes && Autoloader.InFramework(other)
    ensures ReadRelations(cls, [tag], classes) == Err(ClassNotFound(other))
  {
    var tags := [tag];
    assert tags[..0] == [];
    assert !GoodHas(tags[0], classes);
  }

  /** When every tag but the last is accepted and the last is not, the
      last one's exception is raised. */
  lemma BadLast(cls: string, tags: seq<Tag>, classes: set<string>)
    requires |tags| > 0 && !GoodHas(tags[|tags| - 1], classes)
    requires forall i :: 0 <= i < |tags| - 1 ==> GoodHas(tags[i], classes)
    ensures RaisedBy(cls, tags, classes, HasError(cls, tags[|tags| - 1], classes))
  {
    assert FirstBad(tags, classes, |tags| - 1);
  }

  /** The first bad tag of all but the last tag is the first bad tag. */
  lemma FirstBadPrefix(cls: string, tags: seq<Tag>, classes: set<string>, e: Error)
    requires |tags| > 0 && RaisedBy(cls, tags[..|tags| - 1], classes, e)
    ensures RaisedBy(cls, tags, classes, e)
  {
    var init := tags[..|tags| - 1];
    var i :| FirstBad(init, classes, i) && e == HasError(cls, init[i], classes);
    assert forall j :: 0 <= j <= i ==> init[j] == tags[j];
    assert FirstBad(tags, classes, i);
  }

  lemma AllGoodSnoc(tags: seq<Tag>, init: seq<Tag>, classes: set<string>)
    requires |tags| > 0 && init == tags[..|tags| - 1]
    ensures (forall i :: 0 <= i < |tags| ==> GoodHas(tags[i], classes)) <==>
            (forall i :: 0 <= i < |init| ==> GoodHas(init[i], classes)) && GoodHas(tags[|tags| - 1], classes)
  {
    assert forall i :: 0 <= i < |init| ==> init[i] == tags[i];
  }

  lemma RelatedPut(rels: seq<(string, RelationKind)>, other: string, kind: RelationKind, classes: set<string>)
    requires Related(rels, classes) && other in classes && kind in {One, Many}
    ensures Related(Assoc.Put(rels, other, kind), classes)
  {
    Assoc.PutKeepsDistinct(rels, other, kind);
  }

  /** Each declaration parsed by the Property constructor, in order; the
      first one that fails is the error. */
  function ParseAll(cls: string, fields: seq<FieldDecl>, env: ConverterEnv): (r: Result<seq<Property>>)
    ensures r.Ok? ==> |r.value| == |fields|
    ensures r.Ok? ==> AllValid(r.value)
    ensures r.Ok? ==> forall i :: 0 <= i < |fields| ==> r.value[i].name == fields[i].name && r.value[i].default == fields[i].default
    decreases |fields|
  {
    if |fields| == 0 then Ok([])
    else
      var p :- Parse(cls, fields[0].name, fields[0].definition, fields[0].default, env);
      var rest :- ParseAll(cls, fields[1..], env);
      ParsedCons(p, rest, fields);
      Ok([p] + rest)
  }

  lemma ParsedCons(p: Property, rest: seq<Property>, fields: seq<FieldDecl>)
    requires |fields| > 0 && |rest| == |fields| - 1
    requires Valid(p) && AllValid(rest)
    requires p.name == fields[0].name && p.default == fields[0].default
    requires forall i :: 0 <= i < |rest| ==> rest[i].name == fields[1..][i].name && rest[i].default == fields[1..][i].default
    ensures AllValid([p] + rest)
    ensures forall i :: 0 <= i < |fields| ==> ([p] + rest)[i].name == fields[i].name && ([p] + rest)[i].default == fields[i].default
  {
    assert ([p] + rest)[1..] == rest;
    forall i | 1 <= i < |fields|
      ensures ([p] + rest)[i].name == fields[i].name && ([p] + rest)[i].default == fields[i].default
    {
      assert ([p] + rest)[i] == rest[i - 1];
      assert fields[i] == fields[1..][i - 1];
    }
  }

  ghost predicate AllValid(ps: seq<Property>) {
    |ps| == 0 || (Valid(ps[0]) && AllValid(ps[1..]))
  }

  lemma {:induction false} AllValidHas(ps: seq<Property>, p: Property)
    requires AllValid(ps) && p in ps
    ensures Valid(p)
  {
    if ps[0] != p {
      assert p in ps[1..];
      AllValidHas(ps[1..], p);
    }
  }

  /** What a property is filed under: its name or its column. */
  datatype FileKey = ByName | ByColumn

  function KeyOf(p: Property, key: FileKey): string {
    match key
    case ByName => p.name
    case ByColumn => p.column
  }

  /** Properties filed under `key`, as `$a[key($p)] = $p` in a loop: a later
      property with the same key replaces the earlier one in place. */
  function FileBy(props: seq<Property>, key: FileKey): (r: seq<(string, Property)>)
    ensures Assoc.DistinctKeys(r)
    ensures forall k :: Assoc.HasKey(r, k) <==> exists i :: 0 <= i < |props| && KeyOf(props[i], key) == k
    ensures forall k :: Assoc.Get(r, k).Some? ==> KeyOf(Assoc.Get(r, k).value, key) == k && Assoc.Get(r, k).value in props
    decreases |props|
  {
    if |props| == 0 then []
    else
      var init := FileBy(props[..|props| - 1], key);
      FileByStep(props, props[..|props| - 1], key, init);
      Assoc.Put(init, KeyOf(props[|props| - 1], key), props[|props| - 1])
  }

  lemma FileByStep(props: seq<Property>, prefix: seq<Property>, key: FileKey, init: seq<(string, Property)>)
    requires |props| > 0 && prefix == props[..|props| - 1]
    requires Assoc.DistinctKeys(init)
    requires forall k :: Assoc.HasKey(init, k) <==> exists i :: 0 <= i < |prefix| && KeyOf(prefix[i], key) == k
    requires forall k :: Assoc.Get(init, k).Some? ==> KeyOf(Assoc.Get(init, k).value, key) == k && Assoc.Get(init, k).value in prefix
    ensures var p := props[|props| - 1];
      var r := Assoc.Put(init, KeyOf(p, key), p);
      && Assoc.DistinctKeys(r)
      && (forall k :: Assoc.HasKey(r, k) <==> exists i :: 0 <= i < |props| && KeyOf(props[i], key) == k)
      && (forall k :: Assoc.Get(r, k).Some? ==> KeyOf(Assoc.Get(r, k).value, key) == k && Assoc.Get(r, k).value in props)
  {
    var p := props[|props| - 1];
    Assoc.PutKeepsDistinct(init, KeyOf(p, key), p);
    forall k
      ensures Assoc.HasKey(Assoc.Put(init, KeyOf(p, key), p), k) <==> exists i :: 0 <= i < |props| && KeyOf(props[i], key) == k
    {
      FileByHas(props, prefix, key, init, k);
    }
    forall k | Assoc.Get(Assoc.Put(init, KeyOf(p, key), p), k).Some?
      ensures Assoc.Get(Assoc.Put(init, KeyOf(p, key), p), k).value in props
    {
      FileByGet(props, prefix, key, init, k);
    }
  }

  lemma FileByHas(props: seq<Property>, prefix: seq<Property>, key: FileKey, init: seq<(string, Property)>, k: string)
    requires |props| > 0 && prefix == props[..|props| - 1]
    requires Assoc.HasKey(init, k) <==> exists i :: 0 <= i < |prefix| && KeyOf(prefix[i], key) == k
    ensures var p := props[|props| - 1];
      Assoc.HasKey(Assoc.Put(init, KeyOf(p, key), p), k) <==> exists i :: 0 <= i < |props| && KeyOf(props[i], key) == k
  {
    var p := props[|props| - 1];
    assert Assoc.HasKey(Assoc.Put(init, KeyOf(p, key), p), k) <==> Assoc.HasKey(init, k) || k == KeyOf(p, key) by {
      PutHas(init, KeyOf(p, key), p, k);
    }
    KeyedSnoc(props, prefix, key, k);
  }

  lemma PutHas<V>(m: seq<(string, V)>, a: string, v: V, k: string)
    ensures Assoc.HasKey(Assoc.Put(m, a, v), k) <==> Assoc.HasKey(m, k) || k == a
  {
    if k != a {
      assert Assoc.Get(Assoc.Put(m, a, v), k) == Assoc.Get(m, k);
    }
  }

  /** Some property of `props` has key `k` iff one of the prefix does or
      the last one does. */
  lemma KeyedSnoc(props: seq<Property>, prefix: seq<Property>, key: FileKey, k: string)
    requires |props| > 0 && prefix == props[..|props| - 1]
    ensures (exists i :: 0 <= i < |props| && KeyOf(props[i], key) == k) <==>
      (exists i :: 0 <= i < |prefix| && KeyOf(prefix[i], key) == k) || KeyOf(props[|props| - 1], key) == k
  {
    if exists i :: 0 <= i < |prefix| && KeyOf(prefix[i], key) == k {
      var i :| 0 <= i < |prefix| && KeyOf(prefix[i], key) == k;
      assert props[i] == prefix[i];
    }
    if exists i :: 0 <= i < |props| && KeyOf(props[i], key) == k {
      var i :| 0 <= i < |props| && KeyOf(props[i], key) == k;
      if i < |prefix| {
        assert props[i] == prefix[i];
      }
    }
  }

  lemma FileByGet(props: seq<Property>, prefix: seq<Property>, key: FileKey, init: seq<(string, Property)>, k: string)
    requires |props| > 0 && prefix == props[..|props| - 1]
    requires Assoc.Get(init, k).Some? ==> Assoc.Get(init, k).value in prefix
    requires Assoc.Get(Assoc.Put(init, KeyOf(props[|props| - 1], key), props[|props| - 1]), k).Some?
    ensures Assoc.Get(Assoc.Put(init, KeyOf(props[|props| - 1], key), props[|props| - 1]), k).value in props
  {
    var p := props[|props| - 1];
    if k != KeyOf(p, key) {
      var x := Assoc.Get(init, k).value;
      var i :| 0 <= i < |prefix| && prefix[i] == x;
      assert props[i] == x;
    }
  }

  /** The own properties, keyed by name. */
  function ReadFields(cls: string, fields: seq<FieldDecl>, env: ConverterEnv): (r: Result<seq<(string, Property)>>)
    ensures r.Ok? ==> Assoc.DistinctKeys(r.value)
    ensures r.Ok? ==> forall n :: Assoc.Get(r.value, n).Some? ==> Assoc.Get(r.value, n).value.name == n
    ensures r.Ok? ==> forall n :: Assoc.HasKey(r.value, n) <==> exists i :: 0 <= i < |fields| && fields[i].name == n
  {
    var props :- ParseAll(cls, fields, env);
    var r := FileBy(props, ByName);
    forall n
      ensures Assoc.HasKey(r, n) <==> exists i :: 0 <= i < |fields| && fields[i].name == n
    {
      SameName(props, fields, n);
    }
    Ok(r)
  }

  /** Properties read one per declaration are named as the declarations. */
  lemma SameName(props: seq<Property>, fields: seq<FieldDecl>, n: string)
    requires |props| == |fields| && forall i :: 0 <= i < |fields| ==> props[i].name == fields[i].name
    ensures (exists i :: 0 <= i < |props| && KeyOf(props[i], ByName) == n) <==>
            (exists i :: 0 <= i < |fields| && fields[i].name == n)
  {
    if exists i :: 0 <= i < |fields| && fields[i].name == n {
      var i :| 0 <= i < |fields| && fields[i].name == n;
      assert KeyOf(props[i], ByName) == n;
    }
  }

  /** Every own property is a valid descriptor. */
  lemma ReadFieldsValid(cls: string, fields: seq<FieldDecl>, env: ConverterEnv)
    requires ReadFields(cls, fields, env).Ok?
    ensures var own := ReadFields(cls, fields, env).value;
            forall n :: Assoc.Get(own, n).Some? ==> Valid(Assoc.Get(own, n).value)
  {
    var props := ParseAll(cls, fields, env).value;
    var own := FileBy(props, ByName);
    forall n | Assoc.Get(own, n).Some?
      ensures Valid(Assoc.Get(own, n).value)
    {
      AllValidHas(props, Assoc.Get(own, n).value);
    }
  }

  /** `new Model($class)` from the class's annotations and property
      declarations; `isEntity` is the subclass test on `Entity`. */
  function NewModel(cls: string, isEntity: bool, tags: seq<Tag>, fields: seq<FieldDecl>,
                    classes: set<string>, env: ConverterEnv): (r: Result<Model>)
    ensures !isEntity ==> r.Err?
    ensures r.Ok? ==> r.value.cls == cls && r.value.table == TableOf(cls, tags)
    ensures r.Ok? ==> forall i :: 0 <= i < |tags| ==> GoodHas(tags[i], classes)
    ensures r.Ok? ==> Assoc.DistinctKeys(r.value.relations) && Assoc.DistinctKeys(r.value.own) && Declared(r.value)
    ensures r.Ok? ==> forall n :: Assoc.Get(r.value.own, n).Some? ==> Valid(Assoc.Get(r.value.own, n).value)
    ensures r.Ok? ==> forall n :: Assoc.HasKey(r.value.own, n) <==> exists i :: 0 <= i < |fields| && fields[i].name == n
  {
    if !isEntity then Err(Broken(cls, "not a child class of Entity"))
    else
      var relations :- ReadRelations(cls, tags, classes);
      var own :- ReadFields(cls, fields, env);
      ReadFieldsValid(cls, fields, env);
      Ok(Model(cls, relations, TableOf(cls, tags), own))
  }

  // -------------------------------------------------------------------
  // Relations between two models

  /** `getRelationWith`: null when neither side declares the other, Broken
      when only one does or both say ONE; otherwise the side saying ONE holds
      the keys. */
  function RelationWith(a: Model, b: Model): (r: Result<Option<RelationKind>>)
    ensures !Assoc.HasKey(a.relations, b.cls) && !Assoc.HasKey(b.relations, a.cls) ==> r == Ok(None)
    ensures Assoc.HasKey(a.relations, b.cls) != Assoc.HasKey(b.relations, a.cls) ==> r.Err?
    ensures r.Ok? && r.value.Some? ==> r.value.value in {OneToMany, ManyToOne, ManyToMany}
    ensures Assoc.Get(a.relations, b.cls) == Some(One) && Assoc.Get(b.relations, a.cls) == Some(One) ==> r.Err?
  {
    RelationOf(Assoc.Get(a.relations, b.cls), Assoc.Get(b.relations, a.cls), a.cls, b.cls)
  }

  /** The relation kind from the two declarations `ab` (in class `ca`,
      about `cb`) and `ba` (the other way round). */
  function RelationOf(ab: Option<RelationKind>, ba: Option<RelationKind>, ca: string, cb: string): Result<Option<RelationKind>> {
    if ab.None? && ba.None? then Ok(None)
    else if ab.None? then Err(Broken(ca, "has no relation with " + cb))
    else if ba.None? then Err(Broken(cb, "has no relation with " + ca))
    else if ab.value == One && ba.value == One then Err(Broken(ca, "cannot have one to one relation with " + cb))
    else if ab.value == One then Ok(Some(OneToMany))
    else if ba.value == One then Ok(Some(ManyToOne))
    else Ok(Some(ManyToMany))
  }

  /** Swapping the two declarations mirrors the kind. */
  lemma RelationOfDual(ab: Option<RelationKind>, ba: Option<RelationKind>, ca: string, cb: string)
    requires ab.Some? ==> ab.value in {One, Many}
    requires ba.Some? ==> ba.value in {One, Many}
    ensures RelationOf(ab, ba, ca, cb) == Ok(Some(OneToMany)) <==> RelationOf(ba, ab, cb, ca) == Ok(Some(ManyToOne))
    ensures RelationOf(ab, ba, ca, cb) == Ok(Some(ManyToMany)) <==> RelationOf(ba, ab, cb, ca) == Ok(Some(ManyToMany))
    ensures RelationOf(ab, ba, ca, cb) == Ok(None) <==> RelationOf(ba, ab, cb, ca) == Ok(None)
    ensures RelationOf(ab, ba, ca, cb).Err? <==> RelationOf(ba, ab, cb, ca).Err?
  {
  }

  /** Declarations read from the models (`relations` only ever holds
      One or Many). */
  ghost predicate Declared(m: Model) {
    forall c :: Assoc.Get(m.relations, c).Some? ==> Assoc.Get(m.relations, c).value in {One, Many}
  }

  /** The two directions of a relation are mirror images: A->B is
      ONE_TO_MANY iff B->A is MANY_TO_ONE, MANY_TO_MANY and "none" are
      symmetric, and so is being Broken. */
  lemma RelationWithDual(a: Model, b: Model)
    requires Declared(a) && Declared(b)
    ensures RelationWith(a, b) == Ok(Some(OneToMany)) <==> RelationWith(b, a) == Ok(Some(ManyToOne))
    ensures RelationWith(a, b) == Ok(Some(ManyToMany)) <==> RelationWith(b, a) == Ok(Some(ManyToMany))
    ensures RelationWith(a, b) == Ok(None) <==> RelationWith(b, a) == Ok(None)
    ensures RelationWith(a, b).Err? <==> RelationWith(b, a).Err?
  {
    var ab, ba := Assoc.Get(a.relations, b.cls), Assoc.Get(b.relations, a.cls);
    assert ab.Some? ==> ab.value in {One, Many};
    assert ba.Some? ==> ba.value in {One, Many};
    RelationOfDual(ab, ba, a.cls, b.cls);
  }

  /** `getRelationTableWith`: both table names in `sort` order, concatenated. */
  function RelationTable(a: Model, b: Model): (t: string)
    ensures t == a.table + b.table || t == b.table + a.table
    ensures Less(a.table, b.table) ==> t == a.table + b.table
  {
    LessAsymmetric(a.table, b.table);
    if Less(b.table, a.table) then b.table + a.table else a.table + b.table
  }

  /** The junction table's name does not depend on which side asks. */
  lemma RelationTableSymmetric(a: Model, b: Model)
    ensures RelationTable(a, b) == RelationTable(b, a)
  {
    LessTotal(a.table, b.table);
    LessAsymmetric(a.table, b.table);
  }

  // -------------------------------------------------------------------
  // The data map

  /** What the 'datamap' event hands back: not an array, or its elements
      (None: an element that is not a Property). */
  datatype EventOutput = NotAnArray | Items(items: seq<Option<Property>>)

  /** Everything `getDataMap` consults besides the model itself. */
  datatype DataMapEnv = DataMapEnv(
    /** `$other::model()->getDataMap(false)` for each related class. */
    otherMap: string -> Result<seq<Property>>,
    /** The result of triggering the 'datamap' event for this class. */
    extension: EventOutput)

  /** The memoised parts of a model: relation keys and extension properties,
      each null until a call adds at least one entry. */
  datatype ModelState = ModelState(
    model: Model,
    relation: Option<seq<(string, Property)>>,
    extension: Option<seq<(string, Property)>>)

  function Fresh(m: Model): ModelState { ModelState(m, None, None) }

  function Part(p: Option<seq<(string, Property)>>): seq<(string, Property)> { p.GetOr([]) }

  /** Each part is a PHP array, and neither memoised part reuses an own
      property name. */
  ghost predicate Coherent(st: ModelState) {
    && Assoc.DistinctKeys(st.model.own)
    && Assoc.DistinctKeys(Part(st.relation))
    && Assoc.DistinctKeys(Part(st.extension))
    && (forall n :: Assoc.HasKey(st.model.own, n) ==> !Assoc.HasKey(Part(st.relation), n) && !Assoc.HasKey(Part(st.extension), n))
  }

  lemma FreshCoherent(m: Model)
    requires Assoc.DistinctKeys(m.own)
    ensures Coherent(Fresh(m))
  {
    assert forall n :: !Assoc.HasKey(Part(None), n);
  }

  /** One phase's running state: the part being filled and the names in use. */
  type Acc = (Option<seq<(string, Property)>>, seq<string>)

  /** What a phase promises about `acc` grown into `r`: the part stays an
      array, names are only appended, and every key it gains was free. */
  ghost predicate Grows(acc: Acc, r: Acc) {
    && (Assoc.DistinctKeys(Part(acc.0)) ==> Assoc.DistinctKeys(Part(r.0)))
    && |r.1| >= |acc.1| && r.1[..|acc.1|] == acc.1
    && (forall n :: Assoc.HasKey(Part(r.0), n) ==> Assoc.HasKey(Part(acc.0), n) || n !in acc.1)
    && (forall n :: Assoc.HasKey(Part(acc.0), n) ==> Assoc.HasKey(Part(r.0), n))
    && (acc.0.Some? ==> r.0.Some?)
  }

  /** Adds one property under a name not yet in use. */
  function AddOne(cls: string, p: Property, acc: Acc): (r: Result<Acc>)
    ensures r.Ok? <==> p.name !in acc.1
    ensures r.Ok? ==> Grows(acc, r.value) && r.value.0.Some? && Assoc.Get(Part(r.value.0), p.name) == Some(p)
  {
    if p.name in acc.1 then Err(Broken(cls, "relation key name " + p.name + " is already reserved for another property"))
    else
      var part := Assoc.Put(Part(acc.0), p.name, p);
      assert Assoc.DistinctKeys(Part(acc.0)) ==> Assoc.DistinctKeys(part) by {
        if Assoc.DistinctKeys(Part(acc.0)) { Assoc.PutKeepsDistinct(Part(acc.0), p.name, p); }
      }
      assert (acc.1 + [p.name])[..|acc.1|] == acc.1;
      Ok((Some(part), acc.1 + [p.name]))
  }

  lemma GrowsTrans(a: Acc, b: Acc, c: Acc)
    requires Grows(a, b) && Grows(b, c)
    ensures Grows(a, c)
  {
    assert c.1[..|a.1|] == c.1[..|b.1|][..|a.1|];
    forall n | n in a.1 ensures n in b.1 {
      var i :| 0 <= i < |a.1| && a.1[i] == n;
      assert b.1[i] == n;
    }
  }

  lemma GrowsRefl(a: Acc)
    ensures Grows(a, a)
  {
    assert a.1[..|a.1|] == a.1;
  }

  /** Every primary property of `props` has its relation key in `part`. */
  ghost predicate KeysIn(props: seq<Property>, other: string, part: seq<(string, Property)>) {
    forall i :: 0 <= i < |props| && props[i].primary ==> Assoc.HasKey(part, RelationProperty(props[i], other).name)
  }

  /** The relation keys one ONE-side related class contributes: one per
      primary property of its data map. */
  function AddKeys(cls: string, other: string, props: seq<Property>, acc: Acc): (r: Result<Acc>)
    ensures r.Ok? ==> Grows(acc, r.value)
    ensures r.Ok? ==> KeysIn(props, other, Part(r.value.0))
    decreases |props|
  {
    if |props| == 0 then GrowsRefl(acc); Ok(acc)
    else if !props[0].primary then
      var r :- AddKeys(cls, other, props[1..], acc);
      KeysInCons(props, other, Part(r.0));
      Ok(r)
    else
      var acc1 :- AddOne(cls, RelationProperty(props[0], other), acc);
      var r :- AddKeys(cls, other, props[1..], acc1);
      GrowsTrans(acc, acc1, r);
      KeysInCons(props, other, Part(r.0));
      Ok(r)
  }

  lemma KeysInCons(props: seq<Property>, other: string, part: seq<(string, Property)>)
    requires |props| > 0
    ensures KeysIn(props, other, part) <==>
      (props[0].primary ==> Assoc.HasKey(part, RelationProperty(props[0], other).name)) && KeysIn(props[1..], other, part)
  {
    assert forall i :: 0 < i < |props| ==> props[i] == props[1..][i - 1];
  }

  /** The relation phase: each ONE-side relation adds its keys; MANY-side
      relations add none. */
  function RelationPhase(cls: string, rels: seq<(string, RelationKind)>, otherMap: string -> Result<seq<Property>>,
                         acc: Acc, known: seq<Value>): (r: Result<Acc>)
    ensures r.Ok? ==> Grows(acc, r.value)
    ensures r.Ok? && (forall i :: 0 <= i < |rels| ==> rels[i].1 == Many) ==> r.value == acc
    decreases |rels|
  {
    if |rels| == 0 then GrowsRefl(acc); Ok(acc)
    else
      var (other, kind) := rels[0];
      if !InArray(Str(RelationName(kind)), known) then Err(Broken(cls, "unknown relation type with " + other))
      else if kind == Many then RelationPhase(cls, rels[1..], otherMap, acc, known)
      else
        var props :- otherMap(other);
        var acc1 :- AddKeys(cls, other, props, acc);
        var r :- RelationPhase(cls, rels[1..], otherMap, acc1, known);
        GrowsTrans(acc, acc1, r);
        Ok(r)
  }

  /** The extension phase: the event must give an array of properties, each
      under a name not yet in use. */
  function ExtensionPhase(cls: string, out: EventOutput, acc: Acc): (r: Result<Acc>)
    ensures out.NotAnArray? ==> r.Err?
    ensures out.Items? && (exists i :: 0 <= i < |out.items| && out.items[i].None?) ==> r.Err?
    ensures r.Ok? ==> Grows(acc, r.value)
    ensures r.Ok? && out.Items? && |out.items| == 0 ==> r.value == acc
  {
    if out.NotAnArray? || exists i :: 0 <= i < |out.items| && out.items[i].None? then
      Err(Broken(cls, "event returned properties is not an array of Property"))
    else
      AddExtensions(cls, out.items, acc)
  }

  /** Every item's name is a key of `part`. */
  ghost predicate NamesIn(items: seq<Option<Property>>, part: seq<(string, Property)>)
    requires forall i :: 0 <= i < |items| ==> items[i].Some?
  {
    forall i :: 0 <= i < |items| ==> Assoc.HasKey(part, items[i].value.name)
  }

  function AddExtensions(cls: string, items: seq<Option<Property>>, acc: Acc): (r: Result<Acc>)
    requires forall i :: 0 <= i < |items| ==> items[i].Some?
    ensures r.Ok? ==> Grows(acc, r.value)
    ensures r.Ok? ==> NamesIn(items, Part(r.value.0))
    ensures r.Ok? && |items| == 0 ==> r.value == acc
    decreases |items|
  {
    if |items| == 0 then GrowsRefl(acc); Ok(acc)
    else
      var acc1 :- AddOne(cls, items[0].value, acc);
      var r :- AddExtensions(cls, items[1..], acc1);
      GrowsTrans(acc, acc1, r);
      NamesInCons(items, Part(r.0));
      Ok(r)
  }

  lemma NamesInCons(items: seq<Option<Property>>, part: seq<(string, Property)>)
    requires |items| > 0 && forall i :: 0 <= i < |items| ==> items[i].Some?
    ensures NamesIn(items, part) <==> Assoc.HasKey(part, items[0].value.name) && NamesIn(items[1..], part)
  {
    assert forall i :: 0 < i < |items| ==> items[i] == items[1..][i - 1];
  }

  // The global check

  /** Every index entry of every property, in walking order. */
  function IndexEntries(props: seq<Property>): (e: seq<(string, bool)>)
  {
    if |props| == 0 then [] else props[0].indexes + IndexEntries(props[1..])
  }

  /** No index name is claimed both unique and not unique. */
  ghost predicate IndexesAgree(e: seq<(string, bool)>) {
    forall a, b :: 0 <= a < |e| && 0 <= b < |e| && e[a].0 == e[b].0 ==> e[a].1 == e[b].1
  }

  /** `seen` holds, for each index name met in `e[..k]`, its uniqueness. */
  ghost predicate Seen(e: seq<(string, bool)>, k: nat, seen: seq<(string, bool)>)
    requires k <= |e|
  {
    && (forall n :: Assoc.HasKey(seen, n) ==> exists a :: 0 <= a < k && e[a].0 == n)
    && (forall a :: 0 <= a < k ==> Assoc.Get(seen, e[a].0) == Some(e[a].1))
  }

  /** The walk over the index entries: the first claim of a name is
      remembered, any later different one fails. */
  function WalkIndexes(e: seq<(string, bool)>, k: nat, seen: seq<(string, bool)>): (r: bool)
    requires k <= |e| && Seen(e, k, seen)
    ensures r <==> IndexesAgree(e)
    decreases |e| - k
  {
    if k == |e| then WalkDone(e, seen); true
    else
      var (n, u) := e[k];
      match Assoc.Get(seen, n)
      case Some(u') =>
        if u' != u then
          WalkClash(e, k, seen);
          false
        else
          WalkSame(e, k, seen);
          WalkIndexes(e, k + 1, seen)
      case None =>
        WalkNew(e, k, seen);
        WalkIndexes(e, k + 1, Assoc.Put(seen, n, u))
  }

  lemma WalkClash(e: seq<(string, bool)>, k: nat, seen: seq<(string, bool)>)
    requires k < |e| && Seen(e, k, seen)
    requires Assoc.Get(seen, e[k].0).Some? && Assoc.Get(seen, e[k].0).value != e[k].1
    ensures !IndexesAgree(e)
  {
    assert Assoc.HasKey(seen, e[k].0);
    var a :| 0 <= a < k && e[a].0 == e[k].0;
    assert e[a].1 != e[k].1;
  }

  lemma WalkSame(e: seq<(string, bool)>, k: nat, seen: seq<(string, bool)>)
    requires k < |e| && Seen(e, k, seen)
    requires Assoc.Get(seen, e[k].0) == Some(e[k].1)
    ensures Seen(e, k + 1, seen)
  {
    forall n | Assoc.HasKey(seen, n)
      ensures exists a :: 0 <= a < k + 1 && e[a].0 == n
    {
      var a :| 0 <= a < k && e[a].0 == n;
    }
  }

  lemma WalkNew(e: seq<(string, bool)>, k: nat, seen: seq<(string, bool)>)
    requires k < |e| && Seen(e, k, seen)
    requires Assoc.Get(seen, e[k].0).None?
    ensures Seen(e, k + 1, Assoc.Put(seen, e[k].0, e[k].1))
  {
    var seen' := Assoc.Put(seen, e[k].0, e[k].1);
    forall n | Assoc.HasKey(seen', n)
      ensures exists a :: 0 <= a < k + 1 && e[a].0 == n
    {
      WalkNewKey(e, k, seen, n);
    }
    forall a | 0 <= a < k + 1
      ensures Assoc.Get(seen', e[a].0) == Some(e[a].1)
    {
      WalkNewEntry(e, k, seen, a);
    }
  }

  lemma WalkNewKey(e: seq<(string, bool)>, k: nat, seen: seq<(string, bool)>, n: string)
    requires k < |e| && Seen(e, k, seen)
    requires Assoc.HasKey(Assoc.Put(seen, e[k].0, e[k].1), n)
    ensures exists a :: 0 <= a < k + 1 && e[a].0 == n
  {
    if n != e[k].0 {
      assert Assoc.Get(Assoc.Put(seen, e[k].0, e[k].1), n) == Assoc.Get(seen, n);
      var a :| 0 <= a < k && e[a].0 == n;
    }
  }

  lemma WalkNewEntry(e: seq<(string, bool)>, k: nat, seen: seq<(string, bool)>, a: nat)
    requires k < |e| && Seen(e, k, seen) && a <= k
    requires Assoc.Get(seen, e[k].0).None?
    ensures Assoc.Get(Assoc.Put(seen, e[k].0, e[k].1), e[a].0) == Some(e[a].1)
  {
    if a < k {
      assert Assoc.Get(seen, e[a].0) == Some(e[a].1);
      assert e[a].0 != e[k].0;
    }
  }

  lemma WalkDone(e: seq<(string, bool)>, seen: seq<(string, bool)>)
    requires Seen(e, |e|, seen)
    ensures IndexesAgree(e)
  {
    forall a, b | 0 <= a < |e| && 0 <= b < |e| && e[a].0 == e[b].0
      ensures e[a].1 == e[b].1
    {
      assert Assoc.Get(seen, e[a].0) == Some(e[a].1);
      assert Assoc.Get(seen, e[b].0) == Some(e[b].1);
    }
  }

  function CountAutoIncrement(props: seq<Property>): (c: nat)
    ensures c <= |props|
    ensures c == 0 <==> forall i :: 0 <= i < |props| ==> !props[i].autoIncrement
  {
    if |props| == 0 then 0 else (if props[0].autoIncrement then 1 else 0) + CountAutoIncrement(props[1..])
  }

  /** The global check over own, extension and relation properties. */
  function Check(cls: string, props: seq<Property>): (r: Result<()>)
    ensures r.Ok? <==> IndexesAgree(IndexEntries(props)) && CountAutoIncrement(props) <= 1
  {
    var e := IndexEntries(props);
    assert Seen(e, 0, []);
    if !WalkIndexes(e, 0, []) then Err(Broken(cls, "index cannot be unique and not unique at the same time"))
    else if CountAutoIncrement(props) > 1 then Err(Broken(cls, "cannot have more than one auto increment column"))
    else Ok(())
  }

  /** Every entry of a property is among the walked entries. */
  lemma {:induction false} EntryWalked(props: seq<Property>, i: nat, a: nat)
    requires i < |props| && a < |props[i].indexes|
    ensures props[i].indexes[a] in IndexEntries(props)
    decreases i
  {
    if i > 0 {
      EntryWalked(props[1..], i - 1, a);
    }
  }

  /** When the check passes, two properties sharing an index name agree on
      its uniqueness. */
  lemma AgreeOnIndex(props: seq<Property>, i: nat, j: nat, n: string)
    requires IndexesAgree(IndexEntries(props))
    requires i < |props| && j < |props|
    requires Assoc.HasKey(props[i].indexes, n) && Assoc.HasKey(props[j].indexes, n)
    ensures Assoc.Get(props[i].indexes, n) == Assoc.Get(props[j].indexes, n)
  {
    var a := Assoc.GetSomeAt(props[i].indexes, n);
    var b := Assoc.GetSomeAt(props[j].indexes, n);
    EntryWalked(props, i, a);
    EntryWalked(props, j, b);
    var e := IndexEntries(props);
    var x :| 0 <= x < |e| && e[x] == props[i].indexes[a];
    var y :| 0 <= y < |e| && e[y] == props[j].indexes[b];
  }

  // Merging

  /** The data map, each null part read as an empty array: own, then
      extension, then (when asked) relation properties, as `array_merge`
      combines them. */
  function Merge(st: ModelState, withRelations: bool): (m: seq<(string, Property)>)
    requires Coherent(st)
    ensures forall n :: Assoc.HasKey(st.model.own, n) ==> Assoc.Get(m, n) == Assoc.Get(st.model.own, n)
    ensures forall n :: Assoc.HasKey(Part(st.extension), n) && !(withRelations && Assoc.HasKey(Part(st.relation), n)) ==>
                          Assoc.Get(m, n) == Assoc.Get(Part(st.extension), n)
    ensures withRelations ==> forall n :: Assoc.HasKey(Part(st.relation), n) ==> Assoc.Get(m, n) == Assoc.Get(Part(st.relation), n)
    ensures forall n :: Assoc.HasKey(m, n) <==>
              Assoc.HasKey(st.model.own, n) || Assoc.HasKey(Part(st.extension), n) ||
              (withRelations && Assoc.HasKey(Part(st.relation), n))
    ensures Assoc.DistinctKeys(m)
  {
    var m1 := Assoc.Update(st.model.own, Part(st.extension));
    Assoc.UpdateKeepsDistinct(st.model.own, Part(st.extension));
    var rel := if withRelations then Part(st.relation) else [];
    Assoc.UpdateKeepsDistinct(m1, rel);
    Assoc.Update(m1, rel)
  }

  /** The data map as written: `array_merge` with a null argument yields
      null in PHP 7, so the map is null while a part it merges is null. */
  function MergeAsWritten(st: ModelState, withRelations: bool): (m: Option<seq<(string, Property)>>)
    requires Coherent(st)
    ensures m.Some? <==> st.extension.Some? && (withRelations ==> st.relation.Some?)
    ensures m.Some? ==> m.value == Merge(st, withRelations)
  {
    if st.extension.None? then None
    else if withRelations && st.relation.None? then None
    else Some(Merge(st, withRelations))
  }

  /** The properties the global check walks: own, extension, relation. */
  function AllProps(st: ModelState): seq<Property> {
    Assoc.Values(st.model.own) + Assoc.Values(Part(st.extension)) + Assoc.Values(Part(st.relation))
  }

  /** `getDataMap($with_relations)`: the map and the model's state after
      the call. Relation keys are computed when asked for and not yet
      known, extension properties when not yet known; the global check
      runs when either adds something. `known` is the value list the
      relation-type test consults. */
  function DataMapStateWith(st: ModelState, withRelations: bool, env: DataMapEnv, known: seq<Value>): (r: Result<ModelState>)
    requires Coherent(st)
    ensures r.Ok? ==> r.value.model == st.model && Coherent(r.value)
    ensures r.Ok? && st.extension.Some? ==> r.value.extension == st.extension
    ensures r.Ok? && (!withRelations || st.relation.Some?) ==> r.value.relation == st.relation
    ensures r.Ok? && r.value != st ==> IndexesAgree(IndexEntries(AllProps(r.value))) && CountAutoIncrement(AllProps(r.value)) <= 1
    ensures st.extension.None? && env.extension.NotAnArray? ==> r.Err?
  {
    var m := st.model;
    var names0 := Assoc.Keys(m.own);
    var acc1 :- if withRelations && st.relation.None? then RelationPhase(m.cls, m.relations, env.otherMap, (st.relation, names0), known)
                else Ok((st.relation, names0));
    var acc2 :- if st.extension.None? then ExtensionPhase(m.cls, env.extension, (st.extension, acc1.1))
                else Ok((st.extension, acc1.1));
    var st' := ModelState(m, acc1.0, acc2.0);
    assert Coherent(st') by { CoherentAfter(st, acc1, acc2); }
    if st' != st then
      var _ :- Check(m.cls, AllProps(st'));
      Ok(st')
    else Ok(st')
  }

  /** The data map's state with each enumeration reading its own
      constants. */
  function DataMapState(st: ModelState, withRelations: bool, env: DataMapEnv): (r: Result<ModelState>)
    requires Coherent(st)
    ensures r.Ok? ==> r.value.model == st.model && Coherent(r.value)
    ensures r.Ok? && st.extension.Some? ==> r.value.extension == st.extension
    ensures r.Ok? && (!withRelations || st.relation.Some?) ==> r.value.relation == st.relation
    ensures r.Ok? && r.value != st ==> IndexesAgree(IndexEntries(AllProps(r.value))) && CountAutoIncrement(AllProps(r.value)) <= 1
    ensures st.extension.None? && env.extension.NotAnArray? ==> r.Err?
  {
    DataMapStateWith(st, withRelations, env, ValuesOf(RelationEnum))
  }

  /** Both phases only add names nobody uses, so the new state keeps its parts
      apart from the own properties. */
  lemma CoherentAfter(st: ModelState, acc1: Acc, acc2: Acc)
    requires Coherent(st)
    requires acc1 == (st.relation, Assoc.Keys(st.model.own)) || Grows((st.relation, Assoc.Keys(st.model.own)), acc1)
    requires acc2 == (st.extension, acc1.1) || Grows((st.extension, acc1.1), acc2)
    ensures Coherent(ModelState(st.model, acc1.0, acc2.0))
  {
    var names0 := Assoc.Keys(st.model.own);
    GrowsRefl((st.relation, names0));
    GrowsRefl((st.extension, acc1.1));
    forall n | Assoc.HasKey(st.model.own, n)
      ensures !Assoc.HasKey(Part(acc1.0), n) && !Assoc.HasKey(Part(acc2.0), n)
    {
      assert n in names0;
      var i :| 0 <= i < |names0| && names0[i] == n;
      assert acc1.1[i] == n;
    }
  }

  /** `getDataMap` with the merge read as intended. */
  function DataMap(st: ModelState, withRelations: bool, env: DataMapEnv): (r: Result<(seq<(string, Property)>, ModelState)>)
    requires Coherent(st)
    ensures r.Ok? ==> Coherent(r.value.1) && r.value.0 == Merge(r.value.1, withRelations)
    ensures r.Ok? ==> forall n :: Assoc.HasKey(st.model.own, n) ==> Assoc.Get(r.value.0, n) == Assoc.Get(st.model.own, n)
    ensures r.Ok? <==> DataMapState(st, withRelations, env).Ok?
  {
    var st' :- DataMapState(st, withRelations, env);
    Ok((Merge(st', withRelations), st'))
  }

  /** `getDataMap` as written: the same phases, with the relation-type
      test reading the values cache that every enumeration shares, then the
      null-propagating merge. */
  function DataMapAsWritten(st: ModelState, withRelations: bool, env: DataMapEnv, cache: SharedCache): (r: Result<(Option<seq<(string, Property)>>, ModelState)>)
    requires Coherent(st)
    ensures cache.values.None? || cache.values == Some(ValuesOf(RelationEnum)) ==>
      (r.Ok? <==> DataMap(st, withRelations, env).Ok?)
    ensures r.Ok? && r.value.0.Some? && (cache.values.None? || cache.values == Some(ValuesOf(RelationEnum))) ==>
      r.value.0.value == DataMap(st, withRelations, env).value.0
    ensures !withRelations || st.relation.Some? ==> (r.Ok? <==> DataMap(st, withRelations, env).Ok?)
  {
    var known := if cache.values.None? then ValuesOf(RelationEnum) else cache.values.value;
    KnownUnread(st, withRelations, env, known);
    var st' :- DataMapStateWith(st, withRelations, env, known);
    Ok((MergeAsWritten(st', withRelations), st'))
  }

  /** The value list only matters when relation keys are computed. */
  lemma KnownUnread(st: ModelState, withRelations: bool, env: DataMapEnv, known: seq<Value>)
    requires Coherent(st)
    ensures !withRelations || st.relation.Some? ==>
      DataMapStateWith(st, withRelations, env, known) == DataMapState(st, withRelations, env)
  {
  }

  /** No relation name is a Type value. */
  lemma RelationNotType(k: RelationKind)
    ensures !InArray(Str(RelationName(k)), ValuesOf(TypeEnum))
  {
    var n := RelationName(k);
    assert n[0] == 'o' || n[0] == 'm';
    Enums.LetterNoType(n);
    IsTypeValueIffName(n);
  }

  /** Once `Type::isValue` has filled the shared cache (as parsing any
      typed property does), asking for the relation keys of a model that
      declares a relation fails with "unknown relation type". */
  lemma DataMapAsWrittenRelationsBroken(st: ModelState, env: DataMapEnv)
    requires Coherent(st) && st.relation.None? && |st.model.relations| > 0
    ensures DataMapAsWritten(st, true, env, SharedCache(Some(ValuesOf(TypeEnum)))).Err?
  {
    RelationNotType(st.model.relations[0].1);
  }

  /** A class nobody extends (the event's default gives an empty array)
      gets a null data map as written, whatever its own properties; read
      as intended, its data map is exactly its own properties. */
  lemma DataMapAsWrittenIsNull(m: Model, env: DataMapEnv, cache: SharedCache)
    requires Assoc.DistinctKeys(m.own) && env.extension == Items([])
    ensures Coherent(Fresh(m))
    ensures DataMapAsWritten(Fresh(m), false, env, cache) == Ok((None, Fresh(m)))
    ensures DataMap(Fresh(m), false, env) == Ok((m.own, Fresh(m)))
  {
    FreshCoherent(m);
    var names0 := Assoc.Keys(m.own);
    GrowsRefl((None, names0));
    assert ExtensionPhase(m.cls, env.extension, (None, names0)) == Ok((None, names0));
    assert DataMapState(Fresh(m), false, env) == Ok(Fresh(m));
  }

  /** Once both parts are known, the data map no longer consults anything
      but the model: the memoised state is final. */
  lemma DataMapSettles(st: ModelState, withRelations: bool, env1: DataMapEnv, env2: DataMapEnv)
    requires Coherent(st) && st.relation.Some? && st.extension.Some?
    ensures DataMap(st, withRelations, env1) == DataMap(st, withRelations, env2) == Ok((Merge(st, withRelations), st))
  {
  }

  // -------------------------------------------------------------------
  // Derived views

  /** `primary_keys`: the primary-flagged part of the full data map, in order. */
  function PrimaryKeys(map_: seq<(string, Property)>): (r: seq<(string, Property)>)
    ensures forall i :: 0 <= i < |r| ==> r[i].1.primary
    ensures forall i :: 0 <= i < |map_| && map_[i].1.primary ==> map_[i] in r
    ensures forall x :: x in r ==> x in map_
  {
    if |map_| == 0 then []
    else if map_[0].1.primary then [map_[0]] + PrimaryKeys(map_[1..])
    else PrimaryKeys(map_[1..])
  }

  /** `columns`: the data map re-keyed by column name; of two properties
      sharing a column, the later one wins. */
  function Columns(map_: seq<(string, Property)>): (r: seq<(string, Property)>)
    ensures Assoc.DistinctKeys(r)
    ensures forall c :: Assoc.HasKey(r, c) <==> exists i :: 0 <= i < |map_| && map_[i].1.column == c
    ensures forall c :: Assoc.Get(r, c).Some? ==> Assoc.Get(r, c).value.column == c
  {
    var props := Assoc.Values(map_);
    FileBy(props, ByColumn)
  }
}

=== FILE: strs.dfy ===
/** The PHP string built-ins the system leans on, over `seq<char>`:
    `explode`/`implode` on one-character separators, `trim`, case mapping of
    ASCII letters, `str_replace` of one needle, `strcmp` ordering. */
module Strs {
  import opened Errors

  /** The characters PHP's `trim` removes by default. */
  predicate IsTrimSpace(c: char) {
    c == ' ' || c == '\t' || c == '\n' || c == '\r' || c == '\0' || c == '\U{000B}'
  }

  /** The characters PCRE's `\s` matches. */
  predicate IsPcreSpace(c: char) {
    c == ' ' || c == '\t' || c == '\n' || c == '\r' || c == '\U{000B}' || c == '\U{000C}'
  }

  predicate IsDigit(c: char) { '0' <= c <= '9' }
  predicate IsLowerAscii(c: char) { 'a' <= c <= 'z' }
  predicate IsUpperAscii(c: char) { 'A' <= c <= 'Z' }
  predicate IsAlnum(c: char) { IsDigit(c) || IsLowerAscii(c) || IsUpperAscii(c) }

  predicate AllDigits(s: string) {
    forall i :: 0 <= i < |s| ==> IsDigit(s[i])
  }

  predicate Contains(s: string, c: char) { c in s }

  /** The text before a final "\n", when it ends with one. PCRE's `$`
      without the D modifier holds at the end of the text and also just
      before such a final "\n", so an anchored pattern matches a text when
      it matches the whole text or this part of it. */
  function Chomp(s: string): (r: Option<string>)
    ensures r.Some? <==> |s| > 0 && s[|s| - 1] == '\n'
    ensures r.Some? ==> r.value + "\n" == s
  {
    if |s| > 0 && s[|s| - 1] == '\n' then Some(s[..|s| - 1]) else None
  }

  /** A text followed by "\n" chomps back to itself. */
  lemma ChompNewline(t: string)
    ensures Chomp(t + "\n") == Some(t)
  {
    assert (t + "\n")[..|t|] == t;
  }

  function LowerChar(c: char): (r: char)
    ensures IsUpperAscii(c) ==> IsLowerAscii(r)
    ensures !IsUpperAscii(c) ==> r == c
  {
    if IsUpperAscii(c) then (c as int - 'A' as int + 'a' as int) as char else c
  }

  function UpperChar(c: char): (r: char)
    ensures IsLowerAscii(c) ==> IsUpperAscii(r)
    ensures !IsLowerAscii(c) ==> r == c
  {
    if IsLowerAscii(c) then (c as int - 'a' as int + 'A' as int) as char else c
  }

  /** `strtolower`. */
  function Lower(s: string): (r: string)
    ensures |r| == |s|
    ensures forall i :: 0 <= i < |s| ==> r[i] == LowerChar(s[i])
    ensures forall i :: 0 <= i < |r| ==> !IsUpperAscii(r[i])
  {
    seq(|s|, i requires 0 <= i < |s| => LowerChar(s[i]))
  }

  lemma LowerIdempotent(s: string)
    ensures Lower(Lower(s)) == Lower(s)
  {
  }

  /** `ucfirst`. */
  function UpperFirst(s: string): (r: string)
    ensures |r| == |s|
    ensures |s| > 0 ==> r[0] == UpperChar(s[0]) && r[1..] == s[1..]
  {
    if |s| == 0 then s else [UpperChar(s[0])] + s[1..]
  }

  /** Replaces every occurrence of one character by another (`strtr` with one pair). */
  function ReplaceChar(s: string, a: char, b: char): (r: string)
    ensures |r| == |s|
    ensures forall i :: 0 <= i < |s| ==> r[i] == (if s[i] == a then b else s[i])
  {
    seq(|s|, i requires 0 <= i < |s| => if s[i] == a then b else s[i])
  }

  /** Keeps the characters accepted by `keep`, in order (`preg_replace` of a
      negated character class by ''). */
  function Keep(s: string, keep: char -> bool): (r: string)
    ensures |r| <= |s|
    ensures forall i :: 0 <= i < |r| ==> keep(r[i])
    ensures (forall i :: 0 <= i < |s| ==> keep(s[i])) ==> r == s
  {
    if |s| == 0 then []
    else if keep(s[0]) then [s[0]] + Keep(s[1..], keep)
    else Keep(s[1..], keep)
  }

  lemma {:induction false} KeepIdempotent(s: string, keep: char -> bool)
    ensures Keep(Keep(s, keep), keep) == Keep(s, keep)
  {
  }

  /** Position of the first occurrence of `c`, if any (`strpos` on one character). */
  function IndexOf(s: string, c: char): (r: Option<nat>)
    ensures r.None? <==> c !in s
    ensures r.Some? ==> r.value < |s| && s[r.value] == c && c !in s[..r.value]
  {
    if |s| == 0 then None
    else if s[0] == c then Some(0)
    else
      match IndexOf(s[1..], c)
      case None => None
      case Some(i) =>
        assert s[..i + 1] == [s[0]] + s[1..][..i];
        Some(i + 1)
  }

  /** `explode(sep, s)`: the pieces between the separators, at least one. */
  function Split(s: string, sep: char): (r: seq<string>)
    ensures |r| >= 1
    ensures forall i :: 0 <= i < |r| ==> sep !in r[i]
    decreases |s|
  {
    match IndexOf(s, sep)
    case None => [s]
    case Some(i) => [s[..i]] + Split(s[i + 1..], sep)
  }

  /** `implode(sep, parts)`. */
  function Join(parts: seq<string>, sep: string): (r: string)
    ensures |parts| == 1 ==> r == parts[0]
  {
    if |parts| == 0 then ""
    else if |parts| == 1 then parts[0]
    else parts[0] + sep + Join(parts[1..], sep)
  }

  /** Splitting then joining on the same character gives back the string. */
  lemma {:induction false} JoinSplit(s: string, sep: char)
    ensures Join(Split(s, sep), [sep]) == s
    decreases |s|
  {
    match IndexOf(s, sep)
    case None =>
    case Some(i) =>
      var tail := Split(s[i + 1..], sep);
      assert Split(s, sep) == [s[..i]] + tail;
      JoinJoin(s[..i], tail, [sep]);
      JoinSplit(s[i + 1..], sep);
      assert s == s[..i] + [sep] + s[i + 1..];
  }

  lemma JoinJoin(head: string, tail: seq<string>, sep: string)
    requires |tail| >= 1
    ensures Join([head] + tail, sep) == head + sep + Join(tail, sep)
  {
    assert ([head] + tail)[1..] == tail;
  }

  /** Joining pieces free of the separator then splitting gives back the pieces. */
  lemma {:induction false} SplitJoin(parts: seq<string>, sep: char)
    requires |parts| >= 1
    requires forall i :: 0 <= i < |parts| ==> sep !in parts[i]
    ensures Split(Join(parts, [sep]), sep) == parts
  {
    if |parts| == 1 {
      assert IndexOf(parts[0], sep).None?;
    } else {
      var s := Join(parts, [sep]);
      var tail := Join(parts[1..], [sep]);
      JoinJoin(parts[0], parts[1..], [sep]);
      assert [parts[0]] + parts[1..] == parts;
      assert s == parts[0] + [sep] + tail;
      SplitAtFirst(parts[0], sep, tail);
      assert s[..|parts[0]|] == parts[0];
      assert s[|parts[0]| + 1..] == tail;
      SplitJoin(parts[1..], sep);
      assert Split(s, sep) == [parts[0]] + Split(tail, sep);
    }
  }

  lemma SplitAtFirst(a: string, sep: char, b: string)
    requires sep !in a
    ensures IndexOf(a + [sep] + b, sep) == Some(|a|)
  {
    var s := a + [sep] + b;
    assert s[|a|] == sep;
    assert s[..|a|] == a;
  }

  /** The first occurrence in a prefix is the first occurrence overall. */
  lemma {:induction false} IndexOfPrefix(a: string, b: string, c: char)
    requires c in a
    ensures IndexOf(a + b, c) == IndexOf(a, c)
  {
    var i := IndexOf(a, c).value;
    var s := a + b;
    assert s[..i] == a[..i] && s[i] == c;
    IndexOfIs(s, c, i);
  }

  lemma {:induction false} IndexOfIs(s: string, c: char, i: nat)
    requires i < |s| && s[i] == c && c !in s[..i]
    ensures IndexOf(s, c) == Some(i)
  {
  }

  /** Exploding a text joined at a separator explodes each side. */
  lemma {:induction false} SplitAppend(a: string, sep: char, b: string)
    ensures Split(a + [sep] + b, sep) == Split(a, sep) + Split(b, sep)
    decreases |a|, 1
  {
    if sep !in a {
      var s := a + [sep] + b;
      SplitAtFirst(a, sep, b);
      assert s[..|a|] == a && s[|a| + 1..] == b;
    } else {
      SplitAppendStep(a, sep, b);
    }
  }

  lemma {:induction false} SplitAppendStep(a: string, sep: char, b: string)
    requires sep in a
    ensures Split(a + [sep] + b, sep) == Split(a, sep) + Split(b, sep)
    decreases |a|, 0
  {
    var i := IndexOf(a, sep).value;
    var rest := a[i + 1..];
    SplitFirstInPrefix(a, sep, b);
    SplitAppend(rest, sep, b);
    ConsAppend(a[..i], Split(a + [sep] + b, sep), Split(rest + [sep] + b, sep), Split(a, sep), Split(rest, sep), Split(b, sep));
  }

  lemma SplitFirstInPrefix(a: string, sep: char, b: string)
    requires sep in a
    ensures IndexOf(a, sep).Some?
    ensures Split(a + [sep] + b, sep) == [a[..IndexOf(a, sep).value]] + Split(a[IndexOf(a, sep).value + 1..] + [sep] + b, sep)
  {
    var s := a + [sep] + b;
    var i := IndexOf(a, sep).value;
    assert IndexOf(s, sep) == Some(i) by {
      IndexOfPrefix(a, [sep] + b, sep);
      assert s == a + ([sep] + b);
    }
    assert s[..i] == a[..i] && s[i + 1..] == a[i + 1..] + [sep] + b;
  }

  lemma ConsAppend(h: string, x: seq<string>, y: seq<string>, z: seq<string>, p: seq<string>, q: seq<string>)
    requires x == [h] + y && y == p + q && z == [h] + p
    ensures x == z + q
  {
  }

  /** The text before and after the first `sep`, or nothing when `sep` is
      absent (`explode(sep, s, 2)` with two results). */
  function SplitOnce(s: string, sep: char): (r: Option<(string, string)>)
    ensures r.None? <==> sep !in s
    ensures r.Some? ==> r.value.0 + [sep] + r.value.1 == s && sep !in r.value.0
  {
    match IndexOf(s, sep)
    case None => None
    case Some(i) =>
      assert s == s[..i] + [sep] + s[i + 1..];
      Some((s[..i], s[i + 1..]))
  }

  function TrimLeft(s: string): (r: string)
    ensures |r| <= |s| && r == s[|s| - |r|..]
    ensures |r| > 0 ==> !IsTrimSpace(r[0])
    ensures forall i :: 0 <= i < |s| - |r| ==> IsTrimSpace(s[i])
  {
    if |s| > 0 && IsTrimSpace(s[0]) then TrimLeft(s[1..]) else s
  }

  function TrimRight(s: string): (r: string)
    ensures |r| <= |s| && r == s[..|r|]
    ensures |r| > 0 ==> !IsTrimSpace(r[|r| - 1])
    ensures forall i :: |r| <= i < |s| ==> IsTrimSpace(s[i])
  {
    if |s| > 0 && IsTrimSpace(s[|s| - 1]) then TrimRight(s[..|s| - 1]) else s
  }

  /** Where `trim` starts keeping characters. */
  function TrimStart(s: string): (a: nat)
    ensures a <= |s|
  {
    |s| - |TrimLeft(s)|
  }

  /** PHP's `trim`: a slice of the input with no default-trim character at
      either end, and only default-trim characters cut away on both sides. */
  function Trim(s: string): (r: string)
    ensures TrimStart(s) + |r| <= |s| && r == s[TrimStart(s)..TrimStart(s) + |r|]
    ensures |r| > 0 ==> !IsTrimSpace(r[0]) && !IsTrimSpace(r[|r| - 1])
    ensures forall i :: 0 <= i < TrimStart(s) ==> IsTrimSpace(s[i])
    ensures forall i :: TrimStart(s) + |r| <= i < |s| ==> IsTrimSpace(s[i])
  {
    var l := TrimLeft(s);
    var a := |s| - |l|;
    var r := TrimRight(l);
    SliceOfSuffix(s, a, |r|);
    forall i | a + |r| <= i < |s|
      ensures IsTrimSpace(s[i])
    {
      SuffixAt(s, a, i);
    }
    r
  }

  lemma SliceOfSuffix<T>(s: seq<T>, a: nat, n: nat)
    requires a + n <= |s|
    ensures s[a..][..n] == s[a..a + n]
  {
  }

  lemma SuffixAt<T>(s: seq<T>, a: nat, i: nat)
    requires a <= i < |s|
    ensures s[i] == s[a..][i - a]
  {
  }

  /** A string with no trim character at either end is its own trim. */
  lemma TrimPlain(s: string)
    requires |s| > 0 ==> !IsTrimSpace(s[0]) && !IsTrimSpace(s[|s| - 1])
    ensures Trim(s) == s
  {
  }

  lemma TrimIdempotent(s: string)
    ensures Trim(Trim(s)) == Trim(s)
  {
    var t := Trim(s);
    if |t| > 0 {
      assert TrimLeft(t) == t;
      assert TrimRight(t) == t;
    }
  }

  /** Does `needle` occur in `s` at position `i`? */
  predicate OccursAt(s: string, needle: string, i: nat) {
    i + |needle| <= |s| && s[i..i + |needle|] == needle
  }

  /** `str_replace(needle, with, s)` for a non-empty needle: occurrences are
      found left to right and do not overlap. */
  function Replace(s: string, needle: string, with: string): (r: string)
    requires |needle| > 0
    ensures (forall i :: 0 <= i <= |s| ==> !OccursAt(s, needle, i)) ==> r == s
    decreases |s|
  {
    if |s| < |needle| then s
    else if s[..|needle|] == needle then
      assert OccursAt(s, needle, 0);
      with + Replace(s[|needle|..], needle, with)
    else
      var rest := Replace(s[1..], needle, with);
      assert (forall i :: 0 <= i <= |s| ==> !OccursAt(s, needle, i)) ==>
             (forall i :: 0 <= i <= |s| - 1 ==> !OccursAt(s[1..], needle, i)) by {
        forall i | 0 <= i <= |s| - 1 && OccursAt(s[1..], needle, i)
          ensures OccursAt(s, needle, i + 1)
        {
          assert s[1..][i..i + |needle|] == s[i + 1..i + 1 + |needle|];
        }
      }
      [s[0]] + rest
  }

  /** Replacing a needle by itself changes nothing. */
  lemma {:induction false} ReplaceSelf(s: string, needle: string)
    requires |needle| > 0
    ensures Replace(s, needle, needle) == s
    decreases |s|
  {
    if |s| < |needle| {
    } else if s[..|needle|] == needle {
      ReplaceSelf(s[|needle|..], needle);
      assert s == needle + s[|needle|..];
    } else {
      ReplaceSelf(s[1..], needle);
      assert s == [s[0]] + s[1..];
    }
  }

  /** Byte-wise `strcmp` order: `Less(a, b)` iff `strcmp(a, b) < 0`. */
  predicate Less(a: string, b: string)
  {
    if |a| == 0 then |b| > 0
    else if |b| == 0 then false
    else if a[0] != b[0] then a[0] < b[0]
    else Less(a[1..], b[1..])
  }

  lemma {:induction false} LessTotal(a: string, b: string)
    ensures a == b || Less(a, b) || Less(b, a)
  {
    if |a| > 0 && |b| > 0 && a[0] == b[0] {
      LessTotal(a[1..], b[1..]);
      if a[1..] == b[1..] {
        assert a == [a[0]] + a[1..] && b == [b[0]] + b[1..];
      }
    }
  }

  lemma {:induction false} LessAsymmetric(a: string, b: string)
    ensures !(Less(a, b) && Less(b, a))
  {
    if |a| > 0 && |b| > 0 && a[0] == b[0] {
      LessAsymmetric(a[1..], b[1..]);
    }
  }
}

=== FILE: structured.dfy ===
/** `REST\Response\Structured`: trimming response data down to the requested
    fields, and the array an exception is sent as. */
module Structured {
  import opened Errors
  import opened Php
  import Assoc

  /** A fields spec whose keys are all ints is a list: it applies to every
      element of the data, not to keys by name. */
  predicate IsList(fields: seq<(Key, Value)>) {
    forall i :: 0 <= i < |fields| ==> fields[i].0.IntKey?
  }

  /** The error PHP raises when a sub-spec that is neither a bool nor an
      array reaches the `array $fields` parameter. */
  const NotAnArraySpec := EngineError("cleanData(): argument 2 must be of the type array")

  /** The data entries whose key is listed (loosely) among the spec's keys. */
  function Retain(items: seq<(Key, Value)>, keys: seq<Key>): (r: seq<(Key, Value)>)
    ensures |r| <= |items|
    ensures forall i :: 0 <= i < |r| ==> r[i] in items && KeyListed(r[i].0, keys)
    ensures forall i :: 0 <= i < |items| && KeyListed(items[i].0, keys) ==> items[i] in r
    decreases |items|
  {
    if |items| == 0 then []
    else
      var rest := Retain(items[1..], keys);
      assert forall i :: 1 <= i < |items| ==> items[i] == items[1..][i - 1];
      if KeyListed(items[0].0, keys) then [items[0]] + rest else rest
  }

  /** `array_filter($data)`: the truthy entries, keys kept. */
  function DropFalsy(items: seq<(Key, Value)>): (r: seq<(Key, Value)>)
    ensures |r| <= |items|
    ensures forall i :: 0 <= i < |r| ==> r[i] in items && Truthy(r[i].1)
    ensures forall i :: 0 <= i < |items| && Truthy(items[i].1) ==> items[i] in r
    decreases |items|
  {
    if |items| == 0 then []
    else
      var rest := DropFalsy(items[1..]);
      assert forall i :: 1 <= i < |items| ==> items[i] == items[1..][i - 1];
      if Truthy(items[0].1) then [items[0]] + rest else rest
  }

  /** The sub-spec an entry is cleaned with: the same spec for a list spec;
      for an associative one, the entry's own sub-spec, none when it is
      absent or a bool. */
  function SubSpec(fields: seq<(Key, Value)>, k: Key): Option<Value> {
    if IsList(fields) then Some(Arr(fields))
    else match Assoc.Get(fields, k)
      case Some(sub) => if sub.Bool? then None else Some(sub)
      case None => None
  }

  /** `cleanData($data, $fields)`: non-arrays are left alone; an associative
      spec removes the keys it does not list and cleans the listed ones
      with their sub-specs; a list spec cleans every element with itself;
      then the falsy entries go. */
  function CleanData(data: Value, fields: seq<(Key, Value)>): (r: Result<Value>)
    ensures !data.Arr? ==> r == Ok(data)
    ensures r.Err? ==> r.error == NotAnArraySpec
    ensures data.Arr? && r.Ok? ==> r.value.Arr? && |r.value.items| <= |data.items|
    ensures data.Arr? && r.Ok? ==> forall i :: 0 <= i < |r.value.items| ==> Truthy(r.value.items[i].1)
    decreases data, 1
  {
    if !data.Arr? then Ok(data)
    else
      match CleanEach(data, KeptItems(data, fields), fields)
      case Err(e) => Err(e)
      case Ok(cleaned) => Ok(Arr(DropFalsy(cleaned)))
  }

  /** Every entry cleaned with its sub-spec, keys and order kept. */
  function CleanEach(parent: Value, items: seq<(Key, Value)>, fields: seq<(Key, Value)>): (r: Result<seq<(Key, Value)>>)
    requires parent.Arr? && forall i :: 0 <= i < |items| ==> items[i] in parent.items
    ensures r.Err? ==> r.error == NotAnArraySpec
    ensures r.Ok? ==> (|r.value| == |items|
      && forall i :: 0 <= i < |items| ==> r.value[i].0 == items[i].0)
    decreases parent, 0, |items|
  {
    if |items| == 0 then Ok([])
    else
      var n := |items| - 1;
      match CleanEach(parent, items[..n], fields)
      case Err(e) => Err(e)
      case Ok(done) =>
        var (k, v) := items[n];
        assert items[n] in parent.items;
        match CleanEntry(parent, k, v, fields)
        case Err(e) => Err(e)
        case Ok(w) => Ok(done + [(k, w)])
  }

  /** One entry cleaned with its sub-spec; an array is required. */
  function CleanEntry(parent: Value, k: Key, v: Value, fields: seq<(Key, Value)>): (r: Result<Value>)
    requires parent.Arr? && (k, v) in parent.items
    ensures r.Err? ==> r.error == NotAnArraySpec
    decreases parent, 0, 0
  {
    match SubSpec(fields, k)
    case None => Ok(v)
    case Some(sub) =>
      if sub.Arr? then CleanData(v, sub.items) else Err(NotAnArraySpec)
  }

  /** `clean($data)`: with no fields requested the data goes out as it is;
      exceptions (objects) are never touched. */
  function Clean(data: Value, fields: Option<seq<(Key, Value)>>): (r: Result<Value>)
    ensures fields.None? ==> r == Ok(data)
    ensures data.Object? ==> r == Ok(data)
  {
    match fields
    case None => Ok(data)
    case Some(f) => CleanData(data, f)
  }

  /** The entries a spec keeps: all of them for a list spec, the listed
      ones for an associative spec. */
  predicate Kept(fields: seq<(Key, Value)>, k: Key) {
    IsList(fields) || KeyListed(k, Assoc.Keys(fields))
  }

  /** An entry survives cleaning iff its key is kept, its cleaning
      succeeds and the cleaned value is truthy; it then carries the
      cleaned value. */
  lemma CleanedEntries(data: Value, fields: seq<(Key, Value)>, k: Key, w: Value)
    requires data.Arr? && CleanData(data, fields).Ok?
    ensures (k, w) in CleanData(data, fields).value.items <==>
      exists v :: (k, v) in data.items && Kept(fields, k) && CleanEntry(data, k, v, fields) == Ok(w) && Truthy(w)
  {
    if (k, w) in CleanData(data, fields).value.items {
      var v := CleanedFromSource(data, fields, k, w);
    }
    if exists v :: (k, v) in data.items && Kept(fields, k) && CleanEntry(data, k, v, fields) == Ok(w) && Truthy(w) {
      var v :| (k, v) in data.items && Kept(fields, k) && CleanEntry(data, k, v, fields) == Ok(w) && Truthy(w);
      SourceSurvives(data, fields, k, v, w);
    }
  }

  lemma CleanedFromSource(data: Value, fields: seq<(Key, Value)>, k: Key, w: Value) returns (v: Value)
    requires data.Arr? && CleanData(data, fields).Ok?
    requires (k, w) in CleanData(data, fields).value.items
    ensures (k, v) in data.items && Kept(fields, k) && CleanEntry(data, k, v, fields) == Ok(w) && Truthy(w)
  {
    var kept := KeptItems(data, fields);
    var cleaned := CleanEach(data, kept, fields).value;
    EachEntry(data, kept, fields);
    assert (k, w) in cleaned;
    var i :| 0 <= i < |cleaned| && cleaned[i] == (k, w);
    v := kept[i].1;
  }

  lemma SourceSurvives(data: Value, fields: seq<(Key, Value)>, k: Key, v: Value, w: Value)
    requires data.Arr? && CleanData(data, fields).Ok?
    requires (k, v) in data.items && Kept(fields, k) && CleanEntry(data, k, v, fields) == Ok(w) && Truthy(w)
    ensures (k, w) in CleanData(data, fields).value.items
  {
    var kept := KeptItems(data, fields);
    var cleaned := CleanEach(data, kept, fields).value;
    assert CleanData(data, fields).value.items == DropFalsy(cleaned);
    EachEntry(data, kept, fields);
    var i := KeptIndex(data, fields, k, v);
    assert cleaned[i] == (k, w);
  }

  /** The entries the spec keeps, before cleaning. */
  function KeptItems(data: Value, fields: seq<(Key, Value)>): (r: seq<(Key, Value)>)
    requires data.Arr?
    ensures forall i :: 0 <= i < |r| ==> r[i] in data.items
  {
    if IsList(fields) then data.items else Retain(data.items, Assoc.Keys(fields))
  }

  lemma KeptIndex(data: Value, fields: seq<(Key, Value)>, k: Key, v: Value) returns (i: nat)
    requires data.Arr? && (k, v) in data.items && Kept(fields, k)
    ensures i < |KeptItems(data, fields)| && KeptItems(data, fields)[i] == (k, v)
  {
    var j :| 0 <= j < |data.items| && data.items[j] == (k, v);
    assert (k, v) in KeptItems(data, fields);
    i :| 0 <= i < |KeptItems(data, fields)| && KeptItems(data, fields)[i] == (k, v);
  }

  /** Each cleaned entry is its source entry cleaned. */
  lemma {:induction false} EachEntry(parent: Value, items: seq<(Key, Value)>, fields: seq<(Key, Value)>)
    requires parent.Arr? && forall i :: 0 <= i < |items| ==> items[i] in parent.items
    requires CleanEach(parent, items, fields).Ok?
    ensures forall i :: 0 <= i < |items| ==>
      CleanEntry(parent, items[i].0, items[i].1, fields) == Ok(CleanEach(parent, items, fields).value[i].1)
    decreases |items|
  {
    if |items| > 0 {
      var n := |items| - 1;
      assert forall i :: 0 <= i < n ==> items[..n][i] == items[i];
      EachEntry(parent, items[..n], fields);
    }
  }

  /** Cleaning twice with the same spec is cleaning once. */
  lemma {:induction false} CleanIdempotent(data: Value, fields: seq<(Key, Value)>)
    requires CleanData(data, fields).Ok?
    ensures CleanData(CleanData(data, fields).value, fields) == CleanData(data, fields)
    decreases data, 1
  {
    if data.Arr? {
      var kept := KeptItems(data, fields);
      var cleaned := CleanEach(data, kept, fields).value;
      var x := CleanData(data, fields).value;
      assert x == Arr(DropFalsy(cleaned));
      var kept' := if IsList(fields) then x.items else Retain(x.items, Assoc.Keys(fields));
      assert kept' == x.items by {
        if !IsList(fields) {
          EachEntry(data, kept, fields);
          RetainAll(x.items, fields, cleaned, kept);
        }
      }
      EachEntry(data, kept, fields);
      EachIdempotent(data, kept, fields, cleaned, x);
      DropFalsyTruthy(x.items);
    }
  }

  lemma RetainAll(items: seq<(Key, Value)>, fields: seq<(Key, Value)>, cleaned: seq<(Key, Value)>, kept: seq<(Key, Value)>)
    requires |cleaned| == |kept| && forall i :: 0 <= i < |kept| ==> cleaned[i].0 == kept[i].0 && KeyListed(kept[i].0, Assoc.Keys(fields))
    requires forall i :: 0 <= i < |items| ==> items[i] in cleaned
    ensures Retain(items, Assoc.Keys(fields)) == items
  {
    forall i | 0 <= i < |items|
      ensures KeyListed(items[i].0, Assoc.Keys(fields))
    {
      var j :| 0 <= j < |cleaned| && cleaned[j] == items[i];
    }
    RetainListed(items, Assoc.Keys(fields));
  }

  /** Entries whose keys are all listed are all retained. */
  lemma {:induction false} RetainListed(items: seq<(Key, Value)>, keys: seq<Key>)
    requires forall i :: 0 <= i < |items| ==> KeyListed(items[i].0, keys)
    ensures Retain(items, keys) == items
    decreases |items|
  {
    if |items| > 0 {
      assert KeyListed(items[0].0, keys);
      assert forall i :: 1 <= i < |items| ==> items[1..][i - 1] == items[i];
      RetainListed(items[1..], keys);
      assert [items[0]] + items[1..] == items;
    }
  }

  lemma {:induction false} DropFalsyTruthy(items: seq<(Key, Value)>)
    requires forall i :: 0 <= i < |items| ==> Truthy(items[i].1)
    ensures DropFalsy(items) == items
    decreases |items|
  {
    if |items| > 0 {
      assert forall i :: 1 <= i < |items| ==> items[1..][i - 1] == items[i];
      DropFalsyTruthy(items[1..]);
    }
  }

  /** The surviving entries of a cleaned array clean to themselves. */
  lemma EachIdempotent(data: Value, kept: seq<(Key, Value)>, fields: seq<(Key, Value)>, cleaned: seq<(Key, Value)>, x: Value)
    requires data.Arr? && forall i :: 0 <= i < |kept| ==> kept[i] in data.items
    requires CleanEach(data, kept, fields) == Ok(cleaned)
    requires forall i :: 0 <= i < |kept| ==> CleanEntry(data, kept[i].0, kept[i].1, fields) == Ok(cleaned[i].1)
    requires x == Arr(DropFalsy(cleaned))
    ensures CleanEach(x, x.items, fields) == Ok(x.items)
    decreases data, 0
  {
    forall j | 0 <= j < |x.items|
      ensures CleanEntry(x, x.items[j].0, x.items[j].1, fields) == Ok(x.items[j].1)
    {
      var i :| 0 <= i < |cleaned| && cleaned[i] == x.items[j];
      var (k, v) := kept[i];
      assert kept[i] in data.items;
      match SubSpec(fields, k)
      case None =>
      case Some(sub) =>
        CleanIdempotent(v, sub.items);
    }
    EachSelf(x, x.items, fields);
  }

  lemma {:induction false} EachSelf(parent: Value, items: seq<(Key, Value)>, fields: seq<(Key, Value)>)
    requires parent.Arr? && forall i :: 0 <= i < |items| ==> items[i] in parent.items
    requires forall i :: 0 <= i < |items| ==> CleanEntry(parent, items[i].0, items[i].1, fields) == Ok(items[i].1)
    ensures CleanEach(parent, items, fields) == Ok(items)
    decreases |items|
  {
    if |items| > 0 {
      var n := |items| - 1;
      assert forall i :: 0 <= i < n ==> items[..n][i] == items[i];
      EachSelf(parent, items[..n], fields);
      assert items[..n] + [items[n]] == items;
    }
  }

  // ---- Exceptions ----

  /** What `castException` reads off an exception: its message, and the
      results of `getId` and `getDetails` where the class has them; whether
      it is a `HereYouGo\REST\Exception`; and the exception object itself,
      as an encoder would receive it uncast. */
  datatype Thrown = Thrown(message: string, id: Option<Value>, details: Option<Value>, rest: bool, raw: Value)

  /** `castException($e)`. */
  function CastException(e: Thrown): (r: Value)
    ensures r.Arr? && Assoc.Keys(r.items) == [StrKey("message"), StrKey("uid"), StrKey("details")]
  {
    Arr([(StrKey("message"), Str(e.message)),
         (StrKey("uid"), e.id.GetOr(Null)),
         (StrKey("details"), e.details.GetOr(Null))])
  }

  /** The cast array gives back the message, the id and the details, null
      where the exception has no such method. */
  lemma CastExceptionReadsBack(e: Thrown)
    ensures Lookup(CastException(e), StrKey("message")) == Some(Str(e.message))
    ensures Lookup(CastException(e), StrKey("uid")) == Some(if e.id.Some? then e.id.value else Null)
    ensures Lookup(CastException(e), StrKey("details")) == Some(if e.details.Some? then e.details.value else Null)
  {
    var items := CastException(e).items;
    Assoc.GetAt(items, 0);
    Assoc.GetAt(items, 1);
    Assoc.GetAt(items, 2);
  }
}

=== FILE: translation.dfy ===
/** `UI\Translation`: a translated text or group of texts under an id, the
    placeholder substitution, and the forms it is output in. */
module Translations {
  import opened Errors
  import opened Strs
  import opened Php
  import Assoc

  /** A translation's contents: a text, a group of sub-translations keyed as
      in the dictionary, or nothing (contents that were neither). */
  datatype Contents = Text(s: string) | Group(items: seq<(Key, Translation)>) | Absent

  /** `id` is None for the sub-translations of a group, which are built
      without one. */
  datatype Translation = Translation(id: Option<string>, contents: Contents, notFound: bool)

  /** The id as string interpolation shows it: null shows as "". */
  function IdText(t: Translation): string {
    t.id.GetOr("")
  }

  /** `new Translation($id, $contents, $not_found)`: a string is kept, an
      array becomes a group of sub-translations, and anything else leaves
      no contents and marks the translation not found. */
  function Make(id: Option<string>, contents: Value, notFound: bool): (r: Translation)
    ensures r.id == id
    ensures r.notFound <==> notFound || !(contents.Str? || contents.Arr?)
    ensures contents.Str? ==> r.contents == Text(contents.s)
    ensures contents.Arr? ==> r.contents.Group? && Assoc.Keys(r.contents.items) == Assoc.Keys(contents.items)
    ensures r.contents.Absent? ==> r.notFound
    decreases contents
  {
    match contents
    case Str(s) => Translation(id, Text(s), notFound)
    case Arr(items) =>
      Translation(id, Group(seq(|items|, i requires 0 <= i < |items| => (items[i].0, Make(None, contents.items[i].1, false)))), notFound)
    case _ => Translation(id, Absent, true)
  }

  /** The placeholder a variable replaces. */
  function Placeholder(k: Key): (r: string)
    ensures |r| >= 2 && r[0] == '{' && r[|r| - 1] == '}'
  {
    "{" + KeyToString(k) + "}"
  }

  /** The variables substituted one after the other, in order, each
      replacing every occurrence of its placeholder in the text so far. */
  function Substitute(s: string, vars: seq<(Key, string)>): string
    decreases |vars|
  {
    if |vars| == 0 then s
    else Substitute(Replace(s, Placeholder(vars[0].0), vars[0].1), vars[1..])
  }

  /** Substituting a list of variables is substituting its first part and
      then its second. */
  lemma {:induction false} SubstituteAppend(s: string, a: seq<(Key, string)>, b: seq<(Key, string)>)
    ensures Substitute(s, a + b) == Substitute(Substitute(s, a), b)
    decreases |a|
  {
    if |a| == 0 {
      assert a + b == b;
    } else {
      assert (a + b)[0] == a[0] && (a + b)[1..] == a[1..] + b;
      SubstituteAppend(Replace(s, Placeholder(a[0].0), a[0].1), a[1..], b);
    }
  }

  /** A text without placeholder braces is left as it is. */
  lemma {:induction false} SubstituteNoBraces(s: string, vars: seq<(Key, string)>)
    requires '{' !in s
    ensures Substitute(s, vars) == s
    decreases |vars|
  {
    if |vars| > 0 {
      var ph := Placeholder(vars[0].0);
      forall i | 0 <= i <= |s|
        ensures !OccursAt(s, ph, i)
      {
        if i + |ph| <= |s| {
          assert s[i..i + |ph|][0] == s[i] != ph[0];
        }
      }
      SubstituteNoBraces(s, vars[1..]);
    }
  }

  /** What `replace` gives: a translation, or for a group the array of the
      replaced sub-translations. */
  datatype Replaced = One(t: Translation) | Many(items: seq<(Key, Replaced)>)

  /** `replace($vars)`: a translation not found is returned as it is; a
      group is replaced member by member; a text gets the variables
      substituted and becomes a found translation under the same id. */
  function ReplaceVars(t: Translation, vars: seq<(Key, string)>): (r: Replaced)
    ensures t.notFound ==> r == One(t)
    ensures !t.notFound && t.contents.Group? ==> r.Many? && Assoc.Keys(r.items) == Assoc.Keys(t.contents.items)
    ensures !t.notFound && t.contents.Text? ==> r == One(Translation(t.id, Text(Substitute(t.contents.s, vars)), false))
  {
    if t.notFound then One(t)
    else
      match t.contents
      case Group(items) =>
        Many(seq(|items|, i requires 0 <= i < |items| => (items[i].0, ReplaceVars(items[i].1, vars))))
      case Text(s) => One(Translation(t.id, Text(Substitute(s, vars)), false))
      case Absent => One(t)
  }

  /** Replacing with some variables and then others is replacing with all
      of them, in that order. */
  lemma ReplaceTwice(t: Translation, a: seq<(Key, string)>, b: seq<(Key, string)>)
    requires !t.notFound && t.contents.Text?
    ensures ReplaceVars(ReplaceVars(t, a).t, b) == ReplaceVars(t, a + b)
  {
    SubstituteAppend(t.contents.s, a, b);
  }

  /** `out()`: a text gives itself; a group gives the array of its members'
      outputs; a translation not found gives "{id}", or for a group "{id[k]}"
      under each key k. */
  function Out(t: Translation): (r: Value)
    ensures t.contents.Group? ==> r.Arr? && Assoc.Keys(r.items) == Assoc.Keys(t.contents.items)
    ensures !t.contents.Group? && t.notFound ==> r == Str("{" + IdText(t) + "}")
    ensures t.contents.Text? && !t.notFound ==> r == Str(t.contents.s)
  {
    match t.contents
    case Group(items) =>
      if t.notFound then
        Arr(seq(|items|, i requires 0 <= i < |items| => (items[i].0, Str("{" + IdText(t) + "[" + KeyToString(items[i].0) + "]}"))))
      else
        Arr(seq(|items|, i requires 0 <= i < |items| => (items[i].0, Out(items[i].1))))
    case Text(s) => if t.notFound then Str("{" + IdText(t) + "}") else Str(s)
    case Absent => if t.notFound then Str("{" + IdText(t) + "}") else Null
  }

  /** Texts and nested arrays of texts: what a dictionary entry is. */
  predicate TextTree(v: Value) {
    v.Str? || (v.Arr? && forall i :: 0 <= i < |v.items| ==> TextTree(v.items[i].1))
  }

  /** A found translation outputs exactly the contents it was built from. */
  lemma {:induction false} OutMake(id: Option<string>, v: Value)
    requires TextTree(v)
    ensures Out(Make(id, v, false)) == v
    decreases v
  {
    if v.Arr? {
      var t := Make(id, v, false);
      forall i | 0 <= i < |v.items|
        ensures Out(t.contents.items[i].1) == v.items[i].1
      {
        OutMake(None, v.items[i].1);
      }
      assert Out(t).items == v.items;
    }
  }

  /** `__toString()`: "{id}" when not found; for a group, the output of its
      only member, else "{id[]}"; a text gives itself. A single member that
      is itself a group is no string, which PHP refuses. */
  function ToString(t: Translation): (r: Result<string>)
    ensures t.notFound ==> r == Ok("{" + IdText(t) + "}")
    ensures !t.notFound && t.contents.Text? ==> r == Ok(t.contents.s)
    ensures !t.notFound && t.contents.Group? && |t.contents.items| != 1 ==> r == Ok("{" + IdText(t) + "[]}")
  {
    if t.notFound then Ok("{" + IdText(t) + "}")
    else
      match Out(t)
      case Arr(items) =>
        if |items| == 1 then
          (match items[0].1
           case Str(s) => Ok(s)
           case _ => Err(EngineError("__toString() must return a string value")))
        else Ok("{" + IdText(t) + "[]}")
      case Str(s) => Ok(s)
      case _ => Err(EngineError("__toString() must return a string value"))
  }

  /** A group of one found text reads as that text. */
  lemma SingleMemberString(id: Option<string>, k: Key, s: string)
    ensures ToString(Make(id, Arr([(k, Str(s))]), false)) == Ok(s)
  {
    var t := Make(id, Arr([(k, Str(s))]), false);
    assert t.contents.items[0].1 == Make(None, Str(s), false);
    assert Out(t).items[0].1 == Str(s);
  }
}

=== FILE: ui.dfy ===
/** `UI::currentUrl` and the target rewriting of `UI::redirect`. The
    configuration (`web.base_url`, whether `web.nice_urls` is set), the
    request path, the query arguments and `urlencode` are parameters. */
module Ui {
  import opened Errors
  import opened Strs
  import opened Php
  import Assoc

  /** `$k.'='.urlencode($v)`. */
  function ArgPair(k: Key, v: string, encode: string -> string): string {
    KeyToString(k) + "=" + encode(v)
  }

  /** The pairs of a list of arguments, in order. */
  function ArgPairs(args: seq<(Key, string)>, encode: string -> string): (r: seq<string>)
    ensures |r| == |args|
    ensures forall i :: 0 <= i < |args| ==> r[i] == ArgPair(args[i].0, args[i].1, encode)
  {
    seq(|args|, i requires 0 <= i < |args| => ArgPair(args[i].0, args[i].1, encode))
  }

  /** The query arguments other than "path", the one the router reads. */
  function OtherArgs(get: seq<(Key, string)>): (r: seq<(Key, string)>)
    ensures !Assoc.HasKey(r, StrKey("path"))
    ensures forall k :: k != StrKey("path") ==> Assoc.Get(r, k) == Assoc.Get(get, k)
  {
    Assoc.Remove(get, StrKey("path"))
  }

  /** A join starts with its first part. */
  lemma JoinStarts(parts: seq<string>, sep: string)
    requires |parts| >= 1
    ensures |Join(parts, sep)| >= |parts[0]| && Join(parts, sep)[..|parts[0]|] == parts[0]
  {
  }

  /** The other arguments as "k=v" joined by '&'. */
  function QueryArgs(get: seq<(Key, string)>, encode: string -> string): (r: string)
    ensures r == "" <==> |OtherArgs(get)| == 0
    ensures r != "0"
  {
    var pairs := ArgPairs(OtherArgs(get), encode);
    var r := Join(pairs, "&");
    if |pairs| == 0 then r
    else
      JoinStarts(pairs, "&");
      assert r[|KeyToString(OtherArgs(get)[0].0)|] == '=';
      r
  }

  /** `currentUrl()`: the request path under the base URL, with the other
      query arguments after it; without nice URLs the path travels as the
      "path" argument of index.php. */
  function CurrentUrl(base: string, path: string, get: seq<(Key, string)>, nice: bool, encode: string -> string): (r: string)
    ensures nice && |OtherArgs(get)| == 0 ==> r == base + path
    ensures nice && |OtherArgs(get)| > 0 ==> r == base + path + "?" + QueryArgs(get, encode)
    ensures !nice && |OtherArgs(get)| == 0 ==> r == base + "index.php?path=" + path
    ensures !nice && |OtherArgs(get)| > 0 ==> r == base + "index.php?path=" + path + "&" + QueryArgs(get, encode)
  {
    var args := QueryArgs(get, encode);
    if nice then base + path + (if Truthy(Str(args)) then "?" + args else "")
    else base + "index.php?path=" + path + (if Truthy(Str(args)) then "&" + args else "")
  }

  /** Removing a key after assigning it is removing it. */
  lemma {:induction false} RemovePut<V>(m: seq<(Key, V)>, k: Key, v: V)
    ensures Assoc.Remove(Assoc.Put(m, k, v), k) == Assoc.Remove(m, k)
  {
    if |m| > 0 && m[0].0 != k {
      RemovePut(m[1..], k, v);
      assert Assoc.Put(m, k, v) == [m[0]] + Assoc.Put(m[1..], k, v);
    }
  }

  /** Whatever "path" argument the query holds, the URL is the same. */
  lemma PathArgIgnored(base: string, path: string, get: seq<(Key, string)>, v: string, nice: bool, encode: string -> string)
    ensures CurrentUrl(base, path, Assoc.Put(get, StrKey("path"), v), nice, encode) == CurrentUrl(base, path, get, nice, encode)
  {
    RemovePut(get, StrKey("path"), v);
  }

  /** The query part splits back at '&' into the "k=v" pairs when neither
      keys nor encoded values hold '&' (`urlencode` escapes it). */
  lemma QueryReadsBack(get: seq<(Key, string)>, encode: string -> string)
    requires |OtherArgs(get)| > 0
    requires forall i :: 0 <= i < |OtherArgs(get)| ==> '&' !in KeyToString(OtherArgs(get)[i].0)
    requires forall s :: '&' !in encode(s)
    ensures Split(QueryArgs(get, encode), '&') == ArgPairs(OtherArgs(get), encode)
  {
    var args := OtherArgs(get);
    var pairs := ArgPairs(args, encode);
    forall i | 0 <= i < |pairs|
      ensures '&' !in pairs[i]
    {
      NoCharInPair(KeyToString(args[i].0), encode(args[i].1), '&');
    }
    SplitJoin(pairs, '&');
  }

  lemma NoCharInPair(k: string, v: string, c: char)
    requires c != '=' && c !in k && c !in v
    ensures c !in k + "=" + v
  {
    var s := k + "=" + v;
    forall i | 0 <= i < |s|
      ensures s[i] != c
    {
      if i < |k| {
        assert s[i] == k[i];
      } else if i > |k| {
        assert s[i] == v[i - |k| - 1];
      }
    }
  }

  /** The target `redirect` sends the browser to: external targets as
      given; internal ones under the base URL and, without nice URLs,
      through index.php with the part before the first '?' as the "path"
      argument. */
  function RedirectTarget(target: string, external: bool, nice: bool, base: string): (r: string)
    ensures external ==> r == target
    ensures !external && nice ==> r == base + target
    ensures !external && !nice ==> r == base + "index.php?" + "path=" + ReplaceChar(target, '?', '&')
  {
    if external then target
    else if nice then base + target
    else
      var parts := Split(target, '?');
      var moved := ["path=" + parts[0]] + parts[1..];
      PrefixFirst("path=", parts, "&");
      JoinSplitReplace(target, '?', '&');
      base + ("index.php?" + Join(moved, "&"))
  }

  /** Prefixing the first part prefixes the join. */
  lemma PrefixFirst(pre: string, parts: seq<string>, sep: string)
    requires |parts| >= 1
    ensures Join([pre + parts[0]] + parts[1..], sep) == pre + Join(parts, sep)
  {
    if |parts| > 1 {
      JoinJoin(pre + parts[0], parts[1..], sep);
      JoinJoin(parts[0], parts[1..], sep);
      assert [parts[0]] + parts[1..] == parts;
    }
  }

  /** Splitting at one character and joining with another replaces the
      one by the other. */
  lemma {:induction false} JoinSplitReplace(s: string, c: char, d: char)
    ensures Join(Split(s, c), [d]) == ReplaceChar(s, c, d)
    decreases |s|
  {
    match IndexOf(s, c)
    case None =>
      assert ReplaceChar(s, c, d) == s;
    case Some(i) =>
      var tail := Split(s[i + 1..], c);
      assert Split(s, c) == [s[..i]] + tail;
      JoinJoin(s[..i], tail, [d]);
      JoinSplitReplace(s[i + 1..], c, d);
      ReplaceAtFirst(s, i, c, d);
  }

  /** Replacing in a text whose first `c` is at `i`: the part before it,
      `d`, then the rest replaced. */
  lemma ReplaceAtFirst(s: string, i: nat, c: char, d: char)
    requires i < |s| && s[i] == c && c !in s[..i]
    ensures ReplaceChar(s, c, d) == s[..i] + [d] + ReplaceChar(s[i + 1..], c, d)
  {
    var r := ReplaceChar(s, c, d);
    var q := s[..i] + [d] + ReplaceChar(s[i + 1..], c, d);
    forall j | 0 <= j < |r|
      ensures r[j] == q[j]
    {
      if j < i {
        assert s[..i][j] == s[j];
      } else if j > i {
        assert q[j] == ReplaceChar(s[i + 1..], c, d)[j - i - 1];
      }
    }
  }

  /** A target with one '?' keeps its query after the "path" argument,
      joined by '&'. */
  lemma RedirectQuery(path: string, query: string, base: string)
    requires '?' !in path && '?' !in query
    ensures RedirectTarget(path + "?" + query, false, false, base) == base + "index.php?path=" + path + "&" + query
    ensures RedirectTarget(path, false, false, base) == base + "index.php?path=" + path
  {
    var t := path + "?" + query;
    var r := ReplaceChar(t, '?', '&');
    assert r == path + "&" + query by {
      forall j | 0 <= j < |t|
        ensures r[j] == (path + "&" + query)[j]
      {
        if j < |path| {
          assert t[j] == path[j];
        } else if j > |path| {
          assert t[j] == query[j - |path| - 1];
        }
      }
    }
    assert ReplaceChar(path, '?', '&') == path;
  }

  /** The current URL is where an internal redirect to the request path
      and its other query arguments leads, when neither holds '?'. */
  lemma CurrentIsRedirect(base: string, path: string, get: seq<(Key, string)>, nice: bool, encode: string -> string)
    requires '?' !in path && '?' !in QueryArgs(get, encode)
    ensures var q := QueryArgs(get, encode);
      CurrentUrl(base, path, get, nice, encode) == RedirectTarget(if q == "" then path else path + "?" + q, false, nice, base)
  {
    var q := QueryArgs(get, encode);
    var url := CurrentUrl(base, path, get, nice, encode);
    if q == "" {
      if !nice {
        RedirectQuery(path, q, base);
      }
    } else if nice {
      assert url == base + (path + "?" + q);
    } else {
      RedirectQuery(path, q, base);
    }
  }
}

=== FILE: updater.dfy ===
/** `Model\Updater`: picks the backend from the DSN, checks the table of
    every entity, discovers the class pairs that need a junction table and
    checks those too. The database's answers are inputs; the statements the
    MySQL backend would execute are the output, in order. */
module Updater {
  import opened Errors
  import opened Strs
  import opened Enums
  import opened Properties
  import Assoc
  import Schema
  import Mysql
  import Autoloader

  // -------------------------------------------------------------------
  // Backend selection

  const BackendNamespace: string := "HereYouGo\\Model\\Backend\\"

  /** The backend class a DSN names: its text before the first ':',
      first letter upper-cased, in the backend namespace. */
  function BackendClass(dsn: string): string {
    BackendNamespace + UpperFirst(Split(dsn, ':')[0])
  }

  /** `class_exists` on the backend class, over the classes that exist.
      The backend class is in the framework's namespace, so a missing one
      makes the autoloader throw ClassNotFound before the "unknown backend
      type" check can. */
  function SelectBackend(dsn: string, known: seq<string>): (r: Result<string>)
    ensures r.Ok? <==> BackendClass(dsn) in known
    ensures r.Ok? ==> r.value == BackendClass(dsn)
    ensures r.Err? ==> r.error == ClassNotFound(BackendClass(dsn))
  {
    var b := BackendClass(dsn);
    BackendInFramework(dsn);
    var found :- Autoloader.ClassExists(b, b in known);
    if found then Ok(b) else Err(Broken(b, "unknown backend type"))
  }

  lemma BackendInFramework(dsn: string)
    ensures Autoloader.InFramework(BackendClass(dsn))
  {
    assert BackendNamespace[..10] == "HereYouGo\\";
    Autoloader.NamespacedInFramework(BackendNamespace, UpperFirst(Split(dsn, ':')[0]));
  }

  /** A DSN of the form `mysql:…` selects the MySQL backend. */
  lemma MysqlDsn(rest: string)
    ensures BackendClass("mysql:" + rest) == BackendNamespace + "Mysql"
  {
    var dsn := "mysql:" + rest;
    assert IndexOf(dsn, ':') == Some(5) by {
      assert dsn[5] == ':' && ':' !in dsn[..5];
    }
    assert Split(dsn, ':')[0] == "mysql";
  }

  // -------------------------------------------------------------------
  // Many-to-many discovery

  /** What the updater reads of an entity class: its model and its data map
      (with relation keys). */
  datatype Entity = Entity(model: Schema.Model, dataMap: seq<(string, Property)>)

  function Find(entities: seq<Entity>, cls: string): (r: Option<Entity>)
    ensures r.Some? ==> r.value in entities && r.value.model.cls == cls
    ensures r.None? ==> forall i :: 0 <= i < |entities| ==> entities[i].model.cls != cls
  {
    if |entities| == 0 then None
    else if entities[0].model.cls == cls then Some(entities[0])
    else Find(entities[1..], cls)
  }

  /** Class `a` declares MANY toward `other`, and `other` declares MANY back. */
  predicate MutualMany(all: seq<Entity>, a: Schema.Model, other: string) {
    Assoc.Get(a.relations, other) == Some(Many)
    && Find(all, other).Some?
    && Assoc.Get(Find(all, other).value.model.relations, a.cls) == Some(Many)
  }

  /** `sort` on two class names (plain string order for non-numeric names). */
  function SortedPair(a: string, b: string): (r: (string, string))
    ensures r == (a, b) || r == (b, a)
    ensures !Less(r.1, r.0)
  {
    LessAsymmetric(a, b);
    if Less(b, a) then (b, a) else (a, b)
  }

  /** Both discovery orders give the same pair. */
  lemma SortedPairSymmetric(a: string, b: string)
    ensures SortedPair(a, b) == SortedPair(b, a)
  {
    LessTotal(a, b);
    LessAsymmetric(a, b);
  }

  function PairKey(pair: (string, string)): string { pair.0 + pair.1 }

  /** Some entity of `entities` is `x` and discovers the pair with `y`. */
  ghost predicate Discovered(entities: seq<Entity>, all: seq<Entity>, x: string, y: string) {
    exists i :: 0 <= i < |entities| && entities[i].model.cls == x && MutualMany(all, entities[i].model, y)
  }

  /** A junction-table entry keyed as the source keys it. */
  ghost predicate PairEntry(all: seq<Entity>, k: string, pair: (string, string)) {
    PairKey(pair) == k && !Less(pair.1, pair.0)
    && Find(all, pair.0).Some? && Find(all, pair.1).Some?
  }

  /** Relation `rel` of `a` is MANY and the related class answers MANY. */
  predicate Mutual(a: Schema.Model, all: seq<Entity>, rel: (string, RelationKind)) {
    rel.1 == Many && Find(all, rel.0).Some? && Assoc.Get(Find(all, rel.0).value.model.relations, a.cls) == Some(Many)
  }

  /** Every mutual relation of `rels` has its pair's entry in `r`. */
  ghost predicate Covers(a: Schema.Model, rels: seq<(string, RelationKind)>, all: seq<Entity>,
                         r: seq<(string, (string, string))>) {
    forall i :: 0 <= i < |rels| && Mutual(a, all, rels[i]) ==> Assoc.HasKey(r, PairKey(SortedPair(a.cls, rels[i].0)))
  }

  /** Every key `r` has beyond `acc` is the pair of a MANY relation of `rels`. */
  ghost predicate NewFrom(a: Schema.Model, rels: seq<(string, RelationKind)>,
                          acc: seq<(string, (string, string))>, r: seq<(string, (string, string))>) {
    forall k :: Assoc.HasKey(r, k) && !Assoc.HasKey(acc, k) ==>
      exists i :: 0 <= i < |rels| && rels[i].1 == Many && PairKey(SortedPair(a.cls, rels[i].0)) == k
  }

  /** The inner loop: the relations of one entity. */
  function PairsOf(a: Schema.Model, rels: seq<(string, RelationKind)>, all: seq<Entity>,
                   acc: seq<(string, (string, string))>): (r: seq<(string, (string, string))>)
    requires Assoc.DistinctKeys(acc)
    requires Find(all, a.cls).Some?
    requires forall k :: Assoc.Get(acc, k).Some? ==> PairEntry(all, k, Assoc.Get(acc, k).value)
    ensures Assoc.DistinctKeys(r)
    ensures forall k :: Assoc.Get(r, k).Some? ==> PairEntry(all, k, Assoc.Get(r, k).value)
    ensures forall k :: Assoc.HasKey(acc, k) ==> Assoc.HasKey(r, k)
    ensures Covers(a, rels, all, r)
    ensures NewFrom(a, rels, acc, r)
    decreases |rels|
  {
    if |rels| == 0 then acc
    else
      var other := rels[0].0;
      var pair := SortedPair(a.cls, other);
      var acc' := if Mutual(a, all, rels[0]) then Assoc.Put(acc, PairKey(pair), pair) else acc;
      PairsOfStep(a, rels[0], all, acc);
      var r := PairsOf(a, rels[1..], all, acc');
      PairsOfCons(a, rels, all, acc, acc', r);
      r
  }

  /** One relation's step keeps the map a valid junction map and loses nothing. */
  lemma PairsOfStep(a: Schema.Model, rel: (string, RelationKind), all: seq<Entity>, acc: seq<(string, (string, string))>)
    requires Assoc.DistinctKeys(acc)
    requires Find(all, a.cls).Some?
    requires forall k :: Assoc.Get(acc, k).Some? ==> PairEntry(all, k, Assoc.Get(acc, k).value)
    ensures var pair := SortedPair(a.cls, rel.0);
      var acc' := if Mutual(a, all, rel) then Assoc.Put(acc, PairKey(pair), pair) else acc;
      && Assoc.DistinctKeys(acc')
      && (forall k :: Assoc.Get(acc', k).Some? ==> PairEntry(all, k, Assoc.Get(acc', k).value))
      && (forall k :: Assoc.HasKey(acc, k) ==> Assoc.HasKey(acc', k))
  {
    var pair := SortedPair(a.cls, rel.0);
    if Mutual(a, all, rel) {
      Assoc.PutKeepsDistinct(acc, PairKey(pair), pair);
    }
  }

  /** The step's entry and the rest's coverage give the whole list's. */
  lemma PairsOfCons(a: Schema.Model, rels: seq<(string, RelationKind)>, all: seq<Entity>,
                    acc: seq<(string, (string, string))>, acc': seq<(string, (string, string))>, r: seq<(string, (string, string))>)
    requires |rels| > 0
    requires acc' == if Mutual(a, all, rels[0]) then Assoc.Put(acc, PairKey(SortedPair(a.cls, rels[0].0)), SortedPair(a.cls, rels[0].0)) else acc
    requires forall k :: Assoc.HasKey(acc', k) ==> Assoc.HasKey(r, k)
    requires Covers(a, rels[1..], all, r) && NewFrom(a, rels[1..], acc', r)
    ensures Covers(a, rels, all, r) && NewFrom(a, rels, acc, r)
  {
    assert forall i :: 1 <= i < |rels| ==> rels[i] == rels[1..][i - 1];
    forall k | Assoc.HasKey(r, k) && !Assoc.HasKey(acc, k)
      ensures exists i :: 0 <= i < |rels| && rels[i].1 == Many && PairKey(SortedPair(a.cls, rels[i].0)) == k
    {
      if !Assoc.HasKey(acc', k) {
        var i :| 0 <= i < |rels[1..]| && rels[1..][i].1 == Many && PairKey(SortedPair(a.cls, rels[1..][i].0)) == k;
        assert rels[i + 1] == rels[1..][i];
      } else {
        assert Mutual(a, all, rels[0]);
        assert Assoc.Get(acc', k) != Assoc.Get(acc, k);
      }
    }
  }

  /** The outer loop: every entity in order. */
  function Pairs(entities: seq<Entity>, all: seq<Entity>, acc: seq<(string, (string, string))>)
    : (r: seq<(string, (string, string))>)
    requires Assoc.DistinctKeys(acc)
    requires forall i :: 0 <= i < |entities| ==> Find(all, entities[i].model.cls).Some?
    requires forall k :: Assoc.Get(acc, k).Some? ==> PairEntry(all, k, Assoc.Get(acc, k).value)
    ensures Assoc.DistinctKeys(r)
    ensures forall k :: Assoc.Get(r, k).Some? ==> PairEntry(all, k, Assoc.Get(r, k).value)
    ensures forall k :: Assoc.HasKey(acc, k) ==> Assoc.HasKey(r, k)
    decreases |entities|
  {
    if |entities| == 0 then acc
    else
      var a := entities[0].model;
      Pairs(entities[1..], all, PairsOf(a, a.relations, all, acc))
  }

  /** Every mutual MANY declaration yields the pair's entry, keyed by the
      sorted pair, whichever side is met first. */
  lemma {:induction false} PairsFound(entities: seq<Entity>, all: seq<Entity>, acc: seq<(string, (string, string))>,
                                      x: string, y: string)
    requires Assoc.DistinctKeys(acc)
    requires forall i :: 0 <= i < |entities| ==> Find(all, entities[i].model.cls).Some?
    requires forall k :: Assoc.Get(acc, k).Some? ==> PairEntry(all, k, Assoc.Get(acc, k).value)
    requires Discovered(entities, all, x, y)
    ensures Assoc.HasKey(Pairs(entities, all, acc), PairKey(SortedPair(x, y)))
    ensures Assoc.HasKey(Pairs(entities, all, acc), PairKey(SortedPair(y, x)))
    decreases |entities|
  {
    SortedPairSymmetric(x, y);
    var i :| 0 <= i < |entities| && entities[i].model.cls == x && MutualMany(all, entities[i].model, y);
    var a := entities[0].model;
    var next := PairsOf(a, a.relations, all, acc);
    if i == 0 {
      var j := Assoc.GetSomeAt(a.relations, y);
      assert a.relations[j] == (y, Many);
      PairsKeep(entities[1..], all, next);
    } else {
      assert entities[1..][i - 1] == entities[i];
      PairsFound(entities[1..], all, next, x, y);
    }
  }

  /** The outer loop never loses an entry. */
  lemma {:induction false} PairsKeep(entities: seq<Entity>, all: seq<Entity>, acc: seq<(string, (string, string))>)
    requires Assoc.DistinctKeys(acc)
    requires forall i :: 0 <= i < |entities| ==> Find(all, entities[i].model.cls).Some?
    requires forall k :: Assoc.Get(acc, k).Some? ==> PairEntry(all, k, Assoc.Get(acc, k).value)
    ensures forall k :: Assoc.HasKey(acc, k) ==> Assoc.HasKey(Pairs(entities, all, acc), k)
    decreases |entities|
  {
    if |entities| > 0 {
      var a := entities[0].model;
      PairsKeep(entities[1..], all, PairsOf(a, a.relations, all, acc));
    }
  }

  // -------------------------------------------------------------------
  // Junction tables

  /** `$map[$property->name] = $property->getRelationProperty($other)` over
      a list of primary properties. */
  function AddRelationKeys(keys: seq<Property>, other: string, acc: seq<(string, Property)>)
    : (r: seq<(string, Property)>)
    requires Assoc.DistinctKeys(acc)
    ensures Assoc.DistinctKeys(r)
    ensures forall i :: 0 <= i < |keys| ==> Assoc.HasKey(r, RelationProperty(keys[i], other).name)
    ensures forall n :: Assoc.Get(r, n).Some? ==> (Assoc.Get(acc, n) == Assoc.Get(r, n)
      || exists i :: 0 <= i < |keys| && Assoc.Get(r, n) == Some(RelationProperty(keys[i], other)))
    ensures forall n :: Assoc.HasKey(acc, n) ==> Assoc.HasKey(r, n)
    decreases |keys|
  {
    if |keys| == 0 then acc
    else
      var q := RelationProperty(keys[0], other);
      Assoc.PutKeepsDistinct(acc, q.name, q);
      var r := AddRelationKeys(keys[1..], other, Assoc.Put(acc, q.name, q));
      AddRelationKeysCons(keys, other, acc, r);
      r
  }

  lemma AddRelationKeysCons(keys: seq<Property>, other: string, acc: seq<(string, Property)>, r: seq<(string, Property)>)
    requires |keys| > 0
    requires var q := RelationProperty(keys[0], other);
      var acc' := Assoc.Put(acc, q.name, q);
      && (forall i :: 0 <= i < |keys| - 1 ==> Assoc.HasKey(r, RelationProperty(keys[1..][i], other).name))
      && (forall n :: Assoc.Get(r, n).Some? ==> (Assoc.Get(acc', n) == Assoc.Get(r, n)
           || exists i :: 0 <= i < |keys| - 1 && Assoc.Get(r, n) == Some(RelationProperty(keys[1..][i], other))))
      && (forall n :: Assoc.HasKey(acc', n) ==> Assoc.HasKey(r, n))
    ensures forall i :: 0 <= i < |keys| ==> Assoc.HasKey(r, RelationProperty(keys[i], other).name)
    ensures forall n :: Assoc.Get(r, n).Some? ==> (Assoc.Get(acc, n) == Assoc.Get(r, n)
      || exists i :: 0 <= i < |keys| && Assoc.Get(r, n) == Some(RelationProperty(keys[i], other)))
    ensures forall n :: Assoc.HasKey(acc, n) ==> Assoc.HasKey(r, n)
  {
    var q := RelationProperty(keys[0], other);
    var acc' := Assoc.Put(acc, q.name, q);
    forall i | 0 <= i < |keys|
      ensures Assoc.HasKey(r, RelationProperty(keys[i], other).name)
    {
      if i == 0 {
        assert Assoc.HasKey(acc', q.name);
      } else {
        assert keys[i] == keys[1..][i - 1];
      }
    }
    forall n | Assoc.Get(r, n).Some?
      ensures Assoc.Get(acc, n) == Assoc.Get(r, n) || exists i :: 0 <= i < |keys| && Assoc.Get(r, n) == Some(RelationProperty(keys[i], other))
    {
      if Assoc.Get(acc', n) == Assoc.Get(r, n) {
        if n == q.name {
          assert Assoc.Get(r, n) == Some(RelationProperty(keys[0], other));
        }
      } else {
        var i :| 0 <= i < |keys| - 1 && Assoc.Get(r, n) == Some(RelationProperty(keys[1..][i], other));
        assert keys[i + 1] == keys[1..][i];
      }
    }
    forall n | Assoc.HasKey(acc, n)
      ensures Assoc.HasKey(r, n)
    {
      assert Assoc.Get(acc', n).Some?;
    }
  }

  function PrimaryProps(e: Entity): (r: seq<Property>)
    ensures forall i :: 0 <= i < |r| ==> r[i].primary
  {
    var m := Schema.PrimaryKeys(e.dataMap);
    seq(|m|, i requires 0 <= i < |m| => m[i].1)
  }

  /** `checkRelationTable`'s map: the primary keys of the first class
      pointing at the second, then those of the second pointing at the
      first, each renamed after its own class. */
  function JunctionMap(a: Entity, b: Entity): (r: seq<(string, Property)>)
    ensures Assoc.DistinctKeys(r)
  {
    AddRelationKeys(PrimaryProps(b), a.model.cls, AddRelationKeys(PrimaryProps(a), b.model.cls, []))
  }

  /** Every entry of the junction map is a relation key made from a primary
      property of one side, pointing at the other side; every primary
      property of either side has its entry (the second side's win a name
      clash). */
  lemma JunctionMapSpec(a: Entity, b: Entity, n: string)
    ensures var r := JunctionMap(a, b);
      Assoc.Get(r, n).Some? ==>
        (exists i :: 0 <= i < |PrimaryProps(a)| && Assoc.Get(r, n) == Some(RelationProperty(PrimaryProps(a)[i], b.model.cls)))
        || (exists i :: 0 <= i < |PrimaryProps(b)| && Assoc.Get(r, n) == Some(RelationProperty(PrimaryProps(b)[i], a.model.cls)))
    ensures forall i :: 0 <= i < |PrimaryProps(a)| ==>
      Assoc.HasKey(JunctionMap(a, b), RelationProperty(PrimaryProps(a)[i], b.model.cls).name)
    ensures forall i :: 0 <= i < |PrimaryProps(b)| ==>
      Assoc.HasKey(JunctionMap(a, b), RelationProperty(PrimaryProps(b)[i], a.model.cls).name)
  {
    var first := AddRelationKeys(PrimaryProps(a), b.model.cls, []);
    var r := AddRelationKeys(PrimaryProps(b), a.model.cls, first);
    assert r == JunctionMap(a, b);
  }

  // -------------------------------------------------------------------
  // Table check

  /** What the database reports about a table: whether it exists, its
      columns by name, and its current primary-key columns. */
  datatype TableState = TableState(present: bool, columns: seq<(string, Mysql.FoundColumn)>, primaries: seq<string>)

  /** What `checkColumn` reports for one property, given the columns found. */
  function ColumnProblem(table: string, p: Property, columns: seq<(string, Mysql.FoundColumn)>, codec: Mysql.Codec): Option<string>
    requires Mysql.WellSized(p) && Mysql.Renderable(p)
  {
    Mysql.CheckColumn(table, p, Assoc.Get(columns, p.column), codec)
  }

  /** `checkColumn` for every property of the map, in order. */
  function ColumnChecks(table: string, props: seq<Property>, columns: seq<(string, Mysql.FoundColumn)>,
                        codec: Mysql.Codec): (r: seq<string>)
    requires Mysql.Writable(props)
    ensures |r| <= |props|
    ensures (forall i :: 0 <= i < |props| ==> ColumnProblem(table, props[i], columns, codec).None?) ==> r == []
    ensures forall i :: (0 <= i < |props| && ColumnProblem(table, props[i], columns, codec).Some?
      ==> ColumnProblem(table, props[i], columns, codec).value in r)
    decreases |props|
  {
    if |props| == 0 then []
    else
      var here := ColumnProblem(table, props[0], columns, codec);
      var rest := ColumnChecks(table, props[1..], columns, codec);
      ColumnChecksCons(table, props, columns, codec, rest);
      if here.Some? then [here.value] + rest else rest
  }

  lemma ColumnChecksCons(table: string, props: seq<Property>, columns: seq<(string, Mysql.FoundColumn)>,
                         codec: Mysql.Codec, rest: seq<string>)
    requires |props| > 0 && Mysql.Writable(props)
    requires (forall i :: 0 <= i < |props| - 1 ==> ColumnProblem(table, props[1..][i], columns, codec).None?) ==> rest == []
    requires forall i :: (0 <= i < |props| - 1 && ColumnProblem(table, props[1..][i], columns, codec).Some?
      ==> ColumnProblem(table, props[1..][i], columns, codec).value in rest)
    ensures var here := ColumnProblem(table, props[0], columns, codec);
      var r := if here.Some? then [here.value] + rest else rest;
      && ((forall i :: 0 <= i < |props| ==> ColumnProblem(table, props[i], columns, codec).None?) ==> r == [])
      && (forall i :: (0 <= i < |props| && ColumnProblem(table, props[i], columns, codec).Some?
           ==> ColumnProblem(table, props[i], columns, codec).value in r))
  {
    forall i | 1 <= i < |props|
      ensures ColumnProblem(table, props[i], columns, codec) == ColumnProblem(table, props[1..][i - 1], columns, codec)
    {
      assert props[i] == props[1..][i - 1];
    }
  }

  /** `checkTable`: a missing table is created by one statement; an
      existing one gets at most one statement per property, then the
      constraint statements (at most one per existing primary column, plus
      the key reset). */
  function CheckTable(table: string, props: seq<Property>, db: TableState, codec: Mysql.Codec): (r: seq<string>)
    requires Mysql.Writable(props)
    ensures !db.present ==> r == [Mysql.CreateTable(table, props, codec)]
    ensures db.present ==> |r| <= |props| + |db.primaries| + 1
  {
    if db.present then
      var cols := ColumnChecks(table, props, db.columns, codec);
      var cons := Mysql.CheckConstraints(table, props, db.primaries, codec);
      DropCount(table, props, db.primaries, codec);
      cols + cons
    else [Mysql.CreateTable(table, props, codec)]
  }

  lemma DropCount(table: string, props: seq<Property>, existing: seq<string>, codec: Mysql.Codec)
    requires Mysql.Writable(props)
    ensures |Mysql.CheckConstraints(table, props, existing, codec)| <= |existing| + 1
  {
    DropsBounded(existing, Mysql.PrimaryColumns(props), Schema.FileBy(props, Schema.ByColumn), codec);
  }

  lemma {:induction false} DropsBounded(existing: seq<string>, required: seq<string>,
                                        byColumn: seq<(string, Property)>, codec: Mysql.Codec)
    requires forall c :: Assoc.Get(byColumn, c).Some? ==>
      Mysql.WellSized(Assoc.Get(byColumn, c).value) && Mysql.Renderable(Assoc.Get(byColumn, c).value)
    ensures |Mysql.DropPrimaries(existing, required, byColumn, codec)| <= |existing|
    decreases |existing|
  {
    if |existing| > 0 {
      DropsBounded(existing[1..], required, byColumn, codec);
    }
  }

  /** When every column already matches its definition, only the
      constraint statements remain. */
  lemma CheckTableSettles(table: string, props: seq<Property>, db: TableState, codec: Mysql.Codec)
    requires Mysql.Writable(props) && db.present
    requires forall i :: 0 <= i < |props| ==>
      Assoc.Get(db.columns, props[i].column) == Some(Mysql.Described(props[i], codec))
    ensures CheckTable(table, props, db, codec) == Mysql.CheckConstraints(table, props, db.primaries, codec)
  {
    forall i | 0 <= i < |props|
      ensures Mysql.CheckColumn(table, props[i], Assoc.Get(db.columns, props[i].column), codec).None?
    {
      Mysql.CheckColumnSettles(table, props[i], codec);
    }
  }

  // -------------------------------------------------------------------
  // The run

  predicate EntityWritable(e: Entity) {
    Mysql.Writable(Assoc.Values(e.dataMap))
  }

  /** A relation key made from a writable property is writable. */
  lemma RelationKeyWritable(p: Property, other: string)
    requires Mysql.WellSized(p)
    ensures Mysql.Writable([RelationProperty(p, other)])
  {
  }

  /** The junction map of two writable entities is writable. */
  lemma JunctionWritable(a: Entity, b: Entity)
    requires EntityWritable(a) && EntityWritable(b)
    ensures Mysql.Writable(Assoc.Values(JunctionMap(a, b)))
  {
    var r := JunctionMap(a, b);
    var vs := Assoc.Values(r);
    forall i | 0 <= i < |vs|
      ensures Mysql.WellSized(vs[i]) && Mysql.Renderable(vs[i]) && Assoc.DistinctKeys(vs[i].indexes)
    {
      Assoc.GetAt(r, i);
      JunctionMapSpec(a, b, r[i].0);
      if exists j :: 0 <= j < |PrimaryProps(a)| && Assoc.Get(r, r[i].0) == Some(RelationProperty(PrimaryProps(a)[j], b.model.cls)) {
        var j :| 0 <= j < |PrimaryProps(a)| && Assoc.Get(r, r[i].0) == Some(RelationProperty(PrimaryProps(a)[j], b.model.cls));
        PrimaryWellSized(a, j);
      } else {
        var j :| 0 <= j < |PrimaryProps(b)| && Assoc.Get(r, r[i].0) == Some(RelationProperty(PrimaryProps(b)[j], a.model.cls));
        PrimaryWellSized(b, j);
      }
    }
  }

  lemma PrimaryWellSized(e: Entity, j: nat)
    requires EntityWritable(e) && j < |PrimaryProps(e)|
    ensures Mysql.WellSized(PrimaryProps(e)[j])
  {
    var m := Schema.PrimaryKeys(e.dataMap);
    assert m[j] in m;
    var k :| 0 <= k < |e.dataMap| && e.dataMap[k] == m[j];
    assert Assoc.Values(e.dataMap)[k] == PrimaryProps(e)[j];
  }

  /** The CREATE TABLE statement of an entity's table. */
  function CreateOf(e: Entity, codec: Mysql.Codec): string
    requires EntityWritable(e)
  {
    Mysql.CreateTable(e.model.table, Assoc.Values(e.dataMap), codec)
  }

  /** The statements the table check of one entity issues. */
  function EntityCheck(e: Entity, db: string -> TableState, codec: Mysql.Codec): (r: seq<string>)
    requires EntityWritable(e)
    ensures !db(e.model.table).present ==> r == [CreateOf(e, codec)]
  {
    CheckTable(e.model.table, Assoc.Values(e.dataMap), db(e.model.table), codec)
  }

  /** Some entity's table check issues `s`. */
  predicate IssuedBy(entities: seq<Entity>, db: string -> TableState, codec: Mysql.Codec, s: string)
    requires forall i :: 0 <= i < |entities| ==> EntityWritable(entities[i])
  {
    exists i :: 0 <= i < |entities| && s in EntityCheck(entities[i], db, codec)
  }

  /** The table check of every entity, in order: a statement is issued
      exactly when some entity's check issues it, and an entity whose
      table is missing gets its CREATE TABLE. */
  function EntityChecks(entities: seq<Entity>, db: string -> TableState, codec: Mysql.Codec): (r: seq<string>)
    requires forall i :: 0 <= i < |entities| ==> EntityWritable(entities[i])
    ensures forall s :: s in r <==> IssuedBy(entities, db, codec, s)
    ensures forall i :: 0 <= i < |entities| && !db(entities[i].model.table).present ==>
      CreateOf(entities[i], codec) in r
  {
    var parts := seq(|entities|, i requires 0 <= i < |entities| => EntityCheck(entities[i], db, codec));
    FlattenChecks(entities, db, codec, parts);
    FlattenCreates(entities, db, codec, parts);
    Flatten(parts)
  }

  lemma FlattenChecks(entities: seq<Entity>, db: string -> TableState, codec: Mysql.Codec, parts: seq<seq<string>>)
    requires forall i :: 0 <= i < |entities| ==> EntityWritable(entities[i])
    requires |parts| == |entities| && forall i :: 0 <= i < |parts| ==> parts[i] == EntityCheck(entities[i], db, codec)
    ensures forall s :: s in Flatten(parts) <==> IssuedBy(entities, db, codec, s)
  {
    FlattenOf(entities, parts, (e, s) => EntityWritable(e) && s in EntityCheck(e, db, codec));
  }

  /** A flattened list holds exactly what some part holds, when part `i`
      holds what `has` says of element `i`. */
  lemma FlattenOf<T>(xs: seq<T>, parts: seq<seq<string>>, has: (T, string) -> bool)
    requires |parts| == |xs| && forall i, s :: 0 <= i < |xs| ==> (s in parts[i] <==> has(xs[i], s))
    ensures forall s :: s in Flatten(parts) <==> exists i :: 0 <= i < |xs| && has(xs[i], s)
  {
    forall s
      ensures s in Flatten(parts) <==> exists i :: 0 <= i < |xs| && has(xs[i], s)
    {
      if s in Flatten(parts) {
        var i :| 0 <= i < |parts| && s in parts[i];
        assert has(xs[i], s);
      }
    }
  }

  lemma FlattenCreates(entities: seq<Entity>, db: string -> TableState, codec: Mysql.Codec, parts: seq<seq<string>>)
    requires forall i :: 0 <= i < |entities| ==> EntityWritable(entities[i])
    requires |parts| == |entities| && forall i :: 0 <= i < |parts| ==> parts[i] == EntityCheck(entities[i], db, codec)
    ensures forall i :: 0 <= i < |entities| && !db(entities[i].model.table).present ==>
      CreateOf(entities[i], codec) in Flatten(parts)
  {
    forall i | 0 <= i < |entities| && !db(entities[i].model.table).present
      ensures CreateOf(entities[i], codec) in Flatten(parts)
    {
      assert CreateOf(entities[i], codec) in parts[i];
    }
  }

  /** The parts one after the other. */
  function Flatten(parts: seq<seq<string>>): (r: seq<string>)
    ensures forall s :: s in r <==> exists i :: 0 <= i < |parts| && s in parts[i]
  {
    if |parts| == 0 then []
    else
      var rest := Flatten(parts[1..]);
      FlattenStep(parts, rest);
      parts[0] + rest
  }

  lemma FlattenStep(parts: seq<seq<string>>, rest: seq<string>)
    requires |parts| > 0
    requires forall s :: s in rest <==> exists i :: 0 <= i < |parts| - 1 && s in parts[1..][i]
    ensures forall s :: s in parts[0] + rest <==> exists i :: 0 <= i < |parts| && s in parts[i]
  {
    forall s
      ensures s in parts[0] + rest <==> exists i :: 0 <= i < |parts| && s in parts[i]
    {
      if s in rest {
        var i :| 0 <= i < |parts| - 1 && s in parts[1..][i];
        assert s in parts[i + 1];
      }
      if exists i :: 0 <= i < |parts| && s in parts[i] {
        var i :| 0 <= i < |parts| && s in parts[i];
        if i > 0 {
          assert s in parts[1..][i - 1];
        }
      }
    }
  }

  /** The junction-table check of every pair, in discovery order. */
  function JunctionChecks(pairs: seq<(string, (string, string))>, all: seq<Entity>,
                          db: string -> TableState, codec: Mysql.Codec): seq<string>
    requires forall i :: 0 <= i < |all| ==> EntityWritable(all[i])
    requires forall i :: 0 <= i < |pairs| ==> Find(all, pairs[i].1.0).Some? && Find(all, pairs[i].1.1).Some?
    decreases |pairs|
  {
    if |pairs| == 0 then []
    else
      var a := Find(all, pairs[0].1.0).value;
      var b := Find(all, pairs[0].1.1).value;
      var table := Schema.RelationTable(a.model, b.model);
      JunctionWritable(a, b);
      CheckTable(table, Assoc.Values(JunctionMap(a, b)), db(table), codec)
        + JunctionChecks(pairs[1..], all, db, codec)
  }

  /** The pairs the run discovers over all entities. */
  function RunPairs(entities: seq<Entity>): (r: seq<(string, (string, string))>)
    ensures Assoc.DistinctKeys(r)
    ensures forall i :: 0 <= i < |r| ==> Find(entities, r[i].1.0).Some? && Find(entities, r[i].1.1).Some?
    ensures forall x, y :: Discovered(entities, entities, x, y) ==> Assoc.HasKey(r, PairKey(SortedPair(x, y)))
  {
    var r := Pairs(entities, entities, []);
    forall i | 0 <= i < |r|
      ensures Find(entities, r[i].1.0).Some? && Find(entities, r[i].1.1).Some?
    {
      Assoc.GetAt(r, i);
    }
    forall x, y | Discovered(entities, entities, x, y)
      ensures Assoc.HasKey(r, PairKey(SortedPair(x, y)))
    {
      PairsFound(entities, entities, [], x, y);
    }
    r
  }

  /** `run` with the MySQL backend: ClassNotFound, before any statement,
      when the backend class does not exist; otherwise every entity's table
      check in order, then one junction-table check per discovered pair. */
  function Run(dsn: string, known: seq<string>, entities: seq<Entity>, db: string -> TableState,
               codec: Mysql.Codec): (r: Result<seq<string>>)
    requires forall i :: 0 <= i < |entities| ==> EntityWritable(entities[i])
    ensures r.Err? <==> BackendClass(dsn) !in known
    ensures r.Err? ==> r.error == ClassNotFound(BackendClass(dsn))
  {
    var _ :- SelectBackend(dsn, known);
    Ok(EntityChecks(entities, db, codec) + JunctionChecks(RunPairs(entities), entities, db, codec))
  }
}
